=== FILE: README.md ===
# AlaSTL core, modelled in Dafny

AlaSTL is a header-only re-implementation of the C++ standard library, with a
gdb pretty-printer script (`util/gdb-pretty-printers.py`) that shows its
containers in the debugger. This project models the core of both and proves
what each operation promises.

- **Algorithms** (`algorithm_base.dfy`, `algorithm.dfy`): `equal` and
  `lexicographical_compare` as recursive functions; `merge` and
  `next_permutation` as methods on arrays, each proved against a
  specification function on sequences.
- **Sorting** (`sort.dfy`): insertion, selection, shell, heap, quick
  (introsort with median-of-three) and merge sort from `detail/sort.h`, in
  place on `array<int>`, each proved sorted and a permutation of its input.
- **Bit utilities** (`bit.dfy`): `countl_zero`, `countr_zero`, `countl_one`, `countr_one`, `popcount`,
  `has_single_bit`, `bit_width`, `bit_floor`, `bit_ceil`, `rotl`, `rotr` and
  `byteswap` on unsigned words of 8, 16, 32 and 64 bits.
- **Random engines** (`random.dfy`): xoshiro256 with its scrambler, xorshift,
  the linear congruential engine and `uniform_int_distribution`, with 64-bit
  wrap-around written out.
- **Small state machines** (`memory.dfy`, `optional.dfy`, `variant.dfy`,
  `std_array.dfy`): `unique_ptr`, the shared/weak control block, `align`,
  `optional`, `variant`'s active index and `array`'s comparisons.
- **Adaptors** (`queue.dfy`, `stack.dfy`): `queue` and `stack` over a
  ring, with their comparison operators.
- **Containers** (`ring.dfy`, `forward_list.dfy`, `dense_table.dfy`): the
  ring buffer over an array with head, tail and one reserved slot; the singly linked list
  over heap nodes with its splice, merge, remove and unique operations; the
  open-addressing robin-hood table behind `unordered_map` with fingerprints,
  shifting insertion and backward-shift erase.
- **Pretty printers** (`printer_names.dfy`, `printer_values.dfy`,
  `printer_walks.dfy`, `printer_loader.dfy`): the printer lookup by type
  name, the string, array, vector, ring and bitset value decoders, the list, tree and hash
  traversals and the load/unload handlers, over an abstract memory of
  records.

`wrappers.dfy` holds the `Option` and `Result` types the rest uses.

## Model

| member | source | states |
|---|---|---|
| AlgorithmBase.Equal | include/ala/detail/algorithm_base.h:8-16 | equal answers true exactly when every position of the first range holds an element equal to the one at the same position of the second; an empty first range gives true |
| AlgorithmBase.LexCompareIrreflexive | include/ala/detail/algorithm_base.h:29-40 | with an irreflexive comparator no range compares less than itself |
| AlgorithmBase.ProperPrefixIsLess | include/ala/detail/algorithm_base.h:39 | a proper prefix compares less than the longer range, for any irreflexive comparator |
| AlgorithmBase.FirstDifferenceDecides | include/ala/detail/algorithm_base.h:33-38 | after a common prefix of length k, the first differing position decides: the answer is a[k] < b[k] |
| AlgorithmBase.LexLessStep | include/ala/detail/algorithm_base.h:23-27 | one round of the comparison loop with the default `less<>`: the heads decide unless equal, then the tails do |
| AlgorithmBase.LexLessIsLexicographic | include/ala/detail/algorithm_base.h:23-40 | lexicographical_compare with `less<>` holds iff a is a proper prefix of b or a is smaller at the first position where they differ (both directions) |
| AlgorithmBase.Reverse | include/ala/algorithm.h:46 | the reversed range has the same length and position i holds the element from position n-1-i |
| AlgorithmBase.ReversePermutes | include/ala/algorithm.h:46 | reversing keeps the multiset of elements |
| AlgorithmBase.SwapPermutes | include/ala/detail/algorithm_base.h:18-21 | iter_swap keeps the multiset of elements |
| Algorithm.MergeSpec | include/ala/algorithm.h:20-29 | merge writes exactly len1 + len2 elements |
| Algorithm.Merge | include/ala/algorithm.h:20-29 | the loops write MergeSpec of the two ranges from `out`, return the end of what they wrote, and change nothing else in the output |
| Algorithm.MergePermutes | include/ala/algorithm.h:20-29 | the merged range holds exactly the elements of both input ranges (multiset union) |
| Algorithm.MergeKeysAbove | include/ala/algorithm.h:20-29 | a lower bound on every input element's key bounds every output element's key |
| Algorithm.MergeSorted | include/ala/algorithm.h:20-29 | two sorted ranges merge into a sorted range |
| Algorithm.MergeStable | include/ala/algorithm.h:23 | ties are taken from the first range: for every key, the output's elements with that key are those of the first range, then those of the second, each in its own order |
| Algorithm.LastAscent | include/ala/algorithm.h:38-53 | the intended backward scan stops at the last ascent s[i] < s[i+1] (or -1), and everything after it is non-increasing |
| Algorithm.LastAbove | include/ala/algorithm.h:42-44 | `while (!(*i < *--i2))` stops at the last tail element greater than the pivot; every element after it is not greater |
| Algorithm.ReverseRange | include/ala/algorithm.h:46 | the in-place reversal leaves the prefix and suffix alone and the slice reversed |
| Algorithm.FindAscent | include/ala/algorithm.h:38-52 | the loop's backward scan finds LastAscent |
| Algorithm.FindAbove | include/ala/algorithm.h:42-44 | the inner loop finds LastAbove |
| Algorithm.PermuteFromMethod | include/ala/algorithm.h:38-53 | scan, swap and reverse leave the array and the answer given by the permutation step on the old contents |
| Algorithm.NextPermutation | include/ala/algorithm.h:31-54 | the corrected next_permutation (scan from the end) leaves the array and answer of NextPermutationSpec, whose properties are the lemmas below |
| Algorithm.NextPermutationAsWritten | include/ala/algorithm.h:31-54 | next_permutation as written (the scan inspects only the first pair) leaves the array and answer of NextPermutationAsWrittenSpec |
| Algorithm.NextPermutationPermutes | include/ala/algorithm.h:45-51 | the corrected version only rearranges the elements |
| Algorithm.NextPermutationAsWrittenPermutes | include/ala/algorithm.h:45-51 | the as-written version only rearranges the elements |
| Algorithm.NextPermutationShort | include/ala/algorithm.h:33-37 | ranges of length 0 or 1 are left alone and the answer is false, in both versions |
| Algorithm.NonIncreasingIsLast | include/ala/algorithm.h:49-51 | a non-increasing range is the greatest arrangement of its elements |
| Algorithm.SortedIsFirst | include/ala/algorithm.h:50 | an ascending range is the least arrangement of its elements |
| Algorithm.NextPermutationAtLast | include/ala/algorithm.h:49-51 | the answer is false iff the range is non-increasing; then the result is ascending and no arrangement is greater than the input |
| Algorithm.NextPermutationGreater | include/ala/algorithm.h:41-47 | when the answer is true the result is lexicographically greater than the input |
| Algorithm.IsNextSwap | include/ala/algorithm.h:41-47 | swapping the pivot with the last larger tail element and reversing the tail gives the least arrangement greater than the input |
| Algorithm.NextPermutationIsNext | include/ala/algorithm.h:31-54 | no arrangement of the elements lies strictly between the input and the corrected result |
| Algorithm.NextPermutationAsWrittenSkips | include/ala/algorithm.h:38-53 | as written, [1,2,3] becomes [3,1,2] although [1,3,2] lies between them; the corrected version gives [1,3,2] |
| Algorithm.NextPermutationAsWrittenStopsEarly | include/ala/algorithm.h:49-52 | as written, [2,1,3] is reported as the last permutation and reversed to [3,1,2]; the corrected version gives [2,3,1] and true |
| Sort.Swap | include/ala/detail/sort.h:21 | iter_swap exchanges exactly the two elements and leaves the rest of the array unchanged |
| Sort.SelectSort | include/ala/detail/sort.h:11-23 | select_sort leaves the array sorted and a permutation of its input |
| Sort.MinFrom | include/ala/detail/sort.h:17-20 | the inner scan returns the first position of a least element of the suffix |
| Sort.SelectedAll | include/ala/detail/sort.h:16-22 | after the outer loop's last round (the last element needs no scan) the whole range is sorted |
| Sort.Insert | include/ala/detail/sort.h:33-37 | one round of insertion_sort extends the sorted prefix by one element, only rearranges the range, and its scan runs to the start of the range exactly when every earlier element is above the new one |
| Sort.InsertionSort | include/ala/detail/sort.h:25-39 | insertion_sort with the guard tested first: the range ends sorted, as a permutation, with everything outside it unchanged |
| Sort.InsertionSortAsWritten | include/ala/detail/sort.h:25-39 | insertion_sort as written leaves the same array as InsertionSort; its flag is true exactly when the loop condition reads the element before `first` |
| Sort.ReadsBeforeFirstIffFirstNotLeast | include/ala/detail/sort.h:34-35 | the read before `first` happens iff some later element of the range is smaller than its first element |
| Sort.InsertionSortReadsBeforeFirstOn21 | include/ala/detail/sort.h:34-35 | on [2, 1] the as-written loop reads before `first` |
| Sort.AscendingNeverReadsBeforeFirst | include/ala/detail/sort.h:34-35 | a strictly ascending range never triggers that read |
| Sort.GapOneSorted | include/ala/detail/sort.h:121-129 | a range in order at gap 1 is sorted, so the final gap-1 pass sorts |
| Sort.GapInsert | include/ala/detail/sort.h:123-128 | one gapped insertion extends the gap-sorted prefix by one element and only rearranges |
| Sort.GapPass | include/ala/detail/sort.h:122-128 | one pass over the range leaves it gap-sorted and a permutation |
| Sort.ShellSort | include/ala/detail/sort.h:52-130 | shell_sort, with its gap table and the loop choosing the first gap, leaves the array sorted and a permutation |
| Sort.Median3IsMedian | include/ala/detail/sort.h:134-148 | median returns one of its three arguments, with at least two of them at most it and at least two at least it |
| Sort.Median | include/ala/detail/sort.h:134-148 | the branch-by-branch median agrees with the reference median of three |
| Sort.IterMedian | include/ala/detail/sort.h:150-164 | iter_median returns one of the three positions and the element there is the median of the three values |
| Sort.ScanUp | include/ala/detail/sort.h:218-219 | `while (*left < *pivot) ++left` stops at an element not below the pivot value, everything it passed is below it, and it never passes the known stopper |
| Sort.ScanDown | include/ala/detail/sort.h:220-222 | `--right; while (*pivot < *right) --right` stops at an element not above the pivot value, everything it passed is above it |
| Sort.PartitionRound | include/ala/detail/sort.h:223-230 | after a swap, with the pivot position following the pivot's element, the partition invariant holds for the next round |
| Sort.Partition | include/ala/detail/sort.h:215-231 | the partition loop of quick_sort_impl and sort_impl returns a split strictly inside the range, with everything before it at most and everything after it at least the pivot value; it only rearranges the range |
| Sort.QuickSortImpl | include/ala/detail/sort.h:208-234 | quick_sort_impl only rearranges the range and leaves everything outside it alone |
| Sort.QuickSort | include/ala/detail/sort.h:262-273 | quick_sort leaves the array sorted and a permutation; the read before the range happens iff quick_sort_impl left an element smaller than the first one |
| Sort.SortImpl | include/ala/detail/sort.h:291-314 | sort_impl only rearranges the range and leaves everything outside it alone |
| Sort.Sort | include/ala/detail/sort.h:319-326 | sort leaves the array sorted and a permutation; the read before the range happens iff sort_impl left an element smaller than the first one |
| Sort.LeavesOfCopy | include/ala/detail/sort.h:330-348 | when the scratch array holds a copy of the range, the leaves are exactly the input's elements |
| Sort.LeavesOfShortRange | include/ala/detail/sort.h:337-340 | for 28 to 54 elements, every leaf is read from the scratch array, so the result's elements are the scratch array's |
| Sort.MergeSortAsWrittenLosesInput | include/ala/detail/sort.h:353-360 | with 28 ones as input and a zeroed scratch array, what merge_sort leaves is not a permutation of its input |
| Sort.MergeHalves | include/ala/detail/sort.h:341-347 | the merge loops of merge_sort_impl write the stable merge of the two sorted halves and nothing else |
| Sort.MergedHalves | include/ala/detail/sort.h:341-347 | merging two sorted halves gives a sorted range with the union of their elements |
| Sort.MergeSortImpl | include/ala/detail/sort.h:330-348 | merge_sort_impl sorts [first, last) and leaves there the elements of its leaves (exchanging the roles of the two arrays at each level); for a leaf range it reports whether the as-written insertion sort read before the range |
| Sort.MergeSortAsWritten | include/ala/detail/sort.h:353-360 | merge_sort as written leaves the range sorted, holding the leaves of the input and of the never-filled scratch array |
| Sort.MergeSort | include/ala/detail/sort.h:353-360 | merge_sort with the scratch array filled with a copy first leaves the range sorted and a permutation of its input |
| Sort.SinkStep | include/ala/detail/sort.h:400-407 | one round of heap_sink moves the hole down while keeping the heap condition everywhere but at the hole |
| Sort.HeapSink | include/ala/detail/sort.h:397-409 | heap_sink restores the max-heap condition on [begin, end] when it held below begin, and only rearranges that range |
| Sort.HeapRootMax | include/ala/detail/sort.h:418-421 | the root of a max-heap is at least every element of the heap |
| Sort.PopRoot | include/ala/detail/sort.h:419 | swapping the root to the end extends the sorted tail of maxima by one |
| Sort.HeapSort | include/ala/detail/sort.h:413-422 | heap_sort leaves the array sorted and a permutation of its input |
| Bit.Not | include/ala/bit.h:111 | `~x` on a w-bit type is the value that adds with x to the type's maximum |
| Bit.RotCount | include/ala/bit.h:63-64 | the count `s % digits`, with `s` converted to `unsigned int` first, is below the width |
| Bit.RotCountIsModulo | include/ala/bit.h:63-64 | that conversion does not change the rotation: the count is the mathematical s mod w, also for negative s |
| Bit.RotlByMultipleOfWidth | include/ala/bit.h:60-76 | rotl and rotr with a count that is a multiple of the width return x |
| Bit.RotlValue | include/ala/bit.h:60-67 | rotl with a non-zero count c moves the high c bits of x to the bottom, and stays within the type |
| Bit.RotrValue | include/ala/bit.h:69-76 | rotr with a non-zero count c moves the low c bits of x to the top |
| Bit.RotrUndoesRotl | include/ala/bit.h:60-76 | rotr(rotl(x, s), s) == x for every x of the type and every int s |
| Bit.CountlZero | include/ala/bit.h:79-107 | countl_zero is the width minus the number of significant bits: digits for 0, below digits otherwise |
| Bit.CountlZeroBounds | include/ala/bit.h:79-107 | x lies between the powers of two at bit `w - countl_zero(x)` and the bit below it |
| Bit.NarrowedClz | include/ala/bit.h:84-93 | the intrinsic on the widened operand, less the extra width, counts the leading zeros of the narrow type |
| Bit.ClzNarrowed | include/ala/bit.h:84-93 | widening to `unsigned int` or `unsigned long` adds exactly the width difference to clz |
| Bit.CountlOne | include/ala/bit.h:109-113 | countl_one is at most the width, and equals it on the maximum value |
| Bit.CountlOneBounds | include/ala/bit.h:109-113 | the top countl_one(x) bits of x are set and, below the full width, the next bit is clear |
| Bit.CountrZero | include/ala/bit.h:115-135 | countr_zero(0) is the width |
| Bit.CtzSplits | include/ala/bit.h:115-125 | the trailing-zero count of a non-zero x is the exponent of the largest power of two dividing x |
| Bit.CountrOne | include/ala/bit.h:137-141 | countr_one of the maximum value is the width |
| Bit.CountrOneBounds | include/ala/bit.h:137-141 | the low countr_one(x) bits of x are set and, below the full width, the next bit is clear |
| Bit.TrailingOnesOfComplement | include/ala/bit.h:139 | below the maximum, the trailing zeros of ~x are the trailing ones of x |
| Bit.PopcountComplement | include/ala/bit.h:143-159 | popcount(x) + popcount(~x) is the width |
| Bit.HasSingleBit | include/ala/bit.h:162-165 | has_single_bit(x) iff x is a power of two |
| Bit.SingleBitTest | include/ala/bit.h:164 | for x > 0, `x & (x - 1) == 0` iff x is a power of two |
| Bit.BitWidth | include/ala/bit.h:167-170 | bit_width(x) is the least r with x < 2^r, at most the width |
| Bit.BitFloor | include/ala/bit.h:186-191 | bit_floor(0) == 0; otherwise bit_floor(x) is a power of two with bit_floor(x) <= x < 2 bit_floor(x) |
| Bit.BitFloorValue | include/ala/bit.h:188-189 | `T{1} << (bit_width(x) - 1)` does not overflow and is the power of two at x's top bit |
| Bit.NarrowShiftIsPow2 | include/ala/bit.h:179-182 | the promoted-type path `1u << (b + offset) >> offset`, converted back, is 2^b |
| Bit.BitCeil | include/ala/bit.h:172-184 | bit_ceil(x) is a power of two at least x, below 2x for x >= 2, and 1 for x of 0 or 1 |
| Bit.BitCeilWidth | include/ala/bit.h:177 | the width of x - 1 is the exponent of the least power of two at least x |
| Bit.FromToBytes | include/ala/bit.h:34-47 | splitting a value into n little-endian bytes and joining them gives it back |
| Bit.ToFromBytes | include/ala/bit.h:34-47 | joining n bytes and splitting again gives the bytes back |
| Bit.Byteswap | include/ala/bit.h:34-47 | byteswap on a 1-, 2-, 4- or 8-byte value reverses its byte sequence and stays within the type |
| Bit.ByteswapTwice | include/ala/bit.h:34-47 | byteswap is an involution |
| Bit.AndLowBits | include/ala/bit.h:164 | `x & (2^k - 1)` keeps the low k bits of x |
| Random.XoRotlIsRotl | include/ala/random.h:84-86 | xoshiro's own rotl, for 0 < k < 64, is bit.h's rotl on 64-bit words, so rotr undoes it |
| Random.NextStateWords | include/ala/random.h:124-132 | the six in-place assignments of next() give, word by word, the xoshiro256 reference formulas (A = 17, B = 45) |
| Random.AdvanceAdd | include/ala/random.h:139-142 | discarding m values and then n is discarding m + n |
| Random.ZeroStateIsFixed | include/ala/random.h:124-132 | the all-zero state is a fixed point of next() and of any number of calls |
| Random.Xoshiro256.constructor | include/ala/random.h:80 | a generator holds the four given words |
| Random.Xoshiro256.Next | include/ala/random.h:124-132 | next() replaces the state with the xor/shift/rotate step of the old state |
| Random.Xoshiro256.Call | include/ala/random.h:134-137 | operator() steps the state and returns the scrambler (+, ** or ++) applied to the new state |
| Random.Xoshiro256.Discard | include/ala/random.h:139-142 | discard(k) leaves the state k calls of next() ahead |
| Random.XorshiftStepZero | include/ala/random.h:208-212 | zero is a fixed point of the three xorshift updates |
| Random.XorshiftZero | include/ala/random.h:208-216 | a zero seed stays zero after any number of steps |
| Random.Xorshift.constructor | include/ala/random.h:203-206 | a generator holds the given seed and shift constants |
| Random.Xorshift.Next | include/ala/random.h:208-212 | next() applies s ^= s << A, s ^= s >> B, s ^= s << C in that order, on 64-bit words |
| Random.Xorshift.Call | include/ala/random.h:218-221 | operator() steps and returns the new state |
| Random.Xorshift.Discard | include/ala/random.h:213-216 | discard(k) equals k calls of next() |
| Random.LcgStep | include/ala/random.h:229-231 | the next state (s * A + C) % M, with the product and sum wrapping at UInt's width, is below M |
| Random.MinstdNoWrap | include/ala/random.h:254 | for minstd_rand with a 64-bit uint_fast32_t nothing wraps: the step is s * 48271 mod 2147483647 |
| Random.LinearCongruential.constructor | include/ala/random.h:224-227 | an engine holds its parameters and a seed of the type |
| Random.LinearCongruential.Next | include/ala/random.h:229-231 | next() sets the state to the LCG step of the old one, which stays below M |
| Random.LinearCongruential.Call | include/ala/random.h:238-241 | operator() steps and returns the new state, below M |
| Random.LinearCongruential.Discard | include/ala/random.h:233-236 | discard(k) equals k calls of next() |
| Random.FirstAccepted | include/ala/random.h:333-335 | the rejection loop stops at the first draw whose masked value does not exceed l, having rejected all earlier ones, or runs out of draws having rejected all of them |
| Random.StoppedIsFirstAccepted | include/ala/random.h:333-335 | any outcome the loop can stop with is the one FirstAccepted describes |
| Random.Reject | include/ala/random.h:333-335 | the loop over the generator's outputs returns FirstAccepted's outcome |
| Random.MaskFromClz | include/ala/random.h:331-332 | for an unsigned Int, `max >> clz(l)` is the mask of the low bit_width(l) bits |
| Random.SignedMaskFromClz | include/ala/random.h:331-332 | for a signed Int the same shift of the signed maximum keeps one bit fewer |
| Random.SignedMaskTooNarrow | include/ala/random.h:331-336 | with that narrow mask no draw is rejected and the accepted value is below l |
| Random.UniformIntAsWritten | include/ala/random.h:324-338 | operator()(g, p) as written: unsigned Int gives UniformSpec; a signed Int with a < b never returns b and always takes exactly one draw |
| Random.UniformInt | include/ala/random.h:324-338 | operator()(g, p) with the mask taken from the unsigned type gives UniformSpec, a value in [a, b] |
| Random.UniformInRange | include/ala/random.h:324-338 | the distribution's value lies in [a, b]; a == b returns a with no draw |
| Random.UniformAcceptsSmallDraw | include/ala/random.h:333-336 | a first draw not above b - a is accepted at once and the answer is a plus it |
| Random.UniformReachesEvery | include/ala/random.h:324-338 | every value of [a, b], b included, is returned for some generator output |
| Random.UniformFromAccepted | include/ala/random.h:328-336 | for a < b the answer is a plus what the rejection loop with the bit_width(b - a) mask accepts |
| Memory.AlignOffset | include/ala/memory.h:74-77 | the offset computed from `ptr & (alignment - 1)` is below the alignment and aligns the pointer |
| Memory.AlignOffsetIsLeast | include/ala/memory.h:74-77 | no smaller offset aligns the pointer |
| Memory.Align | include/ala/memory.h:72-83 | align returns nullptr iff space < offset or space - offset < size, leaving ptr and space alone; otherwise ptr is advanced to the next aligned address, space shrinks by the offset and still holds size bytes, and the new ptr is returned |
| Memory.UniquePtr.constructor | include/ala/memory.h:140-143 | a unique_ptr owns the given pointer and has deleted nothing |
| Memory.UniquePtr.Release | include/ala/memory.h:275-279 | release returns the old pointer, leaves the unique_ptr null and calls no deleter |
| Memory.UniquePtr.Reset | include/ala/memory.h:281-286 | reset(p) takes p and calls the deleter exactly once, on the old pointer, when that was non-null |
| Memory.ReleaseThenReset | include/ala/memory.h:275-286 | reset after release deletes nothing: ownership left with the released pointer |
| Memory.ControlBlock.constructor | include/ala/memory.h:688-690 | a new control block has weak = shared = 1, owns the pointer and has freed and deleted nothing |
| Memory.ControlBlock.IncShared | include/ala/memory.h:715-718 | inc_shared raises both counts by one and keeps the counting protocol |
| Memory.ControlBlock.IncWeak | include/ala/memory.h:734-736 | inc_weak raises the weak count only |
| Memory.ControlBlock.DecWeak | include/ala/memory.h:738-750 | dec_weak lowers the weak count; the block is freed exactly when it reaches 0 |
| Memory.ControlBlock.DecShared | include/ala/memory.h:720-728 | dec_shared lowers both counts; when shared reaches 0 the owned pointer goes to the deleter exactly once and the block's pointer is nulled; the block is freed iff weak reaches 0 |
| Memory.ExpiredIffDeleted | include/ala/memory.h:1371-1378 | for a pointer with a control block, expired() holds exactly when the object has been handed to its deleter |
| Memory.ExpiredNotFreed | include/ala/memory.h:720-750 | a block whose shared owners have all left but which a weak_ptr still holds is expired, its pointer null, and not yet freed |
| OptionalModel.Optional.Empty | include/ala/optional.h:19 | a default optional (and optional(nullopt)) starts disengaged |
| OptionalModel.Optional.Of | include/ala/optional.h:174-197 | optional(in_place, v) and optional(u) start engaged with the value |
| OptionalModel.Optional.HasValue | include/ala/optional.h:348-354 | has_value() and operator bool hold iff the optional holds a value |
| OptionalModel.Optional.Value | include/ala/optional.h:356-379 | value() throws bad_optional_access exactly when empty, and otherwise returns the contained value |
| OptionalModel.Optional.ValueOr | include/ala/optional.h:380-389 | value_or(d) returns the contained value, or d when empty |
| OptionalModel.Optional.Reset | include/ala/optional.h:391-395 | reset leaves the optional empty |
| OptionalModel.Optional.Emplace | include/ala/optional.h:296-301 | emplace(v) leaves the optional engaged with v, so value() returns it |
| OptionalModel.Optional.AssignAsWritten | include/ala/optional.h:263-293 | the written-out assignment as written: the flag becomes (this engaged or other engaged); the value is copied when the source is engaged and otherwise the stale storage stays |
| OptionalModel.Optional.Assign | include/ala/optional.h:263-293 | the corrected assignment: the target ends up holding exactly what the source holds |
| OptionalModel.AssignFromEmptyKeepsValue | include/ala/optional.h:115-124 | assigning an empty optional to an engaged one, as written, leaves the target engaged while the source is empty |
| OptionalModel.NeIsNotEqAsWritten | include/ala/optional.h:398-414 | as written, `!=` is still the negation of `==` |
| OptionalModel.EqAsWrittenIsInverted | include/ala/optional.h:398-405 | as written, two engaged optionals with different values compare equal and two empty optionals can compare unequal |
| OptionalModel.Eq | include/ala/optional.h:398-405 | the corrected `==` holds iff both are empty or both hold equal values |
| OptionalModel.Ne | include/ala/optional.h:407-414 | the corrected `!=` holds iff the two differ in engagement or value |
| OptionalModel.Lt | include/ala/optional.h:416-423 | `<`: nothing is less than an empty optional, an empty one is less than an engaged one, values compare as ints |
| OptionalModel.Le | include/ala/optional.h:425-432 | `<=` is the negation of `>` on that order |
| OptionalModel.Gt | include/ala/optional.h:434-441 | `>` is `<` with the operands exchanged |
| OptionalModel.Ge | include/ala/optional.h:443-450 | `>=` is the negation of `<` |
| OptionalModel.OrderIsTotal | include/ala/optional.h:416-450 | the relational operators form a total order: `<` irreflexive and transitive, exactly one of `<`, `==`, `>`, and `<=`/`>=` consistent with them |
| OptionalModel.EqNullopt | include/ala/optional.h:453-461 | `opt == nullopt` holds iff opt is empty |
| OptionalModel.NulloptLt | include/ala/optional.h:478-481 | `nullopt < opt` holds iff opt is engaged |
| OptionalModel.LtNullopt | include/ala/optional.h:473-476 | `opt < nullopt` is the same as comparing with an empty optional, which is never less |
| OptionalModel.EqValue | include/ala/optional.h:514-517 | `opt == v` holds iff opt holds v |
| OptionalModel.LtValue | include/ala/optional.h:534-537 | `opt < v` holds iff opt is empty or holds a smaller value |
| OptionalModel.ValueLt | include/ala/optional.h:539-542 | `v < opt` holds iff opt holds a greater value |
| VariantModel.Get | include/ala/variant.h:722-750 | get<I> throws bad_variant_access iff I is not the active index, and otherwise returns the active value |
| VariantModel.GetIf | include/ala/variant.h:772-786 | get_if<I> returns null iff the pointer is null or I is not the active index, and otherwise what get<I> returns |
| VariantModel.ValuelessHoldsNothing | include/ala/variant.h:699-705 | valueless_by_exception iff index() == variant_npos; a valueless variant makes get throw and get_if return null |
| VariantModel.Variant.Default | include/ala/variant.h:603-606 | variant() holds alternative 0, value-initialised |
| VariantModel.Variant.InPlace | include/ala/variant.h:618-623 | variant(in_place_index<I>, v) holds alternative I with v |
| VariantModel.Variant.Reset | include/ala/variant.h:276-287 | _reset leaves the variant valueless |
| VariantModel.Variant.Emplace | include/ala/variant.h:665-672 | emplace<I>(v) holds alternative I with v, or, when the constructor throws, leaves the variant valueless (_ctor_v puts the index back to npos) |
| VariantModel.Variant.Assign | include/ala/variant.h:396-423 | _asgn: on success the target holds what the source holds; a throwing construction leaves the target valueless (reset first) or unchanged (through a temporary) |
| VariantModel.Variant.Swap | include/ala/variant.h:462-484 | swap exchanges the two variants' alternatives and values |
| VariantModel.Eq | include/ala/variant.h:983-990 | `==` is false for different indices, true for two valueless variants, otherwise compares the values |
| VariantModel.Ne | include/ala/variant.h:992-999 | `!=` is the negation of `==` |
| VariantModel.Lt | include/ala/variant.h:1001-1012 | `<` orders valueless first, then by index, then by value |
| VariantModel.Gt | include/ala/variant.h:1014-1025 | `>` is `<` with the operands exchanged |
| VariantModel.Le | include/ala/variant.h:1027-1038 | `<=` is the negation of `>` |
| VariantModel.Ge | include/ala/variant.h:1040-1051 | `>=` is the negation of `<` |
| VariantModel.OrderIsTotal | include/ala/variant.h:983-1051 | the six operators agree with one total order on the alternatives |
| StdArray.FixedArray.constructor | include/ala/array.h:10-24 | an array<int, N> value-initialised holds N zeros |
| StdArray.FixedArray.Size | include/ala/array.h:85-87 | size() is N (0 on the zero-size specialisation) |
| StdArray.FixedArray.Empty | include/ala/array.h:93-95 | empty() holds iff there are no elements: false for N > 0, true for the zero-size array (:239-241) |
| StdArray.FixedArray.At | include/ala/array.h:106-116 | at(n) throws out_of_range iff n >= N (always on the zero-size array, :252-260) and otherwise returns element n |
| StdArray.FixedArray.Get | include/ala/array.h:97-104 | operator[] with an index below N agrees with at |
| StdArray.FixedArray.Front | include/ala/array.h:118-124 | front() is the first element, what at(0) returns |
| StdArray.FixedArray.Back | include/ala/array.h:126-132 | back() is the last element, what at(N - 1) returns |
| StdArray.FixedArray.Fill | include/ala/array.h:26-28 | fill(u) sets every element to u |
| StdArray.FixedArray.Swap | include/ala/array.h:30-33 | swap exchanges the two arrays' elements |
| StdArray.Eq | include/ala/array.h:290-293 | `==`, through equal, holds iff the arrays are elementwise equal |
| StdArray.Ne | include/ala/array.h:295-298 | `!=` holds iff they differ somewhere |
| StdArray.LtIsFirstDifference | include/ala/array.h:300-304 | `<`, through lexicographical_compare, holds iff at the first differing position the left element is smaller |
| StdArray.Trichotomy | include/ala/array.h:290-319 | exactly one of `<`, `==`, `>` holds, and `<=` is `<` or `==` |
| Queue.Queue.constructor | include/ala/queue.h:24 | a default queue over a ring is empty |
| Queue.Queue.Empty | include/ala/queue.h:66-68 | empty() holds iff the container holds no elements |
| Queue.Queue.Size | include/ala/queue.h:69-71 | size() is the container's number of elements |
| Queue.Queue.Front | include/ala/queue.h:72-77 | front() is the container's first element |
| Queue.Queue.Back | include/ala/queue.h:78-83 | back() is the container's last element |
| Queue.Queue.Push | include/ala/queue.h:84-93 | push (and emplace, which returns the new element) appends at the back, which then holds x |
| Queue.Queue.Pop | include/ala/queue.h:94-96 | pop removes the front element |
| Queue.Queue.Swap | include/ala/queue.h:97-100 | swap exchanges the two queues' contents |
| Queue.PushThenPop | include/ala/queue.h:84-96 | a push then a pop removes the element that was at the front and leaves x at the back: FIFO order |
| Queue.Eq | include/ala/queue.h:122-125 | `==` holds iff the containers hold the same elements |
| Queue.Lt | include/ala/queue.h:132-135 | `<` is the containers' lexicographic order |
| Stack.Stack.constructor | include/ala/stack.h:8-19 | a default stack over a ring is empty |
| Stack.Stack.Empty | include/ala/stack.h:64-66 | empty() holds iff the container holds no elements |
| Stack.Stack.Size | include/ala/stack.h:67-69 | size() is the container's number of elements |
| Stack.Stack.Top | include/ala/stack.h:70-75 | top() is the container's last element |
| Stack.Stack.Push | include/ala/stack.h:76-85 | push (and emplace) appends at the back, which is then the top |
| Stack.Stack.Pop | include/ala/stack.h:86-88 | pop removes the last element |
| Stack.Stack.Swap | include/ala/stack.h:89-92 | swap exchanges the two stacks' contents |
| Stack.PushThenPop | include/ala/stack.h:76-88 | a push then a pop leaves the stack as it was: LIFO order |
| Stack.Eq | include/ala/stack.h:114-117 | `==` holds iff the containers hold the same elements |
| Stack.Lt | include/ala/stack.h:124-127 | `<` is the containers' lexicographic order |
| Ring.ViewAt | include/ala/ring.h:184-186 | the i-th element of the ring's view is the slot `(head + i) % circ` |
| Ring.ViewWrite | include/ala/ring.h:729-731 | writing the slot of index i changes only the i-th element of the view |
| Ring.ViewExtend | include/ala/ring.h:778-781 | writing the slot after the last element and extending the size by one appends that value to the view |
| Ring.ViewPrepend | include/ala/ring.h:810-813 | moving head one slot back (wrapping) and writing there prepends that value to the view |
| Ring.ViewDrop | include/ala/ring.h:825-828 | advancing head by n slots and shrinking the size by n drops the first n elements of the view |
| Ring.ViewPrefix | include/ala/ring.h:793-796 | shrinking the size to n keeps the first n elements of the view |
| Ring.ViewFromZero | include/ala/ring.h:348-351 | a view starting at slot 0 is the plain prefix of the buffer, the layout a reallocation leaves |
| Ring.MoveBackwardStep | include/ala/ring.h:926 | one step of `move_backward` over [k-1, hi) by dist keeps the element at k-1 and writes it dist slots further on |
| Ring.MoveForwardStep | include/ala/ring.h:930 | one step of `move` over [lo, k] by dist writes element k dist slots earlier |
| Ring.CloseGapFromFront | include/ala/ring.h:945-949 | moving [0, first) back by last-first and dropping that many leading elements leaves the elements outside [first, last) in order |
| Ring.CloseGapFromBack | include/ala/ring.h:952-954 | moving [last, size) forward by last-first and keeping the first size-(last-first) leaves the elements outside [first, last) in order |
| Ring.Ring.constructor | include/ala/ring.h:423 | a default ring has circ 1, head and tail 0, size and capacity 0 and no elements |
| Ring.Ring.Idx2Ptr | include/ala/ring.h:184-186 | the slot of logical index idx is below circ and is head+idx, wrapped once |
| Ring.Ring.Ptr2Idx | include/ala/ring.h:188-190 | the index of slot p is below circ and maps back to p |
| Ring.Ring.Idx2PtrInverse | include/ala/ring.h:184-190 | `_ptr2idx` undoes `_idx2ptr` on every index below circ |
| Ring.Ring.Diff | include/ala/ring.h:196-198 | the index d steps from idx is below circ and equals (idx+d) mod circ, wrapping once either way |
| Ring.Ring.DiffUndo | include/ala/ring.h:196-198 | stepping d forward and then d back returns to the start index |
| Ring.Ring.Size | include/ala/ring.h:674-676 | the size is below circ: tail-head, or tail+circ-head when tail has wrapped |
| Ring.Ring.Capacity | include/ala/ring.h:710-712 | the capacity is one less than circ and at least the size |
| Ring.Ring.Empty | include/ala/ring.h:714-716 | empty iff the size is 0 |
| Ring.Ring.View | include/ala/ring.h:674-676 | the element sequence has exactly size() elements |
| Ring.Ring.Get | include/ala/ring.h:729-735 | operator[] returns the n-th element of the view |
| Ring.Ring.Front | include/ala/ring.h:749-755 | front() returns the first element of the view |
| Ring.Ring.Back | include/ala/ring.h:757-763 | back() returns the last element of the view |
| Ring.Ring.AtAsWritten | include/ala/ring.h:737-747 | at(n) as written: out_of_range iff n >= size(), otherwise the raw slot n regardless of head |
| Ring.Ring.At | include/ala/ring.h:737-747 | corrected at(n): out_of_range iff n >= size(), otherwise the n-th element of the view |
| Ring.Ring.Rbegin | include/ala/ring.h:641-643 | rbegin() is the base at the end, from which a full reverse traversal visits the view reversed |
| Ring.Ring.RendAsWritten | include/ala/ring.h:649-651 | rend() as written equals rbegin(), so [rbegin(), rend()) visits nothing |
| Ring.Ring.Rend | include/ala/ring.h:649-651 | corrected rend(): [rbegin(), rend()) visits every element, last first |
| Ring.Ring.Expand | include/ala/ring.h:348-351 | the grown capacity exceeds 3/2 of the old capacity |
| Ring.Ring.Migrate | include/ala/ring.h:297-309 | migrate(dst) copies the elements, front to back, into dst at the given offset and leaves the rest of dst alone |
| Ring.Ring.GrowWith | include/ala/ring.h:767-777 | reallocation to a fresh buffer of newCapa+1 slots with head 0, holding the old elements with v added at the front or the back |
| Ring.Ring.EmplaceBack | include/ala/ring.h:767-783 | emplace_back appends v and returns it as back(); in place when there is room, otherwise into a fresh buffer of expand()+1 slots starting at slot 0 |
| Ring.Ring.PopBack | include/ala/ring.h:793-796 | pop_back drops the last element, keeping buffer and head |
| Ring.Ring.EmplaceFront | include/ala/ring.h:799-815 | emplace_front prepends v and returns it as front(); in place when there is room, otherwise into a fresh buffer of expand()+1 slots starting at slot 0 |
| Ring.Ring.PopFront | include/ala/ring.h:825-828 | pop_front drops the first element, keeping buffer and tail |
| Ring.Ring.MoveElement | include/ala/ring.h:930 | a move assignment between two positions sets the target element to the source element and changes nothing else |
| Ring.Ring.MoveBackward | include/ala/ring.h:926 | `move_backward` of [lo, hi) by dist positions leaves the view as the reference shifted sequence |
| Ring.Ring.MoveForward | include/ala/ring.h:930 | `move` of [lo, hi) forward by dist positions leaves the view as the reference shifted sequence |
| Ring.Ring.Cut | include/ala/ring.h:324-330 | cut(p) keeps exactly the first p elements, with buffer and head unchanged |
| Ring.Ring.CutHead | include/ala/ring.h:332-338 | cut_head(p) keeps exactly the elements from p on, with buffer and tail unchanged |
| Ring.Ring.Erase | include/ala/ring.h:919-934 | erase(pos) removes exactly the element at pos (nothing at end()), returns the index of the following element and keeps the buffer |
| Ring.Ring.EraseRange | include/ala/ring.h:936-955 | erase(first, last) removes exactly the elements in [first, last), keeps the order of the rest, returns first and keeps the buffer |
| Ring.Ring.Swap | include/ala/ring.h:543-550 | swap exchanges the two rings' elements and buffers |
| Ring.Ring.Clear | include/ala/ring.h:957-960 | clear leaves no elements with head and tail 0, keeping the buffer |
| Ring.AtAsWrittenIgnoresHead | include/ala/ring.h:737-747 | after push_back(1), push_back(2), pop_front() the ring holds [2], but at(0) as written returns 1 while the corrected at(0) returns 2 |
| Ring.Eq | include/ala/ring.h:963-968 | operator== holds iff both rings hold the same elements |
| Ring.Lt | include/ala/ring.h:975-979 | operator< holds iff the elements are lexicographically less |
| ForwardList.Node.constructor | include/ala/forward_list.h:167-173 | a new node holds the given value and links nowhere |
| ForwardList.Values | include/ala/forward_list.h:35-38 | the values of a node sequence, one per node, in the same order |
| ForwardList.ValuesSplit | include/ala/forward_list.h:35-38 | the values of a prefix or suffix of nodes are the prefix or suffix of the values |
| ForwardList.ValuesAppend | include/ala/forward_list.h:35-38 | the values of concatenated node sequences are the concatenated values |
| ForwardList.ValuesInserted | include/ala/forward_list.h:128-144 | inserting nodes at position p inserts their values at position p |
| ForwardList.ChainReversed | include/ala/forward_list.h:762-773 | nodes each linked to its predecessor form a chain in reversed order |
| ForwardList.ReverseDistinct | include/ala/forward_list.h:762-773 | reversing distinct nodes keeps them distinct and keeps the same nodes |
| ForwardList.UniqueNodes | include/ala/forward_list.h:666-682 | the nodes unique keeps are no more than before and start with the first node |
| ForwardList.UniqueValues | include/ala/forward_list.h:666-682 | the values unique keeps are no more than before and start with the first value |
| ForwardList.UniqueValuesLast | include/ala/forward_list.h:661-682 | with equality, the last value unique() keeps equals the last value |
| ForwardList.UniqueEqualKeepsChanges | include/ala/forward_list.h:661-682 | unique() with equality keeps exactly the values that differ from their predecessor (and the first), so no two neighbours are equal afterwards |
| ForwardList.KeepDropValues | include/ala/forward_list.h:641-659 | the values of the nodes remove_if keeps are the kept values, and the nodes it drops are as many as the values the predicate holds for |
| ForwardList.UniqueNodesValues | include/ala/forward_list.h:666-682 | unique on nodes and unique on their values agree, and the dropped nodes make up the difference in length |
| ForwardList.ValuesMerge | include/ala/forward_list.h:727-746 | merging nodes by their values gives the nodes whose values are the merge of the two value sequences |
| ForwardList.RunOf | include/ala/forward_list.h:135-144 | a slice of a chain is itself linked node to node, distinct, and reached from the node before it |
| ForwardList.ForwardList.AtInjective | include/ala/forward_list.h:379-399 | different positions from before_begin() to end() are different nodes |
| ForwardList.ForwardList.SucAt | include/ala/forward_list.h:54-58 | following a link from position k reaches position k+1 |
| ForwardList.ForwardList.constructor | include/ala/forward_list.h:162-164 | a new list has no elements, links head to tail and has destroyed nothing |
| ForwardList.ForwardList.Size | include/ala/forward_list.h:416-418 | size() is the number of elements |
| ForwardList.ForwardList.Empty | include/ala/forward_list.h:416-418 | empty() holds iff there are no elements |
| ForwardList.ForwardList.Front | include/ala/forward_list.h:473-475 | front() is the first element |
| ForwardList.ForwardList.LocateBefore | include/ala/forward_list.h:120-125 | locate_before(index) returns the node at position index, or end() when index is past it |
| ForwardList.ForwardList.AttachAfter | include/ala/forward_list.h:128-133 | attach_after puts node right after position k, growing the size by one |
| ForwardList.ForwardList.AttachRangeAfter | include/ala/forward_list.h:135-144 | attach_range_after puts the len linked nodes from left right after position k, returns the last of them and grows the size by len |
| ForwardList.ForwardList.DetachAfter | include/ala/forward_list.h:146-153 | detach_after removes and returns the node after position k, which then still links to its old successor, and shrinks the size by one |
| ForwardList.ForwardList.DetachRangeAfter | include/ala/forward_list.h:155-160 | detach_range_after links position p to position q, removing the len nodes between them |
| ForwardList.ForwardList.DestructNode | include/ala/forward_list.h:175-182 | destruct_node returns the node's successor and records the node as destroyed |
| ForwardList.ForwardList.CutAfter | include/ala/forward_list.h:113-118 | cut_after(k) keeps exactly the first k elements, destroys the rest in order and links position k to the tail |
| ForwardList.ForwardList.Clear | include/ala/forward_list.h:583-585 | clear destroys every element node in order and leaves head linked to tail |
| ForwardList.ForwardList.EmplaceAfter | include/ala/forward_list.h:499-504 | emplace_after inserts a fresh node holding v right after position k and returns it |
| ForwardList.ForwardList.EmplaceFront | include/ala/forward_list.h:482-485 | emplace_front prepends v |
| ForwardList.ForwardList.PopFront | include/ala/forward_list.h:495-497 | pop_front drops the first element and destroys its node |
| ForwardList.ForwardList.EraseAfter | include/ala/forward_list.h:572-574 | erase_after(k) removes and destroys the node after position k and returns the node now at position k+1 |
| ForwardList.ForwardList.EraseShift | include/ala/forward_list.h:576-581 | after one node is removed, positions past it shift down by one |
| ForwardList.ForwardList.EraseAfterRange | include/ala/forward_list.h:576-581 | erase_after(first, last) removes and destroys exactly the nodes strictly between first and last, in order, and returns last; with first == last (end() included) nothing changes |
| ForwardList.ForwardList.EraseOneOfRange | include/ala/forward_list.h:578-579 | one loop step of erase_after(first, last) destroys the next node of the range |
| ForwardList.ForwardList.Distance | include/ala/forward_list.h:620 | `distance(first, last)` is the difference of their positions |
| ForwardList.ForwardList.TransferAfter | include/ala/forward_list.h:604-609 | moving node q of another list to after position p removes it there and inserts it here, destroying nothing |
| ForwardList.ForwardList.SpliceAfter | include/ala/forward_list.h:588-598 | splice_after(pos, other) inserts all of other's nodes after pos, empties other and destroys nothing |
| ForwardList.ForwardList.SpliceOneAfter | include/ala/forward_list.h:604-609 | splice_after(pos, other, i) moves the node after i to after pos; from another list it is removed there, within the same list it is moved unless pos is i or the node itself |
| ForwardList.ForwardList.SpliceRangeAfter | include/ala/forward_list.h:616-628 | splice_after(pos, other, first, last) moves the nodes strictly between first and last to after pos, and does nothing when there are none |
| ForwardList.ForwardList.MoveRunAfter | include/ala/forward_list.h:622-627 | the detach-and-attach of a non-empty run between two lists |
| ForwardList.ForwardList.UnlinkIf | include/ala/forward_list.h:645-654 | the first loop of remove_if unlinks exactly the nodes whose value satisfies pred, keeps the others in order and stacks the removed ones |
| ForwardList.ForwardList.DestroyChain | include/ala/forward_list.h:655-656 | the second loop of remove_if destroys the stacked nodes, last unlinked first |
| ForwardList.ForwardList.RemoveIf | include/ala/forward_list.h:641-659 | remove_if keeps exactly the elements pred rejects, in order, destroys the others and returns how many satisfied pred |
| ForwardList.ForwardList.Remove | include/ala/forward_list.h:635-638 | remove(value) keeps exactly the elements different from value and returns how many equalled it |
| ForwardList.ForwardList.Unique | include/ala/forward_list.h:666-682 | unique(pred) keeps the reference unique sequence (each element dropped when pred holds between the last kept one and it), destroys the dropped nodes and returns how many |
| ForwardList.ForwardList.UniqueEqual | include/ala/forward_list.h:661-664 | unique() drops each element equal to the last kept one and returns how many it dropped |
| ForwardList.ForwardList.Merge | include/ala/forward_list.h:727-746 | merge(other) leaves the stable merge of both element sequences here and other empty, destroying nothing |
| ForwardList.ForwardList.Reverse | include/ala/forward_list.h:762-773 | reverse relinks the same nodes in reverse order, keeping the size |
| ForwardList.ListEq | include/ala/forward_list.h:775-781 | operator== holds iff both lists hold the same elements |
| ForwardList.ListNe | include/ala/forward_list.h:783-787 | operator!= holds iff the elements differ |
| ForwardList.ListLt | include/ala/forward_list.h:789-794 | operator< holds iff the elements are lexicographically less |
| ForwardList.ListGt | include/ala/forward_list.h:796-800 | operator> holds iff the right list is lexicographically less |
| ForwardList.ListLe | include/ala/forward_list.h:802-806 | operator<= holds iff the right list is not lexicographically less |
| ForwardList.ListGe | include/ala/forward_list.h:808-812 | operator>= holds iff the left list is not lexicographically less |
| DenseTable.DistInc | include/ala/detail/impl/unordered_dense.h:227-230 | dist_inc adds one to the distance part and keeps the fingerprint byte |
| DenseTable.DistDec | include/ala/detail/impl/unordered_dense.h:232-234 | dist_dec takes one from the distance part, keeps the fingerprint, and is undone by dist_inc |
| DenseTable.DistAndFingerprintFromHash | include/ala/detail/impl/unordered_dense.h:248-250 | the first probe's word has distance 1 and the hash's low byte as fingerprint, so it is never the empty word 0 |
| DenseTable.ProbeDafDecodes | include/ala/detail/impl/unordered_dense.h:265-275 | after t steps of dist_inc the probe word has distance t+1 and the same fingerprint |
| DenseTable.Next | include/ala/detail/impl/unordered_dense.h:212-216 | next(i) is the following bucket, wrapping to 0 after the last |
| DenseTable.BucketIdxFromHash | include/ala/detail/impl/unordered_dense.h:252-254 | the home bucket `hash >> shifts` is below 2^(64-shifts) |
| DenseTable.CalcNumBuckets | include/ala/detail/impl/unordered_dense.h:286-288 | the bucket count is the smaller of max_bucket_count() and 2^(64-shifts), and exactly 2^(64-shifts) while shifts >= 32 |
| DenseTable.Capacity | include/ala/detail/impl/unordered_dense.h:347 | below max_bucket_count() buckets the load bound is the truncation of 0.8 times the bucket count, less than the bucket count |
| DenseTable.BucketCapacityBelow | include/ala/detail/impl/unordered_dense.h:343-348 | the load bound `m_max_bucket_capacity` leaves a bucket free, except at max_bucket_count() buckets where every bucket may be used |
| DenseTable.CapacityGrows | include/ala/detail/impl/unordered_dense.h:373-384 | doubling the buckets raises the load bound by at least one, so the value that triggered the growth fits |
| DenseTable.HomeOf | include/ala/detail/impl/unordered_dense.h:252-254 | a key's home bucket is within the table |
| DenseTable.EmptyTable | include/ala/detail/impl/unordered_dense.h:351-359 | cleared buckets with no values satisfy the table invariant |
| DenseTable.ProbeReaches | include/ala/detail/impl/unordered_dense.h:494-531 | every bucket on the way from a stored key's home to its bucket is at least as rich as the probe, so the lookup does not stop early |
| DenseTable.NoFullWrap | include/ala/detail/impl/unordered_dense.h:494-531 | a stored key's bucket comes before any empty bucket on the probe from its home |
| DenseTable.EmptyExists | include/ala/detail/impl/unordered_dense.h:277-284 | with fewer values than buckets an empty bucket exists, so shifting up ends |
| DenseTable.InsertPlaced | include/ala/detail/impl/unordered_dense.h:277-284 | placing the new value at its insert point and shifting the run up keeps every bucket at its key's probe distance |
| DenseTable.InsertOrdered | include/ala/detail/impl/unordered_dense.h:277-284 | the shift-up insertion keeps the robin-hood order |
| DenseTable.InsertIndexed | include/ala/detail/impl/unordered_dense.h:277-284 | after the shift-up each value still has exactly one bucket, the new value the placed one |
| DenseTable.InsertKeeps | include/ala/detail/impl/unordered_dense.h:449-465 | inserting a new key at its insert point keeps the whole table invariant with the value appended |
| DenseTable.AppendUnique | include/ala/detail/impl/unordered_dense.h:453 | appending a key not yet present keeps keys distinct |
| DenseTable.ErasePlaced | include/ala/detail/impl/unordered_dense.h:388-397 | shifting the following buckets down one step keeps every bucket at its key's probe distance |
| DenseTable.EraseOrdered | include/ala/detail/impl/unordered_dense.h:388-397 | the shift-down keeps the robin-hood order |
| DenseTable.EraseIndexed | include/ala/detail/impl/unordered_dense.h:388-397 | after the shift-down every value but the erased one still has exactly one bucket |
| DenseTable.RemoveAtContents | include/ala/detail/impl/unordered_dense.h:400-417 | moving the last value into the hole and popping it removes exactly that entry and key and keeps the other positions |
| DenseTable.EraseKeeps | include/ala/detail/impl/unordered_dense.h:388-397 | the shift-down part of do_erase keeps placement and order and drops the erased value's bucket |
| DenseTable.HoleFillLast | include/ala/detail/impl/unordered_dense.h:400-418 | erasing the last value needs only pop_back to restore the invariant |
| DenseTable.HoleFillMoved | include/ala/detail/impl/unordered_dense.h:400-418 | re-pointing the moved value's bucket to the hole restores the invariant |
| DenseTable.ShiftUpDone | include/ala/detail/impl/unordered_dense.h:277-284 | the shift-up loop ends at an empty bucket, which receives the last carried bucket |
| DenseTable.ShiftDownDone | include/ala/detail/impl/unordered_dense.h:392-397 | the shift-down loop ends before a bucket at home or empty, and the last moved-from bucket is cleared |
| DenseTable.LookupStep | include/ala/detail/impl/unordered_dense.h:494-531 | one probe step: a poorer bucket proves the key absent; a different bucket lets the search move on |
| DenseTable.SearchEnd | include/ala/detail/impl/unordered_dense.h:470-492 | when the probe reaches a poorer bucket the key is absent and this is its insert point |
| DenseTable.PassedNone | include/ala/detail/impl/unordered_dense.h:265-275 | buckets strictly richer than the probe cannot hold the key |
| DenseTable.Table.constructor | include/ala/detail/impl/unordered_dense.h:178 | a new table has initial_shifts, four empty buckets, no values, and satisfies the invariant |
| DenseTable.Table.AllocateBucketsFromShift | include/ala/detail/impl/unordered_dense.h:331-348 | allocation gives calc_num_buckets(m_shifts) empty buckets and the matching load bound (every bucket at max_bucket_count()), keeping the values |
| DenseTable.Table.PlaceAndShiftUp | include/ala/detail/impl/unordered_dense.h:277-284 | place_and_shift_up leaves the buckets as the reference shift-up of the run starting at place |
| DenseTable.Table.NextWhileLess | include/ala/detail/impl/unordered_dense.h:265-275 | next_while_less returns the first probe position whose bucket is not richer than the probe, and the probe word there |
| DenseTable.Table.Find | include/ala/detail/impl/unordered_dense.h:494-531 | find returns the index of the value with that key, or end() exactly when no value has it |
| DenseTable.Table.Count | include/ala/detail/impl/unordered_dense.h:1135-1137 | count is 1 iff some value has the key and 0 otherwise |
| DenseTable.Table.ClearBuckets | include/ala/detail/impl/unordered_dense.h:351-359 | every bucket becomes empty |
| DenseTable.Table.ClearAndFillBucketsFromValues | include/ala/detail/impl/unordered_dense.h:361-371 | rebuilding the buckets from the values gives a table that satisfies the invariant |
| DenseTable.Table.IncreaseSize | include/ala/detail/impl/unordered_dense.h:373-385 | increase_size overflows exactly when the load bound is already max_bucket_count(): then it pops the new value; otherwise it doubles the buckets and rehashes all values |
| DenseTable.Table.PlaceNew | include/ala/detail/impl/unordered_dense.h:449-465 | placing a new value keeps every value and the table invariant, and fails only at max_bucket_count() buckets once the appended value would leave no bucket empty, in which case the values are as before |
| DenseTable.Table.PlaceValue | include/ala/detail/impl/unordered_dense.h:462-463 | when the table is not full the new value is shifted into its bucket and the table invariant holds again |
| DenseTable.Table.SearchKey | include/ala/detail/impl/unordered_dense.h:912-925 | emplace's search, after the value is appended, finds a bucket referring to the key exactly when the key was already present, and otherwise stops at the insertion point of the new key |
| DenseTable.Table.Emplace | include/ala/detail/impl/unordered_dense.h:908-937 | emplace returns the index of the key's value and whether it was inserted: new keys are appended, present keys leave the table unchanged, and an overflow happens only for a new key at max_bucket_count() buckets holding max_bucket_count() - 1 values, leaving the values unchanged |
| DenseTable.Table.ShiftDown | include/ala/detail/impl/unordered_dense.h:390-397 | the shift-down loop leaves the buckets as the reference shift-down from the erased bucket |
| DenseTable.Table.DoErase | include/ala/detail/impl/unordered_dense.h:387-418 | do_erase removes the value the bucket points to by moving the last value into its place, keeping the invariant and the bucket array |
| DenseTable.Table.FillHole | include/ala/detail/impl/unordered_dense.h:400-417 | the hole-filling part of do_erase removes value r and restores the invariant |
| DenseTable.Table.KeyBucket | include/ala/detail/impl/unordered_dense.h:426-436 | do_erase_key's search finds a bucket referring to the key exactly when the key is present |
| DenseTable.Table.EraseKey | include/ala/detail/impl/unordered_dense.h:420-439 | erase(key) returns 1 and removes exactly the entry with that key when present, else returns 0 and changes nothing |
| DenseTable.Table.EraseAt | include/ala/detail/impl/unordered_dense.h:988-999 | erase(it) removes the value at that index (moving the last one into it) and returns the same index |
| DenseTable.EraseIf | include/ala/detail/impl/unordered_dense.h:1330-1349 | erase_if keeps exactly the entries the predicate rejects and returns how many it removed |
| PrinterNames.PrefixBefore | util/gdb-pretty-printers.py:64 | the regex `^([^<]+)` part: the longest prefix without the given character |
| PrinterNames.FindColons | util/gdb-pretty-printers.py:977 | the first `::` on the first line, or none when the first line has none |
| PrinterNames.RemoveCxxNamespace | util/gdb-pretty-printers.py:41-51 | `re.sub("std::__.*?::", "std::", …)` never lengthens the name and leaves a name without `std::__` unchanged |
| PrinterNames.ReplaceAll | util/gdb-pretty-printers.py:92-94 | replacing every occurrence leaves a string without the pattern unchanged |
| PrinterNames.RemoveGenerics | util/gdb-pretty-printers.py:54-65 | _remove_generics succeeds iff the name is non-empty and does not start with `<`, and then returns the non-empty part before the first `<` |
| PrinterNames.RemoveGenericsIdempotent | util/gdb-pretty-printers.py:54-65 | a name with no `<` is returned whole |
| PrinterNames.RemoveGenericsDropsArguments | util/gdb-pretty-printers.py:54-65 | `base<args>` comes back as `base` |
| PrinterNames.RemoveStdPrefix | util/gdb-pretty-printers.py:909-911 | _remove_std_prefix is non-empty iff the name is `ala::` followed by at least one character on the first line, and is then that rest of the first line |
| PrinterNames.RemoveStdPrefixOf | util/gdb-pretty-printers.py:909-911 | `ala::n` gives back n for every one-line non-empty n |
| PrinterNames.InnerNamespace | util/gdb-pretty-printers.py:976-977 | the group of `^ala::(__.*?)::` is a namespace starting with `__` that the raw name opens with |
| PrinterNames.InnerNamespaceOf | util/gdb-pretty-printers.py:976-977 | `ala::__ns::rest` yields `__ns` |
| PrinterNames.Names | util/gdb-pretty-printers.py:922-957 | every name listed in the lookup dictionary is one of its keys |
| PrinterNames.LookupIn | util/gdb-pretty-printers.py:988-989 | a name finds a printer iff it is a key, and the printer is the one listed for it |
| PrinterNames.LookupAt | util/gdb-pretty-printers.py:922-957 | the first entry of a name is the one the lookup returns |
| PrinterNames.EmptyNameAbsent | util/gdb-pretty-printers.py:922-957 | the empty string is not a key, so a failed prefix match finds no printer |
| PrinterNames.Select | util/gdb-pretty-printers.py:983-990 | an empty pretty name gives no printer, one starting with `<` raises, and a printer is only chosen for an `ala::` name |
| PrinterNames.Dispatch | util/gdb-pretty-printers.py:968-990 | a non-struct value or one in the excluded namespaces gets no printer, and a chosen printer means the prettified name starts with `ala::` |
| PrinterNames.SelectByName | util/gdb-pretty-printers.py:983-990 | `ala::n<args>` gets the same printer as `ala::n`, namely the dictionary entry for n |
| PrinterNames.GnuNamespaceExcluded | util/gdb-pretty-printers.py:976-980 | names in `ala::__cxx1998`, `__debug`, `__7` and `__g` get no printer |
| PrinterNames.RingInTable | util/gdb-pretty-printers.py:935 | `ring` maps to the ring printer |
| PrinterNames.RingSelected | util/gdb-pretty-printers.py:983-990 | `ala::ring<…>` is shown by the ring printer |
| PrinterNames.StdVectorIgnored | util/gdb-pretty-printers.py:909-911 | `std::vector<int>` gets no printer, since only `ala::` names are looked up |
| PrinterNames.Subprinters | util/gdb-pretty-printers.py:959-966 | the constructor's loop collects the reference list of first entries per printer class |
| PrinterNames.FirstOf | util/gdb-pretty-printers.py:959-966 | the first entry of a printer class holds that class and no earlier entry does |
| PrinterNames.FirstsSound | util/gdb-pretty-printers.py:959-966 | the subprinters cover every printer class once, each under the name of its first entry |
| PrinterNames.TableSubprinters | util/gdb-pretty-printers.py:922-966 | the dictionary has 34 entries and the subprinters cover all its printer classes |
| PrinterValues.DigitChar | util/gdb-pretty-printers.py:272 | a digit is the character of its value |
| PrinterValues.Decimal | util/gdb-pretty-printers.py:272 | `%d` writes digits only, with no leading zero |
| PrinterValues.DecimalValue | util/gdb-pretty-printers.py:272 | reading back the `%d` digits gives the number |
| PrinterValues.CollectionText | util/gdb-pretty-printers.py:268-272 | the text is "… is empty" exactly when the size is 0 |
| PrinterValues.ReadChars | util/gdb-pretty-printers.py:357-359 | reading n characters succeeds iff all n addresses are readable, and returns their characters in order |
| PrinterValues.ShortSize | util/gdb-pretty-printers.py:314-332 | the short size is halved exactly when the alternate layout flag equals the big-endian flag |
| PrinterValues.ShortSizeRoundTrip | util/gdb-pretty-printers.py:314-332 | with the right byte-order flag the decoding undoes the layout's encoding of the size |
| PrinterValues.StringText | util/gdb-pretty-printers.py:337-359 | size 0 shows "", a long string (size & mask nonzero) shows its heap buffer, a short one its inline buffer with the decoded size |
| PrinterValues.ShortStringShown | util/gdb-pretty-printers.py:337-359 | a non-empty short string stored in memory is shown as exactly its text |
| PrinterValues.PrintLength | util/gdb-pretty-printers.py:375-383 | the printed length is the length, cut to `print elements` when that is set |
| PrinterValues.StringViewText | util/gdb-pretty-printers.py:371-388 | the string_view text is its length, then the characters up to the limit, with "..." when cut |
| PrinterValues.StringViewWhole | util/gdb-pretty-printers.py:371-388 | a view within the limit is shown whole, without "..." |
| PrinterValues.ArrayChildren | util/gdb-pretty-printers.py:274-276 | the array printer shows the size elements from `_data`, in order, or fails when one is unreadable |
| PrinterValues.VectorIterator.constructor | util/gdb-pretty-printers.py:483-486 | the iterator starts at begin with count 0 |
| PrinterValues.VectorIterator.Next | util/gdb-pretty-printers.py:491-498 | each step counts up; at end it stops, otherwise it yields `[count]` and the element and moves on |
| PrinterValues.VectorChildren | util/gdb-pretty-printers.py:515-528 | the vector printer yields `[1]`…`[size]` with the elements in order, or fails on an unreadable element |
| PrinterValues.RingSize | util/gdb-pretty-printers.py:546-547 | the ring printer's size is undefined (division by zero) iff circ is 0, and is otherwise below circ: tail-head or tail+circ-head |
| PrinterValues.RingText | util/gdb-pretty-printers.py:549-551 | the ring printer's text gives that size and capacity circ-1 |
| PrinterValues.RingShown | util/gdb-pretty-printers.py:553-555 | the ring printer shows size elements |
| PrinterValues.RingChildren | util/gdb-pretty-printers.py:553-555 | the ring printer's children are the slots `(head + i) % circ` for i below the size, or fail when one is unreadable |
| PrinterValues.RingPrinterShowsView | util/gdb-pretty-printers.py:546-555 | for a ring laid out in memory the printer shows exactly the ring's element sequence |
| PrinterValues.AndPow2 | util/gdb-pretty-printers.py:610 | `x & (1 << k)` is nonzero iff bit k of x is set |
| PrinterValues.BitsetChildren | util/gdb-pretty-printers.py:606-611 | the bitset printer lists, in increasing order, exactly the bit indices below the bit count whose bit is set, and fails iff the words do not cover the bit count |
| PrinterWalks.ListWalk | util/gdb-pretty-printers.py:637-641 | the list walk yields size values or fails on an unreadable node |
| PrinterWalks.ListChildren | util/gdb-pretty-printers.py:637-641 | the list printer's loop yields the reference walk |
| PrinterWalks.ListWalkChain | util/gdb-pretty-printers.py:637-641 | along a chain of size readable nodes the list printer shows their data in order |
| PrinterWalks.IsNilAt | util/gdb-pretty-printers.py:703-704 | is_nil fails only on a non-null unreadable node |
| PrinterWalks.KeyValue | util/gdb-pretty-printers.py:729-733 | a map node yields key and mapped value, a set node its key |
| PrinterWalks.TraverseAsWritten | util/gdb-pretty-printers.py:706-715 | as written, a node whose left child is nil shows only its own entry, whatever its right subtree holds |
| PrinterWalks.Height | util/gdb-pretty-printers.py:706-715 | the recursion depth the traversal needs |
| PrinterWalks.TraverseInOrder | util/gdb-pretty-printers.py:706-715 | with the right-child guard testing `_rght`, a tree within the recursion limit is shown in order, every entry once |
| PrinterWalks.AsWrittenDropsRightSubtree | util/gdb-pretty-printers.py:713 | the as-written guard drops the right child of a node with no left child |
| PrinterWalks.AsWrittenShowsNilSentinel | util/gdb-pretty-printers.py:713 | the as-written guard descends into a nil right sentinel and shows it |
| PrinterWalks.TreeChildren | util/gdb-pretty-printers.py:717-721 | an empty tree shows nothing, without reading its root |
| PrinterWalks.TraverseAsWrittenFull | util/gdb-pretty-printers.py:706-715 | the script's traversal, with its `_left` guard, shows a tree in order, every entry once, when no node has exactly one leaf child |
| PrinterWalks.TreeChildrenFull | util/gdb-pretty-printers.py:706-721 | the tree printer's children of a non-empty tree without single-leaf nodes are its entries in order |
| PrinterWalks.HashWalk | util/gdb-pretty-printers.py:807-813 | the hash-chain walk never reports a recursion error |
| PrinterWalks.HashChildren | util/gdb-pretty-printers.py:807-813 | the unordered printer's loop yields the reference chain walk |
| PrinterWalks.HashWalkChain | util/gdb-pretty-printers.py:807-813 | along a null-terminated chain of readable nodes the printer shows their keys (and values) in chain order |
| PrinterWalks.UnorderedChildren | util/gdb-pretty-printers.py:825-829 | a non-empty unordered container's children never raise a recursion error |
| PrinterWalks.RingIteratorState | util/gdb-pretty-printers.py:572-578 | a ring iterator is nullptr iff its address is 0 and end() iff it is `_data + _tail` |
| PrinterWalks.ListIteratorState | util/gdb-pretty-printers.py:780-786 | a list iterator is nullptr iff its address is 0, end() iff its node has no successor, and fails on an unreadable node |
| PrinterWalks.TreeIteratorState | util/gdb-pretty-printers.py:753-759 | a tree iterator is nullptr iff its address is 0, end() iff its node is a nil node, and fails on an unreadable node |
| PrinterWalks.HashIteratorState | util/gdb-pretty-printers.py:856-870 | a hash iterator is never shown as nullptr, is end() iff its address is 0, and its state never fails, because to_string does not read the node |
| PrinterLoader.RemoveFirst | util/gdb-pretty-printers.py:1022 | `list.remove(n)` on a list holding n drops one occurrence and one element |
| PrinterLoader.RemoveFirstAt | util/gdb-pretty-printers.py:1020-1024 | removing the first occurrence found at i leaves the list without element i |
| PrinterLoader.Debugger.constructor | util/gdb-pretty-printers.py:31 | after the script is sourced the byte-order flag is False and no program space has the printer |
| PrinterLoader.Debugger.RegisterAsWritten | util/gdb-pretty-printers.py:1000-1014 | as written, registering leaves the module flag unchanged (the assignment makes a local) and adds the printer once per program space |
| PrinterLoader.Debugger.Register | util/gdb-pretty-printers.py:1000-1014 | with the flag declared global, registering records whether the target is big-endian and adds the printer once per program space |
| PrinterLoader.Debugger.Load | util/gdb-pretty-printers.py:1010-1014 | the printer is prepended and the program space flagged only when the flag was not set; otherwise nothing changes |
| PrinterLoader.Debugger.Unregister | util/gdb-pretty-printers.py:1017-1024 | when the flag is set, the first printer of that name is removed and the flag cleared, keeping the invariant that the printer is present once iff flagged |
| PrinterLoader.ShownAfterRegisterAsWritten | util/gdb-pretty-printers.py:1007 | as written, a short string of n characters on a big-endian target shows n/2 (2n with the alternate layout) characters |
| PrinterLoader.ShownAfterRegister | util/gdb-pretty-printers.py:1007 | with the flag recorded, every short string of n characters shows n characters |
| PrinterLoader.LoadTwice | util/gdb-pretty-printers.py:1010-1014 | loading the same program space twice registers the printer once |

## Left out

- Elements are `int` throughout (ring, forward_list, the sorts, array, optional, variant, the table's key and mapped values), and the sorts and `forward_list::merge` compare with `<` on `int` instead of a user comparator; `Algorithm.Merge` is generic but orders by an integer key function.
- Sort.ShellSort: requires the length to be at most the last entry of the gap table, because sort.h's gap search reads past the table for longer ranges.
- `insertion_for_sort` (include/ala/detail/sort.h:277-289), `stable_sort` (:363-393) and the disabled `quick_sort_impl3` are not modelled.
- Sort.QuickSort, Sort.Sort and Sort.MergeSortImpl report the as-written insertion sort's `readsBeforeFirst` flag rather than modelling the out-of-range read itself.
- Bit: only the widths 8, 16, 32 and 64 are modelled (`IsDigits`); the fallback loops bit.h uses for wider types (the popcount loop at include/ala/bit.h:150-157 and the like) are dropped.
- Bit: the compiler intrinsics `clz`, `ctz` and `popcount` become specification functions on the integer value.
- Bit.BitCeil: requires `x <= Pow2(w - 1)`, because above that the result is not representable in the type and the source's behaviour is undefined.
- Random: words are `nat` values below 2^64 with the wrap-around written out; no C++ integer type is modelled beyond that.
- Random.UniformInt: the random engine is replaced by a finite sequence `draws` of engine outputs; the result is `None` when the sequence runs out before a draw is accepted.
- Random.UniformInt: requires a 32- or 64-bit type (`Supported`), because for 8- and 16-bit types the call to `clz` is ambiguous and the source does not compile, and requires `b - a` to fit the type.
- `generate_real` (floating point), `random_device` (the `rdseed`/`rdrand` instructions), and xoshiro `jump`/`long_jump`/`do_jump` are not modelled.
- The 128-bit xoshiro and 32-bit xorshift variants and the duplicate engines in include/ala/detail/xorshift.h are not modelled.
- Random.MinstdNoWrap: is stated for a 64-bit `uint_fast32_t`, as on LP64 targets; with a 32-bit type the product wraps and the step is not the textbook Lehmer step.
- Queue.Queue.Swap, Stack.Stack.Swap, OptionalModel.Optional.Assign, OptionalModel.Optional.AssignAsWritten, Ring.Ring.Swap, StdArray.FixedArray.Swap, VariantModel.Variant.Assign, VariantModel.Variant.Swap: require the two objects to be distinct; self-assignment and self-swap, no-ops in the source, are not modelled.
- Bit.Byteswap: models unsigned values only; byteswap also accepts signed integral types, whose bytes are swapped through conversion to and from the unsigned argument of the `bswap` intrinsics, and that conversion is not modelled.
- Memory.Align: requires `alignment` to be a power of two, as `align` assumes.
- Memory.ControlBlock.IncShared, Memory.ControlBlock.DecShared: require a live shared count; the source decrements an unsigned counter without a check, and an underflow is not modelled.
- Memory.ControlBlock.IncWeak: requires the block not to be freed.
- Memory.ControlBlock.DecWeak: requires more weak than shared references, so the block is never freed twice.
- `shared_ptr` and `weak_ptr` are reduced to `UseCount` and `Expired` on a control block; their constructors, assignment and conversions are not modelled.
- Deleters are recorded as a `deleted` log of addresses; the allocator and deallocation of the control block itself are not modelled.
- OptionalModel: `optional<int>`'s same-type assignment is the trivial defaulted one; `AssignAsWritten` models the non-trivial and converting paths.
- The copy assignment at include/ala/optional.h:115 has no `return *this`; its return value is not modelled.
- The mixed `optional`/`nullopt` and `optional`/value comparisons are written out for `==` and `<` only; the other operators follow from them.
- VariantModel: the converting assignment `_asgn_v` and the abort in `_swap_move` are not modelled.
- StdArray.Lt, StdArray.Gt, StdArray.Le, StdArray.Ge: have no `ensures` of their own; `StdArray.LtIsFirstDifference` and `StdArray.Trichotomy` state what they mean.
- Queue and Stack: `!=`, `<=`, `>` and `>=` are not written out; like `==` and `<` they delegate to the underlying container.
- Ring: the default-constructed ring's `nullptr` buffer is a one-slot array.
- Ring: `insert`/`emplace` at a position, `resize`, `assign`, `reserve`, `shrink_to_fit`, `realloc`, the copy and move constructors, and iterator arithmetic beyond `rbegin`/`rend` are not modelled.
- Ring: element destruction in `cut`, `erase` and `clear` is not modelled, only the change of contents.
- Ring.Ring.Migrate: copies elements; move and copy are not distinguished.
- ForwardList: `sort`, `sort_range` and `merge_range` (include/ala/forward_list.h:694-760), `resize`, `assign`, `insert_after` of n copies or a range, `swap`, and the copy and move constructors are not modelled.
- ForwardList.ForwardList.Merge: merges with `<` only, and requires the two lists to be distinct (`Separate`); merging a list with itself is not modelled.
- ForwardList.ForwardList.SpliceAfter: requires the other list to be distinct (`Separate`).
- ForwardList.ForwardList.SpliceRangeAfter: requires the other list to be distinct (`Separate`), though include/ala/forward_list.h:616-628 also accepts a range of the same list.
- ForwardList: the assertion that the two lists' allocators compare equal is not modelled.
- ForwardList: deallocation is recorded as a ghost `destroyed` log of nodes; the allocator is not modelled.
- DenseTable.Capacity: is exactly `4n/5` rounded down; the floating-point `max_load_factor` of 0.8 and its rounding are not modelled.
- DenseTable.Table.PlaceNew, DenseTable.Table.Emplace: at max_bucket_count() buckets holding max_bucket_count() - 1 values, a new key is reported as an overflow one insertion early; the source places it into the last empty bucket, and a bucket array with no empty bucket is not modelled, because lookups then have no empty bucket to stop at.
- DenseTable: bucket overflow is the bucket count reaching `MaxBucketCount` (2^32) and gives `Err(Overflow)`, where the source throws from `on_error_bucket_overflow`.
- DenseTable: the distance-and-fingerprint word is an unbounded integer; its 32-bit wrap-around is not modelled.
- DenseTable: the hash is a function parameter standing for the mixed hash of an avalanching hasher; the extra mixing for non-avalanching and 32-bit hashes is not modelled.
- DenseTable: only the map flavour with `int` keys and values and key equality `==` is modelled, and `Valid` restricts the shift to `32 <= shifts <= 62`.
- DenseTable: `reserve`/`rehash`, copy and move, `insert_or_assign`, `operator[]`, `at`, `extract`, `erase` of a range, `emplace_hint`, the `try_emplace` variants, `contains` and `equal_range` are not modelled.
- Printers: the gdb host API (`gdb.lookup_type`, `block_for_pc`, `gdb.execute`) is left out; the type name after `strip_typedefs` and the output of `show endian` are parameters, and the symbol-name regex used for `any` is not modelled.
- Printers: the field reads of the tuple, variant, optional, any, unique_ptr, shared_ptr, queue, stack and priority_queue printers are not modelled; only their selection by name is.
- Printers: the `vector<bool>` path, disabled by `if False`, is not modelled.
- Printers: `lazy_string` and the ISO-8859-1 decoding of string bytes are not modelled; a string is the sequence of its characters.
- Printers: `display_hint` strings are modelled only for the tree printer (`TreeHint`).
- PrinterLoader: the `print` call in the registration handler is dropped.
- Printers: Python's recursion limit is modelled as a depth bound (`RecursionError`) in the tree traversal, and the hash-chain walk takes a fuel bound; longer walks are not modelled.
- Printers: target memory is an abstract map from addresses to records; raw byte layout is not modelled.

## Findings

| source | as written | input that shows it | evidently intended | confidence | as-written member | corrected member |
|---|---|---|---|---|---|---|
| include/ala/ring.h:737-747 | `at(n)` indexes the buffer at `n`, ignoring the head | push_back(1), push_back(2), pop_front(), at(0) gives 1 instead of 2 | index `n` positions after the head, modulo the circle | not executed | Ring.Ring.AtAsWritten | Ring.Ring.At |
| include/ala/ring.h:649-651 | `rend()` returns the same position as `rbegin()` | any non-empty ring: the reverse traversal from rbegin to rend is empty | `rend()` is the position before the first element | not executed | Ring.Ring.RendAsWritten | Ring.Ring.Rend |
| include/ala/detail/sort.h:34 | the unguarded inner loop compares with `*(first-1)` | [2, 1]: the 1 is smaller than everything before it, so the loop reads before the range | stop the inner loop at `first` | not executed | Sort.InsertionSortAsWritten | Sort.InsertionSort |
| include/ala/optional.h:398-414 | `==` is true when both are engaged and the values differ; `!=` the opposite | two engaged optionals holding 1 and 2 compare equal | equal when both are empty, or both engaged with equal values | not executed | OptionalModel.EqAsWritten | OptionalModel.Eq |
| include/ala/optional.h:263-293 | assignment from an empty optional leaves `_valid` set | an engaged optional assigned from an empty one stays engaged | the target becomes empty | not executed | OptionalModel.Optional.AssignAsWritten | OptionalModel.Optional.Assign |
| include/ala/algorithm.h:31-54 | the search for the element to swap with stops at the wrong place | [1, 2, 3] gives [3, 1, 2] instead of [1, 3, 2] | the lexicographically next permutation | not executed | Algorithm.NextPermutationAsWritten | Algorithm.NextPermutation |
| include/ala/detail/sort.h:353-360 | merge sort never copies the input into the scratch buffer, whose leaves it then merges | 28 ones with a fresh scratch buffer of zeros: the result is not a permutation of the input | the result is a sorted permutation of the input | not executed | Sort.MergeSortAsWritten | Sort.MergeSort |
| include/ala/random.h:324-338 | for signed types the mask is one bit short, so `b` is never returned | a signed `uniform(0, 1)`: every accepted draw gives 0 | every value of `[a, b]` is reachable | not executed | Random.UniformIntAsWritten | Random.UniformInt |
| util/gdb-pretty-printers.py:713 | the right-subtree guard tests the left child | root 10 with only a right child 20 shows [10]; root 10 with left child 5 and a nil right sentinel shows [5, 10, 0] | traverse the right subtree when the right child is not nil | not executed | PrinterWalks.TraverseAsWritten | PrinterWalks.TraverseInOrder |
| util/gdb-pretty-printers.py:1007 | the byte order is assigned to a local, so the module flag stays False | on a big-endian target a short string of n characters is shown with n/2 | the module flag records the target's byte order | not executed | PrinterLoader.ShownAfterRegisterAsWritten | PrinterLoader.ShownAfterRegister |

=== FILE: algorithm.dfy ===
/** algorithm.h: `merge`, which writes two ranges through an output iterator,
    and `next_permutation`, which swaps and reverses in place. Both are
    methods over arrays, proved against specification functions whose
    properties are the lemmas of this module. */
module Algorithm {
  import opened AlgorithmBase

  // ------------------------------------------------------------------ merge

  /** Elements are compared through an integer key: `x < y` and `x == y` in
      the element type compare keys, so two elements with the same key tie. */
  predicate SortedBy<T>(s: seq<T>, key: T -> int)
  {
    forall i, j :: 0 <= i < j < |s| ==> key(s[i]) <= key(s[j])
  }

  /** The elements of `s` whose key is `k`, in their order in `s`. */
  function WithKey<T>(s: seq<T>, key: T -> int, k: int): seq<T>
  {
    if |s| == 0 then []
    else if key(s[0]) == k then [s[0]] + WithKey(s[1..], key, k)
    else WithKey(s[1..], key, k)
  }

  /** What merge writes: while both ranges have elements it takes the head of
      the first range when that head is less than or equal to the head of the
      second (the source's `x < y || x == y`, here on keys), then copies the
      rest of whichever range is left. */
  function MergeSpec<T>(a: seq<T>, b: seq<T>, key: T -> int): (r: seq<T>)
    ensures |r| == |a| + |b|
    decreases |a| + |b|
  {
    if |a| == 0 then b
    else if |b| == 0 then a
    else if key(a[0]) <= key(b[0]) then [a[0]] + MergeSpec(a[1..], b, key)
    else [b[0]] + MergeSpec(a, b[1..], key)
  }

  /** One step of MergeSpec when the head of the first range is taken. */
  lemma MergeTakesFirst<T>(a: seq<T>, b: seq<T>, key: T -> int)
    requires |a| > 0 && (|b| == 0 || key(a[0]) <= key(b[0]))
    ensures MergeSpec(a, b, key) == [a[0]] + MergeSpec(a[1..], b, key)
  {
    if |b| == 0 {
      MergeRightEmpty(a, b, key);
      MergeRightEmpty(a[1..], b, key);
      assert a == [a[0]] + a[1..];
    } else {
      MergeBothTakeFirst(a, b, key);
    }
  }

  lemma MergeBothTakeFirst<T>(a: seq<T>, b: seq<T>, key: T -> int)
    requires |a| > 0 && |b| > 0 && key(a[0]) <= key(b[0])
    ensures MergeSpec(a, b, key) == [a[0]] + MergeSpec(a[1..], b, key)
  {
  }

  lemma MergeRightEmpty<T>(a: seq<T>, b: seq<T>, key: T -> int)
    requires |b| == 0
    ensures MergeSpec(a, b, key) == a
  {
  }

  /** One step of MergeSpec when the head of the second range is taken. */
  lemma MergeTakesSecond<T>(a: seq<T>, b: seq<T>, key: T -> int)
    requires |b| > 0 && (|a| == 0 || !(key(a[0]) <= key(b[0])))
    ensures MergeSpec(a, b, key) == [b[0]] + MergeSpec(a, b[1..], key)
  {
    if |a| == 0 {
      assert b == [b[0]] + b[1..];
    } else {
      MergeBothTakeSecond(a, b, key);
    }
  }

  lemma MergeBothTakeSecond<T>(a: seq<T>, b: seq<T>, key: T -> int)
    requires |a| > 0 && |b| > 0 && !(key(a[0]) <= key(b[0]))
    ensures MergeSpec(a, b, key) == [b[0]] + MergeSpec(a, b[1..], key)
  {
  }

  /** Taking the next element of the merge keeps `written ++ rest == whole`. */
  lemma MergeAdvance<T>(a: seq<T>, b: seq<T>, key: T -> int, i: nat, j: nat, written: seq<T>, whole: seq<T>)
    returns (x: T, i': nat, j': nat)
    requires i <= |a| && j <= |b| && (i < |a| || j < |b|)
    requires written + MergeSpec(a[i..], b[j..], key) == whole
    ensures i' <= |a| && j' <= |b|
    ensures (written + [x]) + MergeSpec(a[i'..], b[j'..], key) == whole
    ensures if j == |b| || (i < |a| && key(a[i]) <= key(b[j])) then x == a[i] && i' == i + 1 && j' == j
            else x == b[j] && i' == i && j' == j + 1
  {
    if j == |b| || (i < |a| && key(a[i]) <= key(b[j])) {
      assert a[i..][1..] == a[i + 1..];
      MergeTakesFirst(a[i..], b[j..], key);
      x, i', j' := a[i], i + 1, j;
    } else {
      assert b[j..][1..] == b[j + 1..];
      MergeTakesSecond(a[i..], b[j..], key);
      x, i', j' := b[j], i, j + 1;
    }
  }

  /** merge(first, last, f1, l1, out): writes |a| + |b| elements starting at
      out[start] and returns the end of what it wrote; nothing else in `out`
      changes. The source's three loops (both ranges left, then the rest of
      the first, then the rest of the second) are one loop here whose branch
      takes from the range that is left once the other runs out. */
  method Merge<T>(a: array<T>, b: array<T>, key: T -> int, out: array<T>, start: nat) returns (e: nat)
    requires out != a && out != b
    requires start + a.Length + b.Length <= out.Length
    modifies out
    ensures e == start + a.Length + b.Length
    ensures out[start..e] == MergeSpec(a[..], b[..], key)
    ensures forall p :: 0 <= p < start || e <= p < out.Length ==> out[p] == old(out[p])
  {
    ghost var end := start + a.Length + b.Length;
    ghost var whole := MergeSpec(a[..], b[..], key);
    ghost var written: seq<T> := [];
    var i, j := 0, 0;
    e := start;
    while i != a.Length || j != b.Length
      invariant 0 <= i <= a.Length && 0 <= j <= b.Length && e == start + i + j
      invariant |written| == e - start
      invariant forall p :: start <= p < e ==> out[p] == written[p - start]
      invariant written + MergeSpec(a[i..], b[j..], key) == whole
      invariant forall p :: 0 <= p < start || end <= p < out.Length ==> out[p] == old(out[p])
      decreases a.Length + b.Length - i - j
    {
      ghost var x, i', j' := MergeAdvance(a[..], b[..], key, i, j, written, whole);
      if j == b.Length || (i != a.Length && key(a[i]) <= key(b[j])) {
        out[e] := a[i];
        i := i + 1;
      } else {
        out[e] := b[j];
        j := j + 1;
      }
      written := written + [x];
      e := e + 1;
    }
    assert MergeSpec(a[i..], b[j..], key) == [];
    assert out[start..e] == written;
  }

  /** merge writes exactly the elements of both ranges. */
  lemma {:induction false} MergePermutes<T>(a: seq<T>, b: seq<T>, key: T -> int)
    ensures multiset(MergeSpec(a, b, key)) == multiset(a) + multiset(b)
    decreases |a| + |b|
  {
    if |a| != 0 && |b| != 0 {
      if key(a[0]) <= key(b[0]) {
        MergePermutes(a[1..], b, key);
        MergeBothTakeFirst(a, b, key);
        assert a == [a[0]] + a[1..];
      } else {
        MergePermutes(a, b[1..], key);
        MergeBothTakeSecond(a, b, key);
        assert b == [b[0]] + b[1..];
      }
    }
  }

  /** Every element of the merge has a key at least `k` when every input does. */
  lemma MergeKeysAbove<T>(a: seq<T>, b: seq<T>, key: T -> int, k: int)
    requires forall x :: x in a ==> key(x) >= k
    requires forall x :: x in b ==> key(x) >= k
    ensures forall x :: x in MergeSpec(a, b, key) ==> key(x) >= k
  {
    MergePermutes(a, b, key);
    forall x | x in MergeSpec(a, b, key)
      ensures key(x) >= k
    {
      assert x in multiset(MergeSpec(a, b, key));
    }
  }

  /** Two sorted ranges merge into a sorted range. */
  lemma {:induction false} MergeSorted<T>(a: seq<T>, b: seq<T>, key: T -> int)
    requires SortedBy(a, key) && SortedBy(b, key)
    ensures SortedBy(MergeSpec(a, b, key), key)
    decreases |a| + |b|
  {
    if |a| != 0 && |b| != 0 {
      var r := MergeSpec(a, b, key);
      if key(a[0]) <= key(b[0]) {
        MergeSorted(a[1..], b, key);
        MergeBothTakeFirst(a, b, key);
        MergeKeysAbove(a[1..], b, key, key(a[0]));
        forall j | 0 < j < |r|
          ensures key(r[0]) <= key(r[j])
        {
          assert r[j] in MergeSpec(a[1..], b, key);
        }
      } else {
        MergeSorted(a, b[1..], key);
        MergeBothTakeSecond(a, b, key);
        MergeKeysAbove(a, b[1..], key, key(b[0]));
        forall j | 0 < j < |r|
          ensures key(r[0]) <= key(r[j])
        {
          assert r[j] in MergeSpec(a, b[1..], key);
        }
      }
    }
  }

  lemma {:induction false} WithKeyNone<T>(s: seq<T>, key: T -> int, k: int)
    requires forall i :: 0 <= i < |s| ==> key(s[i]) != k
    ensures WithKey(s, key, k) == []
  {
    if |s| > 0 {
      WithKeyNone(s[1..], key, k);
    }
  }

  lemma WithKeyCons<T>(x: T, s: seq<T>, key: T -> int, k: int)
    ensures WithKey([x] + s, key, k) == (if key(x) == k then [x] else []) + WithKey(s, key, k)
  {
    assert ([x] + s)[1..] == s;
  }

  /** Ties come from the first range: among the elements with any one key,
      those of the first range come first, each range in its own order. */
  lemma {:induction false} MergeStable<T>(a: seq<T>, b: seq<T>, key: T -> int, k: int)
    requires SortedBy(a, key) && SortedBy(b, key)
    ensures WithKey(MergeSpec(a, b, key), key, k) == WithKey(a, key, k) + WithKey(b, key, k)
    decreases |a| + |b|
  {
    if |a| == 0 {
      assert a == [];
    } else if |b| == 0 {
      assert WithKey(b, key, k) == [];
    } else if key(a[0]) <= key(b[0]) {
      MergeStable(a[1..], b, key, k);
      MergeBothTakeFirst(a, b, key);
      WithKeyCons(a[0], MergeSpec(a[1..], b, key), key, k);
      assert a == [a[0]] + a[1..];
      WithKeyCons(a[0], a[1..], key, k);
    } else {
      MergeStable(a, b[1..], key, k);
      MergeBothTakeSecond(a, b, key);
      WithKeyCons(b[0], MergeSpec(a, b[1..], key), key, k);
      assert b == [b[0]] + b[1..];
      WithKeyCons(b[0], b[1..], key, k);
      if key(b[0]) == k {
        // every element of the first range has a larger key
        WithKeyNone(a, key, k);
      }
    }
  }

  // ------------------------------------------------------- next_permutation

  /** s[lo..hi] is in non-increasing order. */
  predicate DescendingOn(s: seq<int>, lo: int, hi: int)
    requires 0 <= lo && hi <= |s|
  {
    forall p, q :: lo <= p < q < hi ==> s[p] >= s[q]
  }

  /** The largest i < k with s[i] < s[i + 1], or -1 when s[..k + 1] never
      ascends; the elements after it are in non-increasing order. */
  function LastAscent(s: seq<int>, k: nat): (i: int)
    requires k < |s|
    ensures -1 <= i < k
    ensures i >= 0 ==> s[i] < s[i + 1]
    ensures DescendingOn(s, i + 1, k + 1)
  {
    if k == 0 then -1
    else if s[k - 1] < s[k] then k - 1
    else LastAscent(s, k - 1)
  }

  /** The largest j in (i, k] with s[i] < s[j]: after the ascent at i it is
      the last element of the tail above the pivot. */
  function LastAbove(s: seq<int>, i: nat, k: nat): (j: nat)
    requires i < k < |s| && s[i] < s[i + 1]
    ensures i < j <= k && s[i] < s[j]
    ensures forall m :: j < m <= k ==> s[m] <= s[i]
    decreases k
  {
    if s[i] < s[k] then k else LastAbove(s, i, k - 1)
  }

  /** Swap positions i and j, then reverse everything after i. */
  function SwapAndReverseTail(s: seq<int>, i: nat, j: nat): seq<int>
    requires i < j < |s|
  {
    var t := s[i := s[j]][j := s[i]];
    t[..i + 1] + Reverse(t[i + 1..])
  }

  /** The permutation step after scanning for an ascent among the pairs up to
      position k: swap the pivot with the last larger element of the tail and
      reverse the tail; with no ascent, reverse everything and answer false. */
  function PermuteFrom(s: seq<int>, k: nat): (seq<int>, bool)
    requires 0 < k < |s|
  {
    var i := LastAscent(s, k);
    if i < 0 then (Reverse(s), false)
    else (SwapAndReverseTail(s, i, LastAbove(s, i, |s| - 1)), true)
  }

  /** next_permutation as intended: the scan for an ascent starts from the
      end of the range. */
  function NextPermutationSpec(s: seq<int>): (seq<int>, bool)
  {
    if |s| < 2 then (s, false) else PermuteFrom(s, |s| - 1)
  }

  /** next_permutation as written: the scan starts at first + 1, so only the
      first pair of the range is ever inspected. */
  function NextPermutationAsWrittenSpec(s: seq<int>): (seq<int>, bool)
  {
    if |s| < 2 then (s, false) else PermuteFrom(s, 1)
  }

  /** reverse(first + lo, first + hi) in place. */
  method ReverseRange(a: array<int>, lo: nat, hi: nat)
    requires lo <= hi <= a.Length
    modifies a
    ensures a[..] == old(a[..])[..lo] + Reverse(old(a[..])[lo..hi]) + old(a[..])[hi..]
  {
    ghost var s := a[..];
    var l, h := lo, hi;
    while l + 1 < h
      invariant lo <= l && h <= hi && l - lo == hi - h && l <= h
      invariant forall p :: 0 <= p < lo || hi <= p < a.Length || l <= p < h ==> a[p] == s[p]
      invariant forall p :: lo <= p < l ==> a[p] == s[hi - 1 - (p - lo)]
      invariant forall p :: h <= p < hi ==> a[p] == s[hi - 1 - (p - lo)]
    {
      a[l], a[h - 1] := a[h - 1], a[l];
      l, h := l + 1, h - 1;
    }
    assert forall p :: lo <= p < hi ==> a[p] == s[hi - 1 - (p - lo)] by {
      forall p | lo <= p < hi ensures a[p] == s[hi - 1 - (p - lo)] {
        if l <= p < h { assert p == hi - 1 - (p - lo); }
      }
    }
    ReversedSlice(s, a[..], lo, hi);
  }

  /** What the swapping loop leaves, stated position by position, is the
      slice reversal. */
  lemma ReversedSlice(s: seq<int>, t: seq<int>, lo: nat, hi: nat)
    requires lo <= hi <= |s| == |t|
    requires forall p :: 0 <= p < lo || hi <= p < |s| ==> t[p] == s[p]
    requires forall p :: lo <= p < hi ==> t[p] == s[hi - 1 - (p - lo)]
    ensures t == s[..lo] + Reverse(s[lo..hi]) + s[hi..]
  {
    var a, b, c := s[..lo], Reverse(s[lo..hi]), s[hi..];
    var r := a + b + c;
    assert |r| == |t|;
    forall p | 0 <= p < |t| ensures r[p] == t[p] {
      if p < lo {
        assert r[p] == a[p];
      } else if p < hi {
        assert r[p] == b[p - lo] == s[lo..hi][hi - lo - 1 - (p - lo)];
      } else {
        assert r[p] == c[p - hi];
      }
    }
  }

  /** The backward scan for an ascent: pairs (i - 1, i) are inspected from
      i == k downwards until one ascends or i reaches the start. */
  method FindAscent(a: array<int>, k: nat) returns (i: int)
    requires 0 < k < a.Length
    ensures i == LastAscent(a[..], k)
  {
    var m := k;
    while m > 0 && !(a[m - 1] < a[m])
      invariant 0 <= m <= k
      invariant m > 0 ==> LastAscent(a[..], k) == LastAscent(a[..], m)
      invariant m == 0 ==> LastAscent(a[..], k) == -1
    {
      m := m - 1;
    }
    i := m - 1;
  }

  /** The scan `while (!(*i < *--i2))` from the end of the range. */
  method FindAbove(a: array<int>, i: nat) returns (j: nat)
    requires i + 1 < a.Length && a[i] < a[i + 1]
    ensures j == LastAbove(a[..], i, a.Length - 1)
  {
    j := a.Length - 1;
    while !(a[i] < a[j])
      invariant i < j <= a.Length - 1
      invariant LastAbove(a[..], i, a.Length - 1) == LastAbove(a[..], i, j)
      decreases j
    {
      j := j - 1;
    }
  }

  lemma PermuteFromNoAscent(s: seq<int>, k: nat)
    requires 0 < k < |s| && LastAscent(s, k) < 0
    ensures PermuteFrom(s, k) == (Reverse(s), false)
  {
  }

  lemma PermuteFromAscent(s: seq<int>, k: nat, i: nat, j: nat)
    requires 0 < k < |s| && LastAscent(s, k) == i
    requires j == LastAbove(s, i, |s| - 1)
    ensures PermuteFrom(s, k) == (SwapAndReverseTail(s, i, j), true)
  {
  }

  /** The loop shared by both versions, followed by the swap and the
      reversal. */
  method PermuteFromMethod(a: array<int>, k: nat) returns (r: bool)
    requires 0 < k < a.Length
    modifies a
    ensures (a[..], r) == PermuteFrom(old(a[..]), k)
  {
    ghost var s := a[..];
    var n := a.Length;
    var i := FindAscent(a, k);
    if i < 0 {
      PermuteFromNoAscent(s, k);
      ReverseRange(a, 0, n);
      assert s[..0] == [] && s[0..n] == s && s[n..] == [];
      assert a[..] == [] + Reverse(s) + [];
      assert [] + Reverse(s) + [] == Reverse(s);
      return false;
    }
    var j := FindAbove(a, i);
    PermuteFromAscent(s, k, i, j);
    a[i], a[j] := a[j], a[i];
    ghost var t := a[..];
    assert t == s[i := s[j]][j := s[i]];
    ReverseRange(a, i + 1, n);
    SwappedThenReversed(s, t, a[..], i, j);
    return true;
  }

  lemma SwappedThenReversed(s: seq<int>, t: seq<int>, u: seq<int>, i: nat, j: nat)
    requires i < j < |s| && t == s[i := s[j]][j := s[i]]
    requires u == t[..i + 1] + Reverse(t[i + 1..|t|]) + t[|t|..]
    ensures u == SwapAndReverseTail(s, i, j)
  {
    assert t[i + 1..|t|] == t[i + 1..] && t[|t|..] == [];
    assert t[..i + 1] + Reverse(t[i + 1..]) + [] == t[..i + 1] + Reverse(t[i + 1..]);
  }

  /** next_permutation(first, last), corrected: the scan starts at last - 1. */
  method NextPermutation(a: array<int>) returns (r: bool)
    modifies a
    ensures (a[..], r) == NextPermutationSpec(old(a[..]))
  {
    if a.Length < 2 {
      return false;
    }
    r := PermuteFromMethod(a, a.Length - 1);
  }

  /** next_permutation(first, last) as written (the scan starts at first + 1). */
  method NextPermutationAsWritten(a: array<int>) returns (r: bool)
    modifies a
    ensures (a[..], r) == NextPermutationAsWrittenSpec(old(a[..]))
  {
    if a.Length < 2 {
      return false;
    }
    r := PermuteFromMethod(a, 1);
  }

  // ------------------------------------------- properties of the permutation

  lemma SwapAndReverseTailPermutes(s: seq<int>, i: nat, j: nat)
    requires i < j < |s|
    ensures multiset(SwapAndReverseTail(s, i, j)) == multiset(s)
  {
    var t := s[i := s[j]][j := s[i]];
    SwapPermutes(s, i, j);
    ReversePermutes(t[i + 1..]);
    assert t == t[..i + 1] + t[i + 1..];
  }

  /** Both versions only rearrange the elements. */
  lemma PermuteFromPermutes(s: seq<int>, k: nat)
    requires 0 < k < |s|
    ensures multiset(PermuteFrom(s, k).0) == multiset(s)
  {
    ReversePermutes(s);
    var i := LastAscent(s, k);
    if i >= 0 {
      SwapAndReverseTailPermutes(s, i, LastAbove(s, i, |s| - 1));
    }
  }

  lemma NextPermutationPermutes(s: seq<int>)
    ensures multiset(NextPermutationSpec(s).0) == multiset(s)
  {
    if |s| >= 2 {
      var k := |s| - 1;
      PermuteFromPermutes(s, k);
    }
  }

  lemma NextPermutationAsWrittenPermutes(s: seq<int>)
    ensures multiset(NextPermutationAsWrittenSpec(s).0) == multiset(s)
  {
    if |s| >= 2 {
      PermuteFromPermutes(s, 1);
    }
  }

  /** A range shorter than two elements is left alone and the answer is false. */
  lemma NextPermutationShort(s: seq<int>)
    requires |s| < 2
    ensures NextPermutationSpec(s) == (s, false)
    ensures NextPermutationAsWrittenSpec(s) == (s, false)
  {
  }

  lemma {:induction false} LexLessCommonPrefix(p: seq<int>, x: seq<int>, y: seq<int>)
    ensures LexLess(p + x, p + y) == LexLess(x, y)
  {
    if |p| > 0 {
      LexLessStep(p + x, p + y);
      assert (p + x)[0] == p[0] == (p + y)[0];
      assert (p + x)[1..] == p[1..] + x;
      assert (p + y)[1..] == p[1..] + y;
      LexLessCommonPrefix(p[1..], x, y);
    } else {
      assert p + x == x && p + y == y;
    }
  }

  lemma TailMultiset(s: seq<int>, t: seq<int>)
    requires |s| > 0 && |t| > 0 && s[0] == t[0] && multiset(s) == multiset(t)
    ensures multiset(s[1..]) == multiset(t[1..])
  {
    assert s == [s[0]] + s[1..];
    assert t == [t[0]] + t[1..];
    assert multiset(s) == multiset{s[0]} + multiset(s[1..]);
    assert multiset(t) == multiset{t[0]} + multiset(t[1..]);
    assert multiset(s[1..]) == multiset(s) - multiset{s[0]};
    assert multiset(t[1..]) == multiset(t) - multiset{t[0]};
  }

  /** A non-increasing sequence is the greatest arrangement of its elements. */
  lemma {:induction false} NonIncreasingIsLast(s: seq<int>, t: seq<int>)
    requires NonIncreasing(s) && multiset(t) == multiset(s)
    ensures !LexLess(s, t)
  {
    assert |t| == |multiset(t)| == |s|;
    if |s| > 0 {
      LexLessStep(s, t);
      assert t[0] in multiset(s);
      var m :| 0 <= m < |s| && s[m] == t[0];
      assert s[0] >= s[m];
      if t[0] == s[0] {
        TailMultiset(s, t);
        assert NonIncreasing(s[1..]) by {
          forall p, q | 0 <= p < q < |s| - 1
            ensures s[1..][p] >= s[1..][q]
          {
            assert s[1..][p] == s[p + 1] && s[1..][q] == s[q + 1];
          }
        }
        NonIncreasingIsLast(s[1..], t[1..]);
      }
    }
  }

  /** An ascending sequence is the least arrangement of its elements. */
  lemma {:induction false} SortedIsFirst(s: seq<int>, t: seq<int>)
    requires Sorted(s) && multiset(t) == multiset(s)
    ensures !LexLess(t, s)
  {
    assert |t| == |multiset(t)| == |s|;
    if |s| > 0 {
      LexLessStep(t, s);
      assert t[0] in multiset(s);
      var m :| 0 <= m < |s| && s[m] == t[0];
      assert s[0] <= s[m];
      if t[0] == s[0] {
        TailMultiset(s, t);
        assert Sorted(s[1..]) by {
          forall p, q | 0 <= p < q < |s| - 1
            ensures s[1..][p] <= s[1..][q]
          {
            assert s[1..][p] == s[p + 1] && s[1..][q] == s[q + 1];
          }
        }
        SortedIsFirst(s[1..], t[1..]);
      }
    }
  }

  lemma {:induction false} FirstDifference(a: seq<int>, b: seq<int>) returns (p: nat)
    requires |a| == |b| && a != b
    ensures p < |a| && a[..p] == b[..p] && a[p] != b[p]
  {
    if a[0] != b[0] {
      p := 0;
    } else {
      assert a == [a[0]] + a[1..] && b == [b[0]] + b[1..];
      var q := FirstDifference(a[1..], b[1..]);
      p := q + 1;
      assert a[..p] == [a[0]] + a[1..][..q] && b[..p] == [b[0]] + b[1..][..q];
    }
  }

  /** With no ascent the range is the last permutation: the answer is false,
      no arrangement of the elements is greater, and the result is ascending. */
  lemma NextPermutationAtLast(s: seq<int>)
    ensures !NextPermutationSpec(s).1 <==> NonIncreasing(s)
    ensures !NextPermutationSpec(s).1 ==> Sorted(NextPermutationSpec(s).0)
    ensures !NextPermutationSpec(s).1 ==> forall t :: multiset(t) == multiset(s) ==> !LexLess(s, t)
  {
    if |s| >= 2 {
      var i := LastAscent(s, |s| - 1);
      if i >= 0 {
        assert s[i] < s[i + 1];
      }
    }
    if NonIncreasing(s) {
      forall t | multiset(t) == multiset(s)
        ensures !LexLess(s, t)
      {
        NonIncreasingIsLast(s, t);
      }
    }
  }

  /** The shape of the result after the ascent at i when j is the last tail
      element above s[i]: the same prefix, then s[j], which is the smallest
      tail element above s[i], then the remaining tail in ascending order. */
  lemma SwapAndReverseTailShape(s: seq<int>, i: nat, j: nat)
    requires i < j < |s| && s[i] < s[j]
    requires DescendingOn(s, i + 1, |s|)
    requires forall m :: j < m < |s| ==> s[m] <= s[i]
    ensures |SwapAndReverseTail(s, i, j)| == |s|
    ensures SwapAndReverseTail(s, i, j)[..i] == s[..i]
    ensures SwapAndReverseTail(s, i, j)[i] == s[j]
    ensures Sorted(SwapAndReverseTail(s, i, j)[i + 1..])
    ensures forall m :: i < m < |s| && s[i] < s[m] ==> s[j] <= s[m]
  {
    var t := s[i := s[j]][j := s[i]];
    var r := SwapAndReverseTail(s, i, j);
    assert r == t[..i + 1] + Reverse(t[i + 1..]);
    assert r[i + 1..] == Reverse(t[i + 1..]);
    forall p, q | i + 1 <= p < q < |s|
      ensures t[p] >= t[q]
    {
      assert s[p] >= s[q];
    }
    assert NonIncreasing(t[i + 1..]);
  }

  /** When an ascent exists the result is greater than the input. */
  lemma NextPermutationGreater(s: seq<int>)
    ensures NextPermutationSpec(s).1 ==> LexLess(s, NextPermutationSpec(s).0)
  {
    if NextPermutationSpec(s).1 {
      var i := LastAscent(s, |s| - 1);
      var j := LastAbove(s, i, |s| - 1);
      SwapAndReverseTailShape(s, i, j);
      FirstDifferenceDecides(s, SwapAndReverseTail(s, i, j), i);
    }
  }

  /** Where t leaves the common prefix of s and r first, it falls outside
      the interval between them. */
  lemma IsNextPrefixCase(s: seq<int>, t: seq<int>, r: seq<int>, i: nat)
    requires |t| == |s| == |r| && i <= |s| && r[..i] == s[..i] && t[..i] != s[..i]
    ensures LexLess(s, t) ==> !LexLess(t, r)
  {
    var p := FirstDifference(t[..i], s[..i]);
    assert t[..p] == t[..i][..p] && s[..p] == s[..i][..p] && r[..p] == r[..i][..p];
    assert t[p] == t[..i][p] && s[p] == s[..i][p] && r[p] == r[..i][p];
    FirstDifferenceDecides(s, t, p);
    FirstDifferenceDecides(t, r, p);
  }

  /** The tails from the pivot on: v of the input, w of the result, u any
      arrangement of the same elements. No u lies strictly between v and w. */
  lemma IsNextTailCase(v: seq<int>, u: seq<int>, w: seq<int>)
    requires |v| > 0 && multiset(u) == multiset(v) && multiset(w) == multiset(v)
    requires NonIncreasing(v[1..]) && Sorted(w[1..]) && v[0] < w[0]
    requires forall m :: 0 < m < |v| && v[0] < v[m] ==> w[0] <= v[m]
    ensures LexLess(v, u) ==> !LexLess(u, w)
  {
    assert |u| == |multiset(u)| == |v| && |w| == |multiset(w)| == |v|;
    LexLessStep(v, u);
    LexLessStep(u, w);
    if u[0] == v[0] {
      TailMultiset(v, u);
      NonIncreasingIsLast(v[1..], u[1..]);
    } else if v[0] < u[0] {
      assert u[0] in multiset(v);
      var m :| 0 <= m < |v| && v[m] == u[0];
      assert w[0] <= u[0];
      if u[0] == w[0] {
        TailMultiset(w, u);
        SortedIsFirst(w[1..], u[1..]);
      }
    }
  }

  lemma CommonPrefixMultiset(p: seq<int>, x: seq<int>, y: seq<int>)
    requires multiset(p + x) == multiset(p + y)
    ensures multiset(x) == multiset(y)
  {
    assert multiset(p + x) == multiset(p) + multiset(x);
    assert multiset(p + y) == multiset(p) + multiset(y);
    assert multiset(x) == multiset(p + x) - multiset(p);
    assert multiset(y) == multiset(p + y) - multiset(p);
  }

  lemma DescendingTail(s: seq<int>, lo: nat)
    requires lo <= |s| && DescendingOn(s, lo, |s|)
    ensures NonIncreasing(s[lo..])
  {
    forall p, q | 0 <= p < q < |s| - lo
      ensures s[lo..][p] >= s[lo..][q]
    {
      assert s[lo..][p] == s[lo + p] && s[lo..][q] == s[lo + q];
    }
  }

  /** Dropping a common prefix changes neither the order nor, between
      arrangements of the same elements, the multiset of what is left. */
  lemma DropCommonPrefix(s: seq<int>, t: seq<int>, i: nat)
    requires i <= |s| == |t| && t[..i] == s[..i]
    ensures LexLess(s, t) == LexLess(s[i..], t[i..])
    ensures multiset(s) == multiset(t) ==> multiset(s[i..]) == multiset(t[i..])
  {
    assert s == s[..i] + s[i..] && t == s[..i] + t[i..];
    LexLessCommonPrefix(s[..i], s[i..], t[i..]);
    if multiset(s) == multiset(t) {
      CommonPrefixMultiset(s[..i], s[i..], t[i..]);
    }
  }

  /** The tail of s from the pivot and the tail of the result, in the terms
      IsNextTailCase asks for. */
  lemma PivotTails(s: seq<int>, i: nat, j: nat, r: seq<int>)
    requires i < j < |s| && s[i] < s[j]
    requires DescendingOn(s, i + 1, |s|)
    requires forall m :: j < m < |s| ==> s[m] <= s[i]
    requires r == SwapAndReverseTail(s, i, j)
    ensures |r| == |s| && r[..i] == s[..i]
    ensures multiset(r[i..]) == multiset(s[i..])
    ensures NonIncreasing(s[i..][1..]) && Sorted(r[i..][1..]) && s[i..][0] < r[i..][0]
    ensures forall m :: 0 < m < |s[i..]| && s[i..][0] < s[i..][m] ==> r[i..][0] <= s[i..][m]
  {
    SwapAndReverseTailShape(s, i, j);
    SwapAndReverseTailPermutes(s, i, j);
    DropCommonPrefix(s, r, i);
    assert r[i..][1..] == r[i + 1..];
    DescendingTail(s, i + 1);
    assert s[i..][1..] == s[i + 1..];
    forall m | 0 < m < |s[i..]| && s[i..][0] < s[i..][m]
      ensures r[i..][0] <= s[i..][m]
    {
      assert s[i..][m] == s[i + m];
    }
  }

  /** The tail case of IsNextSwap: t keeps the prefix of s up to the pivot. */
  lemma IsNextSameUpToPivot(s: seq<int>, t: seq<int>, i: nat, j: nat)
    requires i < j < |s| && s[i] < s[j]
    requires DescendingOn(s, i + 1, |s|)
    requires forall m :: j < m < |s| ==> s[m] <= s[i]
    requires multiset(t) == multiset(s) && |t| == |s| && t[..i] == s[..i]
    ensures LexLess(s, t) ==> !LexLess(t, SwapAndReverseTail(s, i, j))
  {
    var r := SwapAndReverseTail(s, i, j);
    PivotTails(s, i, j, r);
    DropCommonPrefix(s, t, i);
    DropCommonPrefix(t, r, i);
    IsNextTailCase(s[i..], t[i..], r[i..]);
  }

  /** Swapping the pivot i with the last larger element j and reversing the
      tail gives the least arrangement greater than s. */
  lemma IsNextSwap(s: seq<int>, t: seq<int>, i: nat, j: nat)
    requires i < j < |s| && s[i] < s[j]
    requires DescendingOn(s, i + 1, |s|)
    requires forall m :: j < m < |s| ==> s[m] <= s[i]
    requires multiset(t) == multiset(s)
    ensures LexLess(s, t) ==> !LexLess(t, SwapAndReverseTail(s, i, j))
  {
    var r := SwapAndReverseTail(s, i, j);
    SwapAndReverseTailShape(s, i, j);
    assert |t| == |multiset(t)| == |s|;
    if t[..i] != s[..i] {
      IsNextPrefixCase(s, t, r, i);
    } else {
      IsNextSameUpToPivot(s, t, i, j);
    }
  }

  /** No arrangement of the elements lies strictly between the input and the
      result: next_permutation returns the next permutation in lexicographic
      order. */
  lemma NextPermutationIsNext(s: seq<int>, t: seq<int>)
    requires NextPermutationSpec(s).1 && multiset(t) == multiset(s)
    ensures LexLess(s, t) ==> !LexLess(t, NextPermutationSpec(s).0)
  {
    var i := LastAscent(s, |s| - 1);
    var j := LastAbove(s, i, |s| - 1);
    IsNextSwap(s, t, i, j);
  }

  /** As written, [1, 2, 3] becomes [3, 1, 2] although [1, 3, 2] lies
      strictly between the two; the corrected version gives [1, 3, 2]. */
  lemma NextPermutationAsWrittenSkips()
    ensures NextPermutationAsWrittenSpec([1, 2, 3]) == ([3, 1, 2], true)
    ensures LexLess([1, 2, 3], [1, 3, 2]) && LexLess([1, 3, 2], [3, 1, 2])
    ensures NextPermutationSpec([1, 2, 3]) == ([1, 3, 2], true)
  {
    AsWrittenOn123();
    CorrectedOn123();
    LexLessStep([1, 2, 3], [1, 3, 2]);
    assert [1, 2, 3][1..] == [2, 3] && [1, 3, 2][1..] == [3, 2];
    LexLessStep([2, 3], [3, 2]);
    LexLessStep([1, 3, 2], [3, 1, 2]);
  }

  lemma AsWrittenOn123()
    ensures NextPermutationAsWrittenSpec([1, 2, 3]) == ([3, 1, 2], true)
  {
    var s := [1, 2, 3];
    assert LastAscent(s, 1) == 0;
    assert LastAbove(s, 0, 2) == 2;
    PermuteFromAscent(s, 1, 0, 2);
    var t := s[0 := 3][2 := 1];
    assert t[1..] == [2, 1];
    var rt := Reverse(t[1..]);
    assert rt == [1, 2] by { assert |rt| == 2 && rt[0] == 1 && rt[1] == 2; }
    assert SwapAndReverseTail(s, 0, 2) == t[..1] + rt;
    assert t[..1] == [3];
    assert SwapAndReverseTail(s, 0, 2) == [3, 1, 2];
    assert NextPermutationAsWrittenSpec(s) == PermuteFrom(s, 1);
  }

  lemma CorrectedOn123()
    ensures NextPermutationSpec([1, 2, 3]) == ([1, 3, 2], true)
  {
    var s := [1, 2, 3];
    assert LastAscent(s, 2) == 1;
    assert LastAbove(s, 1, 2) == 2;
    PermuteFromAscent(s, 2, 1, 2);
    var t2 := s[1 := 3][2 := 2];
    var rt2 := Reverse(t2[2..]);
    assert rt2 == [2] by { assert |rt2| == 1 && rt2[0] == 2; }
    assert SwapAndReverseTail(s, 1, 2) == t2[..2] + rt2;
    assert t2[..2] == [1, 3];
    assert SwapAndReverseTail(s, 1, 2) == [1, 3, 2];
    assert NextPermutationSpec(s) == PermuteFrom(s, 2);
  }

  /** As written, [2, 1, 3] is reported as the last permutation (false, and
      reversed) although [2, 3, 1] follows it; the corrected version returns
      [2, 3, 1] and true. */
  lemma NextPermutationAsWrittenStopsEarly()
    ensures NextPermutationAsWrittenSpec([2, 1, 3]) == ([3, 1, 2], false)
    ensures NextPermutationSpec([2, 1, 3]) == ([2, 3, 1], true)
  {
    AsWrittenOn213();
    CorrectedOn213();
  }

  lemma AsWrittenOn213()
    ensures NextPermutationAsWrittenSpec([2, 1, 3]) == ([3, 1, 2], false)
  {
    var u := [2, 1, 3];
    assert LastAscent(u, 1) == -1;
    PermuteFromNoAscent(u, 1);
    var ru := Reverse(u);
    assert ru == [3, 1, 2] by { assert |ru| == 3 && ru[0] == 3 && ru[1] == 1 && ru[2] == 2; }
    assert NextPermutationAsWrittenSpec(u) == PermuteFrom(u, 1);
  }

  lemma CorrectedOn213()
    ensures NextPermutationSpec([2, 1, 3]) == ([2, 3, 1], true)
  {
    var u := [2, 1, 3];
    assert LastAscent(u, 2) == 1;
    assert LastAbove(u, 1, 2) == 2;
    PermuteFromAscent(u, 2, 1, 2);
    var t := u[1 := 3][2 := 1];
    var rt := Reverse(t[2..]);
    assert rt == [1] by { assert |rt| == 1 && rt[0] == 1; }
    assert SwapAndReverseTail(u, 1, 2) == t[..2] + rt;
    assert t[..2] == [2, 3];
    assert SwapAndReverseTail(u, 1, 2) == [2, 3, 1];
    assert NextPermutationSpec(u) == PermuteFrom(u, 2);
  }
}

=== FILE: algorithm_base.dfy ===
/** detail/algorithm_base.h: the read-only comparison loops `equal` and
    `lexicographical_compare`, written as the recursive functions they compute. */
module AlgorithmBase {

  /** equal(first1, last1, first2): walks the first range and compares each
      element with the element at the same position of the second range. */
  function Equal<T(==)>(a: seq<T>, b: seq<T>): (r: bool)
    requires |a| <= |b|
    ensures r <==> forall i :: 0 <= i < |a| ==> a[i] == b[i]
    ensures |a| == 0 ==> r
  {
    if |a| == 0 then true
    else if a[0] != b[0] then false
    else Equal(a[1..], b[1..])
  }

  /** lexicographical_compare(first1, last1, first2, last2, comp): at each
      position `comp(x, y)` answers true and `comp(y, x)` answers false; when
      one range runs out the answer is "the first ran out and the second did not". */
  function LexCompare<T>(a: seq<T>, b: seq<T>, comp: (T, T) -> bool): bool
  {
    if |a| == 0 || |b| == 0 then |a| == 0 && |b| != 0
    else if comp(a[0], b[0]) then true
    else if comp(b[0], a[0]) then false
    else LexCompare(a[1..], b[1..], comp)
  }

  /** lexicographical_compare with the default `less<>`. */
  function LexLess(a: seq<int>, b: seq<int>): bool
  {
    LexCompare(a, b, (x: int, y: int) => x < y)
  }

  /** The usual characterisation of the lexicographic order on integers:
      `a < b` iff `a` is a proper prefix of `b` or the first position at which
      they differ holds a smaller element in `a`. */
  ghost predicate LexLessSpec(a: seq<int>, b: seq<int>)
  {
    (|a| < |b| && a == b[..|a|]) ||
    exists k :: 0 <= k < |a| && k < |b| && a[..k] == b[..k] && a[k] < b[k]
  }

  /** A range never compares less than itself, whatever the element order,
      as long as `comp` is irreflexive. */
  lemma {:induction false} LexCompareIrreflexive<T>(a: seq<T>, comp: (T, T) -> bool)
    requires forall x :: !comp(x, x)
    ensures !LexCompare(a, a, comp)
  {
    if |a| > 0 {
      assert !comp(a[0], a[0]);
      LexCompareIrreflexive(a[1..], comp);
    }
  }

  /** A proper prefix compares less (the final `first1 == last1 && first2 != last2`). */
  lemma {:induction false} ProperPrefixIsLess<T>(a: seq<T>, b: seq<T>, comp: (T, T) -> bool)
    requires forall x :: !comp(x, x)
    requires |a| < |b| && a == b[..|a|]
    ensures LexCompare(a, b, comp)
  {
    if |a| > 0 {
      assert a[0] == b[0];
      assert !comp(a[0], b[0]);
      assert a[1..] == b[1..][..|a| - 1];
      ProperPrefixIsLess(a[1..], b[1..], comp);
    }
  }

  /** The first differing position decides: after a common prefix of length
      `k`, the answer is `comp(a[k], b[k])` when the two elements differ. */
  lemma {:induction false} FirstDifferenceDecides(a: seq<int>, b: seq<int>, k: nat)
    requires k < |a| && k < |b| && a[..k] == b[..k] && a[k] != b[k]
    ensures LexLess(a, b) <==> a[k] < b[k]
  {
    if k > 0 {
      assert a[0] == a[..k][0] == b[..k][0] == b[0];
      assert a[1..][..k - 1] == a[..k][1..] == b[..k][1..] == b[1..][..k - 1];
      FirstDifferenceDecides(a[1..], b[1..], k - 1);
    }
  }

  /** One step of the comparison loop on two non-empty ranges. */
  lemma LexLessStep(a: seq<int>, b: seq<int>)
    requires |a| > 0 && |b| > 0
    ensures LexLess(a, b) == (a[0] < b[0] || (a[0] == b[0] && LexLess(a[1..], b[1..])))
  {
  }

  /** `LexLess` is exactly the lexicographic order (both directions). */
  lemma {:induction false} LexLessIsLexicographic(a: seq<int>, b: seq<int>)
    ensures LexLess(a, b) <==> LexLessSpec(a, b)
  {
    if |a| == 0 || |b| == 0 {
      if |a| == 0 && |b| != 0 { assert a == b[..0]; }
    } else if a[0] < b[0] {
      assert a[..0] == b[..0];
    } else if b[0] < a[0] {
      // every common prefix of positive length starts with a[0] == b[0]
      forall k | 0 < k <= |a| && k <= |b|
        ensures a[..k] == b[..k] ==> a[0] == b[0]
      {
        assert a[..k][0] == a[0] && b[..k][0] == b[0];
      }
      assert a[..|a|] == a;
    } else {
      LexLessIsLexicographic(a[1..], b[1..]);
      if LexLessSpec(a[1..], b[1..]) {
        if |a| - 1 < |b| - 1 && a[1..] == b[1..][..|a| - 1] {
          assert a == [a[0]] + a[1..] && b[..|a|] == [b[0]] + b[1..][..|a| - 1];
        } else {
          var k :| 0 <= k < |a| - 1 && k < |b| - 1 && a[1..][..k] == b[1..][..k] && a[1..][k] < b[1..][k];
          assert a[..k + 1] == [a[0]] + a[1..][..k] && b[..k + 1] == [b[0]] + b[1..][..k];
        }
      }
      if LexLessSpec(a, b) {
        if |a| < |b| && a == b[..|a|] {
          assert a[1..] == b[1..][..|a| - 1];
        } else {
          var k :| 0 <= k < |a| && k < |b| && a[..k] == b[..k] && a[k] < b[k];
          assert k > 0;
          assert a[1..][..k - 1] == a[..k][1..] == b[..k][1..] == b[1..][..k - 1];
        }
      }
    }
  }

  // ------------------------------------------------ shared vocabulary

  /** The elements of `s` in the opposite order (what `reverse` leaves). */
  function Reverse<T>(s: seq<T>): (r: seq<T>)
    ensures |r| == |s| && forall i :: 0 <= i < |s| ==> r[i] == s[|s| - 1 - i]
  {
    if s == [] then [] else Reverse(s[1..]) + [s[0]]
  }

  lemma {:induction false} ReversePermutes<T>(s: seq<T>)
    ensures multiset(Reverse(s)) == multiset(s)
  {
    if s != [] {
      ReversePermutes(s[1..]);
      assert s == [s[0]] + s[1..];
    }
  }

  /** Exchanging two elements (iter_swap) keeps the multiset. */
  lemma SwapPermutes(s: seq<int>, i: nat, j: nat)
    requires i < |s| && j < |s|
    ensures multiset(s[i := s[j]][j := s[i]]) == multiset(s)
  {
    if i < j {
      SwapOrdered(s, i, j);
    } else if j < i {
      assert s[i := s[j]][j := s[i]] == s[j := s[i]][i := s[j]];
      SwapOrdered(s, j, i);
    }
  }

  lemma SwapOrdered(s: seq<int>, i: nat, j: nat)
    requires i < j < |s|
    ensures multiset(s[i := s[j]][j := s[i]]) == multiset(s)
  {
    var t := s[i := s[j]][j := s[i]];
    assert s == s[..i] + [s[i]] + s[i + 1..j] + [s[j]] + s[j + 1..];
    assert t == s[..i] + [s[j]] + s[i + 1..j] + [s[i]] + s[j + 1..];
  }

  /** Ascending order, as the sorting algorithms leave a range. */
  predicate Sorted(s: seq<int>)
  {
    forall i, j :: 0 <= i < j < |s| ==> s[i] <= s[j]
  }

  predicate NonIncreasing(s: seq<int>)
  {
    forall i, j :: 0 <= i < j < |s| ==> s[i] >= s[j]
  }
}

=== FILE: bit.dfy ===
/** bit.h: rotations, bit counts, powers of two and byte swapping on the
    unsigned integer types. A value of a `w`-bit unsigned type is a `nat`
    below `Pow2(w)`; shifts that drop bits are written with `%` and `/`, and
    the bitwise operators are the functions `Or`, `And` and `Not` below.
    The compiler intrinsics (clz, ctz, popcount, bswap) become the
    specification functions `Clz`, `Ctz`, `Popcount`, and byte order by `Reverse`. */
module Bit {
  import opened AlgorithmBase

  function Pow2(n: nat): (r: nat)
    ensures r >= 1
  {
    if n == 0 then 1 else 2 * Pow2(n - 1)
  }

  /** numeric_limits<T>::digits of the unsigned types bit.h accepts. */
  predicate IsDigits(w: nat)
  {
    w == 8 || w == 16 || w == 32 || w == 64
  }

  /** numeric_limits<T>::max(). */
  function MaxOf(w: nat): nat
  {
    Pow2(w) - 1
  }

  // ---------------------------------------------------------------- arithmetic

  lemma {:induction false} Pow2Add(a: nat, b: nat)
    ensures Pow2(a + b) == Pow2(a) * Pow2(b)
  {
    if a > 0 {
      Pow2Add(a - 1, b);
      assert Pow2(a + b) == 2 * Pow2(a - 1 + b);
    }
  }

  /** Powers of two are ordered as their exponents. */
  lemma Pow2Increasing(a: nat, b: nat)
    ensures Pow2(a) < Pow2(b) ==> a < b
  {
    if a >= b {
      Pow2Monotone(b, a);
    }
  }

  lemma {:induction false} Pow2Monotone(a: nat, b: nat)
    requires a <= b
    ensures Pow2(a) <= Pow2(b)
  {
    if a < b {
      Pow2Monotone(a, b - 1);
    }
  }

  lemma {:induction false} MulAtLeast(m: nat, x: nat)
    requires x >= 1
    ensures m * x >= m
  {
    if x > 1 {
      MulAtLeast(m, x - 1);
      assert m * x == m * (x - 1) + m;
    }
  }

  lemma MulSign(m: nat, x: int)
    ensures x >= 1 ==> m * x >= m
    ensures x <= -1 ==> m * x + m <= 0
  {
    if x >= 1 { MulAtLeast(m, x); }
    if x <= -1 { MulAtLeast(m, -x); assert m * x == -(m * -x); }
  }

  /** Division with remainder is unique. */
  lemma DivModUnique(q: int, b: nat, m: nat)
    requires b < m
    ensures (q * m + b) / m == q && (q * m + b) % m == b
  {
    var t := q * m + b;
    var d, e := t / m, t % m;
    assert t == d * m + e;
    MulSign(m, d - q);
    assert m * (d - q) == d * m - q * m;
  }

  lemma MulLess(a: nat, b: nat, c: nat)
    requires a < b && c > 0
    ensures a * c < b * c
  {
    assert a * c <= (b - 1) * c;
  }

  // ---------------------------------------------------------------- bitwise operators

  /** x | y, bit by bit from the least significant end. */
  function Or(x: nat, y: nat): nat
    decreases x + y
  {
    if x == 0 && y == 0 then 0
    else 2 * Or(x / 2, y / 2) + (if x % 2 == 1 || y % 2 == 1 then 1 else 0)
  }

  /** x & y, bit by bit from the least significant end. */
  function And(x: nat, y: nat): nat
    decreases x + y
  {
    if x == 0 || y == 0 then 0
    else 2 * And(x / 2, y / 2) + (if x % 2 == 1 && y % 2 == 1 then 1 else 0)
  }

  /** ~x on a w-bit type. */
  function Not(x: nat, w: nat): (r: nat)
    requires x < Pow2(w)
    ensures r < Pow2(w) && x + r == MaxOf(w)
  {
    MaxOf(w) - x
  }

  /** x << k on a w-bit type: the bits shifted past the top are dropped. */
  function Shl(x: nat, k: nat, w: nat): (r: nat)
    ensures r < Pow2(w)
  {
    (x * Pow2(k)) % Pow2(w)
  }

  /** x >> k. */
  function Shr(x: nat, k: nat): nat
  {
    var p := Pow2(k);
    DivNonNegative(x, p);
    x / p
  }

  lemma DivNonNegative(x: nat, p: nat)
    requires p >= 1
    ensures x / p >= 0
  {
  }

  lemma {:induction false} OrZero(x: nat)
    ensures Or(x, 0) == x
    decreases x
  {
    if x > 0 {
      OrZero(x / 2);
    }
  }

  /** `|` of two values whose set bits do not overlap is their sum: `y` lives
      below bit `k` and `x` has no bit below `k`. */
  lemma {:induction false} OrDisjoint(x: nat, y: nat, k: nat)
    requires x % Pow2(k) == 0 && y < Pow2(k)
    ensures Or(x, y) == x + y
    decreases k
  {
    if k == 0 {
      OrZero(x);
    } else {
      HalveMultiple(x, k);
      HalveBelow(y, k);
      OrDisjoint(x / 2, y / 2, k - 1);
      if x == 0 && y == 0 {
      } else {
        assert Or(x, y) == 2 * (x / 2 + y / 2) + (if y % 2 == 1 then 1 else 0);
      }
    }
  }

  /** A multiple of 2^k, k > 0, is even and its half is a multiple of 2^(k-1). */
  lemma HalveMultiple(x: nat, k: nat)
    requires k > 0 && x % Pow2(k) == 0
    ensures x % 2 == 0 && (x / 2) % Pow2(k - 1) == 0
  {
    var p := Pow2(k - 1);
    assert Pow2(k) == 2 * p;
    var q := x / Pow2(k);
    DivModUnique(q, 0, Pow2(k));
    assert x == q * Pow2(k) == (q * p) * 2;
    DivModUnique(q * p, 0, 2);
    DivModUnique(q, 0, p);
  }

  lemma HalveBelow(y: nat, k: nat)
    requires k > 0 && y < Pow2(k)
    ensures y / 2 < Pow2(k - 1)
  {
    assert Pow2(k) == 2 * Pow2(k - 1);
  }

  // ---------------------------------------------------------------- rotations

  /** The rotation count `s % digits`: `digits` is `unsigned int`, so the `int`
      count is first converted to a 32-bit unsigned value. */
  function RotCount(s: int, w: nat): (r: nat)
    requires IsDigits(w)
    ensures r < w
  {
    (s % 0x1_0000_0000) % w
  }

  /** Because every digit count divides 2^32, the conversion does not change
      the rotation: rotating by `s` is rotating by `s` modulo the width. */
  lemma RotCountIsModulo(s: int, w: nat)
    requires IsDigits(w)
    ensures RotCount(s, w) == s % w
  {
    assert 0x1_0000_0000 % w == 0 by {
      if w == 8 {
      } else if w == 16 {
      } else if w == 32 {
      } else {
      }
    }
    ModOfMod(s, 0x1_0000_0000, w);
  }

  /** Reducing modulo a multiple of w first does not change the residue. */
  lemma ModOfMod(s: int, m: nat, w: nat)
    requires w > 0 && m > 0 && m % w == 0
    ensures (s % m) % w == s % w
  {
    var q, k := s / m, m / w;
    assert m == k * w;
    assert s == q * m + s % m;
    assert q * m == (q * k) * w by { assert q * (k * w) == (q * k) * w; }
    ModAddMultiple(q * k, s % m, w);
  }

  lemma ModAddMultiple(a: int, r: int, w: nat)
    requires w > 0
    ensures (a * w + r) % w == r % w
  {
    var t, rr := r / w, r % w;
    assert r == t * w + rr;
    assert a * w + r == (a + t) * w + rr;
    DivModUnique(a + t, rr, w);
  }

  /** rotl(x, s) */
  function Rotl(x: nat, s: int, w: nat): (r: nat)
    requires IsDigits(w) && x < Pow2(w)
  {
    var c := RotCount(s, w);
    if c == 0 then x else Or(Shl(x, c, w), Shr(x, w - c))
  }

  /** rotr(x, s) */
  function Rotr(x: nat, s: int, w: nat): (r: nat)
    requires IsDigits(w) && x < Pow2(w)
  {
    var c := RotCount(s, w);
    if c == 0 then x else Or(Shr(x, c), Shl(x, w - c, w))
  }

  lemma MulLe(a: nat, b: nat, c: nat)
    requires a <= b
    ensures a * c <= b * c
  {
    MulSign(c, b - a);
    assert b * c - a * c == c * (b - a);
  }

  /** x = hi * P + lo split at P, then shifted by Q. */
  lemma SplitShift(hi: nat, lo: nat, P: nat, Q: nat)
    requires lo < P && hi < Q
    ensures ((hi * P + lo) * Q) % (P * Q) == lo * Q
    ensures (hi * P + lo) / P == hi && (hi * P + lo) % P == lo
    ensures lo * Q + hi < P * Q
    ensures (lo * Q + hi) / Q == lo && (lo * Q + hi) % Q == hi
  {
    ShiftedMod(hi, lo, P, Q);
    DivModUnique(hi, lo, P);
    DivModUnique(lo, hi, Q);
    SwappedBound(hi, lo, P, Q);
  }

  lemma ShiftedMod(hi: nat, lo: nat, P: nat, Q: nat)
    requires lo < P && hi < Q
    ensures ((hi * P + lo) * Q) % (P * Q) == lo * Q
  {
    var W := P * Q;
    assert (hi * P + lo) * Q == hi * W + lo * Q by {
      assert (hi * P + lo) * Q == (hi * P) * Q + lo * Q;
      assert (hi * P) * Q == hi * (P * Q);
    }
    MulLess(lo, P, Q);
    DivModUnique(hi, lo * Q, W);
  }

  lemma SwappedBound(hi: nat, lo: nat, P: nat, Q: nat)
    requires lo < P && hi < Q
    ensures lo * Q + hi < P * Q
  {
    MulLe(lo, P - 1, Q);
    assert (P - 1) * Q == P * Q - Q;
  }

  /** The high part of x < P * Q split at P is below Q. */
  lemma SplitBound(x: nat, P: nat, Q: nat)
    requires 0 < P && x < P * Q
    ensures x / P < Q && x == (x / P) * P + x % P && x % P < P
  {
    if x / P >= Q {
      MulLe(Q, x / P, P);
    }
  }

  /** Rotation arithmetic without powers of two: x < P * Q split at P. */
  lemma RotateParts(x: nat, P: nat, Q: nat)
    requires P > 0 && Q > 0 && x < P * Q
    ensures (x * Q) % (P * Q) == (x % P) * Q
    ensures (x % P) * Q + x / P < P * Q
    ensures x / P < Q
    ensures ((x % P) * Q) % Q == 0
    ensures ((x % P) * Q + x / P) / Q == x % P && ((x % P) * Q + x / P) % Q == x / P
  {
    SplitBound(x, P, Q);
    SplitShift(x / P, x % P, P, Q);
    DivModUnique(x % P, 0, Q);
  }

  /** Splitting x at bit `w - k` and putting the low part on top. */
  lemma SwapHalves(x: nat, k: nat, w: nat)
    requires 0 < k < w && x < Pow2(w)
    ensures Or(Shl(x, k, w), Shr(x, w - k)) == (x % Pow2(w - k)) * Pow2(k) + x / Pow2(w - k)
    ensures Or(Shr(x, w - k), Shl(x, k, w)) == (x % Pow2(w - k)) * Pow2(k) + x / Pow2(w - k)
    ensures (x % Pow2(w - k)) * Pow2(k) + x / Pow2(w - k) < Pow2(w)
  {
    var P, Q := Pow2(w - k), Pow2(k);
    Pow2Add(w - k, k);
    assert w - k + k == w;
    assert Pow2(w) == P * Q;
    RotateParts(x, P, Q);
    OrDisjoint((x % P) * Q, x / P, k);
    OrCommutes((x % P) * Q, x / P);
  }

  lemma {:induction false} OrCommutes(x: nat, y: nat)
    ensures Or(x, y) == Or(y, x)
    decreases x + y
  {
    if x != 0 || y != 0 {
      OrCommutes(x / 2, y / 2);
    }
  }

  /** rotl with a count that is a multiple of the width returns x. */
  lemma RotlByMultipleOfWidth(x: nat, s: int, w: nat)
    requires IsDigits(w) && x < Pow2(w) && s % w == 0
    ensures Rotl(x, s, w) == x && Rotr(x, s, w) == x
  {
    RotCountIsModulo(s, w);
  }

  /** rotr with a non-zero count c moves the low c bits to the top. */
  lemma RotrValue(y: nat, s: int, w: nat, c: nat)
    requires IsDigits(w) && y < Pow2(w) && c == RotCount(s, w) && c != 0
    ensures Rotr(y, s, w) == (y % Pow2(c)) * Pow2(w - c) + y / Pow2(c)
  {
    SwapHalves(y, w - c, w);
    assert w - (w - c) == c;
  }

  /** rotl with a non-zero count c moves the high c bits to the bottom. */
  lemma RotlValue(x: nat, s: int, w: nat, c: nat)
    requires IsDigits(w) && x < Pow2(w) && c == RotCount(s, w) && c != 0
    ensures Rotl(x, s, w) == (x % Pow2(w - c)) * Pow2(c) + x / Pow2(w - c)
    ensures Rotl(x, s, w) < Pow2(w)
  {
    SwapHalves(x, c, w);
  }

  /** Swapping the halves twice gives x back. */
  lemma SwapTwice(x: nat, P: nat, Q: nat)
    requires P > 0 && Q > 0 && x < P * Q
    ensures ((x % P) * Q + x / P) < P * Q
    ensures (((x % P) * Q + x / P) % Q) * P + ((x % P) * Q + x / P) / Q == x
  {
    RotateParts(x, P, Q);
  }

  /** rotr undoes rotl: rotr(rotl(x, s), s) == x. */
  lemma RotrUndoesRotl(x: nat, s: int, w: nat)
    requires IsDigits(w) && x < Pow2(w)
    ensures Rotl(x, s, w) < Pow2(w)
    ensures Rotr(Rotl(x, s, w), s, w) == x
  {
    var c := RotCount(s, w);
    if c != 0 {
      WidthSplits(w, c);
      RotlValue(x, s, w, c);
      RotrValue(Rotl(x, s, w), s, w, c);
      SwapBack(x, Rotl(x, s, w), Rotr(Rotl(x, s, w), s, w), Pow2(w - c), Pow2(c));
    }
  }

  lemma WidthSplits(w: nat, c: nat)
    requires c <= w
    ensures Pow2(w) == Pow2(w - c) * Pow2(c)
  {
    Pow2Add(w - c, c);
    assert w - c + c == w;
  }

  /** The two halves swapped and swapped back. */
  lemma SwapBack(x: nat, y: nat, z: nat, P: nat, Q: nat)
    requires P > 0 && Q > 0 && x < P * Q
    requires y == (x % P) * Q + x / P
    requires z == (y % Q) * P + y / Q
    ensures z == x
  {
    SwapTwice(x, P, Q);
  }

  // ---------------------------------------------------------------- counting

  /** Number of significant bits of x (0 for 0). */
  function BitLength(x: nat): nat
  {
    if x == 0 then 0 else 1 + BitLength(x / 2)
  }

  lemma {:induction false} BitLengthBounds(x: nat)
    ensures x < Pow2(BitLength(x))
    ensures x > 0 ==> Pow2(BitLength(x) - 1) <= x
  {
    if x > 0 {
      BitLengthBounds(x / 2);
    }
  }

  /** A value below 2^w has at most w significant bits. */
  lemma {:induction false} BitLengthAtMost(x: nat, w: nat)
    requires x < Pow2(w)
    ensures BitLength(x) <= w
  {
    if x > 0 {
      BitLengthBounds(x);
      if BitLength(x) > w {
        Pow2Monotone(w, BitLength(x) - 1);
        assert false;
      }
    }
  }

  /** The clz intrinsic on a `d`-bit operand (undefined for 0). */
  function Clz(y: nat, d: nat): nat
    requires 0 < y < Pow2(d)
  {
    BitLengthAtMost(y, d);
    d - BitLength(y)
  }

  /** The ctz intrinsic (undefined for 0). */
  function Ctz(y: nat): nat
    requires y > 0
  {
    if y % 2 == 1 then 0 else 1 + Ctz(y / 2)
  }

  /** The popcount intrinsic. */
  function Popcount(y: nat): nat
  {
    if y == 0 then 0 else y % 2 + Popcount(y / 2)
  }

  /** Width of the intrinsic's operand: `unsigned int` for types up to 32
      bits, `unsigned long` (64 bits) otherwise. */
  function IntrinsicDigits(w: nat): nat
  {
    if w <= 32 then 32 else 64
  }

  /** countl_zero(x) */
  function CountlZero(x: nat, w: nat): (r: nat)
    requires IsDigits(w) && x < Pow2(w)
    ensures r == w - BitLength(x)
    ensures x == 0 ==> r == w
    ensures x > 0 ==> r < w
  {
    if x == 0 then w else NarrowedClz(x, w)
  }

  /** countl_zero locates the top set bit: x lies between the two powers of
      two around bit `w - countl_zero(x)`. */
  lemma CountlZeroBounds(x: nat, w: nat)
    requires IsDigits(w) && x < Pow2(w)
    ensures x < Pow2(w - CountlZero(x, w))
    ensures x > 0 ==> Pow2(w - CountlZero(x, w) - 1) <= x
  {
    BitLengthAtMost(x, w);
    BitLengthBounds(x);
    TopBit(x, w - CountlZero(x, w));
  }

  lemma TopBit(x: nat, b: nat)
    requires b == BitLength(x)
    requires x < Pow2(BitLength(x))
    requires x > 0 ==> Pow2(BitLength(x) - 1) <= x
    ensures x < Pow2(b) && (x > 0 ==> Pow2(b - 1) <= x)
  {
  }

  /** The intrinsic applied to the value widened to `IntrinsicDigits(w)`
      bits, less the extra leading zeros that widening adds. */
  function NarrowedClz(x: nat, w: nat): (r: nat)
    requires IsDigits(w) && 0 < x < Pow2(w)
    ensures r == w - BitLength(x) && r < w
  {
    ClzNarrowed(x, w);
    Clz(x, IntrinsicDigits(w)) - (IntrinsicDigits(w) - w)
  }

  /** clz on the wider intrinsic operand counts d - w extra zeros. */
  lemma ClzNarrowed(x: nat, w: nat)
    requires IsDigits(w) && 0 < x < Pow2(w)
    ensures x < Pow2(IntrinsicDigits(w))
    ensures IntrinsicDigits(w) - w <= Clz(x, IntrinsicDigits(w)) < IntrinsicDigits(w)
    ensures Clz(x, IntrinsicDigits(w)) - (IntrinsicDigits(w) - w) == w - BitLength(x)
  {
    Pow2Monotone(w, IntrinsicDigits(w));
    BitLengthAtMost(x, w);
    BitLengthBounds(x);
  }

  /** countl_one(x) */
  function CountlOne(x: nat, w: nat): (r: nat)
    requires IsDigits(w) && x < Pow2(w)
    ensures r <= w
    ensures x == MaxOf(w) ==> r == w
  {
    if x != MaxOf(w) then CountlZero(Not(x, w), w) else w
  }

  /** countl_one(x) counts the leading ones: the top r bits of x are set
      and, below a full word, the next bit is clear. */
  lemma CountlOneBounds(x: nat, w: nat)
    requires IsDigits(w) && x < Pow2(w)
    ensures Pow2(w) - Pow2(w - CountlOne(x, w)) <= x
    ensures CountlOne(x, w) < w ==> x < Pow2(w) - Pow2(w - CountlOne(x, w) - 1)
  {
    if x != MaxOf(w) {
      var y := Not(x, w);
      CountlZeroBounds(y, w);
      OnesFromZeros(x, w, y, CountlZero(y, w));
    }
  }

  /** The leading ones of x are the leading zeros of its complement y. */
  lemma OnesFromZeros(x: nat, w: nat, y: nat, r: nat)
    requires x + y == Pow2(w) - 1 && y > 0 && r < w
    requires y < Pow2(w - r) && Pow2(w - r - 1) <= y
    ensures Pow2(w) - Pow2(w - r) <= x
    ensures x < Pow2(w) - Pow2(w - r - 1)
  {
  }

  /** countr_zero(x) */
  function CountrZero(x: nat, w: nat): (r: nat)
    requires IsDigits(w) && x < Pow2(w)
    ensures x == 0 ==> r == w
  {
    if x == 0 then w else Ctz(x)
  }

  /** The trailing-zero count of a non-zero x is the exponent of the largest
      power of two dividing x. */
  lemma {:induction false} CtzSplits(x: nat)
    requires x > 0
    ensures x % Pow2(Ctz(x)) == 0 && (x / Pow2(Ctz(x))) % 2 == 1
  {
    if x % 2 == 0 {
      CtzSplits(x / 2);
      var k := Ctz(x / 2);
      var q := (x / 2) / Pow2(k);
      assert x / 2 == q * Pow2(k);
      assert x == q * Pow2(k + 1);
      DivModUnique(q, 0, Pow2(k + 1));
    }
  }

  /** countr_one(x) */
  function CountrOne(x: nat, w: nat): (r: nat)
    requires IsDigits(w) && x < Pow2(w)
    ensures x == MaxOf(w) ==> r == w
  {
    if x != MaxOf(w) then CountrZero(Not(x, w), w) else w
  }

  /** countr_one(x) counts the trailing ones: the low r bits of x are set
      and, below a full word, bit r is clear. */
  lemma CountrOneBounds(x: nat, w: nat)
    requires IsDigits(w) && x < Pow2(w)
    ensures CountrOne(x, w) <= w
    ensures x % Pow2(CountrOne(x, w)) == Pow2(CountrOne(x, w)) - 1
    ensures CountrOne(x, w) < w ==> (x / Pow2(CountrOne(x, w))) % 2 == 0
  {
    hide IsDigits;
    if x == MaxOf(w) {
      DivModUnique(0, x, Pow2(w));
    } else {
      TrailingOnesOfComplement(x, w);
    }
  }

  /** Below the all-ones value, the trailing zeros of ~x are the trailing
      ones of x. */
  lemma TrailingOnesOfComplement(x: nat, w: nat)
    requires x < MaxOf(w)
    ensures Ctz(MaxOf(w) - x) < w
    ensures x % Pow2(Ctz(MaxOf(w) - x)) == Pow2(Ctz(MaxOf(w) - x)) - 1
    ensures (x / Pow2(Ctz(MaxOf(w) - x))) % 2 == 0
  {
    var y := MaxOf(w) - x;
    var k := Ctz(y);
    CtzSplits(y);
    var p := Pow2(k);
    var q: nat := y / p;
    ExactMultiple(y, p);
    if k >= w {
      Pow2Monotone(w, k);
      MulAtLeast(p, q);
      assert false;
    }
    Pow2Add(w - k, k);
    var h := Pow2(w - k - 1);
    assert Pow2(w - k) == 2 * h;
    TrailingOnes(x, y, p, q, h);
  }

  lemma ExactMultiple(y: nat, p: nat)
    requires p > 0 && y % p == 0
    ensures y == (y / p) * p
  {
  }

  /** x + y == 2h p - 1 with y an odd multiple q of p: x is p - 1 above
      an even multiple of p. */
  lemma TrailingOnes(x: nat, y: nat, p: nat, q: nat, h: nat)
    requires p >= 1 && h >= 1 && q % 2 == 1
    requires y == q * p && x + y == (2 * h) * p - 1
    ensures x % p == p - 1 && (x / p) % 2 == 0
  {
    var m := 2 * h;
    if q >= m {
      MulLe(m, q, p);
      assert false;
    }
    assert x == (m - q - 1) * p + (p - 1);
    DivModUnique(m - q - 1, p - 1, p);
  }

  /** popcount(x) */
  function PopCount(x: nat, w: nat): (r: nat)
    requires IsDigits(w) && x < Pow2(w)
  {
    Popcount(x)
  }

  /** A value and its complement have w set bits between them. */
  lemma {:induction false} PopcountComplement(x: nat, w: nat)
    requires x < Pow2(w)
    ensures Popcount(x) + Popcount(Pow2(w) - 1 - x) == w
  {
    if w > 0 {
      ComplementHalves(x, w);
      PopcountComplement(x / 2, w - 1);
    }
  }

  /** Halving a value and its complement: the low bits are opposite and
      the halves are complements one bit narrower. */
  lemma ComplementHalves(x: nat, w: nat)
    requires w > 0 && x < Pow2(w)
    ensures x / 2 < Pow2(w - 1)
    ensures (Pow2(w) - 1 - x) / 2 == Pow2(w - 1) - 1 - x / 2
    ensures (Pow2(w) - 1 - x) % 2 + x % 2 == 1
  {
    assert Pow2(w) == 2 * Pow2(w - 1);
  }

  // ---------------------------------------------------------------- powers of two

  predicate IsPow2(x: nat)
  {
    if x <= 1 then x == 1 else x % 2 == 0 && IsPow2(x / 2)
  }

  lemma {:induction false} Pow2IsPow2(k: nat)
    ensures IsPow2(Pow2(k))
  {
    if k > 0 {
      Pow2IsPow2(k - 1);
      assert Pow2(k) / 2 == Pow2(k - 1);
    }
  }

  /** Every power of two is 2^e for some e. */
  lemma {:induction false} Pow2Exponent(x: nat) returns (e: nat)
    requires IsPow2(x)
    ensures Pow2(e) == x
  {
    if x == 1 {
      e := 0;
    } else {
      var e' := Pow2Exponent(x / 2);
      e := e' + 1;
    }
  }

  /** has_single_bit(x): x != 0 && (x & (x - 1)) == 0. */
  function HasSingleBit(x: nat, w: nat): (r: bool)
    requires IsDigits(w) && x < Pow2(w)
    ensures r <==> IsPow2(x)
  {
    if x != 0 then SingleBitTest(x); And(x, x - 1) == 0 else false
  }

  /** The classic test: clearing the lowest set bit leaves 0 exactly for a
      power of two. */
  lemma {:induction false} SingleBitTest(x: nat)
    requires x > 0
    ensures And(x, x - 1) == 0 <==> IsPow2(x)
  {
    if x > 1 {
      if x % 2 == 0 {
        // x = 2y, x - 1 = 2(y - 1) + 1
        assert And(x, x - 1) == 2 * And(x / 2, x / 2 - 1);
        SingleBitTest(x / 2);
      } else {
        // x = 2y + 1, x - 1 = 2y
        AndSelf(x / 2);
        assert And(x, x - 1) == 2 * And(x / 2, x / 2);
      }
    }
  }

  lemma {:induction false} AndSelf(x: nat)
    ensures And(x, x) == x
    decreases x
  {
    if x > 0 {
      AndSelf(x / 2);
    }
  }

  /** bit_width(x) = digits - countl_zero(x). */
  function BitWidth(x: nat, w: nat): (r: nat)
    requires IsDigits(w) && x < Pow2(w)
    ensures r <= w && x < Pow2(r)
    ensures x > 0 ==> Pow2(r - 1) <= x
  {
    CountlZeroBounds(x, w);
    w - CountlZero(x, w)
  }

  /** bit_floor(x) */
  function BitFloor(x: nat, w: nat): (r: nat)
    requires IsDigits(w) && x < Pow2(w)
    ensures x == 0 ==> r == 0
    ensures x > 0 ==> IsPow2(r) && r <= x < 2 * r
  {
    if x != 0 then
      BitFloorValue(x, w);
      Shl(1, BitWidth(x, w) - 1, w)
    else 0
  }

  /** The value bit_floor computes is the power of two at x's top bit. */
  lemma BitFloorValue(x: nat, w: nat)
    requires IsDigits(w) && 0 < x < Pow2(w)
    ensures 1 <= BitWidth(x, w) <= w
    ensures Shl(1, BitWidth(x, w) - 1, w) == Pow2(BitWidth(x, w) - 1)
    ensures IsPow2(Pow2(BitWidth(x, w) - 1))
    ensures Pow2(BitWidth(x, w) - 1) <= x < 2 * Pow2(BitWidth(x, w) - 1)
  {
    var b := BitWidth(x, w);
    Pow2IsPow2(b - 1);
    ShlOne(b - 1, w);
    assert Pow2(b) == 2 * Pow2(b - 1);
  }

  /** 1 << b on a w-bit type, for b below w. */
  lemma ShlOne(b: nat, w: nat)
    requires b < w
    ensures Shl(1, b, w) == Pow2(b)
  {
    Pow2Monotone(b + 1, w);
    DivModUnique(0, Pow2(b), Pow2(w));
  }

  /** (1 << k) >> o on a d-bit type, for k = b + o below d. */
  lemma ShlShr(b: nat, o: nat, k: nat, d: nat)
    requires k == b + o && k < d
    ensures Shr(Shl(1, k, d), o) == Pow2(b)
  {
    ShlOne(k, d);
    Pow2Add(b, o);
    DivModUnique(Pow2(b), 0, Pow2(o));
  }

  lemma ModSmallPow2(b: nat, w: nat)
    requires b < w
    ensures Pow2(b) % Pow2(w) == Pow2(b)
  {
    Pow2Monotone(b + 1, w);
    DivModUnique(0, Pow2(b), Pow2(w));
  }

  lemma ModEq(x: nat, y: nat, m: nat)
    requires m > 0 && x == y && y % m == y
    ensures x % m == y
  {
  }

  /** The narrow-type path of bit_ceil: 1u << (b + offset) >> offset, in
      d-bit arithmetic, then converted to the w-bit type. */
  lemma NarrowShiftIsPow2(b: nat, w: nat, d: nat)
    requires b < w < d
    ensures Shr(Shl(1, b + (d - w), d), d - w) % Pow2(w) == Pow2(b)
  {
    NarrowShift(b, w, d);
    ModSmallPow2(b, w);
    ModEq(Shr(Shl(1, b + (d - w), d), d - w), Pow2(b), Pow2(w));
  }

  lemma NarrowShift(b: nat, w: nat, d: nat)
    requires b < w < d
    ensures Shr(Shl(1, b + (d - w), d), d - w) == Pow2(b)
  {
    ShlShr(b, d - w, b + (d - w), d);
  }

  /** bit_ceil(x). The shift is only defined while the result fits the type,
      so callers must keep x at most the largest power of two of the type.
      Types narrower than `unsigned int` are shifted in 32-bit arithmetic with
      an offset that keeps the intermediate value in range. */
  function BitCeil(x: nat, w: nat): (r: nat)
    requires IsDigits(w) && x <= Pow2(w - 1)
    ensures IsPow2(r) && x <= r
    ensures x >= 2 ==> r < 2 * x
    ensures x <= 1 ==> r == 1
  {
    if x < 2 then 1
    else
      var b := BitWidth(x - 1, w);
      BitCeilWidth(x, w);
      if w >= 32 then
        ShlOne(b, w);
        Shl(1, b, w)
      else
        NarrowShiftIsPow2(b, w, 32);
        Shr(Shl(1, b + (32 - w), 32), 32 - w) % Pow2(w)
  }

  /** The width of x - 1 is the exponent of the power of two bit_ceil returns. */
  lemma BitCeilWidth(x: nat, w: nat)
    requires IsDigits(w) && 2 <= x <= Pow2(w - 1)
    ensures BitWidth(x - 1, w) < w
    ensures IsPow2(Pow2(BitWidth(x - 1, w)))
    ensures x <= Pow2(BitWidth(x - 1, w)) < 2 * x
  {
    var b := BitWidth(x - 1, w);
    assert b >= 1;
    Pow2Succ(b);
    if b == w {
      Pow2Succ(w);
      assert false;
    }
    Pow2IsPow2(b);
  }

  lemma Pow2Succ(k: nat)
    requires k >= 1
    ensures Pow2(k) == 2 * Pow2(k - 1)
  {
  }

  // ---------------------------------------------------------------- byteswap

  /** Little-endian bytes of x, n of them. */
  function ToBytes(x: nat, n: nat): (bs: seq<nat>)
    ensures |bs| == n && forall i :: 0 <= i < n ==> bs[i] < 256
  {
    if n == 0 then [] else [x % 256] + ToBytes(x / 256, n - 1)
  }

  function FromBytes(bs: seq<nat>): nat
  {
    if |bs| == 0 then 0 else bs[0] + 256 * FromBytes(bs[1..])
  }

  lemma {:induction false} FromToBytes(x: nat, n: nat)
    requires x < Pow2(8 * n)
    ensures FromBytes(ToBytes(x, n)) == x
  {
    if n > 0 {
      Pow2Add(8, 8 * (n - 1));
      assert Pow2(8) == 256;
      assert x / 256 < Pow2(8 * (n - 1));
      FromToBytes(x / 256, n - 1);
    } else {
      assert x == 0;
    }
  }

  /** One more byte in front: the value grows by a factor of 256. */
  lemma ToBytesCons(b0: nat, rest: nat, n: nat)
    requires b0 < 256
    ensures ToBytes(rest * 256 + b0, n + 1) == [b0] + ToBytes(rest, n)
  {
    DivModUnique(rest, b0, 256);
  }

  lemma FromBytesBoundStep(b0: nat, rest: nat, n: nat)
    requires b0 < 256 && rest < Pow2(8 * n)
    ensures rest * 256 + b0 < Pow2(8 * (n + 1))
  {
    Pow2Add(8, 8 * n);
    assert 8 + 8 * n == 8 * (n + 1);
    assert Pow2(8) == 256;
    SwappedBound(b0, rest, Pow2(8 * n), 256);
  }

  lemma {:induction false} ToFromBytes(bs: seq<nat>)
    requires forall i :: 0 <= i < |bs| ==> bs[i] < 256
    ensures ToBytes(FromBytes(bs), |bs|) == bs
    ensures FromBytes(bs) < Pow2(8 * |bs|)
  {
    if |bs| > 0 {
      var n := |bs| - 1;
      ToFromBytes(bs[1..]);
      var rest := FromBytes(bs[1..]);
      assert FromBytes(bs) == rest * 256 + bs[0];
      ToBytesCons(bs[0], rest, n);
      FromBytesBoundStep(bs[0], rest, n);
      assert bs == [bs[0]] + bs[1..];
    }
  }

  /** Number of bytes of the unsigned types byteswap accepts. */
  predicate IsByteCount(n: nat)
  {
    n == 1 || n == 2 || n == 4 || n == 8
  }

  /** byteswap(x) on an n-byte type; the bswap16/32/64 intrinsics reverse the
      byte order. */
  function Byteswap(x: nat, n: nat): (r: nat)
    requires IsByteCount(n) && x < Pow2(8 * n)
    ensures r < Pow2(8 * n)
    ensures ToBytes(r, n) == Reverse(ToBytes(x, n))
  {
    if n == 1 then
      assert ToBytes(x, 1) == Reverse(ToBytes(x, 1));
      FromToBytes(x, 1);
      x
    else
      ToFromBytes(Reverse(ToBytes(x, n)));
      FromBytes(Reverse(ToBytes(x, n)))
  }

  /** byteswap is an involution. */
  lemma ByteswapTwice(x: nat, n: nat)
    requires IsByteCount(n) && x < Pow2(8 * n)
    ensures Byteswap(Byteswap(x, n), n) == x
  {
    var y := Byteswap(x, n);
    var z := Byteswap(y, n);
    ReverseTwice(ToBytes(x, n));
    assert ToBytes(z, n) == ToBytes(x, n);
    FromToBytes(z, n);
    FromToBytes(x, n);
  }

  lemma ReverseTwice(bs: seq<nat>)
    ensures Reverse(Reverse(bs)) == bs
  {
  }

  // ---------------------------------------------------------------- low-bit masks

  /** x & (2^k - 1) keeps the low `k` bits of x. */
  lemma {:induction false} AndLowBits(x: nat, k: nat)
    ensures And(x, Pow2(k) - 1) == x % Pow2(k)
  {
    if k > 0 && x > 0 {
      hide *;
      AndHalves(x, k);
      AndLowBits(x / 2, k - 1);
      ModHalves(x, k);
      assert And(x, Pow2(k) - 1) == x % Pow2(k);
    } else if k == 0 {
      DivModUnique(x, 0, 1);
    } else {
      DivModUnique(0, 0, Pow2(k));
    }
  }

  lemma AndHalves(x: nat, k: nat)
    requires k > 0 && x > 0
    ensures And(x, Pow2(k) - 1) == 2 * And(x / 2, Pow2(k - 1) - 1) + x % 2
  {
    assert (Pow2(k) - 1) / 2 == Pow2(k - 1) - 1 && (Pow2(k) - 1) % 2 == 1;
  }

  lemma ModHalves(x: nat, k: nat)
    requires k > 0
    ensures x % Pow2(k) == 2 * ((x / 2) % Pow2(k - 1)) + x % 2
  {
    var p := Pow2(k - 1);
    var q := (x / 2) / p;
    var rem := 2 * ((x / 2) % p) + x % 2;
    assert x / 2 == q * p + (x / 2) % p;
    assert x == 2 * (x / 2) + x % 2;
    assert x == q * (2 * p) + rem;
    DivModUnique(q, rem, 2 * p);
  }

  /** A value below 2^k keeps all its bits under the mask 2^k - 1. */
  lemma LowBitsOfSmall(x: nat, k: nat)
    requires x < Pow2(k)
    ensures And(x, Pow2(k) - 1) == x
  {
    AndLowBits(x, k);
    DivModUnique(0, x, Pow2(k));
  }
}

=== FILE: dense_table.dfy ===
/** include/ala/detail/impl/unordered_dense.h: the robin-hood hash table
    behind ala's unordered_map. Each key/mapped pair lives in a dense value
    sequence with no holes; the bucket array maps hashes to positions in it.
    A bucket packs its distance from the key's home bucket (upper bits)
    with one byte of the hash (the fingerprint), and 0 marks an empty
    bucket. Inserting moves richer buckets one step up; erasing shifts the
    following buckets one step down and moves the last value into the hole.

    Keys and mapped values are ints and the hash is a function handed to the
    table (`mixed_hash` of a 64-bit avalanching hash is the hash itself). */
module DenseTable {
  import opened Wrappers
  import opened Bit

  /** What mixed_hash returns: a uint64_t. */
  type Hash64 = h: nat | h < Pow2(64)

  /** `Bucket::dist_inc`: one step of distance, above the fingerprint byte. */
  const BucketDistInc: nat := 256
  /** `Bucket::fingerprint_mask`. */
  const FingerprintMask: nat := 255
  /** `initial_shifts`: 2^(64 - 62) = 4 buckets to start with. */
  const InitialShifts: nat := 62
  /** max_bucket_count() for the standard bucket, whose value index is a
      uint32_t: max_size() is 2^32. */
  const MaxBucketCount: nat := Pow2(32)

  /** `bucket_type::standard`. */
  datatype Bucket = Bucket(distAndFingerprint: nat, valueIdx: nat)

  /** A bucket cleared by memset, or assigned `{}`. */
  const Empty := Bucket(0, 0)

  /** The map's value_type, a key/mapped pair. */
  datatype Entry = Entry(key: int, mapped: int)

  // ------------------------------------------------------------ bucket words

  /** The distance part of a packed word. */
  function Dist(daf: nat): nat
  {
    daf / BucketDistInc
  }

  /** The fingerprint byte of a packed word. */
  function Fingerprint(daf: nat): nat
  {
    daf % BucketDistInc
  }

  /** `dist_inc`: one more step from home, same fingerprint. */
  function DistInc(daf: nat): (r: nat)
    ensures Dist(r) == Dist(daf) + 1 && Fingerprint(r) == Fingerprint(daf)
  {
    daf + BucketDistInc
  }

  /** `dist_dec`: one step fewer, same fingerprint. */
  function DistDec(daf: nat): (r: nat)
    requires daf >= BucketDistInc
    ensures Dist(r) + 1 == Dist(daf) && Fingerprint(r) == Fingerprint(daf)
    ensures DistInc(r) == daf
  {
    daf - BucketDistInc
  }

  /** `dist_and_fingerprint_from_hash`: distance 1 and the hash's low byte.
      `dist_inc | (h & fingerprint_mask)` sets disjoint bits, so it is a sum. */
  function DistAndFingerprintFromHash(h: Hash64): (r: nat)
    ensures Dist(r) == 1 && Fingerprint(r) == h % 256
    ensures r != 0
  {
    BucketDistInc + h % BucketDistInc
  }

  /** The word a key with hash h carries t steps after its home bucket:
      `dist_inc` applied t times to `dist_and_fingerprint_from_hash(h)`. */
  function ProbeDaf(h: Hash64, t: nat): nat
  {
    (t + 1) * BucketDistInc + h % BucketDistInc
  }

  lemma ProbeDafDecodes(h: Hash64, t: nat)
    ensures Dist(ProbeDaf(h, t)) == t + 1 && Fingerprint(ProbeDaf(h, t)) == h % 256
    ensures ProbeDaf(h, 0) == DistAndFingerprintFromHash(h)
    ensures ProbeDaf(h, t + 1) == DistInc(ProbeDaf(h, t))
  {
    DivModUnique(t + 1, h % BucketDistInc, BucketDistInc);
  }

  // ------------------------------------------------------------ bucket indices

  /** `next`: the bucket after i, wrapping from the last to the first. */
  function Next(i: nat, n: nat): (r: nat)
    requires i < n
    ensures r < n && r == (i + 1) % n
  {
    if i + 1 == n then DivModUnique(1, 0, n); 0 else DivModUnique(0, i + 1, n); i + 1
  }

  function Prev(i: nat, n: nat): nat
    requires i < n
  {
    if i == 0 then n - 1 else i - 1
  }

  /** How many steps of Next lead from `from` to i. */
  function Off(from: nat, i: nat, n: nat): (r: nat)
    requires from < n && i < n
    ensures r < n
  {
    if from <= i then i - from else i + n - from
  }

  /** The bucket t steps of Next after `from`. */
  function Probe(from: nat, t: nat, n: nat): (r: nat)
    requires from < n && t <= n
    ensures r < n
  {
    if from + t < n then from + t else from + t - n
  }

  lemma DivBelow(h: nat, p: nat, q: nat)
    requires p > 0 && h < p * q
    ensures 0 <= h / p < q
  {
    if h / p >= q {
      MulLe(q, h / p, p);
      assert false;
    }
  }

  lemma HomeBelow(h: Hash64, shifts: nat)
    requires shifts <= 64
    ensures 0 <= h / Pow2(shifts) < Pow2(64 - shifts)
  {
    Pow2Add(shifts, 64 - shifts);
    DivBelow(h, Pow2(shifts), Pow2(64 - shifts));
  }

  /** `bucket_idx_from_hash`: the top 64 - shifts bits of the hash, which
      index one of the 2^(64 - shifts) buckets. */
  function BucketIdxFromHash(h: Hash64, shifts: nat): (r: nat)
    requires shifts <= 64
    ensures r < Pow2(64 - shifts)
  {
    HomeBelow(h, shifts);
    h / Pow2(shifts)
  }

  /** `calc_num_buckets`: 2^(64 - shifts), capped at max_bucket_count(). */
  function CalcNumBuckets(shifts: nat): (r: nat)
    requires 1 <= shifts <= 64
    ensures r <= MaxBucketCount && r <= Pow2(64 - shifts)
    ensures r == MaxBucketCount || r == Pow2(64 - shifts)
    ensures shifts >= 32 ==> r == Pow2(64 - shifts)
  {
    assert shifts >= 32 ==> Pow2(64 - shifts) <= MaxBucketCount by {
      if shifts >= 32 {
        Pow2Monotone(64 - shifts, 32);
      }
    }
    if Pow2(64 - shifts) < MaxBucketCount then Pow2(64 - shifts) else MaxBucketCount
  }

  /** The load bound below max_bucket_count() buckets: n times the
      default max_load_factor 0.8, truncated. */
  function Capacity(n: nat): (r: nat)
    ensures n > 0 ==> r < n
    ensures 5 * r <= 4 * n < 5 * r + 5
  {
    4 * n / 5
  }

  /** `m_max_bucket_capacity` for n buckets, as allocate_buckets_from_shift
      sets it: at max_bucket_count() every bucket may be used. */
  function BucketCapacity(n: nat): nat {
    if n == MaxBucketCount then MaxBucketCount else Capacity(n)
  }

  /** The load bound leaves a bucket free except at max_bucket_count(). */
  lemma BucketCapacityBelow(n: nat)
    requires n > 0
    ensures BucketCapacity(n) <= n
    ensures BucketCapacity(n) == n <==> n == MaxBucketCount
  {
  }

  // ------------------------------------------------------------ the invariant

  /** The home bucket of key k. */
  function HomeOf(hash: int -> Hash64, shifts: nat, k: int): (r: nat)
    requires shifts <= 64
    ensures r < Pow2(64 - shifts)
  {
    BucketIdxFromHash(hash(k), shifts)
  }

  /** 2^(64 - shifts) buckets. */
  ghost predicate Shape(bs: seq<Bucket>, shifts: nat)
  {
    shifts <= 64 && |bs| == Pow2(64 - shifts)
  }

  /** Bucket i is empty and zeroed, or refers to a value whose key has its
      home Off(home, i) steps before i, and carries that distance plus one
      and the key's fingerprint. */
  ghost predicate Placed(bs: seq<Bucket>, vals: seq<Entry>, hash: int -> Hash64, shifts: nat, i: nat)
    requires Shape(bs, shifts) && i < |bs|
  {
    if bs[i].distAndFingerprint == 0 then bs[i] == Empty
    else
      bs[i].valueIdx < |vals| &&
      var k := vals[bs[i].valueIdx].key;
      bs[i].distAndFingerprint == ProbeDaf(hash(k), Off(HomeOf(hash, shifts, k), i, |bs|))
  }

  ghost predicate AllPlaced(bs: seq<Bucket>, vals: seq<Entry>, hash: int -> Hash64, shifts: nat)
    requires Shape(bs, shifts)
  {
    forall i :: 0 <= i < |bs| ==> Placed(bs, vals, hash, shifts, i)
  }

  /** The robin-hood order: a bucket that is away from home is at most one
      step (and no more fingerprint) richer than the bucket before it, so a
      lookup can stop at the first bucket poorer than itself. */
  ghost predicate Ordered(bs: seq<Bucket>)
    requires |bs| > 0
  {
    forall i :: 0 <= i < |bs| && bs[Next(i, |bs|)].distAndFingerprint >= 2 * BucketDistInc ==>
      bs[i].distAndFingerprint + BucketDistInc >= bs[Next(i, |bs|)].distAndFingerprint
  }

  /** pos[v] is the bucket of value v, and every full bucket is the bucket
      of its value; value `gone` (if any) has no bucket. */
  ghost predicate Indexed(bs: seq<Bucket>, pos: seq<nat>, gone: int)
  {
    (forall v :: 0 <= v < |pos| && v != gone ==>
       pos[v] < |bs| && bs[pos[v]].distAndFingerprint != 0 && bs[pos[v]].valueIdx == v) &&
    (forall i :: 0 <= i < |bs| && bs[i].distAndFingerprint != 0 ==>
       bs[i].valueIdx < |pos| && bs[i].valueIdx != gone && pos[bs[i].valueIdx] == i)
  }

  ghost predicate UniqueKeys(vals: seq<Entry>)
  {
    forall v, w :: 0 <= v < w < |vals| ==> vals[v].key != vals[w].key
  }

  ghost predicate TableInv(bs: seq<Bucket>, vals: seq<Entry>, pos: seq<nat>, hash: int -> Hash64, shifts: nat)
  {
    Shape(bs, shifts) && AllPlaced(bs, vals, hash, shifts) && Ordered(bs) &&
    Indexed(bs, pos, -1) && |pos| == |vals| && UniqueKeys(vals)
  }

  /** Cleared buckets hold the table with no values. */
  lemma EmptyTable(bs: seq<Bucket>, vals: seq<Entry>, hash: int -> Hash64, shifts: nat)
    requires Shape(bs, shifts) && vals == [] && forall i :: 0 <= i < |bs| ==> bs[i] == Empty
    ensures TableInv(bs, vals, [], hash, shifts)
  {
    assert forall i :: 0 <= i < |bs| ==> Placed(bs, vals, hash, shifts, i);
  }

  /** The parts of the invariant that a caller needs without its bucket
      placement. */
  lemma TableInvParts(bs: seq<Bucket>, vals: seq<Entry>, pos: seq<nat>, hash: int -> Hash64, shifts: nat)
    requires TableInv(bs, vals, pos, hash, shifts)
    ensures Shape(bs, shifts) && Indexed(bs, pos, -1) && |pos| == |vals| && UniqueKeys(vals)
    ensures |bs| > 0 && Ordered(bs)
  {
  }

  /** Every bucket from a value's home up to its own bucket is at least as
      rich as the lookup word for that value at that step. */
  lemma {:induction false} ProbeReaches(bs: seq<Bucket>, vals: seq<Entry>, hash: int -> Hash64, shifts: nat, j: nat, t: nat)
    requires Shape(bs, shifts) && Ordered(bs) && j < |bs| && Placed(bs, vals, hash, shifts, j)
    requires bs[j].distAndFingerprint != 0
    requires t <= Off(HomeOf(hash, shifts, vals[bs[j].valueIdx].key), j, |bs|)
    ensures var k := vals[bs[j].valueIdx].key;
            bs[Probe(HomeOf(hash, shifts, k), t, |bs|)].distAndFingerprint >= ProbeDaf(hash(k), t)
    decreases Off(HomeOf(hash, shifts, vals[bs[j].valueIdx].key), j, |bs|) - t
  {
    var n, k := |bs|, vals[bs[j].valueIdx].key;
    var h := HomeOf(hash, shifts, k);
    if t < Off(h, j, n) {
      ProbeReaches(bs, vals, hash, shifts, j, t + 1);
      assert Next(Probe(h, t, n), n) == Probe(h, t + 1, n);
    } else {
      assert Probe(h, t, n) == j;
    }
  }

  /** A value's chain from its home to its bucket does not reach an empty
      bucket. */
  lemma NoFullWrap(bs: seq<Bucket>, vals: seq<Entry>, hash: int -> Hash64, shifts: nat, j: nat, e: nat)
    requires Shape(bs, shifts) && Ordered(bs) && j < |bs| && Placed(bs, vals, hash, shifts, j)
    requires bs[j].distAndFingerprint != 0
    requires e < |bs| && bs[e].distAndFingerprint == 0
    ensures var h := HomeOf(hash, shifts, vals[bs[j].valueIdx].key);
            Off(h, j, |bs|) < Off(h, e, |bs|)
  {
    var n, k := |bs|, vals[bs[j].valueIdx].key;
    var h := HomeOf(hash, shifts, k);
    if Off(h, e, n) <= Off(h, j, n) {
      ProbeReaches(bs, vals, hash, shifts, j, Off(h, e, n));
      assert false;
    }
  }

  /** Distinct numbers below c are at most c. */
  lemma {:induction false} DistinctBelow(s: seq<nat>, c: nat)
    requires forall i :: 0 <= i < |s| ==> s[i] < c
    requires forall i, j :: 0 <= i < j < |s| ==> s[i] != s[j]
    ensures |s| <= c
  {
    if |s| > 0 {
      assert s[0] < c;
      if c - 1 in s {
        var k :| 0 <= k < |s| && s[k] == c - 1;
        var rest := s[..k] + s[k + 1..];
        assert forall i :: 0 <= i < |rest| ==> rest[i] == (if i < k then s[i] else s[i + 1]);
        DistinctBelow(rest, c - 1);
      } else {
        DistinctBelow(s, c - 1);
      }
    }
  }

  /** A full bucket refers to one of the values. */
  lemma FullBucketsIndexed(bs: seq<Bucket>, pos: seq<nat>, gone: int)
    requires Indexed(bs, pos, gone)
    ensures forall i :: 0 <= i < |bs| && bs[i].distAndFingerprint != 0 ==> bs[i].valueIdx < |pos|
  {
  }

  /** Fewer values than buckets leave a bucket empty. */
  lemma EmptyExists(bs: seq<Bucket>, pos: seq<nat>, gone: int)
    requires Indexed(bs, pos, gone) && |pos| < |bs|
    ensures exists e :: 0 <= e < |bs| && bs[e].distAndFingerprint == 0
  {
    if forall i :: 0 <= i < |bs| ==> bs[i].distAndFingerprint != 0 {
      var s := seq(|bs|, i requires 0 <= i < |bs| => bs[i].valueIdx);
      DistinctBelow(s, |pos|);
      assert false;
    }
  }

  // ------------------------------------------------------------ insertion

  /** A bucket that place_and_shift_up moves one step further from home. */
  function Raised(b: Bucket): Bucket
  {
    Bucket(DistInc(b.distAndFingerprint), b.valueIdx)
  }

  /** `after` is `before` with b stored at p and the m full buckets from p
      on each moved one step up (and one step further from home) into the
      next bucket, the m-th step landing in the first empty bucket. */
  ghost predicate ShiftedUp(before: seq<Bucket>, after: seq<Bucket>, b: Bucket, p: nat, m: nat)
    requires p < |before|
  {
    var n := |before|;
    |after| == n && m < n && before[Probe(p, m, n)].distAndFingerprint == 0 &&
    forall i :: 0 <= i < n ==>
      (Off(p, i, n) < m ==> before[i].distAndFingerprint != 0) &&
      after[i] == (if Off(p, i, n) == 0 then b
                   else if Off(p, i, n) <= m then Raised(before[Prev(i, n)])
                   else before[i])
  }

  /** The bucket t steps from the home of k is where k belongs: every
      bucket before it on the way is at least as rich as k would be there,
      and this one is no richer. */
  ghost predicate InsertPoint(bs: seq<Bucket>, hash: int -> Hash64, shifts: nat, k: int, t: nat)
    requires Shape(bs, shifts)
  {
    var n, h := |bs|, HomeOf(hash, shifts, k);
    t < n &&
    (forall s :: 0 <= s < t ==> ProbeDaf(hash(k), s) <= bs[Probe(h, s, n)].distAndFingerprint) &&
    bs[Probe(h, t, n)].distAndFingerprint <= ProbeDaf(hash(k), t)
  }

  lemma InsertPlaced(bs: seq<Bucket>, after: seq<Bucket>, vals: seq<Entry>, x: Entry,
                     hash: int -> Hash64, shifts: nat, t: nat, m: nat)
    requires Shape(bs, shifts) && Ordered(bs) && AllPlaced(bs, vals, hash, shifts)
    requires InsertPoint(bs, hash, shifts, x.key, t)
    requires ShiftedUp(bs, after, Bucket(ProbeDaf(hash(x.key), t), |vals|),
                       Probe(HomeOf(hash, shifts, x.key), t, |bs|), m)
    ensures Shape(after, shifts) && AllPlaced(after, vals + [x], hash, shifts)
  {
    var n, h := |bs|, HomeOf(hash, shifts, x.key);
    var p := Probe(h, t, n);
    var e := Probe(p, m, n);
    var vs := vals + [x];
    forall i | 0 <= i < n
      ensures Placed(after, vs, hash, shifts, i)
    {
      var o := Off(p, i, n);
      if o == 0 {
        assert i == p && Off(h, p, n) == t && vs[|vals|] == x;
      } else if o <= m {
        var j := Prev(i, n);
        assert Off(p, j, n) == o - 1;
        assert Placed(bs, vals, hash, shifts, j);
        NoFullWrap(bs, vals, hash, shifts, j, e);
        var kx := vals[bs[j].valueIdx].key;
        var hx := HomeOf(hash, shifts, kx);
        assert Off(hx, i, n) == Off(hx, j, n) + 1;
        assert vs[bs[j].valueIdx] == vals[bs[j].valueIdx];
      } else {
        assert Placed(bs, vals, hash, shifts, i);
        if bs[i].distAndFingerprint != 0 {
          assert vs[bs[i].valueIdx] == vals[bs[i].valueIdx];
        }
      }
    }
  }

  lemma InsertOrdered(bs: seq<Bucket>, after: seq<Bucket>, vals: seq<Entry>, hash: int -> Hash64, shifts: nat,
                      k: int, t: nat, m: nat, v: nat)
    requires Shape(bs, shifts) && Ordered(bs) && AllPlaced(bs, vals, hash, shifts)
    requires InsertPoint(bs, hash, shifts, k, t)
    requires ShiftedUp(bs, after, Bucket(ProbeDaf(hash(k), t), v), Probe(HomeOf(hash, shifts, k), t, |bs|), m)
    ensures Ordered(after)
  {
    forall i | 0 <= i < |bs| && after[Next(i, |bs|)].distAndFingerprint >= 2 * BucketDistInc
      ensures after[i].distAndFingerprint + BucketDistInc >= after[Next(i, |bs|)].distAndFingerprint
    {
      InsertOrderedAt(bs, after, vals, hash, shifts, k, t, m, v, i);
    }
  }

  lemma InsertOrderedAt(bs: seq<Bucket>, after: seq<Bucket>, vals: seq<Entry>, hash: int -> Hash64, shifts: nat,
                        k: int, t: nat, m: nat, v: nat, i: nat)
    requires Shape(bs, shifts) && Ordered(bs) && AllPlaced(bs, vals, hash, shifts)
    requires InsertPoint(bs, hash, shifts, k, t)
    requires ShiftedUp(bs, after, Bucket(ProbeDaf(hash(k), t), v), Probe(HomeOf(hash, shifts, k), t, |bs|), m)
    requires i < |bs|
    ensures after[Next(i, |bs|)].distAndFingerprint >= 2 * BucketDistInc ==>
            after[i].distAndFingerprint + BucketDistInc >= after[Next(i, |bs|)].distAndFingerprint
  {
    var n, h := |bs|, HomeOf(hash, shifts, k);
    var p := Probe(h, t, n);
    var j := Next(i, n);
    var oi := Off(p, i, n);
    if j == p && after[j].distAndFingerprint >= 2 * BucketDistInc {
      assert t >= 1;
      assert i == Probe(h, t - 1, n);
      assert ProbeDaf(hash(k), t - 1) <= bs[i].distAndFingerprint;
      assert Probe(p, n - 1, n) == i && Off(p, i, n) == n - 1;
      assert Probe(p, m, n) != i;
      assert m < n - 1;
      assert after[i] == bs[i];
      assert after[j].distAndFingerprint == ProbeDaf(hash(k), t);
      assert after[i].distAndFingerprint + BucketDistInc >= after[j].distAndFingerprint;
    } else if j == p {
    } else if oi == 0 {
      assert i == p && Off(p, j, n) == 1 && Prev(j, n) == i;
      assert after[i].distAndFingerprint == ProbeDaf(hash(k), t);
      if m == 0 {
        assert after[j] == bs[j];
        assert bs[i].distAndFingerprint == 0;
        assert bs[j].distAndFingerprint < 2 * BucketDistInc;
      } else {
        assert bs[p].distAndFingerprint <= ProbeDaf(hash(k), t);
        assert after[j] == Raised(bs[i]);
      }
      assert m > 0 ==> after[i].distAndFingerprint + BucketDistInc >= after[j].distAndFingerprint;
    } else if oi < m {
      var g := Prev(i, n);
      assert Off(p, j, n) == oi + 1 && Off(p, g, n) == oi - 1 && Next(g, n) == i && Prev(j, n) == i;
      assert Placed(bs, vals, hash, shifts, g);
      assert after[i] == Raised(bs[g]) && after[j] == Raised(bs[i]);
      assert after[i].distAndFingerprint + BucketDistInc >= after[j].distAndFingerprint;
    } else if oi == m {
      assert i == Probe(p, m, n);
      assert Off(p, j, n) == oi + 1;
      assert after[j] == bs[j];
      assert bs[j].distAndFingerprint < 2 * BucketDistInc;
    } else {
      assert Off(p, j, n) == oi + 1;
      assert after[j] == bs[j] && after[i] == bs[i];
    }
  }

  /** Where each value's bucket is after a ShiftedUp(…, p, m). */
  ghost function UpPositions(pos: seq<nat>, p: nat, m: nat, n: nat): (r: seq<nat>)
    requires p < n && forall w :: 0 <= w < |pos| ==> pos[w] < n
    ensures |r| == |pos|
  {
    seq(|pos|, w requires 0 <= w < |pos| => if Off(p, pos[w], n) < m then Next(pos[w], n) else pos[w])
  }

  lemma InsertIndexed(bs: seq<Bucket>, after: seq<Bucket>, pos: seq<nat>, b: Bucket, p: nat, m: nat)
    requires p < |bs| && Indexed(bs, pos, -1) && ShiftedUp(bs, after, b, p, m)
    requires b.distAndFingerprint != 0 && b.valueIdx == |pos|
    ensures Indexed(after, UpPositions(pos, p, m, |bs|) + [p], -1)
  {
    InsertIndexedValues(bs, after, pos, b, p, m);
    InsertIndexedBuckets(bs, after, pos, b, p, m);
  }

  lemma InsertIndexedValues(bs: seq<Bucket>, after: seq<Bucket>, pos: seq<nat>, b: Bucket, p: nat, m: nat)
    requires p < |bs| && Indexed(bs, pos, -1) && ShiftedUp(bs, after, b, p, m)
    requires b.distAndFingerprint != 0 && b.valueIdx == |pos|
    ensures var up := UpPositions(pos, p, m, |bs|) + [p];
            forall w :: 0 <= w < |up| ==>
              up[w] < |bs| && after[up[w]].distAndFingerprint != 0 && after[up[w]].valueIdx == w
  {
    var up := UpPositions(pos, p, m, |bs|) + [p];
    forall w | 0 <= w < |up|
      ensures up[w] < |bs| && after[up[w]].distAndFingerprint != 0 && after[up[w]].valueIdx == w
    {
      InsertIndexedValueAt(bs, after, pos, b, p, m, w);
    }
  }

  lemma InsertIndexedValueAt(bs: seq<Bucket>, after: seq<Bucket>, pos: seq<nat>, b: Bucket, p: nat, m: nat, w: nat)
    requires p < |bs| && Indexed(bs, pos, -1) && ShiftedUp(bs, after, b, p, m)
    requires b.distAndFingerprint != 0 && b.valueIdx == |pos| && w <= |pos|
    ensures var up := UpPositions(pos, p, m, |bs|) + [p];
            up[w] < |bs| && after[up[w]].distAndFingerprint != 0 && after[up[w]].valueIdx == w
  {
    var n := |bs|;
    var up := UpPositions(pos, p, m, n) + [p];
    if w < |pos| {
      assert up[w] == UpPositions(pos, p, m, n)[w];
      var o := Off(p, pos[w], n);
      if o < m {
        assert Off(p, Next(pos[w], n), n) == o + 1 && Prev(Next(pos[w], n), n) == pos[w];
      } else {
        assert Probe(p, o, n) == pos[w];
        assert bs[pos[w]].distAndFingerprint != 0;
        assert o != m;
      }
    } else {
      assert up[w] == p && Off(p, p, n) == 0;
    }
  }

  lemma InsertIndexedBuckets(bs: seq<Bucket>, after: seq<Bucket>, pos: seq<nat>, b: Bucket, p: nat, m: nat)
    requires p < |bs| && Indexed(bs, pos, -1) && ShiftedUp(bs, after, b, p, m)
    requires b.distAndFingerprint != 0 && b.valueIdx == |pos|
    ensures var up := UpPositions(pos, p, m, |bs|) + [p];
            forall i :: 0 <= i < |bs| && after[i].distAndFingerprint != 0 ==>
              after[i].valueIdx < |up| && up[after[i].valueIdx] == i
  {
    var n := |bs|;
    var up := UpPositions(pos, p, m, n) + [p];
    forall i | 0 <= i < n && after[i].distAndFingerprint != 0
      ensures after[i].valueIdx < |up| && up[after[i].valueIdx] == i
    {
      var o := Off(p, i, n);
      if o == 0 {
      } else if o <= m {
        var g := Prev(i, n);
        assert Off(p, g, n) == o - 1 && Next(g, n) == i;
      }
    }
  }

  /** Storing a new key at its insertion point and shifting up keeps the
      invariant, with the new value last in the value sequence. */
  lemma InsertKeeps(bs: seq<Bucket>, after: seq<Bucket>, vals: seq<Entry>, pos: seq<nat>, x: Entry,
                    hash: int -> Hash64, shifts: nat, t: nat, m: nat)
    requires TableInv(bs, vals, pos, hash, shifts)
    requires forall v :: 0 <= v < |vals| ==> vals[v].key != x.key
    requires InsertPoint(bs, hash, shifts, x.key, t)
    requires ShiftedUp(bs, after, Bucket(ProbeDaf(hash(x.key), t), |vals|),
                       Probe(HomeOf(hash, shifts, x.key), t, |bs|), m)
    ensures TableInv(after, vals + [x],
                     UpPositions(pos, Probe(HomeOf(hash, shifts, x.key), t, |bs|), m, |bs|) +
                     [Probe(HomeOf(hash, shifts, x.key), t, |bs|)], hash, shifts)
  {
    var p := Probe(HomeOf(hash, shifts, x.key), t, |bs|);
    InsertPlaced(bs, after, vals, x, hash, shifts, t, m);
    InsertOrdered(bs, after, vals, hash, shifts, x.key, t, m, |vals|);
    InsertIndexed(bs, after, pos, Bucket(ProbeDaf(hash(x.key), t), |vals|), p, m);
    AppendUnique(vals, x);
  }

  /** With distinct keys, no value before index i has the key of value i. */
  lemma UniqueBefore(vals: seq<Entry>, i: nat)
    requires UniqueKeys(vals) && i < |vals|
    ensures forall v :: 0 <= v < |vals[..i]| ==> vals[..i][v].key != vals[i].key
  {
  }

  /** Appending a key that is not there keeps the keys distinct. */
  lemma AppendUnique(vals: seq<Entry>, x: Entry)
    requires UniqueKeys(vals) && forall v :: 0 <= v < |vals| ==> vals[v].key != x.key
    ensures UniqueKeys(vals + [x])
  {
    var vs := vals + [x];
    forall v, w | 0 <= v < w < |vs|
      ensures vs[v].key != vs[w].key
    {
      if w == |vals| {
        assert vs[v] == vals[v];
      } else {
        assert vs[v] == vals[v] && vs[w] == vals[w];
      }
    }
  }

  // ------------------------------------------------------------ erasure

  /** A bucket that do_erase moves one step back towards home. */
  function Lowered(b: Bucket): Bucket
    requires b.distAndFingerprint >= BucketDistInc
  {
    Bucket(DistDec(b.distAndFingerprint), b.valueIdx)
  }

  /** `after` is `before` with bucket b0 removed: the m buckets after it
      that are away from home each move one step back, and the bucket
      they leave at the end is cleared; the bucket after them is at home
      or empty. */
  ghost predicate ShiftedDown(before: seq<Bucket>, after: seq<Bucket>, b0: nat, m: nat)
    requires b0 < |before|
  {
    var n := |before|;
    |after| == n && m + 1 < n &&
    before[Probe(b0, m + 1, n)].distAndFingerprint < 2 * BucketDistInc &&
    (forall i :: 0 <= i < n && 1 <= Off(b0, i, n) <= m ==> before[i].distAndFingerprint >= 2 * BucketDistInc) &&
    forall i :: 0 <= i < n ==>
      after[i] == (if Off(b0, i, n) < m then Lowered(before[Next(i, n)])
                   else if Off(b0, i, n) == m then Empty
                   else before[i])
  }

  /** Where each value's bucket is after a ShiftedDown(…, b0, m). */
  ghost function DownPositions(pos: seq<nat>, b0: nat, m: nat, n: nat): (r: seq<nat>)
    requires b0 < n && forall w :: 0 <= w < |pos| ==> pos[w] < n
    ensures |r| == |pos|
  {
    seq(|pos|, w requires 0 <= w < |pos| => if 1 <= Off(b0, pos[w], n) <= m then Prev(pos[w], n) else pos[w])
  }

  lemma ErasePlaced(bs: seq<Bucket>, after: seq<Bucket>, vals: seq<Entry>, hash: int -> Hash64, shifts: nat,
                    b0: nat, m: nat)
    requires Shape(bs, shifts) && AllPlaced(bs, vals, hash, shifts)
    requires b0 < |bs| && ShiftedDown(bs, after, b0, m)
    ensures Shape(after, shifts) && AllPlaced(after, vals, hash, shifts)
  {
    var n := |bs|;
    forall i | 0 <= i < n
      ensures Placed(after, vals, hash, shifts, i)
    {
      var o := Off(b0, i, n);
      if o < m {
        var j := Next(i, n);
        assert Off(b0, j, n) == o + 1 && Prev(j, n) == i;
        assert Placed(bs, vals, hash, shifts, j);
        var kx := vals[bs[j].valueIdx].key;
        var hx := HomeOf(hash, shifts, kx);
        assert Off(hx, j, n) >= 1;
        assert Off(hx, i, n) + 1 == Off(hx, j, n);
      } else if o > m {
        assert Placed(bs, vals, hash, shifts, i);
      }
    }
  }

  lemma EraseOrderedAt(bs: seq<Bucket>, after: seq<Bucket>, b0: nat, m: nat, i: nat)
    requires |bs| > 0 && Ordered(bs) && b0 < |bs| && ShiftedDown(bs, after, b0, m) && i < |bs|
    ensures after[Next(i, |bs|)].distAndFingerprint >= 2 * BucketDistInc ==>
            after[i].distAndFingerprint + BucketDistInc >= after[Next(i, |bs|)].distAndFingerprint
  {
    var n := |bs|;
    var j := Next(i, n);
    var oi := Off(b0, i, n);
    if j == b0 {
      assert oi == n - 1 && after[i] == bs[i];
      if m > 0 {
        var k := Next(b0, n);
        assert Off(b0, k, n) == 1 && after[b0] == Lowered(bs[k]);
      }
    } else if oi + 1 < m {
      assert Off(b0, j, n) == oi + 1;
      assert after[i] == Lowered(bs[j]) && after[j] == Lowered(bs[Next(j, n)]);
    } else if oi + 1 == m {
      assert Off(b0, j, n) == m && after[j] == Empty;
    } else if oi == m {
      assert Off(b0, j, n) == m + 1 && j == Probe(b0, m + 1, n);
      assert after[j] == bs[j];
    } else {
      assert Off(b0, j, n) == oi + 1;
      assert after[j] == bs[j] && after[i] == bs[i];
    }
  }

  lemma EraseOrdered(bs: seq<Bucket>, after: seq<Bucket>, b0: nat, m: nat)
    requires |bs| > 0 && Ordered(bs) && b0 < |bs| && ShiftedDown(bs, after, b0, m)
    ensures Ordered(after)
  {
    forall i | 0 <= i < |bs| && after[Next(i, |bs|)].distAndFingerprint >= 2 * BucketDistInc
      ensures after[i].distAndFingerprint + BucketDistInc >= after[Next(i, |bs|)].distAndFingerprint
    {
      EraseOrderedAt(bs, after, b0, m, i);
    }
  }

  lemma EraseIndexed(bs: seq<Bucket>, after: seq<Bucket>, pos: seq<nat>, b0: nat, m: nat)
    requires b0 < |bs| && Indexed(bs, pos, -1) && ShiftedDown(bs, after, b0, m)
    requires bs[b0].distAndFingerprint != 0
    ensures Indexed(after, DownPositions(pos, b0, m, |bs|), bs[b0].valueIdx)
  {
    var n, r := |bs|, bs[b0].valueIdx;
    var down := DownPositions(pos, b0, m, n);
    forall v | 0 <= v < |down| && v != r
      ensures down[v] < n && after[down[v]].distAndFingerprint != 0 && after[down[v]].valueIdx == v
    {
      var o := Off(b0, pos[v], n);
      assert pos[v] != b0;
      if o <= m {
        var g := Prev(pos[v], n);
        assert Off(b0, g, n) == o - 1 && Next(g, n) == pos[v];
      }
    }
    forall i | 0 <= i < n && after[i].distAndFingerprint != 0
      ensures after[i].valueIdx < |down| && after[i].valueIdx != r && down[after[i].valueIdx] == i
    {
      var o := Off(b0, i, n);
      if o < m {
        var j := Next(i, n);
        assert Off(b0, j, n) == o + 1 && Prev(j, n) == i;
      } else {
        assert o > m && i != b0;
      }
    }
  }

  /** The value sequence after erasing value r: the last value moves into
      the hole and the sequence shrinks by one. */
  function RemoveAt(s: seq<Entry>, r: nat): seq<Entry>
    requires r < |s|
  {
    if r == |s| - 1 then s[..r] else s[r := s[|s| - 1]][..|s| - 1]
  }

  /** Removing by moving the last value into the hole drops exactly the
      removed entry, keeps keys distinct and keeps every other value where
      it was. */
  lemma RemoveAtContents(s: seq<Entry>, r: nat)
    requires r < |s| && UniqueKeys(s)
    ensures |RemoveAt(s, r)| == |s| - 1 && UniqueKeys(RemoveAt(s, r))
    ensures forall e :: e in RemoveAt(s, r) <==> e in s && e != s[r]
    ensures forall e :: e in RemoveAt(s, r) <==> e in s && e.key != s[r].key
    ensures forall v :: 0 <= v < |s| - 1 && v != r ==> RemoveAt(s, r)[v] == s[v]
  {
    var t := RemoveAt(s, r);
    var l := |s| - 1;
    assert forall v :: 0 <= v < l ==> t[v] == (if v == r then s[l] else s[v]);
    forall e | e in s && e != s[r]
      ensures e in t
    {
      var v :| 0 <= v < |s| && s[v] == e;
      if v == l {
        assert t[r] == e;
      } else {
        assert t[v] == e;
      }
    }
    forall e | e in t
      ensures e in s && e != s[r] && e.key != s[r].key
    {
      var v :| 0 <= v < |t| && t[v] == e;
      if v == r {
        assert e == s[l] && s[l].key != s[r].key;
      } else {
        assert e == s[v] && s[v].key != s[r].key;
      }
    }
  }

  /** Removing value r leaves the values before r in place, and the values
      from r on are those that were after r. */
  lemma RemoveAtTail(s: seq<Entry>, r: nat)
    requires r < |s|
    ensures RemoveAt(s, r)[..r] == s[..r]
    ensures forall e :: e in RemoveAt(s, r)[r..] <==> e in s[r + 1..]
  {
    var t, l := RemoveAt(s, r), |s| - 1;
    assert |t| == l;
    assert forall v :: 0 <= v < l ==> t[v] == (if v == r then s[l] else s[v]);
    forall e | e in s[r + 1..]
      ensures e in t[r..]
    {
      var w :| r + 1 <= w < |s| && s[w] == e;
      if w == l {
        assert t[r] == e;
      } else {
        assert t[w] == e;
      }
    }
    forall e | e in t[r..]
      ensures e in s[r + 1..]
    {
      var w :| r <= w < |t| && t[w] == e;
      if w == r {
        assert e == s[l];
      } else {
        assert e == s[w];
      }
    }
  }

  /** The table between do_erase's shift-down and the filling of the
      hole: as a valid table, except that value r has no bucket. */
  ghost predicate Holed(bs: seq<Bucket>, vals: seq<Entry>, pos: seq<nat>, hash: int -> Hash64, shifts: nat,
                        cap: nat, r: nat)
  {
    32 <= shifts <= InitialShifts && |bs| >= 4 && cap == BucketCapacity(|bs|) && |vals| <= cap &&
    |vals| < |bs| && r < |vals| == |pos| && UniqueKeys(vals) &&
    Shape(bs, shifts) && AllPlaced(bs, vals, hash, shifts) && Ordered(bs) && Indexed(bs, pos, r)
  }

  /** Erasing bucket b0 and shifting down keeps every bucket placed and
      ordered; the erased value is the one left without a bucket. */
  lemma EraseKeeps(bs: seq<Bucket>, after: seq<Bucket>, vals: seq<Entry>, pos: seq<nat>,
                   hash: int -> Hash64, shifts: nat, cap: nat, b0: nat, m: nat)
    requires 32 <= shifts <= InitialShifts && |bs| >= 4 && cap == BucketCapacity(|bs|) && |vals| <= cap
    requires |vals| < |bs| && TableInv(bs, vals, pos, hash, shifts)
    requires b0 < |bs| && bs[b0].distAndFingerprint != 0 && ShiftedDown(bs, after, b0, m)
    ensures Holed(after, vals, DownPositions(pos, b0, m, |bs|), hash, shifts, cap, bs[b0].valueIdx)
  {
    TableInvParts(bs, vals, pos, hash, shifts);
    ErasePlaced(bs, after, vals, hash, shifts, b0, m);
    EraseOrdered(bs, after, b0, m);
    EraseIndexed(bs, after, pos, b0, m);
  }

  /** When the erased value was the last one, popping it restores the
      invariant. */
  lemma HoleFillLast(bs: seq<Bucket>, vals: seq<Entry>, pos: seq<nat>, hash: int -> Hash64, shifts: nat)
    requires Shape(bs, shifts) && AllPlaced(bs, vals, hash, shifts) && Ordered(bs)
    requires |vals| > 0 && |pos| == |vals| && UniqueKeys(vals) && Indexed(bs, pos, |vals| - 1)
    ensures TableInv(bs, RemoveAt(vals, |vals| - 1), pos[..|vals| - 1], hash, shifts)
  {
    var l := |vals| - 1;
    var vs := RemoveAt(vals, l);
    assert vs == vals[..l];
    forall i | 0 <= i < |bs|
      ensures Placed(bs, vs, hash, shifts, i)
    {
      assert Placed(bs, vals, hash, shifts, i);
    }
  }

  /** Otherwise the last value moves into the hole and its bucket is
      pointed at its new index. */
  lemma HoleFillMoved(bs: seq<Bucket>, vals: seq<Entry>, pos: seq<nat>, hash: int -> Hash64, shifts: nat, r: nat)
    requires Shape(bs, shifts) && AllPlaced(bs, vals, hash, shifts) && Ordered(bs)
    requires r + 1 < |vals| && |pos| == |vals| && UniqueKeys(vals) && Indexed(bs, pos, r)
    ensures var l := |vals| - 1;
            TableInv(bs[pos[l] := bs[pos[l]].(valueIdx := r)], RemoveAt(vals, r), pos[r := pos[l]][..l], hash, shifts)
  {
    var l := |vals| - 1;
    var q := pos[l];
    var bs2 := bs[q := bs[q].(valueIdx := r)];
    var vs := RemoveAt(vals, r);
    var ps := pos[r := pos[l]][..l];
    RemoveAtContents(vals, r);
    assert vs[r] == vals[l];
    forall i | 0 <= i < |bs2|
      ensures Placed(bs2, vs, hash, shifts, i)
    {
      assert Placed(bs, vals, hash, shifts, i);
      if i != q && bs[i].distAndFingerprint != 0 {
        assert bs[i].valueIdx != l && vs[bs[i].valueIdx] == vals[bs[i].valueIdx];
      }
    }
    assert forall i :: 0 <= i < |bs| && i != q ==> bs2[i] == bs[i];
  }

  /** Every full bucket's word is at most that of distance |bs|. */
  lemma PlacedBounded(bs: seq<Bucket>, vals: seq<Entry>, hash: int -> Hash64, shifts: nat)
    requires Shape(bs, shifts) && AllPlaced(bs, vals, hash, shifts)
    ensures forall i :: 0 <= i < |bs| ==> bs[i].distAndFingerprint < ProbeDaf(0, |bs|)
  {
    forall i | 0 <= i < |bs|
      ensures bs[i].distAndFingerprint < ProbeDaf(0, |bs|)
    {
      assert Placed(bs, vals, hash, shifts, i);
    }
  }

  /** The state of place_and_shift_up after m steps from p: the first m
      buckets from p hold b and the raised buckets before them, the rest
      is untouched, and the m buckets passed were full. */
  ghost predicate ShiftingUp(before: seq<Bucket>, cur: seq<Bucket>, b: Bucket, p: nat, m: nat)
    requires p < |before|
  {
    var n := |before|;
    |cur| == n && m < n &&
    forall i :: 0 <= i < n ==>
      (Off(p, i, n) < m ==> before[i].distAndFingerprint != 0) &&
      cur[i] == (if Off(p, i, n) == 0 && m > 0 then b
                 else if 0 < Off(p, i, n) < m then Raised(before[Prev(i, n)])
                 else before[i])
  }

  /** One more full bucket passed: the carried bucket is stored there. */
  lemma ShiftUpStep(before: seq<Bucket>, cur: seq<Bucket>, b: Bucket, p: nat, m: nat, carried: Bucket)
    requires p < |before| && ShiftingUp(before, cur, b, p, m)
    requires carried == if m == 0 then b else Raised(before[Prev(Probe(p, m, |before|), |before|)])
    requires cur[Probe(p, m, |before|)].distAndFingerprint != 0
    requires exists e :: 0 <= e < |before| && before[e].distAndFingerprint == 0
    ensures ShiftingUp(before, cur[Probe(p, m, |before|) := carried], b, p, m + 1)
    ensures cur[Probe(p, m, |before|)] == before[Prev(Probe(p, m + 1, |before|), |before|)]
    ensures Next(Probe(p, m, |before|), |before|) == Probe(p, m + 1, |before|)
  {
    var n := |before|;
    var q := Probe(p, m, n);
    var e :| 0 <= e < n && before[e].distAndFingerprint == 0;
    assert Off(p, q, n) == m;
    assert cur[q] == before[q];
    assert q != e;
    assert m + 1 < n;
    assert Prev(Probe(p, m + 1, n), n) == q;
  }

  /** The first empty bucket reached takes the carried bucket. */
  lemma ShiftUpDone(before: seq<Bucket>, cur: seq<Bucket>, b: Bucket, p: nat, m: nat, carried: Bucket)
    requires p < |before| && ShiftingUp(before, cur, b, p, m)
    requires carried == if m == 0 then b else Raised(before[Prev(Probe(p, m, |before|), |before|)])
    requires cur[Probe(p, m, |before|)].distAndFingerprint == 0
    ensures ShiftedUp(before, cur[Probe(p, m, |before|) := carried], b, p, m)
  {
    var n := |before|;
    var q := Probe(p, m, n);
    assert Off(p, q, n) == m;
  }

  /** The state of do_erase's shift-down after t steps from b0: the t
      buckets from b0 hold their successors moved one step back, the rest
      is untouched, and the successors moved were away from home. */
  ghost predicate ShiftingDown(before: seq<Bucket>, cur: seq<Bucket>, b0: nat, t: nat)
    requires b0 < |before|
  {
    var n := |before|;
    |cur| == n && t < n &&
    (forall i :: 0 <= i < n && 1 <= Off(b0, i, n) <= t ==> before[i].distAndFingerprint >= 2 * BucketDistInc) &&
    forall i :: 0 <= i < n ==>
      cur[i] == (if Off(b0, i, n) < t then Lowered(before[Next(i, n)]) else before[i])
  }

  /** One more bucket away from home moved back into the one before it. */
  lemma ShiftDownStep(before: seq<Bucket>, cur: seq<Bucket>, b0: nat, t: nat, e: nat)
    requires b0 < |before| && ShiftingDown(before, cur, b0, t)
    requires e < |before| && before[e].distAndFingerprint == 0 && t + 1 <= Off(b0, e, |before|)
    requires cur[Next(Probe(b0, t, |before|), |before|)].distAndFingerprint >= 2 * BucketDistInc
    ensures Next(Probe(b0, t, |before|), |before|) == Probe(b0, t + 1, |before|)
    ensures t + 2 <= Off(b0, e, |before|)
    ensures var q := Probe(b0, t, |before|);
            ShiftingDown(before, cur[q := Lowered(cur[Next(q, |before|)])], b0, t + 1)
  {
    var n := |before|;
    var q := Probe(b0, t, n);
    var j := Next(q, n);
    assert Off(b0, q, n) == t && Off(b0, j, n) == t + 1 && j == Probe(b0, t + 1, n);
    assert cur[j] == before[j];
  }

  /** A bucket at home or empty ends the shift: the last bucket moved from
      is cleared. */
  lemma ShiftDownDone(before: seq<Bucket>, cur: seq<Bucket>, b0: nat, t: nat, e: nat)
    requires b0 < |before| && ShiftingDown(before, cur, b0, t)
    requires e < |before| && before[e].distAndFingerprint == 0 && t + 1 <= Off(b0, e, |before|)
    requires cur[Next(Probe(b0, t, |before|), |before|)].distAndFingerprint < 2 * BucketDistInc
    ensures ShiftedDown(before, cur[Probe(b0, t, |before|) := Empty], b0, t)
  {
    var n := |before|;
    var q := Probe(b0, t, n);
    var j := Next(q, n);
    assert Off(b0, q, n) == t && Off(b0, j, n) == t + 1 && j == Probe(b0, t + 1, n);
    assert cur[j] == before[j];
  }

  lemma ProbeOff(home: nat, p: nat, n: nat)
    requires home < n && p < n
    ensures Probe(home, Off(home, p, n), n) == p
  {
  }

  /** No bucket on the way from `home` to p refers to value `target`. */
  ghost predicate NoValueBefore(bs: seq<Bucket>, home: nat, p: nat, target: nat)
    requires home < |bs| && p < |bs|
  {
    forall s :: 0 <= s < Off(home, p, |bs|) ==> bs[Probe(home, s, |bs|)].valueIdx != target
  }

  /** A walk from `home` that has not reached p yet can take one more
      step towards it. */
  lemma WalkStep(home: nat, p: nat, s: nat, n: nat)
    requires home < n && p < n && s <= Off(home, p, n) && Probe(home, s, n) != p
    ensures s < Off(home, p, n) && Next(Probe(home, s, n), n) == Probe(home, s + 1, n)
  {
    ProbeOff(home, p, n);
    ProbeNext(home, s, n);
  }

  /** A walk towards p that meets a bucket referring to `target` has
      reached p. */
  lemma WalkEnd(bs: seq<Bucket>, home: nat, p: nat, target: nat, s: nat)
    requires home < |bs| && p < |bs| && s <= Off(home, p, |bs|) && NoValueBefore(bs, home, p, target)
    requires bs[Probe(home, s, |bs|)].valueIdx == target
    ensures Probe(home, s, |bs|) == p
  {
    ProbeOff(home, p, |bs|);
  }

  /** After the shift-down the last value's bucket is the only one that
      refers to it (an empty bucket refers to value 0, and the last value
      is not value 0 when it moves). */
  lemma MovedBucket(bs: seq<Bucket>, vals: seq<Entry>, pos: seq<nat>, hash: int -> Hash64, shifts: nat,
                    r: nat, home: nat)
    requires Shape(bs, shifts) && AllPlaced(bs, vals, hash, shifts) && Indexed(bs, pos, r)
    requires r + 1 < |vals| && |pos| == |vals| && home < |bs|
    ensures var l := |vals| - 1;
            pos[l] < |bs| && bs[pos[l]].valueIdx == l && NoValueBefore(bs, home, pos[l], l)
  {
    var n, l := |bs|, |vals| - 1;
    forall s | 0 <= s < Off(home, pos[l], n)
      ensures bs[Probe(home, s, n)].valueIdx != l
    {
      var i := Probe(home, s, n);
      ProbeNext(home, s, n);
      assert Placed(bs, vals, hash, shifts, i);
    }
  }

  /** On the way from a value's home to its bucket no other bucket refers
      to it: those buckets are all full, each with its own value. */
  lemma ValueChain(bs: seq<Bucket>, vals: seq<Entry>, pos: seq<nat>, hash: int -> Hash64, shifts: nat, v: nat)
    requires TableInv(bs, vals, pos, hash, shifts) && v < |vals|
    ensures HomeOf(hash, shifts, vals[v].key) < |bs| && pos[v] < |bs| && bs[pos[v]].valueIdx == v
    ensures bs[pos[v]].distAndFingerprint != 0
    ensures NoValueBefore(bs, HomeOf(hash, shifts, vals[v].key), pos[v], v)
  {
    var n, home := |bs|, HomeOf(hash, shifts, vals[v].key);
    assert Placed(bs, vals, hash, shifts, pos[v]);
    forall s | 0 <= s < Off(home, pos[v], n)
      ensures bs[Probe(home, s, n)].valueIdx != v
    {
      ProbeReaches(bs, vals, hash, shifts, pos[v], s);
      ProbeNext(home, s, n);
    }
  }

  // ------------------------------------------------------------ lookup

  /** No value with key k sits fewer than t steps from its home. */
  ghost predicate NotBefore(bs: seq<Bucket>, vals: seq<Entry>, pos: seq<nat>, hash: int -> Hash64, shifts: nat, k: int, t: nat)
    requires Shape(bs, shifts)
  {
    forall v :: 0 <= v < |vals| && v < |pos| && pos[v] < |bs| && vals[v].key == k ==>
      t <= Off(HomeOf(hash, shifts, k), pos[v], |bs|)
  }

  /** Every bucket on k's probe sequence before distance t is at least as
      rich as k would be there. */
  ghost predicate RichBefore(bs: seq<Bucket>, hash: int -> Hash64, shifts: nat, k: int, t: nat)
    requires Shape(bs, shifts) && t <= |bs|
  {
    forall s :: 0 <= s < t ==> ProbeDaf(hash(k), s) <= bs[Probe(HomeOf(hash, shifts, k), s, |bs|)].distAndFingerprint
  }

  /** One probe of a lookup for k at distance t, when no value with key k
      sits fewer than t steps from home: a poorer bucket proves k absent;
      a bucket at least as rich as the probe word is within one round of
      the table; and such a bucket that is not k's moves the bound on. */
  lemma LookupStep(bs: seq<Bucket>, vals: seq<Entry>, pos: seq<nat>, hash: int -> Hash64, shifts: nat, k: int, t: nat)
    requires TableInv(bs, vals, pos, hash, shifts) && t <= |bs|
    requires Shape(bs, shifts) && NotBefore(bs, vals, pos, hash, shifts, k, t)
    ensures HomeOf(hash, shifts, k) < |bs| && Probe(HomeOf(hash, shifts, k), t, |bs|) < |bs| && ProbeDaf(hash(k), t) != 0
    ensures var b := bs[Probe(HomeOf(hash, shifts, k), t, |bs|)];
            (b.distAndFingerprint != 0 ==> b.valueIdx < |vals|) &&
            (b.distAndFingerprint < ProbeDaf(hash(k), t) ==> forall v :: 0 <= v < |vals| ==> vals[v].key != k) &&
            (ProbeDaf(hash(k), t) <= b.distAndFingerprint ==> t < |bs|) &&
            (!(b.distAndFingerprint == ProbeDaf(hash(k), t) && b.valueIdx < |vals| && vals[b.valueIdx].key == k) ==>
               NotBefore(bs, vals, pos, hash, shifts, k, t + 1))
    ensures t < |bs| ==> ProbeDaf(hash(k), t + 1) == DistInc(ProbeDaf(hash(k), t)) &&
                         Next(Probe(HomeOf(hash, shifts, k), t, |bs|), |bs|) == Probe(HomeOf(hash, shifts, k), t + 1, |bs|)
  {
    var n, h := |bs|, HomeOf(hash, shifts, k);
    var i := Probe(h, t, n);
    assert Placed(bs, vals, hash, shifts, i);
    PlacedBounded(bs, vals, hash, shifts);
    assert bs[i].distAndFingerprint < ProbeDaf(0, n);
    ProbeDafDecodes(hash(k), t);
    forall v | 0 <= v < |vals| && vals[v].key == k
      ensures ProbeDaf(hash(k), t) <= bs[i].distAndFingerprint
      ensures Off(h, pos[v], n) == t ==> bs[i].distAndFingerprint == ProbeDaf(hash(k), t) && bs[i].valueIdx == v
    {
      assert Placed(bs, vals, hash, shifts, pos[v]);
      ProbeReaches(bs, vals, hash, shifts, pos[v], t);
    }
  }

  /** Going past a bucket at least as rich as the probe word keeps the
      buckets passed at least as rich. */
  lemma RichStep(bs: seq<Bucket>, hash: int -> Hash64, shifts: nat, k: int, t: nat)
    requires Shape(bs, shifts) && t < |bs| && RichBefore(bs, hash, shifts, k, t)
    requires ProbeDaf(hash(k), t) <= bs[Probe(HomeOf(hash, shifts, k), t, |bs|)].distAndFingerprint
    ensures RichBefore(bs, hash, shifts, k, t + 1)
  {
  }

  /** A search that went past only buckets at least as rich and stopped at
      a poorer one has found k's insertion point; with a bucket left empty
      it stopped within one round. */
  lemma RichEnd(bs: seq<Bucket>, pos: seq<nat>, hash: int -> Hash64, shifts: nat, k: int, t: nat)
    requires Shape(bs, shifts) && t <= |bs| && RichBefore(bs, hash, shifts, k, t)
    requires bs[Probe(HomeOf(hash, shifts, k), t, |bs|)].distAndFingerprint < ProbeDaf(hash(k), t)
    requires Indexed(bs, pos, -1) && |pos| < |bs|
    ensures InsertPoint(bs, hash, shifts, k, t)
  {
    var n, h := |bs|, HomeOf(hash, shifts, k);
    EmptyExists(bs, pos, -1);
    var e :| 0 <= e < n && bs[e].distAndFingerprint == 0;
    assert Probe(h, Off(h, e, n), n) == e;
    assert t <= Off(h, e, n);
  }

  /** Where emplace's search stops at a poorer bucket, the key is new and
      that bucket is the place to insert it. */
  lemma SearchEnd(bs: seq<Bucket>, vals: seq<Entry>, pos: seq<nat>, hash: int -> Hash64, shifts: nat, x: Entry, t: nat)
    requires TableInv(bs, vals, pos, hash, shifts) && t <= |bs| && |vals| < |bs|
    requires NotBefore(bs, vals, pos, hash, shifts, x.key, t) && RichBefore(bs, hash, shifts, x.key, t)
    requires bs[Probe(HomeOf(hash, shifts, x.key), t, |bs|)].distAndFingerprint < ProbeDaf(hash(x.key), t)
    ensures InsertPoint(bs, hash, shifts, x.key, t)
    ensures forall v :: 0 <= v < |vals| ==> vals[v].key != x.key
  {
    TableInvParts(bs, vals, pos, hash, shifts);
    LookupStep(bs, vals, pos, hash, shifts, x.key, t);
    RichEnd(bs, pos, hash, shifts, x.key, t);
  }

  /** While a lookup meets buckets exactly as rich as itself, the next
      bucket is no richer than the lookup will be there. */
  lemma EqualStep(bs: seq<Bucket>, hash: int -> Hash64, shifts: nat, k: int, t: nat)
    requires Shape(bs, shifts) && Ordered(bs) && t < |bs|
    requires bs[Probe(HomeOf(hash, shifts, k), t, |bs|)].distAndFingerprint == ProbeDaf(hash(k), t)
    ensures bs[Probe(HomeOf(hash, shifts, k), t + 1, |bs|)].distAndFingerprint <= ProbeDaf(hash(k), t + 1)
  {
    var n, h := |bs|, HomeOf(hash, shifts, k);
    ProbeNext(h, t, n);
  }

  /** A lookup that went past every bucket before distance t while it was
      strictly poorer than them has not gone past a value with key k. */
  lemma PassedNone(bs: seq<Bucket>, vals: seq<Entry>, pos: seq<nat>, hash: int -> Hash64, shifts: nat, k: int, t: nat)
    requires TableInv(bs, vals, pos, hash, shifts) && t < |bs|
    requires forall s :: 0 <= s < t ==>
               ProbeDaf(hash(k), s) < bs[Probe(HomeOf(hash, shifts, k), s, |bs|)].distAndFingerprint
    ensures NotBefore(bs, vals, pos, hash, shifts, k, t)
  {
    var n, h := |bs|, HomeOf(hash, shifts, k);
    forall v | 0 <= v < |vals| && vals[v].key == k
      ensures t <= Off(h, pos[v], n)
    {
      assert Placed(bs, vals, hash, shifts, pos[v]);
      assert Probe(h, Off(h, pos[v], n), n) == pos[v];
    }
  }

  /** The step after the t-th probe from `home` is the (t+1)-th. */
  lemma ProbeNext(home: nat, t: nat, n: nat)
    requires home < n && t < n
    ensures Off(home, Probe(home, t, n), n) == t
    ensures Next(Probe(home, t, n), n) == Probe(home, t + 1, n)
  {
  }

  /** Doubling the buckets makes room for the value that did not fit. */
  lemma CapacityGrows(n: nat)
    requires n >= 4
    ensures Capacity(n) + 1 <= Capacity(2 * n) < 2 * n
  {
  }

  /** `table`, the map flavour: `m_values`, `m_buckets`, `m_shifts` and
      `m_max_bucket_capacity`, with the hash as a function. `pos` records
      which bucket refers to each value. */
  class Table {
    var values: seq<Entry>
    var buckets: array<Bucket>
    var maxBucketCapacity: nat
    var shifts: nat
    const hash: int -> Hash64
    ghost var pos: seq<nat>

    /** Between calls: 2^(64 - shifts) buckets (at least 4, at most
        max_bucket_count()), no more values than the load bound and at
        least one empty bucket, every value placed by robin-hood order, one
        bucket per value and distinct keys. */
    ghost predicate Valid()
      reads this, buckets
    {
      32 <= shifts <= InitialShifts && buckets.Length >= 4 &&
      maxBucketCapacity == BucketCapacity(buckets.Length) && |values| <= maxBucketCapacity &&
      |values| < buckets.Length &&
      TableInv(buckets[..], values, pos, hash, shifts)
    }

    /** `table()`: initial_shifts, four cleared buckets, no values. */
    constructor (hash: int -> Hash64)
      ensures Valid() && values == [] && this.hash == hash && buckets.Length == 4
    {
      this.hash := hash;
      values := [];
      shifts := InitialShifts;
      assert Pow2(2) == 4 by { assert Pow2(1) == 2; }
      var numBuckets := CalcNumBuckets(InitialShifts);
      buckets := new Bucket[numBuckets](_ => Empty);
      maxBucketCapacity := Capacity(numBuckets);
      assert BucketCapacity(numBuckets) == Capacity(numBuckets) by {
        assert Pow2(3) == 8;
        Pow2Monotone(3, 32);
      }
      hide Pow2, Capacity, BucketCapacity;
      pos := [];
      new;
      EmptyTable(buckets[..], values, hash, shifts);
    }

    /** allocate_buckets_from_shift followed by clear_buckets: a fresh
        array of calc_num_buckets(m_shifts) empty buckets and its load
        bound. */
    method AllocateBucketsFromShift()
      requires 32 <= shifts <= 64
      modifies this
      ensures values == old(values) && shifts == old(shifts) && pos == old(pos)
      ensures fresh(buckets) && buckets.Length == CalcNumBuckets(shifts) == Pow2(64 - shifts)
      ensures forall i :: 0 <= i < buckets.Length ==> buckets[i] == Empty
      ensures maxBucketCapacity == BucketCapacity(buckets.Length)
    {
      var numBuckets := CalcNumBuckets(shifts);
      buckets := new Bucket[numBuckets](_ => Empty);
      if numBuckets == MaxBucketCount {
        maxBucketCapacity := MaxBucketCount;
      } else {
        maxBucketCapacity := Capacity(numBuckets);
      }
    }

    /** place_and_shift_up: stores `bucket` at `place`; each full bucket it
        meets is moved one step up and one step further from home, until
        an empty bucket takes the last one. */
    method PlaceAndShiftUp(bucket: Bucket, place: nat) returns (ghost m: nat)
      requires place < buckets.Length
      requires exists e :: 0 <= e < buckets.Length && buckets[e].distAndFingerprint == 0
      modifies buckets
      ensures ShiftedUp(old(buckets[..]), buckets[..], bucket, place, m)
    {
      ghost var before := buckets[..];
      ghost var n := buckets.Length;
      ghost var e :| 0 <= e < n && before[e].distAndFingerprint == 0;
      var b, p := bucket, place;
      m := 0;
      while buckets[p].distAndFingerprint != 0
        invariant m <= Off(place, e, n) && p == Probe(place, m, n)
        invariant b == if m == 0 then bucket else Raised(before[Prev(p, n)])
        invariant ShiftingUp(before, buckets[..], bucket, place, m)
        decreases Off(place, e, n) - m
      {
        ShiftUpStep(before, buckets[..], bucket, place, m, b);
        var displaced := buckets[p];
        buckets[p] := b;
        b := Raised(displaced);
        p := Next(p, buckets.Length);
        m := m + 1;
      }
      ShiftUpDone(before, buckets[..], bucket, place, m, b);
      buckets[p] := b;
    }

    /** next_while_less: the first bucket on k's probe sequence that is no
        richer than k would be there; every bucket before it is richer. */
    method NextWhileLess(key: int) returns (daf: nat, bucketIdx: nat, ghost t: nat)
      requires Shape(buckets[..], shifts)
      requires exists e :: 0 <= e < buckets.Length && buckets[e].distAndFingerprint == 0
      ensures t < buckets.Length && daf == ProbeDaf(hash(key), t)
      ensures bucketIdx == Probe(HomeOf(hash, shifts, key), t, buckets.Length)
      ensures forall s :: 0 <= s < t ==>
                ProbeDaf(hash(key), s) < buckets[Probe(HomeOf(hash, shifts, key), s, buckets.Length)].distAndFingerprint
      ensures InsertPoint(buckets[..], hash, shifts, key, t)
    {
      var h := hash(key);
      daf := DistAndFingerprintFromHash(h);
      bucketIdx := BucketIdxFromHash(h, shifts);
      ghost var bs, n, home := buckets[..], buckets.Length, HomeOf(hash, shifts, key);
      ghost var e :| 0 <= e < n && bs[e].distAndFingerprint == 0;
      t := 0;
      ProbeDafDecodes(h, 0);
      assert bucketIdx == Probe(home, 0, n);
      hide Probe, Off, ProbeDaf, HomeOf, Pow2;
      while daf < buckets[bucketIdx].distAndFingerprint
        invariant t <= Off(home, e, n) && bucketIdx == Probe(home, t, n) && daf == ProbeDaf(h, t)
        invariant forall s :: 0 <= s < t ==> ProbeDaf(h, s) < bs[Probe(home, s, n)].distAndFingerprint
        decreases Off(home, e, n) - t
      {
        WalkStep(home, e, t, n);
        ProbeDafDecodes(h, t);
        daf := DistInc(daf);
        bucketIdx := Next(bucketIdx, buckets.Length);
        t := t + 1;
      }
    }

    /** do_find: the index of the value with this key, or size() (end())
        when there is none. */
    method Find(key: int) returns (idx: nat)
      requires Valid()
      ensures idx <= |values|
      ensures idx < |values| ==> values[idx].key == key
      ensures idx == |values| <==> forall v :: 0 <= v < |values| ==> values[v].key != key
    {
      if |values| == 0 {
        return |values|;
      }
      ghost var bs, n, home := buckets[..], buckets.Length, HomeOf(hash, shifts, key);
      assert NotBefore(bs, values, pos, hash, shifts, key, 0);
      assert BucketIdxFromHash(hash(key), shifts) == Probe(home, 0, n);
      ProbeDafDecodes(hash(key), 0);
      hide TableInv, AllPlaced, Ordered, Indexed, UniqueKeys, NotBefore,
           Probe, Off, ProbeDaf, HomeOf, Next, Prev, DistInc, Placed, Capacity, BucketCapacity, Pow2;
      var mh := hash(key);
      var daf := DistAndFingerprintFromHash(mh);
      var bucketIdx := BucketIdxFromHash(mh, shifts);
      var bucket := buckets[bucketIdx];
      LookupStep(bs, values, pos, hash, shifts, key, 0);
      if daf == bucket.distAndFingerprint && key == values[bucket.valueIdx].key {
        return bucket.valueIdx;
      }
      daf := DistInc(daf);
      bucketIdx := Next(bucketIdx, buckets.Length);
      bucket := buckets[bucketIdx];
      LookupStep(bs, values, pos, hash, shifts, key, 1);
      if daf == bucket.distAndFingerprint && key == values[bucket.valueIdx].key {
        return bucket.valueIdx;
      }
      daf := DistInc(daf);
      bucketIdx := Next(bucketIdx, buckets.Length);
      bucket := buckets[bucketIdx];
      ghost var t := 2;
      while true
        invariant t <= n && bucketIdx == Probe(home, t, n) && daf == ProbeDaf(mh, t) && bucket == buckets[bucketIdx]
        invariant NotBefore(bs, values, pos, hash, shifts, key, t)
        decreases n - t
      {
        LookupStep(bs, values, pos, hash, shifts, key, t);
        if daf == bucket.distAndFingerprint {
          if key == values[bucket.valueIdx].key {
            return bucket.valueIdx;
          }
        } else if daf > bucket.distAndFingerprint {
          return |values|;
        }
        daf := DistInc(daf);
        bucketIdx := Next(bucketIdx, buckets.Length);
        bucket := buckets[bucketIdx];
        t := t + 1;
      }
    }

    /** count: 1 when the key is present, else 0. */
    method Count(key: int) returns (c: nat)
      requires Valid()
      ensures c <= 1
      ensures c == 1 <==> exists v :: 0 <= v < |values| && values[v].key == key
    {
      var it := Find(key);
      c := if it == |values| then 0 else 1;
    }

    /** clear_buckets: every bucket is zeroed. */
    method ClearBuckets()
      modifies buckets
      ensures forall i :: 0 <= i < buckets.Length ==> buckets[i] == Empty
    {
      forall i | 0 <= i < buckets.Length {
        buckets[i] := Empty;
      }
    }

    /** clear_and_fill_buckets_from_values: clears every bucket, then
        places the values in order, each at the end of the run of buckets
        richer than it. The keys are known to be distinct, so no key
        comparison is made. */
    method ClearAndFillBucketsFromValues()
      requires Shape(buckets[..], shifts) && UniqueKeys(values) && |values| < buckets.Length
      modifies buckets, this`pos
      ensures TableInv(buckets[..], values, pos, hash, shifts)
    {
      ClearBuckets();
      pos := [];
      EmptyTable(buckets[..], values[..0], hash, shifts);
      hide TableInv, AllPlaced, Ordered, Indexed, UniqueKeys, ShiftedUp, InsertPoint, Placed;
      var valueIdx := 0;
      while valueIdx < |values|
        invariant valueIdx <= |values| && TableInv(buckets[..], values[..valueIdx], pos, hash, shifts)
      {
        TableInvParts(buckets[..], values[..valueIdx], pos, hash, shifts);
        EmptyExists(buckets[..], pos, -1);
        var key := values[valueIdx].key;
        var daf, bucketIdx, t := NextWhileLess(key);
        ghost var before := buckets[..];
        ghost var m := PlaceAndShiftUp(Bucket(daf, valueIdx), bucketIdx);
        UniqueBefore(values, valueIdx);
        InsertKeeps(before, buckets[..], values[..valueIdx], pos, values[valueIdx], hash, shifts, t, m);
        assert values[..valueIdx] + [values[valueIdx]] == values[..valueIdx + 1];
        pos := UpPositions(pos, bucketIdx, m, buckets.Length) + [bucketIdx];
        valueIdx := valueIdx + 1;
      }
      assert values[..|values|] == values;
    }

    /** increase_size: called with the new value already appended and one
        value over the load bound. When the load bound is already
        max_bucket_count() the value is removed again and the overflow is
        reported; otherwise the bucket count doubles and every value is
        placed anew. */
    method IncreaseSize() returns (ok: bool)
      requires 32 <= shifts <= InitialShifts && buckets.Length >= 4 && maxBucketCapacity == BucketCapacity(buckets.Length)
      requires |values| == maxBucketCapacity + 1 && UniqueKeys(values)
      requires TableInv(buckets[..], values[..|values| - 1], pos, hash, shifts)
      modifies this
      ensures ok <==> old(buckets.Length) != MaxBucketCount
      ensures ok ==> Valid() && values == old(values) && buckets.Length == 2 * old(buckets.Length)
      ensures !ok ==> values == old(values[..|values| - 1]) && buckets == old(buckets) && pos == old(pos) &&
                      shifts == old(shifts) && maxBucketCapacity == old(maxBucketCapacity) &&
                      TableInv(buckets[..], values, pos, hash, shifts)
    {
      if maxBucketCapacity == MaxBucketCount {
        assert buckets.Length == MaxBucketCount by {
          Pow2Monotone(64 - shifts, 32);
        }
        values := values[..|values| - 1];
        return false;
      }
      ghost var n := buckets.Length;
      CapacityGrows(n);
      shifts := shifts - 1;
      AllocateBucketsFromShift();
      ClearAndFillBucketsFromValues();
      return true;
    }

    /** What emplace does once its search has found the new key's place,
        the new value being already appended (the same steps as
        do_place_element after its emplace_back): over the load bound the
        table grows, otherwise the value's bucket is placed and the buckets
        after it shift up. A value that would take the last empty bucket
        (possible only at max_bucket_count() buckets) is removed again and
        reported as the overflow. */
    method PlaceNew(daf: nat, bucketIdx: nat, ghost t: nat, ghost vs: seq<Entry>, ghost x: Entry) returns (ok: bool)
      requires 32 <= shifts <= InitialShifts && buckets.Length >= 4 && maxBucketCapacity == BucketCapacity(buckets.Length)
      requires values == vs + [x] && |vs| <= maxBucketCapacity && |vs| < buckets.Length && UniqueKeys(vs)
      requires forall v :: 0 <= v < |vs| ==> vs[v].key != x.key
      requires TableInv(buckets[..], vs, pos, hash, shifts)
      requires InsertPoint(buckets[..], hash, shifts, x.key, t)
      requires daf == ProbeDaf(hash(x.key), t)
      requires bucketIdx == Probe(HomeOf(hash, shifts, x.key), t, buckets.Length)
      modifies this, buckets
      ensures Valid()
      ensures ok <==> old(buckets.Length) != MaxBucketCount || old(|values|) < MaxBucketCount
      ensures ok ==> values == old(values)
      ensures !ok ==> values == vs && old(buckets.Length) == MaxBucketCount
    {
      BucketCapacityBelow(buckets.Length);
      hide BucketCapacity, Capacity;
      AppendUnique(vs, x);
      if |values| > maxBucketCapacity {
        assert buckets.Length != MaxBucketCount;
        assert values[..|values| - 1] == vs;
        ok := IncreaseSize();
      } else if |values| == buckets.Length {
        values := values[..|values| - 1];
        ok := false;
      } else {
        PlaceValue(daf, bucketIdx, t, vs, x);
        ok := true;
      }
    }

    /** The placing branch of do_place_element: the new value's bucket goes
        to the insert point and the buckets after it shift up. */
    method PlaceValue(daf: nat, bucketIdx: nat, ghost t: nat, ghost vs: seq<Entry>, ghost x: Entry)
      requires 32 <= shifts <= InitialShifts && buckets.Length >= 4 && maxBucketCapacity == BucketCapacity(buckets.Length)
      requires values == vs + [x] && |values| <= maxBucketCapacity && |values| < buckets.Length
      requires forall v :: 0 <= v < |vs| ==> vs[v].key != x.key
      requires TableInv(buckets[..], vs, pos, hash, shifts)
      requires InsertPoint(buckets[..], hash, shifts, x.key, t)
      requires daf == ProbeDaf(hash(x.key), t)
      requires bucketIdx == Probe(HomeOf(hash, shifts, x.key), t, buckets.Length)
      modifies this`pos, buckets
      ensures Valid()
    {
      hide BucketCapacity, Capacity, AllPlaced, Ordered, UniqueKeys, Placed, ShiftedUp, InsertPoint;
      ghost var ps, bs := pos, buckets[..];
      TableInvParts(bs, vs, ps, hash, shifts);
      EmptyExists(bs, ps, -1);
      ghost var m := PlaceAndShiftUp(Bucket(daf, |values| - 1), bucketIdx);
      InsertKeeps(bs, buckets[..], vs, ps, x, hash, shifts, t, m);
      pos := UpPositions(ps, bucketIdx, m, buckets.Length) + [bucketIdx];
    }

    /** emplace: the value is appended first; the key's probe sequence is
        searched while its buckets are at least as rich, and an equal key
        there removes the value again. A new key is placed at the bucket
        the search stopped at, or the table grows when it is over its load
        bound; the overflow error is the one PlaceNew reports. */
    method Emplace(key: int, mapped: int) returns (r: Result<(nat, bool)>)
      requires Valid()
      modifies this, buckets
      ensures Valid()
      ensures r.Ok? ==> r.value.0 < |values| && values[r.value.0].key == key
      ensures r.Ok? ==> (r.value.1 <==> forall v :: 0 <= v < |old(values)| ==> old(values)[v].key != key)
      ensures r.Ok? && r.value.1 ==> values == old(values) + [Entry(key, mapped)] && r.value.0 == |old(values)|
      ensures r.Ok? && !r.value.1 ==> values == old(values) && buckets == old(buckets)
      ensures r.Err? ==> r.error == Overflow && values == old(values) && old(buckets.Length) == MaxBucketCount &&
                         |values| + 1 == MaxBucketCount && forall v :: 0 <= v < |values| ==> values[v].key != key
    {
      hide TableInv, AllPlaced, Ordered, Indexed, UniqueKeys, Placed, InsertPoint, ProbeDaf, Probe, HomeOf,
           Capacity, BucketCapacity, Pow2;
      ghost var ov, ps, bs, n := values, pos, buckets[..], buckets.Length;
      TableInvParts(bs, ov, ps, hash, shifts);
      values := values + [Entry(key, mapped)];
      var found, daf, bucketIdx, t := SearchKey(key, ov, Entry(key, mapped));
      if found {
        values := values[..|values| - 1];
        return Ok((buckets[bucketIdx].valueIdx, false));
      }
      var valueIdx := |values| - 1;
      var ok := PlaceNew(daf, bucketIdx, t, ov, Entry(key, mapped));
      if !ok {
        return Err(Overflow);
      }
      return Ok((valueIdx, true));
    }

    /** The search of do_try_emplace, once the new value x is appended:
        from the key's home the walk goes over buckets at least as rich as
        the key's probe word. It finds the key in a bucket exactly as rich
        that refers to it, and otherwise stops at the first poorer bucket,
        where the new key belongs. */
    method SearchKey(key: int, ghost vs: seq<Entry>, ghost x: Entry) returns (found: bool, daf: nat, bucketIdx: nat, ghost t: nat)
      requires values == vs + [x] && x.key == key && |vs| < buckets.Length
      requires TableInv(buckets[..], vs, pos, hash, shifts)
      ensures found ==> bucketIdx < buckets.Length && buckets[bucketIdx].valueIdx < |vs| &&
                        vs[buckets[bucketIdx].valueIdx].key == key
      ensures !found <==> forall v :: 0 <= v < |vs| ==> vs[v].key != key
      ensures !found ==> InsertPoint(buckets[..], hash, shifts, key, t) && daf == ProbeDaf(hash(key), t) &&
                         bucketIdx == Probe(HomeOf(hash, shifts, key), t, buckets.Length)
    {
      ghost var ps, bs, n := pos, buckets[..], buckets.Length;
      TableInvParts(bs, vs, ps, hash, shifts);
      assert NotBefore(bs, vs, ps, hash, shifts, key, 0) && RichBefore(bs, hash, shifts, key, 0);
      ghost var home := HomeOf(hash, shifts, key);
      assert BucketIdxFromHash(hash(key), shifts) == Probe(home, 0, n);
      ProbeDafDecodes(hash(key), 0);
      hide TableInv, AllPlaced, Ordered, Indexed, UniqueKeys, Placed, ShiftedUp, NotBefore, RichBefore, InsertPoint,
           Probe, Off, ProbeDaf, HomeOf, Next, Prev, DistInc, Capacity, BucketCapacity, Pow2;
      var h := hash(key);
      daf := DistAndFingerprintFromHash(h);
      bucketIdx := BucketIdxFromHash(h, shifts);
      t := 0;
      while daf <= buckets[bucketIdx].distAndFingerprint
        invariant t <= n && bucketIdx == Probe(home, t, n) && daf == ProbeDaf(h, t)
        invariant NotBefore(bs, vs, ps, hash, shifts, key, t) && RichBefore(bs, hash, shifts, key, t)
        decreases n - t
      {
        LookupStep(bs, vs, ps, hash, shifts, key, t);
        if daf == buckets[bucketIdx].distAndFingerprint && key == values[buckets[bucketIdx].valueIdx].key {
          return true, daf, bucketIdx, t;
        }
        RichStep(bs, hash, shifts, key, t);
        daf := DistInc(daf);
        bucketIdx := Next(bucketIdx, buckets.Length);
        t := t + 1;
      }
      SearchEnd(bs, vs, ps, hash, shifts, x, t);
      found := false;
    }

    /** The shift-down of do_erase: from bucketIdx on, each bucket takes
        its successor moved one step back while the successor is away from
        home, and the last bucket moved from (or bucketIdx) is cleared. */
    method ShiftDown(bucketIdx: nat) returns (ghost m: nat)
      requires bucketIdx < buckets.Length && buckets[bucketIdx].distAndFingerprint != 0
      requires exists e :: 0 <= e < buckets.Length && buckets[e].distAndFingerprint == 0
      modifies buckets
      ensures ShiftedDown(old(buckets[..]), buckets[..], bucketIdx, m)
    {
      ghost var before, n, b0 := buckets[..], buckets.Length, bucketIdx;
      ghost var e :| 0 <= e < n && before[e].distAndFingerprint == 0;
      assert Off(b0, e, n) >= 1;
      assert ShiftingDown(before, buckets[..], b0, 0);
      var idx, nextIdx := bucketIdx, Next(bucketIdx, buckets.Length);
      m := 0;
      while buckets[nextIdx].distAndFingerprint >= 2 * BucketDistInc
        invariant m + 1 <= Off(b0, e, n) && idx == Probe(b0, m, n) && nextIdx == Next(idx, n)
        invariant ShiftingDown(before, buckets[..], b0, m)
        decreases Off(b0, e, n) - m
      {
        ShiftDownStep(before, buckets[..], b0, m, e);
        buckets[idx] := Bucket(DistDec(buckets[nextIdx].distAndFingerprint), buckets[nextIdx].valueIdx);
        idx, nextIdx := nextIdx, Next(nextIdx, buckets.Length);
        m := m + 1;
      }
      ShiftDownDone(before, buckets[..], b0, m, e);
      buckets[idx] := Empty;
    }

    /** do_erase: the buckets after the erased one are shifted down, and
        the erased value's slot is refilled. */
    method DoErase(bucketIdx: nat)
      requires Valid() && bucketIdx < buckets.Length && buckets[bucketIdx].distAndFingerprint != 0
      modifies this, buckets
      ensures Valid() && buckets == old(buckets) && shifts == old(shifts)
      ensures old(buckets[bucketIdx].valueIdx) < |old(values)|
      ensures values == RemoveAt(old(values), old(buckets[bucketIdx].valueIdx))
    {
      ghost var ov, ps, bs, n, b0, cap := values, pos, buckets[..], buckets.Length, bucketIdx, maxBucketCapacity;
      TableInvParts(bs, ov, ps, hash, shifts);
      EmptyExists(bs, ps, -1);
      assert bs[b0].valueIdx < |ov|;
      hide TableInv, AllPlaced, Ordered, Indexed, UniqueKeys, ShiftedDown, ShiftingDown, Placed, NoValueBefore,
           Capacity, BucketCapacity, Pow2, ProbeDaf, InsertPoint, NotBefore, RichBefore, Holed;
      var valueIdxToRemove := buckets[bucketIdx].valueIdx;
      assert valueIdxToRemove == bs[b0].valueIdx;
      ghost var m := ShiftDown(bucketIdx);
      EraseKeeps(bs, buckets[..], ov, ps, hash, shifts, cap, b0, m);
      pos := DownPositions(ps, b0, m, n);
      FillHole(valueIdxToRemove);
    }

    /** The rest of do_erase, once value r has no bucket: unless r is the
        last value, the last value moves into slot r, its bucket is found
        by walking from its home and pointed at r; then the value sequence
        shrinks by one. */
    method FillHole(r: nat)
      requires Holed(buckets[..], values, pos, hash, shifts, maxBucketCapacity, r)
      modifies this, buckets
      ensures Valid() && buckets == old(buckets) && shifts == old(shifts)
      ensures values == RemoveAt(old(values), r)
    {
      hide TableInv, AllPlaced, Ordered, Indexed, UniqueKeys, Placed, NoValueBefore, BucketCapacity;
      ghost var ov, ps, after, n := values, pos, buckets[..], buckets.Length;
      var last := |values| - 1;
      if r != last {
        HoleFillMoved(after, ov, ps, hash, shifts, r);
        ghost var home := HomeOf(hash, shifts, ov[last].key);
        MovedBucket(after, ov, ps, hash, shifts, r, home);
        hide Capacity, BucketCapacity, Pow2;
        values := values[r := values[last]];
        var bi := BucketIdxFromHash(hash(values[r].key), shifts);
        ghost var target := ps[last];
        ghost var s := 0;
        assert bi == Probe(home, 0, n);
        hide Probe, Off;
        while buckets[bi].valueIdx != last
          invariant s <= Off(home, target, n) && bi == Probe(home, s, n)
          invariant buckets[..] == after
          modifies {}
          decreases Off(home, target, n) - s
        {
          WalkStep(home, target, s, n);
          bi := Next(bi, buckets.Length);
          s := s + 1;
        }
        WalkEnd(after, home, target, last, s);
        buckets[bi] := buckets[bi].(valueIdx := r);
        assert buckets[..] == after[target := after[target].(valueIdx := r)];
        pos := ps[r := ps[last]][..last];
      } else {
        HoleFillLast(after, ov, ps, hash, shifts);
        pos := ps[..last];
      }
      values := values[..last];
    }

    /** The search of do_erase_key: next_while_less finds the first bucket
        no richer than the key, and the walk goes on over buckets exactly
        as rich until one refers to the key. It is found exactly when the
        walk stops on a bucket as rich as the key's probe word. */
    method KeyBucket(key: int) returns (found: bool, bucketIdx: nat)
      requires Valid() && |values| > 0
      ensures found ==> bucketIdx < buckets.Length && buckets[bucketIdx].distAndFingerprint != 0 &&
                        buckets[bucketIdx].valueIdx < |values| && values[buckets[bucketIdx].valueIdx].key == key
      ensures !found <==> forall v :: 0 <= v < |values| ==> values[v].key != key
    {
      hide TableInv, AllPlaced, Ordered, Indexed, UniqueKeys, Placed, Capacity, BucketCapacity, Pow2;
      ghost var ov, ps, bs, n := values, pos, buckets[..], buckets.Length;
      TableInvParts(bs, ov, ps, hash, shifts);
      EmptyExists(bs, ps, -1);
      var daf;
      ghost var t;
      daf, bucketIdx, t := NextWhileLess(key);
      PassedNone(bs, ov, ps, hash, shifts, key, t);
      ghost var home, h := HomeOf(hash, shifts, key), hash(key);
      assert daf != 0;
      hide NotBefore, InsertPoint, Probe, Off, ProbeDaf, HomeOf, Next, Prev;
      FullBucketsIndexed(bs, ps, -1);
      while daf == buckets[bucketIdx].distAndFingerprint && key != values[buckets[bucketIdx].valueIdx].key
        invariant t <= n && bucketIdx == Probe(home, t, n) && daf == ProbeDaf(h, t) && daf != 0
        invariant bs[bucketIdx].distAndFingerprint <= daf
        invariant NotBefore(bs, ov, ps, hash, shifts, key, t)
        decreases n - t
      {
        LookupStep(bs, ov, ps, hash, shifts, key, t);
        EqualStep(bs, hash, shifts, key, t);
        daf := DistInc(daf);
        bucketIdx := Next(bucketIdx, buckets.Length);
        t := t + 1;
      }
      LookupStep(bs, ov, ps, hash, shifts, key, t);
      found := daf == buckets[bucketIdx].distAndFingerprint;
    }

    /** do_erase_key, behind erase(key): nothing to do in an empty table;
        otherwise the bucket that refers to the key, when there is one, is
        erased. The count erased is 0 or 1. */
    method EraseKey(key: int) returns (count: nat)
      requires Valid()
      modifies this, buckets
      ensures Valid() && buckets == old(buckets)
      ensures count <= 1 && |values| + count == |old(values)|
      ensures count == 0 <==> forall v :: 0 <= v < |old(values)| ==> old(values)[v].key != key
      ensures count == 0 ==> values == old(values)
      ensures forall e :: e in values <==> e in old(values) && e.key != key
    {
      if |values| == 0 {
        return 0;
      }
      var found, bucketIdx := KeyBucket(key);
      if !found {
        return 0;
      }
      ghost var ov, r := values, buckets[bucketIdx].valueIdx;
      TableInvParts(buckets[..], values, pos, hash, shifts);
      DoErase(bucketIdx);
      RemoveAtContents(ov, r);
      return 1;
    }

    /** erase(iterator): the value's bucket is found by walking from its
        key's home until a bucket refers to it, and is erased; the iterator
        returned is at the same index. */
    method EraseAt(idx: nat) returns (next: nat)
      requires Valid() && idx < |values|
      modifies this, buckets
      ensures Valid() && buckets == old(buckets)
      ensures next == idx && values == RemoveAt(old(values), idx)
    {
      hide TableInv, AllPlaced, Ordered, Indexed, UniqueKeys, Placed, NoValueBefore;
      ghost var ov, ps, bs, n := values, pos, buckets[..], buckets.Length;
      TableInvParts(bs, ov, ps, hash, shifts);
      ValueChain(bs, ov, ps, hash, shifts, idx);
      ghost var home, target := HomeOf(hash, shifts, ov[idx].key), ps[idx];
      var bi := BucketIdxFromHash(hash(values[idx].key), shifts);
      ghost var s := 0;
      assert bi == Probe(home, 0, n);
      hide Probe, Off, Capacity, BucketCapacity, Pow2;
      while buckets[bi].valueIdx != idx
        invariant s <= Off(home, target, n) && bi == Probe(home, s, n)
        invariant buckets[..] == bs
        modifies {}
        decreases Off(home, target, n) - s
      {
        WalkStep(home, target, s, n);
        bi := Next(bi, buckets.Length);
        s := s + 1;
      }
      WalkEnd(bs, home, target, idx, s);
      DoErase(bi);
      return idx;
    }
  }

  /** erase_if: the values are visited from the back, and each one the
      predicate holds for is erased; the values it does not hold for are
      kept, and the count erased is returned. */
  method EraseIf(t: Table, pred: Entry -> bool) returns (removed: nat)
    requires t.Valid()
    modifies t, t.buckets
    ensures t.Valid() && t.buckets == old(t.buckets)
    ensures forall e :: e in t.values <==> e in old(t.values) && !pred(e)
    ensures removed + |t.values| == |old(t.values)|
  {
    ghost var ov := t.values;
    var oldSize: nat := |t.values|;
    var idx: nat := oldSize;
    while idx > 0
      invariant t.Valid() && t.buckets == old(t.buckets)
      invariant oldSize == |ov|
      invariant idx <= |t.values|
      invariant |t.values| <= oldSize
      invariant t.values[..idx] == ov[..idx]
      invariant forall e :: e in t.values[idx..] ==> e in ov && !pred(e)
      invariant forall e :: e in ov[idx..] && !pred(e) ==> e in t.values
      decreases idx
    {
      idx := idx - 1;
      ghost var cur := t.values;
      assert cur[idx] == ov[idx] by {
        assert cur[..idx + 1][idx] == ov[..idx + 1][idx];
      }
      if pred(t.values[idx]) {
        var _ := t.EraseAt(idx);
        RemoveAtTail(cur, idx);
        RemoveAtContents(cur, idx);
      } else {
        assert cur[idx..] == [cur[idx]] + cur[idx + 1..];
      }
    }
    removed := oldSize - |t.values|;
  }
}

=== FILE: forward_list.dfy ===
/** forward_list.h: a singly linked list with two sentinel nodes. `head()`
    is the node before the first element (`before_begin()`), `tail()` the
    node every last link points at (`end()`), and `_size` is kept in step
    with every attach and detach. Nodes are objects whose `_suc` link the
    operations rewrite in place; the ghost sequence `nodes` names the
    element nodes in list order, and every loop is proved against it. */
module ForwardList {
  import opened AlgorithmBase
  import Algorithm

  /** fl_node / fl_vnode: a link and, for element nodes, the stored value.
      No operation modelled here reassigns a stored value, so it is a const. */
  class Node {
    var suc: Node?
    const data: int

    constructor (v: int)
      ensures data == v && suc == null
    {
      data := v;
      suc := null;
    }
  }

  /** The values held by a sequence of nodes. */
  function Values(ns: seq<Node>): (r: seq<int>)
    ensures |r| == |ns| && forall i :: 0 <= i < |ns| ==> r[i] == ns[i].data
  {
    if ns == [] then [] else [ns[0].data] + Values(ns[1..])
  }

  lemma ValuesSplit(ns: seq<Node>, k: nat)
    requires k <= |ns|
    ensures Values(ns[..k]) == Values(ns)[..k] && Values(ns[k..]) == Values(ns)[k..]
  {
  }

  lemma ValuesAppend(a: seq<Node>, b: seq<Node>)
    ensures Values(a + b) == Values(a) + Values(b)
  {
    assert Values(a + b) == Values(a) + Values(b);
  }

  /** The values of nodes `b` inserted at position p of `a`. */
  lemma ValuesInserted(a: seq<Node>, p: nat, b: seq<Node>)
    requires p <= |a|
    ensures Values(a[..p] + b + a[p..]) == Values(a)[..p] + Values(b) + Values(a)[p..]
    ensures b == [] ==> a[..p] + b + a[p..] == a
  {
    ValuesAppend(a[..p] + b, a[p..]);
    ValuesAppend(a[..p], b);
    ValuesSplit(a, p);
  }

  predicate Distinct(ns: seq<Node>)
  {
    forall i, j :: 0 <= i < j < |ns| ==> ns[i] != ns[j]
  }

  /** The node a link after position `i` of `ns` reaches: the next node of
      `ns`, or `last` after the final one. */
  function After(ns: seq<Node>, i: nat, last: Node?): Node?
    requires i < |ns|
  {
    if i + 1 < |ns| then ns[i + 1] else last
  }

  /** `from` links through `ns` in order and the final link reaches `last`. */
  ghost predicate Chain(from: Node, ns: seq<Node>, last: Node?)
    reads from, ns
  {
    from.suc == (if ns == [] then last else ns[0]) &&
    forall i {:trigger ns[i].suc} :: 0 <= i < |ns| ==> ns[i].suc == After(ns, i, last)
  }

  /** No node of `a` occurs in `b`. */
  predicate Apart(a: seq<Node>, b: seq<Node>)
  {
    forall x :: x in a ==> x !in b
  }

  /** Linking the run `rs` in after position `k` (the start node counting as
      position 0) leaves a chain through the longer sequence, when the links
      of the other nodes of `ns` are as they were. */
  lemma ChainInsert(from: Node, ns: seq<Node>, last: Node?, k: nat, rs: seq<Node>)
    requires k <= |ns| && |rs| > 0
    requires rs[|rs| - 1].suc == (if k < |ns| then ns[k] else last)
    requires (if k == 0 then from else ns[k - 1]).suc == rs[0]
    requires k > 0 ==> from.suc == ns[0]
    requires forall j {:trigger ns[j].suc} :: 0 <= j < |ns| && j != k - 1 ==> ns[j].suc == After(ns, j, last)
    requires forall j {:trigger rs[j].suc} :: 0 <= j < |rs| - 1 ==> rs[j].suc == rs[j + 1]
    ensures Chain(from, ns[..k] + rs + ns[k..], last)
  {
    var ns' := ns[..k] + rs + ns[k..];
    var m := |rs|;
    forall i | 0 <= i < |ns'|
      ensures ns'[i].suc == After(ns', i, last)
    {
      if i < k - 1 {
        assert ns'[i] == ns[i] && ns'[i + 1] == ns[i + 1];
      } else if i == k - 1 {
        assert ns'[i] == ns[k - 1] && ns'[i + 1] == rs[0];
      } else if i < k + m - 1 {
        assert ns'[i] == rs[i - k] && ns'[i + 1] == rs[i - k + 1];
      } else if i == k + m - 1 {
        assert ns'[i] == rs[m - 1];
        if k < |ns| { assert ns'[i + 1] == ns[k]; }
      } else {
        assert ns'[i] == ns[i - m];
        if i + 1 < |ns'| { assert ns'[i + 1] == ns[i - m + 1]; }
      }
    }
  }

  /** Linking the node at position `p` straight to the one at position `q`
      leaves a chain through what remains, when the links of the nodes kept
      are as they were. */
  lemma ChainRemove(from: Node, ns: seq<Node>, last: Node?, p: nat, q: nat)
    requires p <= q <= |ns|
    requires (if p == 0 then from else ns[p - 1]).suc == (if q < |ns| then ns[q] else last)
    requires p > 0 ==> from.suc == ns[0]
    requires forall j {:trigger ns[j].suc} :: (0 <= j < p - 1 || q <= j < |ns|) ==> ns[j].suc == After(ns, j, last)
    ensures Chain(from, ns[..p] + ns[q..], last)
  {
    var ns' := ns[..p] + ns[q..];
    forall i | 0 <= i < |ns'|
      ensures ns'[i].suc == After(ns', i, last)
    {
      if i < p - 1 {
        assert ns'[i] == ns[i] && ns'[i + 1] == ns[i + 1];
      } else if i == p - 1 {
        assert ns'[i] == ns[p - 1];
        if q < |ns| { assert ns'[i + 1] == ns[q]; }
      } else {
        assert ns'[i] == ns[i - p + q];
        if i + 1 < |ns'| { assert ns'[i + 1] == ns[i - p + q + 1]; }
      }
    }
  }

  /** One more node erased after position `f` of what is left of `ns`. */
  lemma EraseStep(ns: seq<Node>, before: seq<Node>, after: seq<Node>, f: nat, m: nat, m1: nat)
    requires f + m < |ns| && before == ns[..f] + ns[f + m..] && m1 == m + 1
    requires after == before[..f] + before[f + 1..]
    ensures after == ns[..f] + ns[f + m1..] && |after| == |ns| - m1
    ensures ns[f..f + m1] == ns[f..f + m] + [before[f]]
  {
    assert before[..f] == ns[..f] && before[f + 1..] == ns[f + m + 1..];
  }

  lemma AppendOne<T>(a: seq<T>, b: seq<T>, x: T)
    ensures (a + b) + [x] == a + (b + [x])
  {
  }

  /** Erasing the node at index `f` moves every later node one place down. */
  lemma ShiftedPosition(before: seq<Node>, after: seq<Node>, f: nat, j: nat)
    requires f + 1 < j <= |before| && after == before[..f] + before[f + 1..]
    ensures before[j - 1] == after[j - 2]
  {
  }

  lemma InsertDistinct(ns: seq<Node>, k: nat, rs: seq<Node>)
    requires Distinct(ns) && Distinct(rs) && Apart(rs, ns) && k <= |ns|
    ensures Distinct(ns[..k] + rs + ns[k..])
  {
    var ns' := ns[..k] + rs + ns[k..];
    var m := |rs|;
    forall i, j | 0 <= i < j < |ns'|
      ensures ns'[i] != ns'[j]
    {
      if j < k {
        assert ns'[i] == ns[i] && ns'[j] == ns[j];
      } else if j < k + m {
        assert ns'[j] == rs[j - k] && rs[j - k] in rs;
        if i < k { assert ns'[i] == ns[i] && ns[i] in ns; } else { assert ns'[i] == rs[i - k]; }
      } else {
        assert ns'[j] == ns[j - m];
        if i < k { assert ns'[i] == ns[i]; }
        else if i < k + m { assert ns'[i] == rs[i - k] && rs[i - k] in rs && ns[j - m] in ns; }
        else { assert ns'[i] == ns[i - m]; }
      }
    }
  }

  lemma RemoveDistinct(ns: seq<Node>, p: nat, q: nat)
    requires Distinct(ns) && p <= q <= |ns|
    ensures Distinct(ns[..p] + ns[q..])
    ensures forall x :: x in ns[..p] + ns[q..] ==> x in ns
  {
    var ns' := ns[..p] + ns[q..];
    forall i, j | 0 <= i < j < |ns'|
      ensures ns'[i] != ns'[j]
    {
      assert ns'[j] == ns[if j < p then j else j - p + q];
      assert ns'[i] == ns[if i < p then i else i - p + q];
    }
    forall x | x in ns'
      ensures x in ns
    {
      var i :| 0 <= i < |ns'| && ns'[i] == x;
      assert ns'[i] == ns[if i < p then i else i - p + q];
    }
  }

  /** Links that all point one node back make a chain through the reversed
      sequence. */
  lemma ChainReversed(from: Node, ns: seq<Node>, last: Node?)
    requires from.suc == (if ns == [] then last else ns[|ns| - 1])
    requires forall j {:trigger ns[j].suc} :: 0 <= j < |ns| ==> ns[j].suc == (if j == 0 then last else ns[j - 1])
    ensures Chain(from, AlgorithmBase.Reverse(ns), last)
  {
    var r := AlgorithmBase.Reverse(ns);
    forall i | 0 <= i < |r|
      ensures r[i].suc == After(r, i, last)
    {
      var j := |ns| - 1 - i;
      assert r[i] == ns[j];
      assert ns[j].suc == (if j == 0 then last else ns[j - 1]);
      if i + 1 < |r| {
        assert r[i + 1] == ns[j - 1];
      }
    }
  }

  lemma ReverseDistinct(ns: seq<Node>)
    requires Distinct(ns)
    ensures Distinct(AlgorithmBase.Reverse(ns))
    ensures forall x :: x in AlgorithmBase.Reverse(ns) <==> x in ns
  {
    var r := AlgorithmBase.Reverse(ns);
    forall i, j | 0 <= i < j < |r|
      ensures r[i] != r[j]
    {
      assert r[i] == ns[|ns| - 1 - i] && r[j] == ns[|ns| - 1 - j];
    }
    ReversePermutes(ns);
    forall x
      ensures x in r <==> x in ns
    {
      assert x in r <==> x in multiset(r);
      assert x in ns <==> x in multiset(ns);
    }
  }

  /** The order merge uses on nodes: the value they hold. */
  function Key(n: Node): int
  {
    n.data
  }

  // ------------------------------------------- what the list operations leave

  /** remove_if's survivors: the nodes whose value fails `pred`, in order. */
  function KeepNodes(ns: seq<Node>, pred: int -> bool): seq<Node>
  {
    if ns == [] then []
    else KeepNodes(ns[..|ns| - 1], pred) + (if pred(ns[|ns| - 1].data) then [] else [ns[|ns| - 1]])
  }

  /** remove_if's victims: the nodes whose value satisfies `pred`, in order. */
  function DropNodes(ns: seq<Node>, pred: int -> bool): seq<Node>
  {
    if ns == [] then []
    else DropNodes(ns[..|ns| - 1], pred) + (if pred(ns[|ns| - 1].data) then [ns[|ns| - 1]] else [])
  }

  /** The values that fail `pred`, in their order in `s`. */
  function Keep(s: seq<int>, pred: int -> bool): seq<int>
  {
    if s == [] then [] else Keep(s[..|s| - 1], pred) + (if pred(s[|s| - 1]) then [] else [s[|s| - 1]])
  }

  /** How many values satisfy `pred`. */
  function Count(s: seq<int>, pred: int -> bool): nat
  {
    if s == [] then 0 else Count(s[..|s| - 1], pred) + (if pred(s[|s| - 1]) then 1 else 0)
  }

  /** unique's survivors: scanning left to right, a node is dropped when
      `pred` holds between the last node kept and it. */
  function UniqueNodes(ns: seq<Node>, pred: (int, int) -> bool): (r: seq<Node>)
    ensures |r| <= |ns| && (|ns| > 0 ==> |r| > 0 && r[0] == ns[0])
  {
    if |ns| <= 1 then ns
    else
      var r := UniqueNodes(ns[..|ns| - 1], pred);
      if pred(r[|r| - 1].data, ns[|ns| - 1].data) then r else r + [ns[|ns| - 1]]
  }

  /** unique's victims, in order. */
  function DupNodes(ns: seq<Node>, pred: (int, int) -> bool): seq<Node>
  {
    if |ns| <= 1 then []
    else
      var r := UniqueNodes(ns[..|ns| - 1], pred);
      DupNodes(ns[..|ns| - 1], pred) + (if pred(r[|r| - 1].data, ns[|ns| - 1].data) then [ns[|ns| - 1]] else [])
  }

  /** The same scan on values. */
  function UniqueValues(s: seq<int>, pred: (int, int) -> bool): (r: seq<int>)
    ensures |r| <= |s| && (|s| > 0 ==> |r| > 0 && r[0] == s[0])
  {
    if |s| <= 1 then s
    else
      var r := UniqueValues(s[..|s| - 1], pred);
      if pred(r[|r| - 1], s[|s| - 1]) then r else r + [s[|s| - 1]]
  }

  /** The predicate unique() uses. */
  function Same(a: int, b: int): bool
  {
    a == b
  }

  /** The elements of s that differ from the one before them, with the
      first: an independent account of what unique() keeps. */
  function KeepChanges(s: seq<int>): seq<int>
  {
    if |s| <= 1 then s
    else KeepChanges(s[..|s| - 1]) + (if s[|s| - 1] == s[|s| - 2] then [] else [s[|s| - 1]])
  }

  /** With equality, the last element unique() keeps equals the last element. */
  lemma {:induction false} UniqueValuesLast(s: seq<int>)
    requires |s| > 0
    ensures var r := UniqueValues(s, Same); |r| > 0 && r[|r| - 1] == s[|s| - 1]
  {
    if |s| > 1 {
      UniqueValuesLast(s[..|s| - 1]);
    }
  }

  /** unique() with equality keeps exactly the elements that differ from
      the one before them, and leaves no two equal neighbours. */
  lemma {:induction false} UniqueEqualKeepsChanges(s: seq<int>)
    ensures UniqueValues(s, Same) == KeepChanges(s)
    ensures var r := UniqueValues(s, Same); forall k :: 0 < k < |r| ==> r[k - 1] != r[k]
  {
    if |s| > 1 {
      var p := s[..|s| - 1];
      UniqueEqualKeepsChanges(p);
      UniqueValuesLast(p);
      assert p[|p| - 1] == s[|s| - 2];
    }
  }

  /** The key merge uses on values. */
  function Identity(x: int): int
  {
    x
  }

  /** splice_after(pos, list, i) within one list: the node at index `q` is
      taken out and put back after position `p` of the original list. */
  function MoveNode(ns: seq<Node>, q: nat, p: nat): seq<Node>
    requires q < |ns| && p <= |ns|
  {
    var t := ns[..q] + ns[q + 1..];
    var p' := if p > q then p - 1 else p;
    t[..p'] + [ns[q]] + t[p'..]
  }

  /** The run ns[f..e] of a chain: its own links, its nodes, and that the
      node linking to it lies outside it. */
  lemma RunOf(from: Node, ns: seq<Node>, last: Node?, f: nat, e: nat, rs: seq<Node>)
    requires Chain(from, ns, last) && Distinct(ns) && from !in ns && f < e <= |ns| && rs == ns[f..e]
    ensures forall j {:trigger rs[j].suc} :: 0 <= j < |rs| - 1 ==> rs[j].suc == rs[j + 1]
    ensures Distinct(rs) && forall x :: x in rs ==> x in ns
    ensures (if f == 0 then from else ns[f - 1]) !in rs
    ensures (if f == 0 then from else ns[f - 1]).suc == rs[0]
  {
    forall j | 0 <= j < |rs| - 1
      ensures rs[j].suc == rs[j + 1]
    {
      assert rs[j] == ns[f + j] && rs[j + 1] == ns[f + j + 1];
      assert ns[f + j].suc == After(ns, f + j, last);
    }
    forall x, y | 0 <= x < y < |rs|
      ensures rs[x] != rs[y]
    {
      assert rs[x] == ns[f + x] && rs[y] == ns[f + y];
    }
    forall j | 0 <= j < |rs|
      ensures rs[j] in ns && rs[j] != (if f == 0 then from else ns[f - 1])
    {
      assert rs[j] == ns[f + j];
    }
    if f > 0 {
      assert ns[f - 1].suc == After(ns, f - 1, last);
    }
  }

  /** remove_if's private chain: each node links to the one pushed before
      it, and the first one pushed links to nothing. */
  ghost predicate Stack(rs: seq<Node>)
    reads rs
  {
    forall j {:trigger rs[j].suc} :: 0 <= j < |rs| ==> rs[j].suc == if j == 0 then null else rs[j - 1]
  }

  /** The last node of `kept`, or `first` when it is empty. */
  function Last(first: Node, kept: seq<Node>): Node
  {
    if kept == [] then first else kept[|kept| - 1]
  }

  /** The node pushed last, if any. */
  function Top(rs: seq<Node>): Node?
  {
    if |rs| == 0 then null else rs[|rs| - 1]
  }

  lemma StackPush(rs: seq<Node>, h: Node)
    requires Stack(rs) && h !in rs && h.suc == Top(rs)
    ensures Stack(rs + [h]) && Top(rs + [h]) == h
  {
    var rs' := rs + [h];
    forall j | 0 <= j < |rs'|
      ensures rs'[j].suc == if j == 0 then null else rs'[j - 1]
    {
      if j < |rs| {
        assert rs'[j] == rs[j];
        if j > 0 { assert rs'[j - 1] == rs[j - 1]; }
      }
    }
  }

  lemma StackLink(rs: seq<Node>, j: nat)
    requires Stack(rs) && j < |rs|
    ensures rs[j].suc == Top(rs[..j]) && rs[j] in rs
  {
  }

  lemma ApartOut(a: seq<Node>, b: seq<Node>, x: Node)
    requires Apart(a, b) && x in b
    ensures x !in a
  {
  }

  /** remove_if after looking at ns[..k]: the list `cur` is the survivors
      `kept` followed by the nodes not looked at yet, and the victims
      `removed` are nodes of `ns` apart from it that are not sentinels. */
  ghost predicate Scanned(ns: seq<Node>, k: nat, kept: seq<Node>, removed: seq<Node>, cur: seq<Node>,
                          pred: int -> bool, hd: Node, tl: Node)
  {
    k <= |ns| && cur == kept + ns[k..] &&
    kept == KeepNodes(ns[..k], pred) && removed == DropNodes(ns[..k], pred) &&
    (forall x :: x in removed ==> x in ns && x != hd && x != tl) && Apart(removed, cur)
  }

  lemma ScanStart(ns: seq<Node>, pred: int -> bool, hd: Node, tl: Node)
    ensures Scanned(ns, 0, [], [], ns, pred, hd, tl) && Stack([]) && Top([]) == null
  {
    assert ns[..0] == [] && ns[0..] == ns;
  }

  /** What remove_if sees when it looks at ns[k]. */
  lemma ScanLook(ns: seq<Node>, k: nat, kept: seq<Node>, removed: seq<Node>, cur: seq<Node>,
                 pred: int -> bool, hd: Node, tl: Node)
    requires Scanned(ns, k, kept, removed, cur, pred, hd, tl) && k < |ns|
    ensures |kept| < |cur| && cur[..|kept|] == kept && cur[|kept|] == ns[k] && cur[|kept| + 1..] == ns[k + 1..]
    ensures ns[k] in ns && ns[k] !in removed
    ensures After(cur, |kept|, tl) == if k + 1 < |ns| then ns[k + 1] else tl
  {
    assert ns[k..] == [ns[k]] + ns[k + 1..];
    assert cur[|kept|] in cur;
  }

  /** remove_if keeps ns[k]: it joins the survivors. */
  lemma ScanKeep(ns: seq<Node>, k: nat, kept: seq<Node>, removed: seq<Node>, cur: seq<Node>,
                 pred: int -> bool, hd: Node, tl: Node)
    requires Scanned(ns, k, kept, removed, cur, pred, hd, tl) && k < |ns| && !pred(ns[k].data)
    ensures Scanned(ns, k + 1, kept + [ns[k]], removed, cur, pred, hd, tl)
  {
    assert ns[..k + 1][..k] == ns[..k];
    assert ns[k..] == [ns[k]] + ns[k + 1..];
  }

  /** remove_if drops ns[k] from `cur`: it joins the victims. */
  lemma ScanDrop(ns: seq<Node>, k: nat, kept: seq<Node>, removed: seq<Node>, cur: seq<Node>,
                 pred: int -> bool, hd: Node, tl: Node)
    requires Scanned(ns, k, kept, removed, cur, pred, hd, tl) && k < |ns| && pred(ns[k].data)
    requires ns[k] !in cur[..|kept|] + cur[|kept| + 1..] && ns[k] != hd && ns[k] != tl
    ensures |kept| < |cur|
    ensures Scanned(ns, k + 1, kept, removed + [ns[k]], cur[..|kept|] + cur[|kept| + 1..], pred, hd, tl)
  {
    assert ns[..k + 1][..k] == ns[..k];
    assert ns[k..] == [ns[k]] + ns[k + 1..];
    ScanLook(ns, k, kept, removed, cur, pred, hd, tl);
    DetachedApart(removed, cur, |kept|, cur[..|kept|] + cur[|kept| + 1..]);
  }

  /** remove_if has looked at every node. */
  lemma ScanDone(ns: seq<Node>, k: nat, kept: seq<Node>, removed: seq<Node>, cur: seq<Node>,
                 pred: int -> bool, hd: Node, tl: Node)
    requires Scanned(ns, k, kept, removed, cur, pred, hd, tl) && k == |ns|
    ensures cur == kept && kept == KeepNodes(ns, pred) && removed == DropNodes(ns, pred)
    ensures forall x :: x in removed ==> x != hd && x != tl
  {
    assert ns[..k] == ns;
  }

  /** A node just unlinked from `before` joins the removed nodes, which stay
      apart from what is left. */
  lemma DetachedApart(removed: seq<Node>, before: seq<Node>, j: nat, after: seq<Node>)
    requires Apart(removed, before) && j < |before| && after == before[..j] + before[j + 1..]
    requires before[j] !in after
    ensures Apart(removed + [before[j]], after) && before[j] !in removed
  {
    forall x | x in after
      ensures x in before
    {
      var i :| 0 <= i < |after| && after[i] == x;
      assert after[i] == before[if i < j then i else i + 1];
    }
  }

  /** Destroying removed[m - 1] extends the reversed log by one node. */
  lemma ReverseSnoc(removed: seq<Node>, m: nat)
    requires 0 < m <= |removed|
    ensures AlgorithmBase.Reverse(removed[m - 1..]) == AlgorithmBase.Reverse(removed[m..]) + [removed[m - 1]]
  {
    var r := AlgorithmBase.Reverse(removed[m - 1..]);
    var t := AlgorithmBase.Reverse(removed[m..]) + [removed[m - 1]];
    assert |r| == |t|;
    forall i | 0 <= i < |r|
      ensures r[i] == t[i]
    {
      if i < |r| - 1 {
        assert r[i] == removed[m - 1..][|r| - 1 - i] == removed[m..][|r| - 2 - i];
      }
    }
  }

  /** Moving the node at index `q` of `b` into `a` keeps the two apart. */
  lemma TransferApart(a: seq<Node>, b: seq<Node>, p: nat, q: nat)
    requires Apart(a, b) && Distinct(b) && p <= |a| && q < |b|
    ensures Apart(a[..p] + [b[q]] + a[p..], b[..q] + b[q + 1..])
    ensures forall x :: x in a[..p] + [b[q]] + a[p..] ==> x in a || x == b[q]
    ensures forall x :: x in b[..q] + b[q + 1..] ==> x in b && x != b[q]
  {
    var b' := b[..q] + b[q + 1..];
    forall x | x in b'
      ensures x in b && x != b[q]
    {
      var i :| 0 <= i < |b'| && b'[i] == x;
      assert b'[i] == b[if i < q then i else i + 1];
    }
  }

  /** Moving the run b[f..e] into `a` keeps the two apart. */
  lemma RangeApart(a: seq<Node>, b: seq<Node>, p: nat, f: nat, e: nat)
    requires Apart(a, b) && Distinct(b) && p <= |a| && f <= e <= |b|
    ensures Apart(a[..p] + b[f..e] + a[p..], b[..f] + b[e..])
    ensures forall x :: x in a[..p] + b[f..e] + a[p..] ==> x in a || x in b
    ensures forall x :: x in b[..f] + b[e..] ==> x in b && x !in b[f..e]
  {
    var a' := a[..p] + b[f..e] + a[p..];
    var b' := b[..f] + b[e..];
    forall x | x in b'
      ensures x in b && x !in b[f..e]
    {
      var i :| 0 <= i < |b'| && b'[i] == x;
      var i0 := if i < f then i else i - f + e;
      assert b'[i] == b[i0];
      forall j | 0 <= j < e - f
        ensures b[f..e][j] != x
      {
        assert b[f..e][j] == b[f + j] && f + j != i0;
      }
    }
    forall x | x in a'
      ensures x in a || x in b[f..e]
    {
      var i :| 0 <= i < |a'| && a'[i] == x;
      if i < p { assert a'[i] == a[i]; }
      else if i < p + e - f { assert a'[i] == b[f..e][i - p]; }
      else { assert a'[i] == a[i - (e - f)]; }
    }
    forall x | x in b[f..e] ensures x in b {
      var j :| 0 <= j < e - f && b[f..e][j] == x;
      assert b[f + j] == x;
    }
  }

  /** remove_if seen on values: the survivors hold Keep of the values, and
      as many nodes go as values satisfy the predicate. */
  lemma {:induction false} KeepDropValues(ns: seq<Node>, pred: int -> bool)
    ensures Values(KeepNodes(ns, pred)) == Keep(Values(ns), pred)
    ensures |DropNodes(ns, pred)| == Count(Values(ns), pred)
  {
    if ns != [] {
      var init := ns[..|ns| - 1];
      KeepDropValues(init, pred);
      ValuesSplit(ns, |ns| - 1);
      ValuesAppend(KeepNodes(init, pred), if pred(ns[|ns| - 1].data) then [] else [ns[|ns| - 1]]);
    }
  }

  /** unique() after looking at the first k nodes `ns[..k]`: `kept` are
      the survivors so far, `dropped` the nodes destroyed, and the list `cur`
      is the survivors followed by the nodes not yet looked at. */
  ghost predicate UScanned(ns: seq<Node>, k: nat, kept: seq<Node>, dropped: seq<Node>, cur: seq<Node>,
                           pred: (int, int) -> bool)
  {
    1 <= k <= |ns| && cur == kept + ns[k..] &&
    kept == UniqueNodes(ns[..k], pred) && dropped == DupNodes(ns[..k], pred)
  }

  lemma UScanStart(ns: seq<Node>, pred: (int, int) -> bool)
    requires |ns| >= 1
    ensures UScanned(ns, 1, [ns[0]], [], ns, pred)
  {
    assert ns[..1] == [ns[0]];
  }

  lemma UScanLook(ns: seq<Node>, k: nat, kept: seq<Node>, dropped: seq<Node>, cur: seq<Node>,
                  pred: (int, int) -> bool, tl: Node)
    requires UScanned(ns, k, kept, dropped, cur, pred) && k < |ns|
    ensures 0 < |kept| < |cur| && cur[..|kept|] == kept && cur[|kept|] == ns[k]
    ensures After(cur, |kept|, tl) == if k + 1 < |ns| then ns[k + 1] else tl
  {
    assert ns[k..] == [ns[k]] + ns[k + 1..];
  }

  /** unique keeps ns[k]: it differs from the last survivor. */
  lemma UScanKeep(ns: seq<Node>, k: nat, kept: seq<Node>, dropped: seq<Node>, cur: seq<Node>,
                  pred: (int, int) -> bool)
    requires UScanned(ns, k, kept, dropped, cur, pred) && k < |ns|
    requires |kept| > 0 && !pred(kept[|kept| - 1].data, ns[k].data)
    ensures UScanned(ns, k + 1, kept + [ns[k]], dropped, cur, pred)
  {
    assert ns[..k + 1][..k] == ns[..k];
    assert ns[k..] == [ns[k]] + ns[k + 1..];
  }

  /** unique drops ns[k]: it duplicates the last survivor. */
  lemma UScanDrop(ns: seq<Node>, k: nat, kept: seq<Node>, dropped: seq<Node>, cur: seq<Node>,
                  pred: (int, int) -> bool)
    requires UScanned(ns, k, kept, dropped, cur, pred) && k < |ns|
    requires |kept| > 0 && pred(kept[|kept| - 1].data, ns[k].data)
    ensures |kept| < |cur|
    ensures UScanned(ns, k + 1, kept, dropped + [ns[k]], cur[..|kept|] + cur[|kept| + 1..], pred)
  {
    assert ns[..k + 1][..k] == ns[..k];
    assert ns[k..] == [ns[k]] + ns[k + 1..];
    assert cur[..|kept|] + cur[|kept| + 1..] == kept + ns[k + 1..];
  }

  lemma UScanDone(ns: seq<Node>, k: nat, kept: seq<Node>, dropped: seq<Node>, cur: seq<Node>,
                  pred: (int, int) -> bool)
    requires UScanned(ns, k, kept, dropped, cur, pred) && k == |ns|
    ensures cur == kept && kept == UniqueNodes(ns, pred) && dropped == DupNodes(ns, pred)
  {
    assert ns[..k] == ns;
  }

  /** unique seen on values, and the number of nodes it drops. */
  lemma {:induction false} UniqueNodesValues(ns: seq<Node>, pred: (int, int) -> bool)
    ensures Values(UniqueNodes(ns, pred)) == UniqueValues(Values(ns), pred)
    ensures |DupNodes(ns, pred)| == |ns| - |UniqueNodes(ns, pred)|
  {
    if |ns| > 1 {
      var init := ns[..|ns| - 1];
      UniqueNodesValues(init, pred);
      ValuesSplit(ns, |ns| - 1);
      var r := UniqueNodes(init, pred);
      ValuesAppend(r, [ns[|ns| - 1]]);
      assert Values(r)[|r| - 1] == r[|r| - 1].data;
    }
  }

  /** Merging nodes by their value is merging the values. */
  lemma {:induction false} ValuesMerge(a: seq<Node>, b: seq<Node>)
    ensures Values(Algorithm.MergeSpec(a, b, Key)) == Algorithm.MergeSpec(Values(a), Values(b), Identity)
    decreases |a| + |b|
  {
    if |a| != 0 && |b| != 0 {
      ValuesSplit(a, 1);
      ValuesSplit(b, 1);
      if a[0].data <= b[0].data {
        ValuesMerge(a[1..], b);
        ValuesAppend([a[0]], Algorithm.MergeSpec(a[1..], b, Key));
      } else {
        ValuesMerge(a, b[1..]);
        ValuesAppend([b[0]], Algorithm.MergeSpec(a, b[1..], Key));
      }
    }
  }

  /** The node sequences `a` and `b` of two separate lists with sentinels
      h1, t1 and h2, t2, and a run b[f..e] to move to position p of `a`. */
  ghost predicate MoveReady(a: seq<Node>, b: seq<Node>, p: nat, f: nat, e: nat,
                            h1: Node, t1: Node, h2: Node, t2: Node)
  {
    Apart(a, b) && Distinct(b) && p <= |a| && f <= e <= |b| &&
    h2 !in a && t2 !in a && h1 !in a && t1 !in a &&
    h2 !in b && t2 !in b && h1 !in b && t1 !in b &&
    h2 != h1 && h2 != t1 && t2 != h1 && t2 != t1
  }

  class ForwardList {
    const head: Node
    const tail: Node
    var size: nat
    ghost var nodes: seq<Node>
    /** The nodes this list has destroyed, in the order it destroyed them
        (deallocation is not modelled otherwise). */
    ghost var destroyed: seq<Node>

    /** The sentinels are two distinct nodes outside the element nodes,
        `head` links through every element node to `tail`, and `_size`
        counts the element nodes. */
    ghost predicate Valid()
      reads this, head, nodes
    {
      head != tail && head !in nodes && tail !in nodes && Distinct(nodes) &&
      Chain(head, nodes, tail) && size == |nodes|
    }

    ghost function Elements(): seq<int>
      reads this
    {
      Values(nodes)
    }

    /** The node at position `k` counting `before_begin()` as 0 and `end()`
        as |nodes| + 1. */
    ghost function At(k: nat): Node
      reads this
      requires k <= |nodes| + 1
    {
      if k == 0 then head else if k <= |nodes| then nodes[k - 1] else tail
    }

    /** Different positions hold different nodes. */
    lemma AtInjective(a: nat, b: nat)
      requires Valid() && a <= |nodes| + 1 && b <= |nodes| + 1
      ensures At(a) == At(b) ==> a == b
    {
      if a != b {
        if 0 < a <= |nodes| && 0 < b <= |nodes| {
          assert nodes[a - 1] != nodes[b - 1];
        } else if 0 < a <= |nodes| {
          assert nodes[a - 1] in nodes;
        } else if 0 < b <= |nodes| {
          assert nodes[b - 1] in nodes;
        }
      }
    }

    /** The two ends of the position numbering are the sentinels, and the
        positions between them are the element nodes. */
    lemma AtEnds()
      ensures At(0) == head && At(|nodes| + 1) == tail
    {
    }

    lemma AtAfterHead(k: nat)
      requires 0 < k <= |nodes| + 1
      ensures At(k) == if k <= |nodes| then nodes[k - 1] else tail
    {
    }

    lemma AtBeforeTail(k: nat)
      requires k <= |nodes|
      ensures At(k) == if k == 0 then head else nodes[k - 1]
    {
    }

    lemma AtElement(k: nat)
      requires 0 < k <= |nodes|
      ensures At(k) == nodes[k - 1]
    {
    }

    /** The node that links to the nodes `rest` that follow `kept` links to
        the first of them, or to the tail when there are none. */
    lemma LinkAfter(kept: seq<Node>, rest: seq<Node>)
      requires Valid() && nodes == kept + rest
      ensures Last(head, kept).suc == if rest == [] then tail else rest[0]
      ensures At(|kept|) == Last(head, kept)
      ensures head !in nodes && tail !in nodes
    {
      if kept != [] {
        assert nodes[|kept| - 1].suc == After(nodes, |kept| - 1, tail);
      }
    }

    /** Within the list, the last of the nodes `kept` that open it links
        to the node that follows them, and that node to its own successor. */
    lemma LinkNext(kept: seq<Node>)
      requires Valid() && |kept| < |nodes| && nodes[..|kept|] == kept
      ensures Last(head, kept).suc == nodes[|kept|] && At(|kept|) == Last(head, kept)
      ensures nodes[|kept|].suc == After(nodes, |kept|, tail)
      ensures Last(head, kept + [nodes[|kept|]]) == nodes[|kept|]
    {
      if kept != [] {
        assert kept[|kept| - 1] == nodes[|kept| - 1];
        assert nodes[|kept| - 1].suc == After(nodes, |kept| - 1, tail);
      }
    }

    /** The position just before the nodes `rest` that follow `kept`. */
    lemma AtKept(kept: seq<Node>, rest: seq<Node>)
      requires nodes == kept + rest
      ensures At(|kept|) == if kept == [] then head else kept[|kept| - 1]
    {
    }

    /** Following a link moves one position on. */
    lemma SucAt(k: nat)
      requires Valid() && k <= |nodes|
      ensures At(k).suc == At(k + 1)
    {
      if k > 0 {
        assert nodes[k - 1].suc == After(nodes, k - 1, tail);
      }
    }

    /** Two different lists own different nodes. */
    ghost predicate Separate(other: ForwardList)
      reads this, other
    {
      other != this &&
      head != other.head && head != other.tail && tail != other.head && tail != other.tail &&
      other.head !in nodes && other.tail !in nodes && head !in other.nodes && tail !in other.nodes &&
      Apart(nodes, other.nodes)
    }

    /** forward_list() and initialize(): head linked to tail, size 0. */
    constructor ()
      ensures Valid() && Elements() == [] && destroyed == []
      ensures fresh(head) && fresh(tail)
    {
      var h := new Node(0);
      var t := new Node(0);
      head, tail := h, t;
      size := 0;
      nodes := [];
      destroyed := [];
      new;
      h.suc := t;
    }

    /** size() and empty(). */
    function Size(): (r: nat)
      requires Valid()
      reads this, head, nodes
      ensures r == |Elements()|
    {
      size
    }

    function Empty(): (r: bool)
      requires Valid()
      reads this, head, nodes
      ensures r <==> Elements() == []
    {
      size == 0
    }

    /** front(): the value of the node `head` links to. */
    function Front(): (r: int)
      requires Valid() && size > 0
      reads this, head, nodes
      ensures r == Elements()[0]
    {
      head.suc.data
    }

    /** locate_before(index): steps from before_begin() at most `index`
        times, stopping at end(). */
    method LocateBefore(index: nat) returns (it: Node)
      requires Valid()
      ensures it == At(if index <= |nodes| + 1 then index else |nodes| + 1)
    {
      it := head;
      var left := index;
      ghost var m := 0;
      while left != 0 && it != tail
        invariant m <= |nodes| + 1 && m + left == index && it == At(m)
        decreases left
      {
        left := left - 1;
        it := it.suc;
        m := m + 1;
      }
    }

    /** attach_after(bpos, node): `node` takes the place right after the
        node at position `k`, and the size grows by one. */
    method AttachAfter(bpos: Node, node: Node, ghost k: nat)
      requires Valid() && k <= |nodes| && bpos == At(k)
      requires node != head && node != tail && node !in nodes
      modifies this, bpos, node
      ensures Valid()
      ensures nodes == old(nodes[..k]) + [node] + old(nodes[k..])
      ensures size == old(size) + 1 && destroyed == old(destroyed)
    {
      ghost var ns := nodes;
      node.suc := bpos.suc;
      bpos.suc := node;
      size := size + 1;
      nodes := ns[..k] + [node] + ns[k..];
      assert forall j :: 0 <= j < |ns| && j != k - 1 ==> ns[j] != bpos && ns[j] != node;
      ChainInsert(head, ns, tail, k, [node]);
      InsertDistinct(ns, k, [node]);
    }

    /** attach_range_after(bpos, left, len): walks `len - 1` links from
        `left` to find the last node of the run, then links the run in after
        position `k` and adds `len` to the size. */
    method AttachRangeAfter(bpos: Node, ghost k: nat, left: Node, len: nat, ghost rs: seq<Node>)
      returns (rght: Node)
      requires Valid() && k <= |nodes| && bpos == At(k)
      requires |rs| == len > 0 && rs[0] == left && Distinct(rs) && Apart(rs, nodes)
      requires head !in rs && tail !in rs
      requires forall j {:trigger rs[j].suc} :: 0 <= j < |rs| - 1 ==> rs[j].suc == rs[j + 1]
      modifies this, bpos, rs[|rs| - 1]
      ensures Valid() && rght == rs[|rs| - 1]
      ensures nodes == old(nodes[..k]) + rs + old(nodes[k..])
      ensures size == old(size) + len && destroyed == old(destroyed)
    {
      ghost var ns := nodes;
      rght := left;
      var i: nat := 1;
      while i < len
        invariant 1 <= i <= len && rght == rs[i - 1]
      {
        rght := rght.suc;
        i := i + 1;
      }
      rght.suc := bpos.suc;
      bpos.suc := left;
      size := size + len;
      nodes := ns[..k] + rs + ns[k..];
      assert bpos == head || bpos in ns;
      assert rght in rs;
      assert forall j :: 0 <= j < |ns| && j != k - 1 ==> ns[j] != bpos && ns[j] != rght;
      assert forall j :: 0 <= j < |rs| - 1 ==> rs[j] != bpos && rs[j] != rght;
      ChainInsert(head, ns, tail, k, rs);
      InsertDistinct(ns, k, rs);
    }

    /** detach_after(bpos): unlinks the node after position `k` and returns
        it; the size drops by one. The source asserts that the node is not a
        sentinel, so `bpos` must not be the last node. */
    method DetachAfter(bpos: Node, ghost k: nat) returns (pos: Node)
      requires Valid() && k < |nodes| && bpos == At(k)
      modifies this, bpos
      ensures Valid()
      ensures pos == old(nodes[k]) && pos != head && pos != tail && pos !in nodes
      ensures nodes == old(nodes[..k]) + old(nodes[k + 1..]) && bpos.suc == After(old(nodes), k, tail)
      ensures pos.suc == bpos.suc
      ensures size == old(size) - 1 && destroyed == old(destroyed)
    {
      ghost var ns := nodes;
      pos := bpos.suc;
      bpos.suc := pos.suc;
      size := size - 1;
      nodes := ns[..k] + ns[k + 1..];
      assert forall j :: 0 <= j < |ns| && j != k - 1 ==> ns[j] != bpos;
      ChainRemove(head, ns, tail, k, k + 1);
      RemoveDistinct(ns, k, k + 1);
    }

    /** detach_range_after(bleft, arght, len): links position `p` straight
        to position `q` and takes the `len` nodes between off the size. */
    method DetachRangeAfter(bleft: Node, ghost p: nat, arght: Node, ghost q: nat, len: nat)
      requires Valid() && p < q <= |nodes| + 1 && bleft == At(p) && arght == At(q)
      requires len == q - p - 1
      modifies this, bleft
      ensures Valid()
      ensures nodes == old(nodes[..p]) + old(nodes[q - 1..])
      ensures size == old(size) - len && destroyed == old(destroyed)
    {
      ghost var ns := nodes;
      bleft.suc := arght;
      size := size - len;
      nodes := ns[..p] + ns[q - 1..];
      assert forall j :: 0 <= j < |ns| && j != p - 1 ==> ns[j] != bleft;
      ChainRemove(head, ns, tail, p, q - 1);
      RemoveDistinct(ns, p, q - 1);
    }

    /** destruct_node(node): ends the node's life and returns its link. */
    method DestructNode(node: Node) returns (next: Node?)
      requires node != head && node != tail
      modifies this
      ensures next == node.suc
      ensures destroyed == old(destroyed) + [node]
      ensures nodes == old(nodes) && size == old(size) && (old(Valid()) ==> Valid())
    {
      next := node.suc;
      destroyed := destroyed + [node];
    }

    /** cut_after(bpos): destroys every node after position `k`, one at a
        time counting the size down, then links `bpos` to the tail. */
    method CutAfter(bpos: Node, ghost k: nat)
      requires Valid() && k <= |nodes| && bpos == At(k)
      modifies this, bpos
      ensures Valid() && nodes == old(nodes[..k]) && size == k
      ensures destroyed == old(destroyed) + old(nodes[k..])
      ensures bpos.suc == tail
    {
      ghost var ns := nodes;
      var pos := bpos.suc;
      ghost var m := 0;
      while pos != tail
        invariant k + m <= |ns| && pos == (if k + m < |ns| then ns[k + m] else tail)
        invariant nodes == ns && size == |ns| - m && Chain(head, ns, tail)
        invariant destroyed == old(destroyed) + ns[k..k + m]
        decreases |ns| - m
      {
        pos := DestructNode(pos);
        size := size - 1;
        assert ns[k..k + m + 1] == ns[k..k + m] + [ns[k + m]];
        m := m + 1;
      }
      assert ns[k..k + m] == ns[k..];
      bpos.suc := tail;
      nodes := ns[..k];
      assert forall j :: 0 <= j < |ns| && j != k - 1 ==> ns[j] != bpos;
      ChainRemove(head, ns, tail, k, |ns|);
      RemoveDistinct(ns, k, |ns|);
      assert ns[..k] + ns[|ns|..] == ns[..k];
    }

    /** clear(): cut_after(before_begin()). */
    method Clear()
      requires Valid()
      modifies this, head
      ensures Valid() && Elements() == [] && head.suc == tail
      ensures destroyed == old(destroyed) + old(nodes)
    {
      CutAfter(head, 0);
    }

    /** emplace_after(pos, v): a new node holding `v` right after position `k`. */
    method EmplaceAfter(pos: Node, ghost k: nat, v: int) returns (it: Node)
      requires Valid() && k <= |nodes| && pos == At(k)
      modifies this, pos
      ensures Valid() && fresh(it) && it.data == v
      ensures nodes == old(nodes[..k]) + [it] + old(nodes[k..])
      ensures Elements() == old(Elements()[..k]) + [v] + old(Elements()[k..])
      ensures destroyed == old(destroyed)
    {
      ghost var ns := nodes;
      it := new Node(v);
      AttachAfter(pos, it, k);
      ValuesAppend(ns[..k] + [it], ns[k..]);
      ValuesAppend(ns[..k], [it]);
      ValuesSplit(ns, k);
    }

    /** emplace_front(v): emplace_after(before_begin(), v). */
    method EmplaceFront(v: int)
      requires Valid()
      modifies this, head
      ensures Valid() && Elements() == [v] + old(Elements()) && destroyed == old(destroyed)
    {
      var _ := EmplaceAfter(head, 0, v);
    }

    /** pop_front(): destroys the first node. */
    method PopFront()
      requires Valid() && size > 0
      modifies this, head
      ensures Valid() && Elements() == old(Elements()[1..])
      ensures destroyed == old(destroyed) + [old(nodes[0])]
    {
      ghost var ns := nodes;
      assert |ns| > 0;
      AtEnds();
      hide Valid, At;
      var node := DetachAfter(head, 0);
      var _ := DestructNode(node);
      ValuesSplit(ns, 1);
    }

    /** erase_after(pos): destroys the node after position `k` and returns
        the node that now follows `pos`. */
    method EraseAfter(pos: Node, ghost k: nat) returns (next: Node?)
      requires Valid() && k < |nodes| && pos == At(k)
      modifies this, pos
      ensures nodes == old(nodes[..k]) + old(nodes[k + 1..])
      ensures Valid() && next == At(k + 1)
      ensures destroyed == old(destroyed) + [old(nodes[k])]
    {
      ghost var ns := nodes;
      var node := DetachAfter(pos, k);
      assert node.suc == (if k + 1 < |ns| then ns[k + 1] else tail);
      next := DestructNode(node);
    }

    /** Once the node after position f is erased, the positions behind
        it move one step forward. */
    lemma EraseShift(before: seq<Node>, f: nat, p: nat)
      requires Valid() && f < |before| && nodes == before[..f] + before[f + 1..]
      requires f + 1 < p <= |before| + 1
      ensures At(p - 1) == if p <= |before| then before[p - 1] else tail
      ensures At(f) == if f == 0 then head else before[f - 1]
    {
      if p <= |before| {
        ShiftedPosition(before, nodes, f, p);
      }
    }

    /** erase_after(first, last): erases the node after `first` until it is
        linked to `last`, and returns `last`. `last` is `first` or comes
        after it; both may be end(), which erases nothing. */
    method EraseAfterRange(first: Node, ghost f: nat, last: Node, ghost l: nat) returns (r: Node)
      requires Valid() && f <= l <= |nodes| + 1 && first == At(f) && last == At(l)
      modifies this, first
      ensures Valid() && r == last
      ensures f < l ==> nodes == old(nodes[..f]) + old(nodes[l - 1..]) && destroyed == old(destroyed) + old(nodes[f..l - 1])
      ensures f == l ==> nodes == old(nodes) && destroyed == old(destroyed)
    {
      hide Valid, At;
      ghost var ns := nodes;
      ghost var d := if f < l then l - 1 - f else 0;
      var i := first;
      ghost var m: nat := 0;
      while i != last && i.suc != last
        invariant Valid() && m <= d && |nodes| == |ns| - m
        invariant f <= |ns| ==> f + m <= |ns| && nodes == ns[..f] + ns[f + m..] && destroyed == old(destroyed) + ns[f..f + m]
        invariant f > |ns| ==> m == 0 && nodes == ns && destroyed == old(destroyed)
        invariant i == At(f) && last == At(l - m)
        decreases d - m
      {
        EraseOneOfRange(i, f, last, l, ns, old(destroyed), m);
        m := m + 1;
      }
      if f <= |ns| {
        AtInjective(f, l - m);
        SucAt(f);
        AtInjective(f + 1, l - m);
        assert f + m == if f < l then l - 1 else f;
      }
      r := last;
    }

    /** One round of erase_after(first, last): the m nodes after position f
        already erased, the next one goes too. */
    method EraseOneOfRange(i: Node, ghost f: nat, last: Node, ghost l: nat,
                           ghost ns: seq<Node>, ghost d0: seq<Node>, ghost m: nat)
      requires Valid() && f + m <= l <= |ns| + 1 && f + m <= |ns| && |nodes| == |ns| - m
      requires nodes == ns[..f] + ns[f + m..] && destroyed == d0 + ns[f..f + m]
      requires i == At(f) && last == At(l - m) && i != last && i.suc != last
      modifies this, i
      ensures Valid() && f + m + 1 < l && |nodes| == |ns| - (m + 1)
      ensures nodes == ns[..f] + ns[f + m + 1..] && destroyed == d0 + ns[f..f + m + 1]
      ensures i == At(f) && last == At(l - (m + 1))
    {
      hide Valid, At;
      AtInjective(f, l - m);
      SucAt(f);
      AtInjective(f + 1, l - m);
      ghost var before := nodes;
      AtAfterHead(l - m);
      AtBeforeTail(f);
      var _ := EraseAfter(i, f);
      assert nodes == before[..f] + before[f + 1..];
      ghost var m1 := m + 1;
      EraseStep(ns, before, nodes, f, m, m1);
      AppendOne(d0, ns[f..f + m], before[f]);
      EraseShift(before, f, l - m);
    }

    /** ala::distance(first, last) on list iterators: the number of links
        followed from `first` to `last`. */
    method Distance(first: Node, ghost f: nat, last: Node, ghost l: nat) returns (n: nat)
      requires Valid() && f <= l <= |nodes| + 1 && first == At(f) && last == At(l)
      ensures n == l - f
    {
      n := 0;
      var it := first;
      while it != last
        invariant f + n <= l && it == At(f + n)
        decreases l - f - n
      {
        AtInjective(f + n, l);
        SucAt(f + n);
        it := it.suc;
        n := n + 1;
      }
      AtInjective(f + n, l);
    }

    /** `this->attach_after(bpos, other.detach_after(src))` for two different
        lists: the node after `src` moves to the place after `bpos`. */
    method TransferAfter(bpos: Node, ghost p: nat, other: ForwardList, src: Node, ghost q: nat)
      returns (node: Node)
      requires Valid() && other.Valid() && Separate(other)
      requires p <= |nodes| && bpos == At(p) && q < |other.nodes| && src == other.At(q)
      modifies this, other, bpos, src, other.nodes[q]
      ensures Valid() && other.Valid() && Separate(other)
      ensures node == old(other.nodes[q])
      ensures nodes == old(nodes[..p]) + [node] + old(nodes[p..])
      ensures other.nodes == old(other.nodes[..q]) + old(other.nodes[q + 1..])
      ensures size == old(size) + 1 && other.size == old(other.size) - 1
      ensures destroyed == old(destroyed) && other.destroyed == old(other.destroyed)
    {
      ghost var a, b := nodes, other.nodes;
      assert src == other.head || src in b;
      assert bpos == head || bpos in a;
      node := other.DetachAfter(src, q);
      AttachAfter(bpos, node, p);
      TransferApart(a, b, p, q);
    }

    /** What two separate valid lists tell about the other one. */
    lemma OtherList(other: ForwardList)
      requires Valid() && other.Valid() && Separate(other)
      ensures other.size == |other.nodes| && Chain(other.head, other.nodes, other.tail)
      ensures Distinct(other.nodes) && other.head !in other.nodes && other.tail !in other.nodes
      ensures other != this && Apart(other.nodes, nodes) && Apart(nodes, other.nodes)
      ensures head !in other.nodes && tail !in other.nodes
      ensures other.head != head && other.head != tail && other.tail != head && other.tail != tail
      ensures other.head !in nodes && other.tail !in nodes && (head != tail && other.head != other.tail)
    {
    }

    /** Two lists whose nodes are apart and all come from `a` and `b`,
        which hold neither list's sentinels, are separate. */
    lemma SeparateAgain(other: ForwardList, a: seq<Node>, b: seq<Node>)
      requires other != this && Apart(nodes, other.nodes)
      requires forall x :: x in nodes ==> x in a || x in b
      requires forall x :: x in other.nodes ==> x in b
      requires other.head !in a && other.tail !in a && head !in a && tail !in a
      requires other.head !in b && other.tail !in b && head !in b && tail !in b
      requires other.head != head && other.head != tail && other.tail != head && other.tail != tail
      ensures Separate(other)
    {
    }

    /** After the run b[f..e] of `other` has moved to position p of this
        list, the two lists are still separate. */
    lemma SeparateAfterMove(other: ForwardList, a: seq<Node>, b: seq<Node>, p: nat, f: nat, e: nat)
      requires other != this && MoveReady(a, b, p, f, e, head, tail, other.head, other.tail)
      requires nodes == a[..p] + b[f..e] + a[p..] && other.nodes == b[..f] + b[e..]
      ensures Separate(other)
    {
      RangeApart(a, b, p, f, e);
      SeparateAgain(other, a, b);
    }

    /** splice_after(pos, other): every node of `other` moves, in order, to
        the place after position `p`, and `other` is left empty. */
    method SpliceAfter(pos: Node, ghost p: nat, other: ForwardList)
      requires Valid() && other.Valid() && Separate(other) && p <= |nodes| && pos == At(p)
      modifies this, other, pos, other.head, other.nodes
      ensures Valid() && other.Valid() && Separate(other)
      ensures nodes == old(nodes[..p]) + old(other.nodes) + old(nodes[p..]) && other.nodes == []
      ensures Elements() == old(Elements()[..p]) + old(other.Elements()) + old(Elements()[p..])
      ensures size == old(size) + old(other.size) && other.size == 0
      ensures destroyed == old(destroyed) && other.destroyed == old(other.destroyed)
    {
      ghost var a, b := nodes, other.nodes;
      hide Valid, Separate;
      OtherList(other);
      var len := other.size;
      if len == 0 && this != other {
        ValuesInserted(a, p, b);
        return;
      }
      var left := other.head;
      var begn := other.head.suc;
      var rght := other.tail;
      RunOf(left, b, rght, 0, |b|, b[0..]);
      assert b[0..] == b;
      other.AtEnds();
      other.DetachRangeAfter(left, 0, rght, |b| + 1, len);
      var _ := AttachRangeAfter(pos, p, begn, len, b);
      SeparateAgain(other, a, b);
      ValuesInserted(a, p, b);
    }

    /** splice_after(pos, other, i): unless `pos` is `i` or the node after
        it, the node after `i` in `other` moves to the place after `pos`.
        `other` may be this very list. */
    method SpliceOneAfter(pos: Node, ghost p: nat, other: ForwardList, i: Node, ghost q: nat)
      requires Valid() && other.Valid() && (other == this || Separate(other))
      requires p <= |nodes| && pos == At(p) && q < |other.nodes| && i == other.At(q)
      modifies this, other, pos, i, other.nodes
      ensures Valid() && other.Valid()
      ensures other != this ==>
                Separate(other) &&
                nodes == old(nodes[..p]) + [old(other.nodes[q])] + old(nodes[p..]) &&
                other.nodes == old(other.nodes[..q]) + old(other.nodes[q + 1..])
      ensures other == this ==>
                nodes == if p == q || p == q + 1 then old(nodes) else MoveNode(old(nodes), q, p)
      ensures destroyed == old(destroyed) && other.destroyed == old(other.destroyed)
    {
      ghost var a, b := nodes, other.nodes;
      other.SucAt(q);
      if other == this {
        AtInjective(p, q);
        AtInjective(p, q + 1);
      } else {
        assert pos == head || pos in a;
        assert i.suc == other.tail || i.suc in b;
      }
      if pos != i && pos != i.suc {
        ghost var p' := if other == this && p > q then p - 1 else p;
        assert pos == head || pos in a;
        assert i == other.head || i in b;
        var node := other.DetachAfter(i, q);
        if other == this {
          assert pos == At(p') by {
            if p > q + 1 { assert a[p - 1] == nodes[p - 2]; }
            else if 0 < p < q { assert a[p - 1] == nodes[p - 1]; }
          }
        } else {
          assert node in b;
        }
        AttachAfter(pos, node, p');
        if other != this {
          TransferApart(a, b, p, q);
        }
      }
    }

    /** splice_after(pos, other, first, last): the nodes strictly between
        `first` and `last` in `other` move, in order, to the place after
        `pos`; nothing moves when there are none. */
    method SpliceRangeAfter(pos: Node, ghost p: nat, other: ForwardList,
                            first: Node, ghost f: nat, last: Node, ghost l: nat)
      requires Valid() && other.Valid() && Separate(other) && p <= |nodes| && pos == At(p)
      requires f <= l <= |other.nodes| + 1 && first == other.At(f) && last == other.At(l)
      modifies this, other, pos, first, other.nodes
      ensures Valid() && other.Valid() && Separate(other)
      ensures if l - f < 2 then nodes == old(nodes) && other.nodes == old(other.nodes)
              else nodes == old(nodes[..p]) + old(other.nodes[f..l - 1]) + old(nodes[p..]) &&
                   other.nodes == old(other.nodes[..f]) + old(other.nodes[l - 1..])
      ensures destroyed == old(destroyed) && other.destroyed == old(other.destroyed)
    {
      hide Valid, Separate, Apart;
      OtherList(other);
      var len := other.Distance(first, f, last, l);
      if len == 0 || len == 1 {
        return;
      }
      MoveRunAfter(pos, p, other, first, f, last, l, len - 1);
    }

    /** The moving part of splice_after(pos, other, first, last) once the
        range is known to hold len >= 1 nodes. */
    method MoveRunAfter(pos: Node, ghost p: nat, other: ForwardList,
                        first: Node, ghost f: nat, last: Node, ghost l: nat, len: nat)
      requires Valid() && other.Valid() && Separate(other) && p <= |nodes| && pos == At(p)
      requires f <= l <= |other.nodes| + 1 && first == other.At(f) && last == other.At(l)
      requires len == l - f - 1 >= 1
      modifies this, other, pos, first, other.nodes
      ensures Valid() && other.Valid() && Separate(other)
      ensures nodes == old(nodes[..p]) + old(other.nodes[f..l - 1]) + old(nodes[p..])
      ensures other.nodes == old(other.nodes[..f]) + old(other.nodes[l - 1..])
      ensures destroyed == old(destroyed) && other.destroyed == old(other.destroyed)
    {
      ghost var a, b := nodes, other.nodes;
      hide Valid, Separate, Apart;
      OtherList(other);
      assert MoveReady(a, b, p, f, l - 1, head, tail, other.head, other.tail);
      hide Chain, Distinct, MoveReady;
      var left := first;
      other.SucAt(f);
      var begn := first.suc;
      var rght := last;
      ghost var rs := b[f..l - 1];
      RunOf(other.head, b, other.tail, f, l - 1, rs);
      assert first == (if f == 0 then other.head else b[f - 1]);
      assert first != head && first !in a;
      RangeApart(a, b, p, f, l - 1);
      assert pos == head || pos in a;
      assert rs[|rs| - 1] in rs && rs[|rs| - 1] !in b[..f] + b[l - 1..];
      other.DetachRangeAfter(left, f, rght, l, len);
      var _ := AttachRangeAfter(pos, p, begn, len, rs);
      SeparateAfterMove(other, a, b, p, f, l - 1);
    }

    /** The state of remove_if's first loop after it has looked at the
        first k of the original nodes `ns`: `bi` is the last survivor (or
        before_begin()), `i` the next node to look at, and the removed nodes
        form a private chain whose top is `garbage`. */
    ghost predicate Scanning(ns: seq<Node>, k: nat, kept: seq<Node>, removed: seq<Node>,
                             bi: Node?, i: Node?, garbage: Node?, pred: int -> bool, d0: seq<Node>)
      reads this, head, nodes, removed
    {
      Valid() && destroyed == d0 && Scanned(ns, k, kept, removed, nodes, pred, head, tail) &&
      head !in ns && tail !in ns && bi == Last(head, kept) &&
      i == (if k < |ns| then ns[k] else tail) &&
      (bi == head || bi in ns) && bi !in removed && garbage == Top(removed) && Stack(removed)
    }

    lemma Resume(ns: seq<Node>, k: nat, kept: seq<Node>, removed: seq<Node>,
                 bi: Node?, i: Node?, garbage: Node?, pred: int -> bool, d0: seq<Node>)
      requires Valid() && destroyed == d0 && Scanned(ns, k, kept, removed, nodes, pred, head, tail)
      requires head !in ns && tail !in ns && bi == Last(head, kept)
      requires i == (if k < |ns| then ns[k] else tail)
      requires (bi == head || bi in ns) && bi !in removed && garbage == Top(removed) && Stack(removed)
      ensures Scanning(ns, k, kept, removed, bi, i, garbage, pred, d0)
    {
    }

    lemma Pause(ns: seq<Node>, k: nat, kept: seq<Node>, removed: seq<Node>,
                bi: Node?, i: Node?, garbage: Node?, pred: int -> bool, d0: seq<Node>)
      requires Scanning(ns, k, kept, removed, bi, i, garbage, pred, d0)
      ensures Valid() && destroyed == d0 && Scanned(ns, k, kept, removed, nodes, pred, head, tail)
      ensures head !in ns && tail !in ns && bi == Last(head, kept)
      ensures i == (if k < |ns| then ns[k] else tail)
      ensures (bi == head || bi in ns) && bi !in removed && garbage == Top(removed) && Stack(removed)
    {
    }

    /** remove_if's first loop drops the node `i` it looks at, which
        follows the last survivor `bi`: the node is unlinked and pushed on
        the private chain, and the next node to look at is returned. */
    method DropNext(bi: Node?, i: Node?, garbage: Node?, ghost ns: seq<Node>, ghost k: nat,
                    ghost kept: seq<Node>, ghost removed: seq<Node>, pred: int -> bool, ghost d0: seq<Node>)
      returns (next: Node?)
      requires Scanning(ns, k, kept, removed, bi, i, garbage, pred, d0) && k < |ns| && pred(ns[k].data)
      modifies this, bi, i
      ensures Scanning(ns, k + 1, kept, removed + [i], bi, next, i, pred, d0)
    {
      hide Valid, At, KeepNodes, DropNodes, Apart, Stack, Scanned, Scanning;
      Pause(ns, k, kept, removed, bi, i, garbage, pred, d0);
      ghost var before := nodes;
      ScanLook(ns, k, kept, removed, before, pred, head, tail);
      LinkNext(kept);
      var h := DetachAfter(bi, |kept|);
      ScanDrop(ns, k, kept, removed, before, pred, head, tail);
      next := bi.suc;
      PushGarbage(h, garbage, removed);
      Resume(ns, k + 1, kept, removed + [h], bi, next, h, pred, d0);
    }

    /** remove_if's first loop keeps the node `i` it looks at: both
        iterators advance by one. */
    method KeepNext(bi: Node?, i: Node?, garbage: Node?, ghost ns: seq<Node>, ghost k: nat,
                    ghost kept: seq<Node>, ghost removed: seq<Node>, pred: int -> bool, ghost d0: seq<Node>)
      returns (bi': Node?, i': Node?)
      requires Scanning(ns, k, kept, removed, bi, i, garbage, pred, d0) && k < |ns| && !pred(ns[k].data)
      ensures Scanning(ns, k + 1, kept + [ns[k]], removed, bi', i', garbage, pred, d0)
    {
      hide Valid, At, KeepNodes, DropNodes, Apart, Stack, Scanned, Scanning;
      Pause(ns, k, kept, removed, bi, i, garbage, pred, d0);
      ScanLook(ns, k, kept, removed, nodes, pred, head, tail);
      ScanKeep(ns, k, kept, removed, nodes, pred, head, tail);
      LinkNext(kept);
      i' := i.suc;
      bi' := bi.suc;
      Resume(ns, k + 1, kept + [ns[k]], removed, bi', i', garbage, pred, d0);
    }

    /** One step of remove_if's first loop: a node already unlinked from
        the list is pushed on the private chain of nodes to destroy, its
        link now leading to the previous top. */
    method PushGarbage(h: Node, top: Node?, ghost chain: seq<Node>)
      requires Valid() && h !in nodes && h != head && h != tail
      requires Stack(chain) && top == Top(chain) && h !in chain
      modifies h
      ensures Valid() && Stack(chain + [h]) && Top(chain + [h]) == h
    {
      h.suc := top;
      StackPush(chain, h);
    }

    /** remove_if(pred): walks the list with the node before the current
        one; a node whose value satisfies `pred` is detached and pushed on a
        private chain, and that chain is destroyed at the end. Returns how
        many nodes were removed. */
    method RemoveIf(pred: int -> bool) returns (n: nat)
      requires Valid()
      modifies this, head, nodes
      ensures Valid() && nodes == KeepNodes(old(nodes), pred)
      ensures destroyed == old(destroyed) + AlgorithmBase.Reverse(DropNodes(old(nodes), pred))
      ensures n == |DropNodes(old(nodes), pred)|
      ensures Elements() == Keep(old(Elements()), pred) && n == Count(old(Elements()), pred)
    {
      ghost var ns := nodes;
      var garbage: Node?;
      ghost var removed: seq<Node>;
      n, garbage, removed := UnlinkIf(pred);
      hide Valid, AlgorithmBase.Reverse, KeepNodes, DropNodes, Stack;
      DestroyChain(garbage, removed);
      KeepDropValues(ns, pred);
    }

    /** remove_if's first loop: the nodes whose value satisfies `pred` are
        unlinked in order and pushed on a private chain whose top is
        `garbage`; nothing is destroyed yet. */
    method UnlinkIf(pred: int -> bool) returns (n: nat, garbage: Node?, ghost removed: seq<Node>)
      requires Valid()
      modifies this, head, nodes
      ensures Valid() && nodes == KeepNodes(old(nodes), pred) && destroyed == old(destroyed)
      ensures removed == DropNodes(old(nodes), pred) && n == |removed|
      ensures Stack(removed) && garbage == Top(removed)
      ensures forall x :: x in removed ==> x != head && x != tail
    {
      ghost var ns := nodes;
      hide Valid, At, AlgorithmBase.Reverse, KeepNodes, DropNodes, Apart, Stack, Scanned, Scanning;
      var bi := head;
      LinkAfter([], ns);
      var i := head.suc;
      ScanStart(ns, pred, head, tail);
      Resume(ns, 0, [], [], bi, i, null, pred, destroyed);
      n, garbage, removed := UnlinkFrom(bi, i, ns, pred);
    }

    /** The loop of UnlinkIf, from the start of the list. */
    method UnlinkFrom(bi0: Node?, i0: Node?, ghost ns: seq<Node>, pred: int -> bool)
      returns (n: nat, garbage: Node?, ghost removed: seq<Node>)
      requires Scanning(ns, 0, [], [], bi0, i0, null, pred, destroyed)
      modifies this, head, ns
      ensures Valid() && nodes == KeepNodes(ns, pred) && destroyed == old(destroyed)
      ensures removed == DropNodes(ns, pred) && n == |removed|
      ensures Stack(removed) && garbage == Top(removed)
      ensures forall x :: x in removed ==> x != head && x != tail
    {
      ghost var d0 := destroyed;
      hide Valid, At, AlgorithmBase.Reverse, KeepNodes, DropNodes, Apart, Stack, Scanned, Scanning;
      n, garbage, removed := 0, null, [];
      var bi, i := bi0, i0;
      ghost var kept: seq<Node> := [];
      ghost var k: nat := 0;
      while i != tail
        invariant Scanning(ns, k, kept, removed, bi, i, garbage, pred, d0) && n == |removed|
        decreases |ns| - k
      {
        Pause(ns, k, kept, removed, bi, i, garbage, pred, d0);
        ScanLook(ns, k, kept, removed, nodes, pred, head, tail);
        if pred(i.data) {
          var h := i;
          i := DropNext(bi, h, garbage, ns, k, kept, removed, pred, d0);
          garbage := h;
          n := n + 1;
          removed := removed + [h];
        } else {
          bi, i := KeepNext(bi, i, garbage, ns, k, kept, removed, pred, d0);
          kept := kept + [ns[k]];
        }
        k := k + 1;
      }
      Pause(ns, k, kept, removed, bi, i, garbage, pred, d0);
      ScanDone(ns, k, kept, removed, nodes, pred, head, tail);
    }

    /** The second loop of remove_if: destroys the private chain from its
        top, each node's link leading to the one pushed before it. */
    method DestroyChain(top: Node?, ghost chain: seq<Node>)
      requires Valid() && Stack(chain) && top == Top(chain)
      requires forall x :: x in chain ==> x != head && x != tail
      modifies this
      ensures Valid() && nodes == old(nodes) && size == old(size)
      ensures destroyed == old(destroyed) + AlgorithmBase.Reverse(chain)
    {
      hide Valid, AlgorithmBase.Reverse, Stack;
      ghost var m: nat := |chain|;
      var g := top;
      assert chain[..m] == chain;
      while g != null
        invariant m <= |chain| && g == Top(chain[..m])
        invariant destroyed == old(destroyed) + AlgorithmBase.Reverse(chain[m..])
        invariant Valid() && nodes == old(nodes) && size == old(size)
        decreases m
      {
        ReverseSnoc(chain, m);
        AppendOne(old(destroyed), AlgorithmBase.Reverse(chain[m..]), chain[m - 1]);
        StackLink(chain, m - 1);
        assert chain[..m][m - 1] == chain[m - 1] && chain[..m - 1] == chain[..m][..m - 1];
        g := DestructNode(g);
        m := m - 1;
      }
      assert chain[0..] == chain;
    }

    /** remove(value): remove_if with "equal to `value`". */
    method Remove(value: int) returns (n: nat)
      requires Valid()
      modifies this, head, nodes
      ensures Valid() && Elements() == Keep(old(Elements()), x => value == x)
      ensures n == Count(old(Elements()), x => value == x)
    {
      n := RemoveIf(x => value == x);
    }

    /** The state of unique's loop after it has looked at the first k of
        the original nodes `ns`: `i` is the last survivor and `j` the next
        node to compare with it. */
    ghost predicate Uniquing(ns: seq<Node>, k: nat, kept: seq<Node>, dropped: seq<Node>,
                             i: Node?, j: Node?, pred: (int, int) -> bool, d0: seq<Node>)
      reads this, head, nodes
    {
      Valid() && destroyed == d0 + dropped && UScanned(ns, k, kept, dropped, nodes, pred) &&
      head !in ns && tail !in ns && i == Last(head, kept) && i in ns &&
      j == (if k < |ns| then ns[k] else tail)
    }

    lemma UResume(ns: seq<Node>, k: nat, kept: seq<Node>, dropped: seq<Node>,
                  i: Node?, j: Node?, pred: (int, int) -> bool, d0: seq<Node>)
      requires Valid() && destroyed == d0 + dropped && UScanned(ns, k, kept, dropped, nodes, pred)
      requires head !in ns && tail !in ns && i == Last(head, kept) && i in ns
      requires j == (if k < |ns| then ns[k] else tail)
      ensures Uniquing(ns, k, kept, dropped, i, j, pred, d0)
    {
    }

    lemma UPause(ns: seq<Node>, k: nat, kept: seq<Node>, dropped: seq<Node>,
                 i: Node?, j: Node?, pred: (int, int) -> bool, d0: seq<Node>)
      requires Uniquing(ns, k, kept, dropped, i, j, pred, d0)
      ensures Valid() && destroyed == d0 + dropped && UScanned(ns, k, kept, dropped, nodes, pred)
      ensures head !in ns && tail !in ns && i == Last(head, kept) && i in ns
      ensures j == (if k < |ns| then ns[k] else tail)
    {
    }

    /** unique's loop drops `j`, equal to the last survivor `i`: it is
        unlinked and destroyed, and its successor is returned. */
    method DropDuplicate(i: Node?, j: Node?, ghost ns: seq<Node>, ghost k: nat, ghost kept: seq<Node>,
                         ghost dropped: seq<Node>, pred: (int, int) -> bool, ghost d0: seq<Node>)
      returns (j': Node?)
      requires Uniquing(ns, k, kept, dropped, i, j, pred, d0) && k < |ns|
      requires |kept| > 0 && pred(kept[|kept| - 1].data, ns[k].data)
      modifies this, i
      ensures Uniquing(ns, k + 1, kept, dropped + [j], i, j', pred, d0)
    {
      hide Valid, At, UniqueNodes, DupNodes, UScanned, Uniquing;
      UPause(ns, k, kept, dropped, i, j, pred, d0);
      ghost var before := nodes;
      UScanLook(ns, k, kept, dropped, before, pred, tail);
      LinkNext(kept);
      var d := DetachAfter(i, |kept|);
      UScanDrop(ns, k, kept, dropped, before, pred);
      j' := DestructNode(d);
      UResume(ns, k + 1, kept, dropped + [d], i, j', pred, d0);
    }

    /** unique's loop keeps `j`: both iterators advance by one. */
    method KeepDistinct(i: Node?, j: Node?, ghost ns: seq<Node>, ghost k: nat, ghost kept: seq<Node>,
                        ghost dropped: seq<Node>, pred: (int, int) -> bool, ghost d0: seq<Node>)
      returns (i': Node?, j': Node?)
      requires Uniquing(ns, k, kept, dropped, i, j, pred, d0) && k < |ns|
      requires |kept| > 0 && !pred(kept[|kept| - 1].data, ns[k].data)
      ensures Uniquing(ns, k + 1, kept + [ns[k]], dropped, i', j', pred, d0)
    {
      hide Valid, At, UniqueNodes, DupNodes, UScanned, Uniquing;
      UPause(ns, k, kept, dropped, i, j, pred, d0);
      UScanLook(ns, k, kept, dropped, nodes, pred, tail);
      UScanKeep(ns, k, kept, dropped, nodes, pred);
      LinkNext(kept);
      j' := j.suc;
      i' := i.suc;
      UResume(ns, k + 1, kept + [ns[k]], dropped, i', j', pred, d0);
    }

    /** unique(pred): drops every node for which `pred` holds between the
        last node kept and it, and returns how many it dropped. With `i` on
        the last node kept and `j` on the next one, it destroys `j` when
        `pred(*i, *j)` and otherwise moves both on; lists of fewer than two
        elements are left alone. */
    method Unique(pred: (int, int) -> bool) returns (erased: nat)
      requires Valid()
      modifies this, nodes
      ensures Valid() && nodes == UniqueNodes(old(nodes), pred)
      ensures destroyed == old(destroyed) + DupNodes(old(nodes), pred)
      ensures erased == |DupNodes(old(nodes), pred)|
      ensures Elements() == UniqueValues(old(Elements()), pred)
      ensures erased == |old(Elements())| - |Elements()|
    {
      ghost var ns := nodes;
      ghost var d0 := destroyed;
      if size < 2 {
        UniqueNodesValues(ns, pred);
        return 0;
      }
      ghost var kept := [ns[0]];
      ghost var dropped: seq<Node> := [];
      hide Valid, At, UniqueNodes, DupNodes, UScanned, Uniquing;
      {
        LinkNext([]);
        var j := head.suc;
        var i := j;
        j := j.suc;
        erased := 0;
        ghost var k: nat := 1;
        UScanStart(ns, pred);
        UResume(ns, 1, kept, dropped, i, j, pred, d0);
        while j != tail
          invariant Uniquing(ns, k, kept, dropped, i, j, pred, d0) && erased == |dropped|
          decreases |ns| - k
        {
          UPause(ns, k, kept, dropped, i, j, pred, d0);
          UScanLook(ns, k, kept, dropped, nodes, pred, tail);
          if pred(i.data, j.data) {
            ghost var d := j;
            j := DropDuplicate(i, j, ns, k, kept, dropped, pred, d0);
            erased := erased + 1;
            dropped := dropped + [d];
          } else {
            i, j := KeepDistinct(i, j, ns, k, kept, dropped, pred, d0);
            kept := kept + [ns[k]];
          }
          k := k + 1;
        }
        UPause(ns, k, kept, dropped, i, j, pred, d0);
        UScanDone(ns, k, kept, dropped, nodes, pred);
      }
      UniqueNodesValues(ns, pred);
    }

    method UniqueEqual() returns (erased: nat)
      requires Valid()
      modifies this, nodes
      ensures Valid() && Elements() == UniqueValues(old(Elements()), Same)
      ensures erased == |old(Elements())| - |Elements()|
    {
      erased := Unique(Same);
    }

    /** The state of merge's loop: `out` are the nodes already in final
        position, this list holds them followed by the unmerged rest of `a`,
        and `other` holds the unmerged rest of `b`; `bi`/`i` are the
        positions before and after `out`, and `j` is other's first node. */
    ghost predicate Merging(other: ForwardList, a: seq<Node>, b: seq<Node>, ka: nat, kb: nat,
                            out: seq<Node>, whole: seq<Node>, i: Node?, j: Node?, bi: Node?, bj: Node?,
                            total: nat, d0: seq<Node>, od0: seq<Node>)
      reads this, other, head, nodes, other.head, other.nodes
    {
      Valid() && other.Valid() && Separate(other) &&
      ka <= |a| && kb <= |b| && nodes == out + a[ka..] && other.nodes == b[kb..] &&
      out + Algorithm.MergeSpec(a[ka..], b[kb..], Key) == whole &&
      bi == At(|out|) && i == At(|out| + 1) && j == other.At(1) && bj == other.head &&
      (bi == head || bi in a || bi in b) && (j == other.tail || j in b) &&
      size + other.size == total && destroyed == d0 && other.destroyed == od0
    }

    lemma MResume(other: ForwardList, a: seq<Node>, b: seq<Node>, ka: nat, kb: nat,
                  out: seq<Node>, whole: seq<Node>, i: Node?, j: Node?, bi: Node?, bj: Node?,
                  total: nat, d0: seq<Node>, od0: seq<Node>)
      requires Valid() && other.Valid() && Separate(other)
      requires ka <= |a| && kb <= |b| && nodes == out + a[ka..] && other.nodes == b[kb..]
      requires out + Algorithm.MergeSpec(a[ka..], b[kb..], Key) == whole
      requires bi == At(|out|) && i == At(|out| + 1) && j == other.At(1) && bj == other.head
      requires (bi == head || bi in a || bi in b) && (j == other.tail || j in b)
      requires size + other.size == total && destroyed == d0 && other.destroyed == od0
      ensures Merging(other, a, b, ka, kb, out, whole, i, j, bi, bj, total, d0, od0)
    {
    }

    lemma MPause(other: ForwardList, a: seq<Node>, b: seq<Node>, ka: nat, kb: nat,
                 out: seq<Node>, whole: seq<Node>, i: Node?, j: Node?, bi: Node?, bj: Node?,
                 total: nat, d0: seq<Node>, od0: seq<Node>)
      requires Merging(other, a, b, ka, kb, out, whole, i, j, bi, bj, total, d0, od0)
      ensures Valid() && other.Valid() && Separate(other)
      ensures ka <= |a| && kb <= |b| && nodes == out + a[ka..] && other.nodes == b[kb..]
      ensures out + Algorithm.MergeSpec(a[ka..], b[kb..], Key) == whole
      ensures bi == At(|out|) && i == At(|out| + 1) && j == other.At(1) && bj == other.head
      ensures (bi == head || bi in a || bi in b) && (j == other.tail || j in b)
      ensures size + other.size == total && destroyed == d0 && other.destroyed == od0
    {
    }

    /** merge's loop takes other's first node `j`: it moves behind `bi`,
        and `i` continues right after it. */
    method MergeTake(other: ForwardList, ghost a: seq<Node>, ghost b: seq<Node>, ghost ka: nat, ghost kb: nat,
                     ghost out: seq<Node>, ghost whole: seq<Node>, i: Node?, j: Node?, bi: Node?, bj: Node?,
                     ghost total: nat, ghost d0: seq<Node>, ghost od0: seq<Node>)
      returns (i': Node?, j': Node?, bi': Node?, ghost ka': nat, ghost kb': nat, ghost out': seq<Node>)
      requires Merging(other, a, b, ka, kb, out, whole, i, j, bi, bj, total, d0, od0)
      requires j != other.tail && (i == tail || j.data < i.data)
      modifies this, other, bi, bj, j
      ensures Merging(other, a, b, ka', kb', out', whole, i', j', bi', bj, total, d0, od0)
      ensures |a| - ka' + |b| - kb' < |a| - ka + |b| - kb
    {
      hide Valid, Separate, Merging;
      MPause(other, a, b, ka, kb, out, whole, i, j, bi, bj, total, d0, od0);
      AtInjective(|out| + 1, |nodes| + 1);
      other.AtInjective(1, |other.nodes| + 1);
      ghost var x;
      x, ka', kb' := Algorithm.MergeAdvance(a, b, Key, ka, kb, out, whole);
      var moved := TransferAfter(bi, |out|, other, bj, 0);
      bi' := j;
      i' := j;
      SucAt(|out| + 1);
      i' := i'.suc;
      other.SucAt(0);
      j' := bj.suc;
      out' := out + [x];
      MResume(other, a, b, ka', kb', out', whole, i', j', bi', bj, total, d0, od0);
    }

    /** merge's loop keeps this list's node `i` in place and moves past it. */
    method MergeSkip(other: ForwardList, ghost a: seq<Node>, ghost b: seq<Node>, ghost ka: nat, ghost kb: nat,
                     ghost out: seq<Node>, ghost whole: seq<Node>, i: Node?, j: Node?, bi: Node?, bj: Node?,
                     ghost total: nat, ghost d0: seq<Node>, ghost od0: seq<Node>)
      returns (i': Node?, bi': Node?, ghost ka': nat, ghost kb': nat, ghost out': seq<Node>)
      requires Merging(other, a, b, ka, kb, out, whole, i, j, bi, bj, total, d0, od0)
      requires j != other.tail && i != tail && !(j.data < i.data)
      ensures Merging(other, a, b, ka', kb', out', whole, i', j, bi', bj, total, d0, od0)
      ensures |a| - ka' + |b| - kb' < |a| - ka + |b| - kb
    {
      hide Valid, Separate, Merging;
      MPause(other, a, b, ka, kb, out, whole, i, j, bi, bj, total, d0, od0);
      AtInjective(|out| + 1, |nodes| + 1);
      other.AtInjective(1, |other.nodes| + 1);
      ghost var x;
      x, ka', kb' := Algorithm.MergeAdvance(a, b, Key, ka, kb, out, whole);
      SucAt(|out| + 1);
      SucAt(|out|);
      i' := i.suc;
      bi' := bi.suc;
      out' := out + [x];
      MResume(other, a, b, ka', kb', out', whole, i', j, bi', bj, total, d0, od0);
    }

    /** merge(other): moves every node of `other` into this list, each in
        front of the first node of this list with a larger value. With `i`
        walking this list and `j` always the first node of `other`, it moves
        `j` in front of `i` when `i` is the end or `*j < *i`, and otherwise
        moves `i` on; `other` ends up empty. */
    method Merge(other: ForwardList)
      requires Valid() && other.Valid() && Separate(other)
      modifies this, other, head, other.head, nodes, other.nodes
      ensures Valid() && other.Valid() && Separate(other)
      ensures nodes == Algorithm.MergeSpec(old(nodes), old(other.nodes), Key)
      ensures other.nodes == [] && size == old(size) + old(other.size) && other.size == 0
      ensures Elements() == Algorithm.MergeSpec(old(Elements()), old(other.Elements()), Identity)
      ensures destroyed == old(destroyed) && other.destroyed == old(other.destroyed)
    {
      ghost var a, b := nodes, other.nodes;
      ghost var whole := Algorithm.MergeSpec(a, b, Key);
      ghost var total := size + other.size;
      ghost var d0, od0 := destroyed, other.destroyed;
      SucAt(0);
      other.SucAt(0);
      var i := head.suc;
      var j := other.head.suc;
      var bi := head;
      var bj := other.head;
      ghost var ka: nat, kb: nat, out: seq<Node> := 0, 0, [];
      MResume(other, a, b, ka, kb, out, whole, i, j, bi, bj, total, d0, od0);
      hide Valid, Separate, Merging;
      while j != other.tail
        invariant Merging(other, a, b, ka, kb, out, whole, i, j, bi, bj, total, d0, od0)
        decreases |a| - ka + |b| - kb
      {
        MPause(other, a, b, ka, kb, out, whole, i, j, bi, bj, total, d0, od0);
        if i == tail || j.data < i.data {
          i, j, bi, ka, kb, out := MergeTake(other, a, b, ka, kb, out, whole, i, j, bi, bj, total, d0, od0);
        } else {
          i, bi, ka, kb, out := MergeSkip(other, a, b, ka, kb, out, whole, i, j, bi, bj, total, d0, od0);
        }
      }
      MPause(other, a, b, ka, kb, out, whole, i, j, bi, bj, total, d0, od0);
      other.AtInjective(1, |other.nodes| + 1);
      Algorithm.MergeRightEmpty(a[ka..], b[kb..], Key);
      ValuesMerge(a, b);
    }

    /** reverse(): walks the list once, pointing every node at the one
        before it, then links the head to the old last node. */
    method Reverse()
      requires Valid()
      modifies this, head, nodes
      ensures Valid() && nodes == AlgorithmBase.Reverse(old(nodes))
      ensures size == old(size) && destroyed == old(destroyed)
    {
      ghost var ns := nodes;
      var i := head.suc;
      var nhead := tail;
      ghost var k := 0;
      while i != tail
        invariant nodes == ns && size == |ns| && destroyed == old(destroyed)
        invariant Distinct(ns) && head != tail && head !in ns && tail !in ns
        invariant 0 <= k <= |ns|
        invariant i == (if k < |ns| then ns[k] else tail)
        invariant nhead == (if k == 0 then tail else ns[k - 1])
        invariant forall j {:trigger ns[j].suc} :: 0 <= j < k ==> ns[j].suc == (if j == 0 then tail else ns[j - 1])
        invariant forall j {:trigger ns[j].suc} :: k <= j < |ns| ==> ns[j].suc == After(ns, j, tail)
        decreases |ns| - k
      {
        label Step:
        var tmp := i.suc;
        i.suc := nhead;
        forall j | 0 <= j < k + 1
          ensures ns[j].suc == (if j == 0 then tail else ns[j - 1])
        {
          if j < k {
            assert ns[j] != ns[k];
            assert ns[j].suc == old@Step(ns[j].suc);
          }
        }
        forall j | k + 1 <= j < |ns|
          ensures ns[j].suc == After(ns, j, tail)
        {
          assert ns[j] != ns[k];
          assert ns[j].suc == old@Step(ns[j].suc);
        }
        nhead := i;
        i := tmp;
        k := k + 1;
      }
      assert k == |ns|;
      label Done:
      head.suc := nhead;
      forall j | 0 <= j < |ns|
        ensures ns[j].suc == old@Done(ns[j].suc)
      {
        assert ns[j] != head;
      }
      ChainReversed(head, ns, tail);
      ReverseDistinct(ns);
      nodes := AlgorithmBase.Reverse(ns);
    }
  }

  // ------------------------------------------------------- comparisons
  // The free operators compare two lists through their element sequences.

  /** operator==: equal sizes, then `equal` over the elements. */
  function ListEq(a: seq<int>, b: seq<int>): (r: bool)
    ensures r <==> a == b
  {
    if |a| == |b| then
      var e := Equal(a, b);
      assert e ==> a == b;
      e
    else false
  }

  /** operator!=: `!(lhs == rhs)`. */
  function ListNe(a: seq<int>, b: seq<int>): (r: bool)
    ensures r <==> a != b
  {
    !ListEq(a, b)
  }

  /** operator<: `lexicographical_compare` over the elements, which is the
      usual lexicographic order (a proper prefix or a smaller element at
      the first difference). */
  function ListLt(a: seq<int>, b: seq<int>): (r: bool)
    ensures r <==> LexLessSpec(a, b)
  {
    LexLessIsLexicographic(a, b);
    LexLess(a, b)
  }

  /** operator>, <=, >=: by swapping and negating `<`. */
  function ListGt(a: seq<int>, b: seq<int>): (r: bool)
    ensures r <==> LexLessSpec(b, a)
  {
    ListLt(b, a)
  }

  function ListLe(a: seq<int>, b: seq<int>): (r: bool)
    ensures r <==> !LexLessSpec(b, a)
  {
    !ListLt(b, a)
  }

  function ListGe(a: seq<int>, b: seq<int>): (r: bool)
    ensures r <==> !LexLessSpec(a, b)
  {
    !ListLt(a, b)
  }
}

=== FILE: memory.dfy ===
/** memory.h: `align`, `unique_ptr`'s release/reset, and the reference
    counts of the shared/weak control block `_ctblk`. A pointer is a `nat`
    and `Null` (0) is nullptr. What a deleter does to the object is out of
    view; each object records the pointers handed to its deleter, in order,
    in `deleted`. */
module Memory {
  import opened Bit
  import opened Wrappers

  const Null: nat := 0

  // ------------------------------------------------------------ align

  /** The distance from `ptr` up to the next multiple of `alignment`: the
      least offset that aligns the pointer. */
  function AlignOffset(ptr: nat, alignment: nat): (off: nat)
    requires alignment > 0
    ensures off < alignment && (ptr + off) % alignment == 0
  {
    var masked := ptr % alignment;
    if masked == 0 then 0
    else
      DivModUnique(ptr / alignment + 1, 0, alignment);
      alignment - masked
  }

  /** No smaller offset aligns the pointer. */
  lemma AlignOffsetIsLeast(ptr: nat, alignment: nat, o: nat)
    requires alignment > 0 && o < AlignOffset(ptr, alignment)
    ensures (ptr + o) % alignment != 0
  {
    var q, m := ptr / alignment, ptr % alignment;
    assert ptr + o == q * alignment + (m + o) && m + o < alignment;
    DivModUnique(q, m + o, alignment);
  }

  /** align(alignment, size, ptr, space): `ptr` and `space` are passed by
      reference, so the method returns their new values beside the result
      (`None` is nullptr). */
  method Align(alignment: nat, size: nat, ptr: nat, space: nat) returns (r: Option<nat>, ptr': nat, space': nat)
    requires IsPow2(alignment)
    ensures var off := AlignOffset(ptr, alignment);
      r.None? <==> space < off || space - off < size
    ensures r.None? ==> ptr' == ptr && space' == space
    ensures r.Some? ==>
      r.value == ptr' && ptr' == ptr + AlignOffset(ptr, alignment) && ptr' % alignment == 0 &&
      space' == space - AlignOffset(ptr, alignment) && size <= space'
  {
    var e := Pow2Exponent(alignment);
    var masked := And(ptr, alignment - 1);
    AndLowBits(ptr, e);
    var offset := 0;
    if masked != 0 {
      offset := alignment - masked;
    }
    if space < offset || space - offset < size {
      return None, ptr, space;
    }
    ptr' := ptr + offset;
    space' := space - offset;
    r := Some(ptr');
  }

  // ------------------------------------------------------------ unique_ptr

  /** unique_ptr<T, D>: the owned pointer, and the calls made to its deleter. */
  class UniquePtr {
    var ptr: nat
    var deleted: seq<nat>

    constructor (p: nat)
      ensures ptr == p && deleted == []
    {
      ptr := p;
      deleted := [];
    }

    /** operator bool. */
    predicate Engaged()
      reads this
    {
      ptr != Null
    }

    /** release(): gives up ownership without calling the deleter. */
    method Release() returns (p: nat)
      modifies this
      ensures p == old(ptr) && ptr == Null && deleted == old(deleted)
      ensures !Engaged()
    {
      p := ptr;
      ptr := Null;
    }

    /** reset(p): takes `p` and hands the old pointer to the deleter, once,
        unless it was null. */
    method Reset(p: nat)
      modifies this
      ensures ptr == p
      ensures deleted == old(deleted) + (if old(ptr) != Null then [old(ptr)] else [])
    {
      var tmp := ptr;
      ptr := p;
      if tmp != Null {
        deleted := deleted + [tmp];
      }
    }
  }

  /** Releasing and then resetting deletes nothing: ownership left with the
      released pointer. */
  method ReleaseThenReset(u: UniquePtr, p: nat) returns (q: nat)
    modifies u
    ensures q == old(u.ptr) && u.ptr == p && u.deleted == old(u.deleted)
  {
    q := u.Release();
    u.Reset(p);
  }

  // ------------------------------------------------------------ control block

  /** _ctblk: the owned pointer `ptr` (first `owned`), the counts `_weak`
      and `_shared`, the deleter's calls, and whether the block itself has
      been destroyed and deallocated (`freed`). Every shared owner also
      holds one weak count. */
  class ControlBlock {
    ghost const owned: nat
    var ptr: nat
    var weak: nat
    var shared: nat
    var deleted: seq<nat>
    var freed: bool

    /** The counting protocol: shared owners never outnumber weak counts,
        the block is freed exactly when no weak count is left, and the
        object is deleted (once, with the pointer the block was made with)
        exactly when no shared owner is left. */
    ghost predicate Valid()
      reads this
    {
      shared <= weak &&
      (freed <==> weak == 0) &&
      (shared > 0 ==> ptr == owned && deleted == []) &&
      (shared == 0 ==> ptr == Null && deleted == [owned])
    }

    /** A new block: weak = shared = 1. */
    constructor (p: nat)
      ensures Valid() && owned == p && ptr == p
      ensures weak == 1 && shared == 1 && deleted == [] && !freed
    {
      owned := p;
      ptr := p;
      weak := 1;
      shared := 1;
      deleted := [];
      freed := false;
    }

    /** inc_shared(): a new shared owner, which also holds a weak count. */
    method IncShared()
      requires Valid() && shared > 0
      modifies this
      ensures Valid()
      ensures weak == old(weak) + 1 && shared == old(shared) + 1
      ensures ptr == old(ptr) && deleted == old(deleted) && freed == old(freed)
    {
      weak := weak + 1;
      shared := shared + 1;
    }

    /** inc_weak(): a new weak owner. */
    method IncWeak()
      requires Valid() && !freed
      modifies this
      ensures Valid()
      ensures weak == old(weak) + 1 && shared == old(shared)
      ensures ptr == old(ptr) && deleted == old(deleted) && freed == old(freed)
    {
      weak := weak + 1;
    }

    /** dec_weak(): a weak owner leaves (one that is not also a shared
        owner); the last one frees the block. */
    method DecWeak()
      requires Valid() && weak > shared
      modifies this
      ensures Valid()
      ensures weak == old(weak) - 1 && shared == old(shared)
      ensures ptr == old(ptr) && deleted == old(deleted)
      ensures freed <==> weak == 0
    {
      weak := weak - 1;
      if weak == 0 {
        freed := true;
      }
    }

    /** dec_shared(): a shared owner leaves; the last one hands the object
        to the deleter; then its weak count goes too. */
    method DecShared()
      requires Valid() && shared > 0
      modifies this
      ensures Valid()
      ensures shared == old(shared) - 1 && weak == old(weak) - 1
      ensures shared == 0 ==> ptr == Null && deleted == [owned]
      ensures shared > 0 ==> ptr == old(ptr) && deleted == old(deleted)
      ensures freed <==> weak == 0
    {
      shared := shared - 1;
      if shared == 0 {
        var tmp := ptr;
        ptr := Null;
        deleted := deleted + [tmp];
      }
      DecWeak();
    }
  }

  /** use_count() of a shared_ptr or weak_ptr: 0 without a control block. */
  function UseCount(cb: ControlBlock?): nat
    reads cb
  {
    if cb == null then 0 else cb.shared
  }

  /** expired(): use_count() == 0. */
  predicate Expired(cb: ControlBlock?)
    reads cb
  {
    UseCount(cb) == 0
  }

  /** A pointer that has a live block is expired exactly when the object
      has been handed to its deleter. */
  lemma ExpiredIffDeleted(cb: ControlBlock)
    requires cb.Valid()
    ensures Expired(cb) <==> cb.deleted == [cb.owned]
    ensures !Expired(cb) <==> cb.deleted == []
  {
  }

  /** A block whose shared owners have all left, but which a weak_ptr still
      holds, is expired but not freed. */
  lemma ExpiredNotFreed(cb: ControlBlock)
    requires cb.Valid() && cb.shared == 0 && cb.weak > 0
    ensures Expired(cb) && !cb.freed && cb.ptr == Null
  {
  }
}

=== FILE: optional.dfy ===
/** optional.h: `optional<T>` as its storage `_data` and flag `_valid`,
    which emplace, reset and assignment change in place, and the comparison
    operators, which read both. Values are integers, but assignment is
    modelled as the operator the source writes out (the non-trivial
    specialisations and the converting operator=), not the defaulted
    trivial one a trivially copyable `optional<int>` would use. The
    storage keeps whatever value was last constructed in it (or an
    arbitrary initial value); reading it while `_valid` is false reads
    that stale value. */
module OptionalModel {
  import opened Wrappers

  /** What the comparison operators read: the flag and the storage. */
  datatype OptState = OptState(valid: bool, data: int)

  /** The value the optional stands for. */
  function Contents(o: OptState): Option<int>
  {
    if o.valid then Some(o.data) else None
  }

  class Optional {
    var valid: bool
    var data: int

    /** optional() / optional(nullopt): starts empty; `stale` is whatever
        the uninitialised storage holds. */
    constructor Empty(stale: int)
      ensures !valid && data == stale
    {
      valid := false;
      data := stale;
    }

    /** optional(u) / optional(in_place, args...): starts engaged. */
    constructor Of(v: int)
      ensures valid && data == v
    {
      valid := true;
      data := v;
    }

    function State(): OptState
      reads this
    {
      OptState(valid, data)
    }

    /** has_value() / operator bool. */
    predicate HasValue()
      reads this
      ensures HasValue() <==> Contents(State()).Some?
    {
      valid
    }

    /** value(): throws bad_optional_access when empty. */
    function Value(): (r: Result<int>)
      reads this
      ensures r.Err? <==> Contents(State()) == None
      ensures r.Err? ==> r.error == BadOptionalAccess
      ensures r.Ok? ==> Contents(State()) == Some(r.value)
    {
      if !valid then Err(BadOptionalAccess) else Ok(data)
    }

    /** value_or(d): the contained value, or `d` when empty. */
    function ValueOr(d: int): (r: int)
      reads this
      ensures Contents(State()).Some? ==> r == Contents(State()).value
      ensures Contents(State()).None? ==> r == d
    {
      if valid then data else d
    }

    /** reset(): destroys the value (when there is one) and clears the flag. */
    method Reset()
      modifies this
      ensures Contents(State()) == None && data == old(data)
    {
      valid := false;
    }

    /** emplace(args...): reset(), then construct the new value. */
    method Emplace(v: int)
      modifies this
      ensures Contents(State()) == Some(v)
      ensures Value() == Ok(v)
    {
      Reset();
      data := v;
      valid := true;
    }

    /** The written-out assignment AS WRITTEN: the copy and move assignments
        of the non-trivial specialisations and the converting
        operator=(const optional<U>&) / operator=(optional<U>&&) share one
        shape: from an empty source into an engaged target the target's
        value is destroyed but `_valid` stays true, so the target still
        reports a (destroyed) value. */
    method AssignAsWritten(other: Optional)
      requires other != this
      modifies this
      ensures valid == (old(valid) || other.valid)
      ensures other.valid ==> data == other.data
      ensures !other.valid ==> data == old(data)
    {
      if valid && other.valid {
        data := other.data;
      } else if other.valid {
        data := other.data;
        valid := true;
      } else if valid {
        // the value is destroyed; the flag is left as it was
      }
    }

    /** The assignment with the flag cleared in the last branch: the target
        ends up holding exactly what the source holds. */
    method Assign(other: Optional)
      requires other != this
      modifies this
      ensures Contents(State()) == Contents(other.State())
    {
      if valid && other.valid {
        data := other.data;
      } else if other.valid {
        data := other.data;
        valid := true;
      } else if valid {
        valid := false;
      }
    }
  }

  /** Assigning an empty optional to an engaged one, as written, leaves the
      target engaged while the source is empty. */
  method AssignFromEmptyKeepsValue() returns (target: Optional, source: Optional)
    ensures target.HasValue() && !source.HasValue()
    ensures Contents(target.State()) != Contents(source.State())
  {
    target := new Optional.Of(1);
    source := new Optional.Empty(0);
    target.AssignAsWritten(source);
  }

  // ------------------------------------------------------------ comparisons

  /** operator==(optional, optional) AS WRITTEN: differing flags give false,
      two engaged optionals give true without comparing their values, and
      two empty ones compare their (stale) storage. */
  function EqAsWritten(l: OptState, r: OptState): bool
  {
    if l.valid != r.valid then false
    else if l.valid || r.valid then true
    else l.data == r.data
  }

  /** operator!= AS WRITTEN: the same inversion. */
  function NeAsWritten(l: OptState, r: OptState): bool
  {
    if l.valid != r.valid then true
    else if l.valid || r.valid then false
    else l.data != r.data
  }

  /** The two are at least each other's negation. */
  lemma NeIsNotEqAsWritten(l: OptState, r: OptState)
    ensures NeAsWritten(l, r) == !EqAsWritten(l, r)
  {
  }

  /** Two engaged optionals with different values compare equal, and two
      empty ones can compare unequal. */
  lemma EqAsWrittenIsInverted()
    ensures EqAsWritten(OptState(true, 1), OptState(true, 2))
    ensures Contents(OptState(true, 1)) != Contents(OptState(true, 2))
    ensures !EqAsWritten(OptState(false, 1), OptState(false, 2))
    ensures Contents(OptState(false, 1)) == Contents(OptState(false, 2))
  {
  }

  /** operator== with the two last branches the right way round. */
  function Eq(l: OptState, r: OptState): (b: bool)
    ensures b <==> Contents(l) == Contents(r)
  {
    if l.valid != r.valid then false
    else if !l.valid then true
    else l.data == r.data
  }

  function Ne(l: OptState, r: OptState): (b: bool)
    ensures b <==> Contents(l) != Contents(r)
  {
    if l.valid != r.valid then true
    else if !l.valid then false
    else l.data != r.data
  }

  /** The order on Option<int> the relational operators implement: nullopt
      is below every value, values compare as ints. */
  predicate OptionLess(a: Option<int>, b: Option<int>)
  {
    b.Some? && (a.None? || a.value < b.value)
  }

  /** operator<: nothing is less than an empty optional; an empty one is
      less than an engaged one. */
  function Lt(l: OptState, r: OptState): (b: bool)
    ensures b <==> OptionLess(Contents(l), Contents(r))
  {
    if !r.valid then false
    else if !l.valid then true
    else l.data < r.data
  }

  function Le(l: OptState, r: OptState): (b: bool)
    ensures b <==> !OptionLess(Contents(r), Contents(l))
  {
    if !l.valid then true
    else if !r.valid then false
    else l.data <= r.data
  }

  function Gt(l: OptState, r: OptState): (b: bool)
    ensures b <==> OptionLess(Contents(r), Contents(l))
  {
    if !l.valid then false
    else if !r.valid then true
    else l.data > r.data
  }

  function Ge(l: OptState, r: OptState): (b: bool)
    ensures b <==> !OptionLess(Contents(l), Contents(r))
  {
    if !r.valid then true
    else if !l.valid then false
    else l.data >= r.data
  }

  /** The operators form a total order: `<` is irreflexive and transitive,
      exactly one of `<`, `==`, `>` holds, and `<=` is `<` or `==`. */
  lemma {:induction false} OrderIsTotal(a: OptState, b: OptState, c: OptState)
    ensures !Lt(a, a)
    ensures Lt(a, b) && Lt(b, c) ==> Lt(a, c)
    ensures (Lt(a, b) && !Eq(a, b) && !Gt(a, b)) || (!Lt(a, b) && Eq(a, b) && !Gt(a, b)) ||
            (!Lt(a, b) && !Eq(a, b) && Gt(a, b))
    ensures Le(a, b) <==> Lt(a, b) || Eq(a, b)
    ensures Ge(a, b) <==> Le(b, a)
  {
  }

  /** Comparison with nullopt: `opt == nullopt` is `!opt`, `nullopt < opt`
      is `bool(opt)`, `opt < nullopt` is false. */
  function EqNullopt(o: OptState): (b: bool)
    ensures b <==> Eq(o, OptState(false, o.data))
  {
    !o.valid
  }

  function NulloptLt(o: OptState): (b: bool)
    ensures b <==> Lt(OptState(false, o.data), o)
  {
    o.valid
  }

  function LtNullopt(o: OptState): (b: bool)
    ensures b <==> Lt(o, OptState(false, o.data))
  {
    false
  }

  /** Comparison with a value: an empty optional is unequal to every value
      and below it. */
  function EqValue(o: OptState, v: int): (b: bool)
    ensures b <==> Contents(o) == Some(v)
  {
    if o.valid then o.data == v else false
  }

  function LtValue(o: OptState, v: int): (b: bool)
    ensures b <==> OptionLess(Contents(o), Some(v))
  {
    if o.valid then o.data < v else true
  }

  function ValueLt(v: int, o: OptState): (b: bool)
    ensures b <==> OptionLess(Some(v), Contents(o))
  {
    if o.valid then v < o.data else false
  }
}

=== FILE: printer_loader.dfy ===
/** util/gdb-pretty-printers.py, loading: the handlers the debugger calls
    when an object file is loaded and when the object files are cleared.
    The debugger's state is a class: the module's byte-order flag, and per
    program space (a number) its "loaded" attribute and the names of its
    registered printers. The output of `show endian` is a parameter. */
module PrinterLoader {
  import opened PrinterNames
  import opened PrinterValues

  /** `_libcxx_printer_name`. */
  const LoaderName := "libcxx_pretty_printer"

  /** Python's `sub in s` on strings. */
  function Contains(s: string, sub: string): (r: bool)
    ensures StartsWith(s, sub) ==> r
  {
    StartsWith(s, sub) || (s != [] && Contains(s[1..], sub))
  }

  function Occurrences(s: seq<string>, n: string): nat {
    if s == [] then 0 else (if s[0] == n then 1 else 0) + Occurrences(s[1..], n)
  }

  /** `list.remove(n)`: drops the first element equal to n. */
  function RemoveFirst(s: seq<string>, n: string): (r: seq<string>)
    ensures n in s ==> Occurrences(r, n) + 1 == Occurrences(s, n)
    ensures n in s ==> |r| + 1 == |s|
  {
    if s == [] then []
    else if s[0] == n then s[1..]
    else [s[0]] + RemoveFirst(s[1..], n)
  }

  lemma {:induction false} RemoveFirstAt(s: seq<string>, n: string, i: nat)
    requires i < |s| && s[i] == n && n !in s[..i]
    ensures RemoveFirst(s, n) == s[..i] + s[i + 1..]
  {
    if i > 0 {
      assert s[1..][..i - 1] == s[1..i];
      RemoveFirstAt(s[1..], n, i - 1);
      assert [s[0]] + (s[1..][..i - 1] + s[1..][i..]) == s[..i] + s[i + 1..];
    }
  }

  lemma {:induction false} OccursOnce(s: seq<string>, n: string)
    requires Occurrences(s, n) > 0
    ensures n in s
  {
    if s[0] != n {
      OccursOnce(s[1..], n);
    }
  }

  lemma {:induction false} OccurrencesFront(n: string, s: seq<string>)
    ensures Occurrences([n] + s, n) == Occurrences(s, n) + 1
  {
    assert ([n] + s)[1..] == s;
  }

  class Debugger {
    /** The module-level `_libcpp_big_endian`, which the string printer
        reads. */
    var bigEndian: bool
    /** `getattr(progspace, _libcxx_printer_name, False)`. */
    var loaded: map<nat, bool>
    /** `progspace.pretty_printers`, by name. */
    var printers: map<nat, seq<string>>

    function Loaded(ps: nat): bool
      reads this`loaded
    {
      ps in loaded && loaded[ps]
    }

    function Printers(ps: nat): seq<string>
      reads this`printers
    {
      if ps in printers then printers[ps] else []
    }

    /** Each program space holds this script's printer exactly when its
        flag says so, and then once. */
    ghost predicate Valid()
      reads this`loaded, this`printers
    {
      forall ps :: Occurrences(Printers(ps), LoaderName) == if Loaded(ps) then 1 else 0
    }

    /** The state when the script is sourced: the flag is False and no
        program space has the printer. */
    constructor ()
      ensures Valid() && !bigEndian && loaded == map[] && printers == map[]
    {
      bigEndian, loaded, printers := false, map[], map[];
    }

    /** The string printer's short-size decoding under the current flag. */
    function ShownShortSize(alternate: bool, s: nat): nat
      reads this
    {
      ShortSize(alternate, bigEndian, s)
    }

    /** _register_libcxx_printers as written: the byte order read from the
        debugger is assigned to a local, so the module flag keeps its old
        value; the printer is added (at the front, as gdb does) only when
        the program space's flag is not set. */
    method RegisterAsWritten(ps: nat, endianOutput: string)
      requires Valid()
      modifies this
      ensures Valid() && Loaded(ps)
      ensures bigEndian == old(bigEndian)
      ensures old(Loaded(ps)) ==> printers == old(printers) && loaded == old(loaded)
      ensures !old(Loaded(ps)) ==>
                printers == old(printers)[ps := [LoaderName] + old(Printers(ps))] && loaded == old(loaded)[ps := true]
    {
      var localBigEndian := Contains(endianOutput, "big endian");
      Load(ps);
    }

    /** _register_libcxx_printers with the flag declared `global`: the
        module flag records whether the target is big-endian. */
    method Register(ps: nat, endianOutput: string)
      requires Valid()
      modifies this
      ensures Valid() && Loaded(ps)
      ensures bigEndian == Contains(endianOutput, "big endian")
      ensures old(Loaded(ps)) ==> printers == old(printers) && loaded == old(loaded)
      ensures !old(Loaded(ps)) ==>
                printers == old(printers)[ps := [LoaderName] + old(Printers(ps))] && loaded == old(loaded)[ps := true]
    {
      bigEndian := Contains(endianOutput, "big endian");
      Load(ps);
    }

    /** The once-per-program-space part of both registrations. */
    method Load(ps: nat)
      requires Valid()
      modifies this
      ensures Valid() && Loaded(ps) && bigEndian == old(bigEndian)
      ensures old(Loaded(ps)) ==> printers == old(printers) && loaded == old(loaded)
      ensures !old(Loaded(ps)) ==>
                printers == old(printers)[ps := [LoaderName] + old(Printers(ps))] && loaded == old(loaded)[ps := true]
    {
      if !(ps in loaded && loaded[ps]) {
        OccurrencesFront(LoaderName, Printers(ps));
        printers := printers[ps := [LoaderName] + Printers(ps)];
        loaded := loaded[ps := true];
        assert forall q :: q != ps ==> Printers(q) == old(Printers(q)) && Loaded(q) == old(Loaded(q));
      }
    }

    /** _unregister_libcxx_printers: when the flag is set, the first printer
        of that name is removed and the flag cleared. */
    method Unregister(ps: nat)
      requires Valid()
      modifies this
      ensures Valid() && !Loaded(ps) && bigEndian == old(bigEndian)
      ensures !old(Loaded(ps)) ==> printers == old(printers) && loaded == old(loaded)
      ensures old(Loaded(ps)) ==>
                printers == old(printers)[ps := RemoveFirst(old(Printers(ps)), LoaderName)] &&
                loaded == old(loaded)[ps := false]
    {
      if !(ps in loaded && loaded[ps]) {
        return;
      }
      var list := Printers(ps);
      assert Occurrences(list, LoaderName) == 1;
      OccursOnce(list, LoaderName);
      var i := 0;
      while true
        invariant i < |list| && LoaderName in list[i..] && LoaderName !in list[..i]
        decreases |list| - i
      {
        if list[i] == LoaderName {
          RemoveFirstAt(list, LoaderName, i);
          printers := printers[ps := list[..i] + list[i + 1..]];
          loaded := loaded[ps := false];
          assert forall q :: q != ps ==> Printers(q) == old(Printers(q)) && Loaded(q) == old(Loaded(q));
          return;
        }
        assert list[..i + 1] == list[..i] + [list[i]];
        assert list[i..] == [list[i]] + list[i + 1..];
        i := i + 1;
      }
    }
  }

  /** A short string of n characters on a target whose `show endian`
      output is given, shown after the script's registration: on a
      big-endian target the flag stays False and the size comes out halved
      (or doubled with the alternate layout). */
  method ShownAfterRegisterAsWritten(endianOutput: string, alternate: bool, n: nat) returns (shown: nat)
    ensures Contains(endianOutput, "big endian") ==> shown == if alternate then 2 * n else n / 2
    ensures !Contains(endianOutput, "big endian") ==> shown == n
  {
    var d := new Debugger();
    d.RegisterAsWritten(0, endianOutput);
    shown := d.ShownShortSize(alternate, StoredShortSize(alternate, Contains(endianOutput, "big endian"), n));
  }

  /** The same with the flag recorded: every target shows n characters. */
  method ShownAfterRegister(endianOutput: string, alternate: bool, n: nat) returns (shown: nat)
    ensures shown == n
  {
    var d := new Debugger();
    d.Register(0, endianOutput);
    shown := d.ShownShortSize(alternate, StoredShortSize(alternate, Contains(endianOutput, "big endian"), n));
    ShortSizeRoundTrip(alternate, d.bigEndian, n);
  }

  /** Loading the same program space twice registers the printer once. */
  method LoadTwice(ps: nat, endianOutput: string) returns (count: nat)
    ensures count == 1
  {
    var d := new Debugger();
    d.Register(ps, endianOutput);
    d.Register(ps, endianOutput);
    count := Occurrences(d.Printers(ps), LoaderName);
  }
}

=== FILE: printer_names.dfy ===
/** util/gdb-pretty-printers.py, the name side: how the debugger's
    pretty-printer turns a value's type name into the printer that shows
    it. Type names are strings; the regular expressions of the script are
    written out as scans over them. A Python exception raised while
    choosing becomes `Raises`. */
module PrinterNames {
  import opened Wrappers

  // ------------------------------------------------------------ scanning

  predicate StartsWith(s: string, p: string) {
    |p| <= |s| && s[..|p|] == p
  }

  /** The longest prefix of `s` without `c`: the regex `[^c]*` anchored at
      the start of `s`. */
  function PrefixBefore(s: string, c: char): (r: string)
    ensures StartsWith(s, r) && c !in r
    ensures |r| == |s| || s[|r|] == c
  {
    if s == [] || s[0] == c then [] else [s[0]] + PrefixBefore(s[1..], c)
  }

  /** Where a lazy `.*?::` ends: the first `::` in `s`, provided no newline
      comes before it (`.` does not match a newline). */
  function FindColons(s: string): (r: Option<nat>)
    ensures r.Some? ==> r.value + 2 <= |s| && s[r.value] == ':' && s[r.value + 1] == ':'
    ensures r.Some? ==> '\n' !in s[..r.value]
    ensures r.Some? ==> forall j :: 0 <= j < r.value ==> !(s[j] == ':' && s[j + 1] == ':')
    ensures r.None? ==> forall j :: 0 <= j && j + 2 <= |s| && '\n' !in s[..j] ==> !(s[j] == ':' && s[j + 1] == ':')
  {
    if |s| < 2 || s[0] == '\n' then
      None
    else if s[0] == ':' && s[1] == ':' then
      Some(0)
    else
      match FindColons(s[1..])
      case None =>
        assert forall j :: 1 <= j && j + 2 <= |s| && '\n' !in s[..j] ==> '\n' !in s[1..][..j - 1] by {
          forall j | 1 <= j && j + 2 <= |s| && '\n' !in s[..j] ensures '\n' !in s[1..][..j - 1] {
            assert s[1..][..j - 1] == s[1..j];
          }
        }
        None
      case Some(j) =>
        assert s[..j + 1] == [s[0]] + s[1..][..j];
        Some(j + 1)
  }

  // --------------------------------------------------- name rewriting

  /** _remove_cxx_namespace: every `std::__X::` becomes `std::`, scanning
      left to right as `re.sub` does, X as short as possible. */
  function RemoveCxxNamespace(s: string): (r: string)
    ensures |r| <= |s|
    ensures (forall i :: 0 <= i <= |s| ==> !StartsWith(s[i..], "std::__")) ==> r == s
    decreases |s|
  {
    assert s[0..] == s;
    if s == [] then
      []
    else if StartsWith(s, "std::__") && FindColons(s[7..]).Some? then
      var j := FindColons(s[7..]).value;
      "std::" + RemoveCxxNamespace(s[7 + j + 2..])
    else
      assert forall i :: 0 <= i <= |s[1..]| ==> s[1..][i..] == s[i + 1..];
      [s[0]] + RemoveCxxNamespace(s[1..])
  }

  /** `re.sub(f, t, s)` for a pattern `f` with no special characters:
      every occurrence of `f`, left to right and not overlapping, becomes
      `t`. */
  function ReplaceAll(s: string, f: string, t: string): (r: string)
    requires f != []
    ensures (forall i :: 0 <= i <= |s| ==> !StartsWith(s[i..], f)) ==> r == s
    decreases |s|
  {
    assert s[0..] == s;
    if s == [] then
      []
    else if StartsWith(s, f) then
      t + ReplaceAll(s[|f|..], f, t)
    else
      assert forall i :: 0 <= i <= |s[1..]| ==> s[1..][i..] == s[i + 1..];
      [s[0]] + ReplaceAll(s[1..], f, t)
  }

  /** _prettify_typename, after the host has stripped typedefs and given
      the name: the libc++ inline namespace goes, and the two long string
      spellings are shortened. */
  function Prettify(hostName: string): string {
    var a := RemoveCxxNamespace(hostName);
    var b := ReplaceAll(a, "std::basic_string<char, std::char_traits<char>, std::allocator<char> >", "std::string");
    ReplaceAll(b, "std::basic_string_view<char, std::char_traits<char> >", "std::string_view")
  }

  /** _remove_generics: the part of the name before its first `<`. The
      match fails on an empty name or one that starts with `<`, and then
      `match.group` raises: that is `None` here. */
  function RemoveGenerics(name: string): (r: Option<string>)
    ensures r.Some? <==> name != [] && name[0] != '<'
    ensures r.Some? ==> r.value != [] && StartsWith(name, r.value) && '<' !in r.value
    ensures r.Some? ==> |r.value| == |name| || name[|r.value|] == '<'
  {
    var p := PrefixBefore(name, '<');
    if p == [] then None else Some(p)
  }

  /** A name without template arguments is its own base name. */
  lemma RemoveGenericsIdempotent(n: string)
    requires n != [] && '<' !in n
    ensures RemoveGenerics(n) == Some(n)
  {
    var p := PrefixBefore(n, '<');
    assert forall i :: 0 <= i < |n| ==> n[i] != '<';
    assert |p| == |n| && p == n[..|p|];
    assert n[..|n|] == n;
  }

  /** Template arguments never reach the lookup: `base<args>` and `base`
      have the same base name. */
  lemma {:induction false} RemoveGenericsDropsArguments(base: string, args: string)
    requires base != [] && '<' !in base
    ensures RemoveGenerics(base + "<" + args) == Some(base)
  {
    PrefixOfArguments(base, args);
  }

  lemma {:induction false} PrefixOfArguments(base: string, args: string)
    requires '<' !in base
    ensures PrefixBefore(base + "<" + args, '<') == base
    decreases |base|
  {
    if base != [] {
      assert (base + "<" + args)[1..] == base[1..] + "<" + args;
      PrefixOfArguments(base[1..], args);
    }
  }

  /** _remove_std_prefix: `^ala::(.+)`; what follows `ala::` up to the
      first newline, or "" when nothing does or the prefix is missing. */
  function RemoveStdPrefix(name: string): (r: string)
    ensures r != [] <==> StartsWith(name, "ala::") && |name| > 5 && name[5] != '\n'
    ensures r != [] ==> StartsWith(name[5..], r) && '\n' !in r
    ensures r != [] ==> |r| == |name| - 5 || name[5 + |r|] == '\n'
  {
    if StartsWith(name, "ala::") then PrefixBefore(name[5..], '\n') else []
  }

  lemma RemoveStdPrefixOf(n: string)
    requires n != [] && '\n' !in n
    ensures RemoveStdPrefix("ala::" + n) == n
  {
    assert ("ala::" + n)[5..] == n;
    assert StartsWith("ala::" + n, "ala::");
  }

  /** The `__X` of `^ala::(__.*?)::`, when the raw name has one. */
  function InnerNamespace(raw: string): (r: Option<string>)
    ensures r.Some? ==> StartsWith(raw, "ala::__") && StartsWith(r.value, "__")
    ensures r.Some? ==> StartsWith(raw, "ala::" + r.value + "::")
  {
    if StartsWith(raw, "ala::__") then
      match FindColons(raw[7..])
      case None => None
      case Some(j) =>
        assert raw[..5 + 2 + j + 2] == "ala::" + ("__" + raw[7..][..j]) + "::";
        Some("__" + raw[7..][..j])
    else
      None
  }

  /** The namespaces of the GNU library the printer leaves alone. */
  predicate Excluded(raw: string) {
    var ns := InnerNamespace(raw);
    ns.Some? && ns.value in ["__cxx1998", "__debug", "__7", "__g"]
  }

  // ------------------------------------------------------- the lookup

  /** The printer classes, one per class of the script. */
  datatype PrinterKind =
    | StringP | StringViewP | TupleP | VariantP | OptionalP | AnyP | ArrayP
    | UniquePtrP | SharedPtrP | BitsetP | RingP | ListP | QueueOrStackP
    | PriorityQueueP | RBTreeP | VectorP | RBIteratorP | ListIteratorP
    | RingIteratorP | UnorderedSetP | UnorderedMapP | UnorderedMapIteratorP
    | UnorderedSetIteratorP

  /** LibcxxPrettyPrinter.lookup, in the order the dictionary lists it. */
  const Table: seq<(string, PrinterKind)> := [
    ("basic_string", StringP), ("string", StringP), ("string_view", StringViewP),
    ("tuple", TupleP), ("variant", VariantP), ("optional", OptionalP), ("any", AnyP),
    ("array", ArrayP), ("unique_ptr", UniquePtrP), ("shared_ptr", SharedPtrP),
    ("weak_ptr", SharedPtrP), ("bitset", BitsetP), ("ring", RingP), ("list", ListP),
    ("forward_list", ListP), ("queue", QueueOrStackP), ("stack", QueueOrStackP),
    ("priority_queue", PriorityQueueP), ("map", RBTreeP), ("multimap", RBTreeP),
    ("set", RBTreeP), ("multiset", RBTreeP), ("vector", VectorP),
    ("rb_iterator", RBIteratorP), ("l_iterator", ListIteratorP),
    ("ring_iterator", RingIteratorP), ("unordered_set", UnorderedSetP),
    ("unordered_multiset", UnorderedSetP), ("unordered_map", UnorderedMapP),
    ("unordered_multimap", UnorderedMapP),
    ("__hash_map_iterator", UnorderedMapIteratorP),
    ("__hash_map_const_iterator", UnorderedMapIteratorP),
    ("__hash_iterator", UnorderedSetIteratorP),
    ("__hash_const_iterator", UnorderedSetIteratorP)
  ]

  function Names(t: seq<(string, PrinterKind)>): (r: set<string>)
    ensures forall i :: 0 <= i < |t| ==> t[i].0 in r
  {
    set e | e in t :: e.0
  }

  function Kinds(t: seq<(string, PrinterKind)>): set<PrinterKind> {
    set e | e in t :: e.1
  }

  /** Indexing the dictionary: the kind of the first entry named `n`. */
  function LookupIn(t: seq<(string, PrinterKind)>, n: string): (r: Option<PrinterKind>)
    ensures r.Some? <==> n in Names(t)
    ensures r.Some? ==> (n, r.value) in t
  {
    if t == [] then None
    else if t[0].0 == n then Some(t[0].1)
    else
      assert Names(t) == {t[0].0} + Names(t[1..]);
      LookupIn(t[1..], n)
  }

  lemma EmptyNameAbsent()
    ensures "" !in Names(Table)
  {
    assert forall e :: e in Table ==> |e.0| > 0;
  }

  /** What LibcxxPrettyPrinter.__call__ answers. */
  datatype Choice = NoPrinter | Printer(kind: PrinterKind) | Raises

  /** __call__ from the prettified name on: strip the template arguments
      and the `ala::` prefix, then look the rest up. */
  function Select(pretty: string): (r: Choice)
    ensures pretty == [] ==> r == NoPrinter
    ensures pretty != [] && pretty[0] == '<' ==> r == Raises
    ensures r.Printer? ==> StartsWith(pretty, "ala::")
  {
    if pretty == [] then NoPrinter
    else match RemoveGenerics(pretty)
      case None => Raises
      case Some(base) =>
        var n := RemoveStdPrefix(base);
        match LookupIn(Table, n)
        case None => NoPrinter
        case Some(k) =>
          assert n != [] by { EmptyNameAbsent(); }
          assert StartsWith(pretty, "ala::") by {
            assert pretty[..5] == base[..5];
          }
          Printer(k)
  }

  /** LibcxxPrettyPrinter.__call__: only structs are printed, the GNU
      library's own namespaces are left alone, and otherwise the
      prettified name picks the printer. */
  function Dispatch(isStruct: bool, raw: string, hostName: string): (r: Choice)
    ensures !isStruct || Excluded(raw) ==> r == NoPrinter
    ensures r.Printer? ==> StartsWith(Prettify(hostName), "ala::")
  {
    if !isStruct then NoPrinter
    else if Excluded(raw) then NoPrinter
    else Select(Prettify(hostName))
  }

  /** Every ala container is found by its unqualified name, whatever its
      template arguments. */
  lemma {:induction false} SelectByName(n: string, args: string)
    requires n != [] && '<' !in n && '\n' !in n
    ensures Select("ala::" + n + "<" + args) == Select("ala::" + n)
    ensures Select("ala::" + n) == match LookupIn(Table, n) case None => NoPrinter case Some(k) => Printer(k)
  {
    assert '<' !in "ala::" + n;
    RemoveGenericsDropsArguments("ala::" + n, args);
    RemoveGenericsIdempotent("ala::" + n);
    RemoveStdPrefixOf(n);
  }

  lemma {:induction false} ColonsAfter(x: string, y: string)
    requires ':' !in x && '\n' !in x
    ensures FindColons(x + "::" + y) == Some(|x|)
  {
    if x != [] {
      assert (x + "::" + y)[1..] == x[1..] + "::" + y;
      ColonsAfter(x[1..], y);
    }
  }

  lemma {:induction false} LookupAt(t: seq<(string, PrinterKind)>, i: nat)
    requires i < |t| && forall j :: 0 <= j < i ==> t[j].0 != t[i].0
    ensures LookupIn(t, t[i].0) == Some(t[i].1)
  {
    if i > 0 {
      LookupAt(t[1..], i - 1);
    }
  }

  lemma InnerNamespaceOf(ns: string, rest: string)
    requires ':' !in ns && '\n' !in ns
    ensures InnerNamespace("ala::__" + ns + "::" + rest) == Some("__" + ns)
  {
    var raw := "ala::__" + ns + "::" + rest;
    assert raw[7..] == ns + "::" + rest;
    ColonsAfter(ns, rest);
    assert raw[7..][..|ns|] == ns;
    assert StartsWith(raw, "ala::__");
  }

  /** The types of the GNU library's own namespaces get no printer,
      whatever they are called. */
  lemma GnuNamespaceExcluded(ns: string, rest: string, host: string)
    requires ns in ["cxx1998", "debug", "7", "g"]
    ensures Dispatch(true, "ala::__" + ns + "::" + rest, host) == NoPrinter
  {
    InnerNamespaceOf(ns, rest);
    if ns == "cxx1998" {
      assert "__" + ns == "__cxx1998";
    } else if ns == "debug" {
      assert "__" + ns == "__debug";
    } else if ns == "7" {
      assert "__" + ns == "__7";
    } else {
      assert "__" + ns == "__g";
    }
  }

  lemma RingInTable()
    ensures LookupIn(Table, "ring") == Some(RingP)
  {
    LookupAt(Table, 12);
  }

  /** `ala::ring<...>` gets the ring printer. */
  lemma RingSelected(args: string)
    ensures Select("ala::ring<" + args) == Printer(RingP)
  {
    assert "ala::ring<" + args == "ala::" + "ring" + "<" + args;
    SelectByName("ring", args);
    RingInTable();
  }

  /** A name outside `ala::` gets no printer. */
  lemma StdVectorIgnored()
    ensures Select("std::vector<int>") == NoPrinter
  {
    RemoveGenericsDropsArguments("std::vector", "int>");
    assert !StartsWith("std::vector", "ala::");
    assert RemoveStdPrefix("std::vector") == "";
    EmptyNameAbsent();
  }

  // -------------------------------------------------- the subprinters

  /** The first entry of each printer kind, in table order: what the
      constructor's loop collects into `subprinters`. */
  function Firsts(t: seq<(string, PrinterKind)>): (r: seq<(string, PrinterKind)>)
  {
    if t == [] then []
    else
      var p := Firsts(t[..|t| - 1]);
      if t[|t| - 1].1 in Kinds(p) then p else p + [t[|t| - 1]]
  }

  /** LibcxxPrettyPrinter.__init__'s loop: each printer class is listed
      once, named by the first entry that uses it. */
  method Subprinters(t: seq<(string, PrinterKind)>) returns (subs: seq<(string, PrinterKind)>)
    ensures subs == Firsts(t)
  {
    subs := [];
    var i := 0;
    while i < |t|
      invariant i <= |t| && subs == Firsts(t[..i])
    {
      assert t[..i + 1][..i] == t[..i];
      if t[i].1 !in Kinds(subs) {
        subs := subs + [t[i]];
      }
      i := i + 1;
    }
    assert t[..|t|] == t;
  }

  /** The index of the first entry of kind k. */
  function FirstOf(t: seq<(string, PrinterKind)>, k: PrinterKind): (r: nat)
    requires k in Kinds(t)
    ensures r < |t| && t[r].1 == k
    ensures forall j :: 0 <= j < r ==> t[j].1 != k
  {
    if t[0].1 == k then 0
    else
      assert k in Kinds(t[1..]) by {
        var e :| e in t && e.1 == k;
        assert e != t[0];
      }
      1 + FirstOf(t[1..], k)
  }

  lemma FirstOfPrefix(t: seq<(string, PrinterKind)>, n: nat, k: PrinterKind)
    requires n <= |t| && k in Kinds(t[..n])
    ensures k in Kinds(t) && FirstOf(t[..n], k) == FirstOf(t, k)
  {
    var e :| e in t[..n] && e.1 == k;
    assert e in t;
    var a, b := FirstOf(t[..n], k), FirstOf(t, k);
    assert t[..n][a] == t[a];
    assert forall j :: 0 <= j < n ==> t[..n][j] == t[j];
  }

  /** The subprinter list names every kind once, each by its first entry. */
  lemma FirstsSound(t: seq<(string, PrinterKind)>)
    ensures Kinds(Firsts(t)) == Kinds(t)
    ensures forall i, j :: 0 <= i < j < |Firsts(t)| ==> Firsts(t)[i].1 != Firsts(t)[j].1
    ensures forall e :: e in Firsts(t) ==> e.1 in Kinds(t) && e == t[FirstOf(t, e.1)]
  {
    FirstsKinds(t);
    FirstsDistinct(t);
    FirstsFirst(t);
  }

  lemma {:induction false} FirstsKinds(t: seq<(string, PrinterKind)>)
    ensures Kinds(Firsts(t)) == Kinds(t)
  {
    if t != [] {
      var s, x := t[..|t| - 1], t[|t| - 1];
      FirstsKinds(s);
      assert t == s + [x];
      assert Kinds(t) == Kinds(s) + {x.1};
      assert Kinds(Firsts(s) + [x]) == Kinds(Firsts(s)) + {x.1};
    }
  }

  lemma {:induction false} FirstsDistinct(t: seq<(string, PrinterKind)>)
    ensures forall i, j :: 0 <= i < j < |Firsts(t)| ==> Firsts(t)[i].1 != Firsts(t)[j].1
  {
    if t != [] {
      var s, x := t[..|t| - 1], t[|t| - 1];
      FirstsDistinct(s);
      var p := Firsts(s);
      if x.1 !in Kinds(p) {
        forall i | 0 <= i < |p| ensures (p + [x])[i].1 != x.1 {
          assert p[i] in p;
        }
      }
    }
  }

  lemma {:induction false} FirstsFirst(t: seq<(string, PrinterKind)>)
    ensures forall e :: e in Firsts(t) ==> e.1 in Kinds(t) && e == t[FirstOf(t, e.1)]
  {
    if t != [] {
      var s, x := t[..|t| - 1], t[|t| - 1];
      FirstsFirst(s);
      FirstsKinds(s);
      assert t == s + [x];
      forall e | e in Firsts(t)
        ensures e.1 in Kinds(t) && e == t[FirstOf(t, e.1)]
      {
        if e in Firsts(s) {
          FirstOfPrefix(t, |t| - 1, e.1);
          assert s[FirstOf(s, e.1)] == t[FirstOf(s, e.1)];
        } else {
          assert e == x && x.1 !in Kinds(s);
          assert forall j :: 0 <= j < |s| ==> s[j] == t[j];
        }
      }
    }
  }

  /** The script's own table: 34 names for 23 printer classes. */
  lemma TableSubprinters()
    ensures |Table| == 34
    ensures Kinds(Firsts(Table)) == Kinds(Table)
  {
    FirstsSound(Table);
  }
}

=== FILE: printer_values.dfy ===
/** util/gdb-pretty-printers.py, the printers of values laid out in one
    block: strings and string views, arrays, vectors, rings and bitsets.
    The debugged program's memory is a map from addresses to what is
    stored there; a read of an address the map lacks is the host's memory
    error, `None` here. Addresses of elements count in elements, so `p + 1`
    is the next element as in the script's pointer arithmetic. */
module PrinterValues {
  import opened Wrappers
  import opened Bit
  import Ring

  // --------------------------------------------------------- formatting

  function DigitChar(d: nat): (c: char)
    requires d < 10
    ensures '0' <= c <= '9' && c as int - '0' as int == d
  {
    ('0' as int + d) as char
  }

  /** `"%d" % n`. */
  function Decimal(n: nat): (r: string)
    ensures r != [] && forall i :: 0 <= i < |r| ==> '0' <= r[i] <= '9'
    ensures n >= 10 ==> r[0] != '0'
    decreases n
  {
    if n < 10 then [DigitChar(n)] else Decimal(n / 10) + [DigitChar(n % 10)]
  }

  /** The value of a string of decimal digits. */
  function DigitsValue(s: string): nat
    requires forall i :: 0 <= i < |s| ==> '0' <= s[i] <= '9'
  {
    if s == [] then 0 else 10 * DigitsValue(s[..|s| - 1]) + (s[|s| - 1] as int - '0' as int)
  }

  /** Reading back a formatted count gives the count. */
  lemma {:induction false} DecimalValue(n: nat)
    ensures DigitsValue(Decimal(n)) == n
    decreases n
  {
    if n >= 10 {
      var s := Decimal(n);
      assert s[..|s| - 1] == Decimal(n / 10);
      DecimalValue(n / 10);
    }
  }

  /** to_string of the array, list, tree and unordered printers:
      `"%s with %d elements"`, or `"%s is empty"` for a size of 0. */
  function CollectionText(typename: string, size: nat): (r: string)
    ensures size == 0 <==> r == typename + " is empty"
  {
    if size != 0 then
      var r := typename + " with " + Decimal(size) + " elements";
      assert r[|typename| + 1] == 'w';
      assert (typename + " is empty")[|typename| + 1] == 'i';
      r
    else
      typename + " is empty"
  }

  /** to_string of the vector and ring printers. */
  function LengthCapacityText(typename: string, length: nat, capacity: nat): string {
    typename + " of length " + Decimal(length) + ", capacity " + Decimal(capacity)
  }

  // ------------------------------------------------------------ strings

  /** `data.string(length=n)`: n characters from address `at`. */
  function ReadChars(mem: map<nat, char>, at: nat, n: nat): (r: Option<string>)
    ensures r.Some? <==> forall a :: at <= a < at + n ==> a in mem
    ensures r.Some? ==> |r.value| == n && forall i :: 0 <= i < n ==> at + i in mem && r.value[i] == mem[at + i]
  {
    if n == 0 then Some([])
    else match ReadChars(mem, at, n - 1)
      case None => None
      case Some(s) => if at + n - 1 in mem then Some(s + [mem[at + n - 1]]) else None
  }

  /** StdStringPrinter._get_short_size: the stored short size is halved
      exactly when the alternate layout and big-endianness agree. */
  function ShortSize(alternate: bool, bigEndian: bool, s: nat): (r: nat)
    ensures r == if alternate == bigEndian then s / 2 else s
  {
    if alternate then
      if bigEndian then Shr(s, 1) else s
    else if bigEndian then
      s
    else
      Shr(s, 1)
  }

  /** How the libc++ layout the printer decodes stores a short size n:
      shifted up by one bit exactly where the printer shifts it down. */
  function StoredShortSize(alternate: bool, bigEndian: bool, n: nat): nat {
    if alternate == bigEndian then 2 * n else n
  }

  /** Decoding undoes the layout's encoding when the printer knows the
      target's byte order. */
  lemma ShortSizeRoundTrip(alternate: bool, bigEndian: bool, n: nat)
    ensures ShortSize(alternate, bigEndian, StoredShortSize(alternate, bigEndian, n)) == n
  {
  }

  /** The fields of a string that to_string reads. */
  datatype StringFields = StringFields(
    shortSize: nat, shortMask: nat, shortData: nat, longData: nat, longSize: nat)

  /** The counter-intuitive `__is_long()` test of the script. */
  predicate IsLong(f: StringFields) {
    And(f.shortSize, f.shortMask) != 0
  }

  /** StdStringPrinter.to_string: an empty short size prints "", a long
      string its `__l` buffer, a short one its inline buffer. */
  function StringText(f: StringFields, alternate: bool, bigEndian: bool, mem: map<nat, char>): (r: Option<string>)
    ensures f.shortSize == 0 ==> r == Some("")
    ensures f.shortSize != 0 && IsLong(f) ==> r == ReadChars(mem, f.longData, f.longSize)
    ensures f.shortSize != 0 && !IsLong(f) ==>
              r == ReadChars(mem, f.shortData, ShortSize(alternate, bigEndian, f.shortSize))
  {
    if f.shortSize == 0 then
      Some("")
    else if IsLong(f) then
      ReadChars(mem, f.longData, f.longSize)
    else
      ReadChars(mem, f.shortData, ShortSize(alternate, bigEndian, f.shortSize))
  }

  /** A short string stored by the layout is shown whole when the
      printer's byte order matches the target's. */
  lemma ShortStringShown(alternate: bool, bigEndian: bool, text: string, mask: nat, at: nat, other: nat, mem: map<nat, char>)
    requires text != [] && And(StoredShortSize(alternate, bigEndian, |text|), mask) == 0
    requires forall a :: at <= a < at + |text| ==> a in mem
    requires forall i :: 0 <= i < |text| ==> mem[at + i] == text[i]
    ensures StringText(StringFields(StoredShortSize(alternate, bigEndian, |text|), mask, at, other, other),
                       alternate, bigEndian, mem) == Some(text)
  {
    ShortSizeRoundTrip(alternate, bigEndian, |text|);
    assert ReadChars(mem, at, |text|).value == text;
  }

  /** The number of characters a string view shows: the whole view, cut
      to the host's "print elements" limit when there is one. */
  function PrintLength(length: nat, limit: Option<nat>): (r: nat)
    ensures r <= length && (limit.Some? ==> r <= limit.value)
    ensures r == length || (limit.Some? && r == limit.value)
  {
    if limit.Some? && limit.value < length then limit.value else length
  }

  /** StdStringViewPrinter.to_string; "..." marks a view cut short. The
      ISO-8859-1 decoding maps each byte to one character. */
  function StringViewText(length: nat, limit: Option<nat>, ptr: nat, mem: map<nat, char>): (r: Option<string>)
    ensures r.Some? <==> ReadChars(mem, ptr, PrintLength(length, limit)).Some?
    ensures r.Some? ==>
              r.value == "std::string_view of length " + Decimal(length) + ": \""
                         + ReadChars(mem, ptr, PrintLength(length, limit)).value
                         + (if length > PrintLength(length, limit) then "..." else "") + "\""
  {
    var n := PrintLength(length, limit);
    match ReadChars(mem, ptr, n)
    case None => None
    case Some(s) =>
      var shown := if length > n then s + "..." else s;
      Some("std::string_view of length " + Decimal(length) + ": \"" + shown + "\"")
  }

  /** With no limit, or a limit the view fits in, the whole view is shown
      and nothing is marked as cut. */
  lemma StringViewWhole(length: nat, limit: Option<nat>, ptr: nat, mem: map<nat, char>)
    requires limit.None? || length <= limit.value
    requires forall a :: ptr <= a < ptr + length ==> a in mem
    ensures StringViewText(length, limit, ptr, mem)
         == Some("std::string_view of length " + Decimal(length) + ": \"" + ReadChars(mem, ptr, length).value + "\"")
  {
  }

  // ------------------------------------------------------ arrays, vectors

  /** StdArrayPrinter.__iter__: elements 0 .. size-1 of `_data`. */
  method ArrayChildren(mem: map<nat, int>, data: nat, size: nat) returns (r: Option<seq<int>>)
    ensures r.Some? <==> forall a :: data <= a < data + size ==> a in mem
    ensures r.Some? ==> |r.value| == size && forall i :: 0 <= i < size ==> r.value[i] == mem[data + i]
  {
    var out := [];
    for i := 0 to size
      invariant |out| == i && forall a :: data <= a < data + i ==> a in mem
      invariant forall j :: 0 <= j < i ==> out[j] == mem[data + j]
    {
      if data + i !in mem {
        return None;
      }
      out := out + [mem[data + i]];
    }
    return Some(out);
  }

  /** What one `__next__` call gives. */
  datatype Step = Stop | Yield(number: nat, value: int) | Fault

  /** StdVectorPrinter._VectorIterator: walks `item` from `_data` to
      `_data + _size`, numbering the children from 1. */
  class VectorIterator {
    var item: nat
    const begin: nat
    const end: nat
    var count: nat

    ghost predicate Valid()
      reads this
    {
      begin <= item <= end
    }

    /** StdVectorPrinter.__init__ with the bool path disabled: the
        iterator over `[_data, _data + _size)`. */
    constructor (data: nat, size: nat)
      ensures Valid() && begin == data && item == data && end == data + size && count == 0
    {
      item, begin, end, count := data, data, data + size, 0;
    }

    /** __next__: the count goes up first, then the end is checked, then
        the element is read. */
    method Next(mem: map<nat, int>) returns (s: Step)
      requires Valid()
      modifies this
      ensures Valid() && count == old(count) + 1
      ensures old(item) == end ==> s == Stop && item == end
      ensures old(item) < end && old(item) !in mem ==> s == Fault && item == old(item)
      ensures old(item) < end && old(item) in mem ==>
                s == Yield(count, mem[old(item)]) && item == old(item) + 1
    {
      count := count + 1;
      if item == end {
        return Stop;
      }
      if item !in mem {
        return Fault;
      }
      var entry := mem[item];
      item := item + 1;
      return Yield(count, entry);
    }
  }

  /** The vector's children as the host collects them: `__next__` until it
      stops. There are exactly `size` of them, labelled 1 to size. */
  method VectorChildren(mem: map<nat, int>, data: nat, size: nat) returns (r: Option<seq<(nat, int)>>)
    ensures r.Some? <==> forall a :: data <= a < data + size ==> a in mem
    ensures r.Some? ==>
              |r.value| == size && forall i :: 0 <= i < size ==> r.value[i] == (i + 1, mem[data + i])
  {
    var it := new VectorIterator(data, size);
    var out := [];
    while true
      invariant it.Valid() && it.begin == data && it.end == data + size
      invariant it.item - data == |out| && it.count == |out|
      invariant forall a :: data <= a < data + |out| ==> a in mem
      invariant forall j :: 0 <= j < |out| ==> out[j] == (j + 1, mem[data + j])
      decreases it.end - it.item
    {
      var s := it.Next(mem);
      match s
      case Stop =>
        return Some(out);
      case Fault =>
        return None;
      case Yield(number, v) =>
        out := out + [(number, v)];
    }
  }

  // --------------------------------------------------------------- rings

  /** StdRingPrinter._size: `(tail + circ - head) % circ`; a zero `circ`
      raises ZeroDivisionError, `None` here. */
  function RingSize(circ: nat, head: nat, tail: nat): (r: Option<nat>)
    ensures r.None? <==> circ == 0
    ensures r.Some? ==> r.value < circ
    ensures r.Some? && head < circ && tail < circ ==>
              r.value == if head <= tail then tail - head else tail + circ - head
  {
    if circ == 0 then None
    else
      assert head < circ && tail < circ ==>
          (tail + circ - head) % circ == if head <= tail then tail - head else tail + circ - head by {
        if head < circ && tail < circ {
          Ring.Wrap(tail + circ - head, circ);
        }
      }
      Some((tail + circ - head) % circ)
  }

  /** StdRingPrinter.to_string: the size and a capacity of `circ - 1`. */
  function RingText(typename: string, circ: nat, head: nat, tail: nat): (r: Option<string>)
    ensures r.Some? <==> circ > 0
    ensures r.Some? ==> r.value == LengthCapacityText(typename, RingSize(circ, head, tail).value, circ - 1)
  {
    match RingSize(circ, head, tail)
    case None => None
    case Some(n) => Some(LengthCapacityText(typename, n, circ - 1))
  }

  /** The address of child i: slot `(head + i) % circ` of `_data`. */
  function Slot(data: nat, circ: nat, head: nat, i: nat): nat
    requires circ > 0
  {
    data + (head + i) % circ
  }

  predicate RingReadable(mem: map<nat, int>, data: nat, circ: nat, head: nat, size: nat)
    requires circ > 0
  {
    forall i :: 0 <= i < size ==> Slot(data, circ, head, i) in mem
  }

  /** The elements the ring printer shows, child i from its slot. */
  function RingShown(mem: map<nat, int>, data: nat, circ: nat, head: nat, size: nat): (r: seq<int>)
    requires circ > 0 && RingReadable(mem, data, circ, head, size)
    ensures |r| == size
  {
    seq(size, i requires 0 <= i < size => mem[Slot(data, circ, head, i)])
  }

  /** StdRingPrinter.__iter__. */
  method RingChildren(mem: map<nat, int>, data: nat, circ: nat, head: nat, tail: nat) returns (r: Option<seq<int>>)
    ensures circ == 0 ==> r.None?
    ensures circ > 0 ==>
              var n := RingSize(circ, head, tail).value;
              (r.Some? <==> RingReadable(mem, data, circ, head, n)) &&
              (r.Some? ==> r.value == RingShown(mem, data, circ, head, n))
  {
    if circ == 0 {
      return None;
    }
    var n := (tail + circ - head) % circ;
    var out := [];
    for i := 0 to n
      invariant |out| == i && RingReadable(mem, data, circ, head, i)
      invariant forall j :: 0 <= j < i ==> out[j] == mem[Slot(data, circ, head, j)]
    {
      var slot := data + (head + i) % circ;
      assert slot == Slot(data, circ, head, i);
      if slot !in mem {
        return None;
      }
      out := out + [mem[slot]];
    }
    assert out == RingShown(mem, data, circ, head, n);
    return Some(out);
  }

  /** Over the memory of a ring, the printer shows exactly the ring's
      elements, front to back. */
  lemma RingPrinterShowsView(d: seq<int>, mem: map<nat, int>, data: nat, head: nat, tail: nat)
    requires |d| > 0 && head < |d| && tail < |d|
    requires forall a :: data <= a < data + |d| ==> a in mem
    requires forall k :: 0 <= k < |d| ==> mem[data + k] == d[k]
    ensures RingSize(|d|, head, tail).Some?
    ensures RingReadable(mem, data, |d|, head, RingSize(|d|, head, tail).value)
    ensures RingShown(mem, data, |d|, head, RingSize(|d|, head, tail).value)
         == Ring.ViewOf(d, head, RingSize(|d|, head, tail).value)
  {
    var n := RingSize(|d|, head, tail).value;
    forall i | 0 <= i < n
      ensures Slot(data, |d|, head, i) in mem && mem[Slot(data, |d|, head, i)] == d[(head + i) % |d|]
    {
      var k := (head + i) % |d|;
      assert 0 <= k < |d|;
      assert data + k in mem && mem[data + k] == d[k];
    }
  }

  // ------------------------------------------------------------- bitsets

  /** Bit `k` of x: `x & (1 << k)` is non-zero. */
  lemma DivDiv(x: nat, a: nat, b: nat)
    requires a > 0 && b > 0
    ensures x / a / b == x / (a * b)
  {
    var y := x / a;
    var q, r2, r1 := y / b, y % b, x % a;
    assert x == a * y + r1;
    assert y == b * q + r2;
    Regroup(a, b, q, r2, r1);
    DivModUnique(q, a * r2 + r1, a * b);
  }

  /** a (b q + r2) + r1 is the quotient q and remainder a r2 + r1 by a b. */
  lemma Regroup(a: nat, b: nat, q: nat, r2: nat, r1: nat)
    requires r2 < b && r1 < a
    ensures a * (b * q + r2) + r1 == (a * b) * q + (a * r2 + r1)
    ensures a * r2 + r1 < a * b
  {
    MulLe(r2, b - 1, a);
    assert (b - 1) * a == a * b - a;
  }

  lemma {:induction false} AndPow2(x: nat, k: nat)
    ensures And(x, Pow2(k)) != 0 <==> (x / Pow2(k)) % 2 == 1
    decreases k
  {
    if x != 0 && k > 0 {
      var q := Pow2(k - 1);
      assert Pow2(k) == 2 * q;
      AndPow2(x / 2, k - 1);
      DivDiv(x, 2, q);
      hide Pow2;
      assert And(x, 2 * q) == 2 * And(x / 2, q);
    }
  }

  /** Bit b of the bitset stored in words of `bpw` bits. */
  predicate BitOf(values: seq<nat>, bpw: nat, b: nat)
    requires bpw > 0 && b / bpw < |values|
  {
    (values[b / bpw] / Pow2(b % bpw)) % 2 == 1
  }

  lemma DivBound(b: nat, bpw: nat, n: nat)
    requires bpw > 0
    ensures b / bpw < n <==> b < n * bpw
  {
    if b / bpw < n {
      assert b == bpw * (b / bpw) + b % bpw;
      assert bpw * (b / bpw) <= bpw * (n - 1);
    } else {
      assert b >= bpw * (b / bpw);
      assert bpw * (b / bpw) >= bpw * n;
    }
  }

  /** StdBitsetPrinter._list_it: the indices of the set bits below
      `bit_count`, ascending. A word size of 0 raises ZeroDivisionError
      and too few words IndexError, both `None`. */
  method BitsetChildren(bitCount: nat, bpw: nat, values: seq<nat>) returns (r: Option<seq<nat>>)
    ensures r.None? <==> bitCount > 0 && (bpw == 0 || |values| * bpw < bitCount)
    ensures r.Some? ==> forall i, j :: 0 <= i < j < |r.value| ==> r.value[i] < r.value[j]
    ensures r.Some? ==> forall x :: x in r.value ==> x < bitCount
    ensures r.Some? ==> bpw > 0 || bitCount == 0
    ensures r.Some? ==> forall b :: 0 <= b < bitCount ==>
              b / bpw < |values| && (b in r.value <==> BitOf(values, bpw, b))
  {
    var out: seq<nat> := [];
    for bit := 0 to bitCount
      invariant bit == 0 || (bpw > 0 && bit <= |values| * bpw)
      invariant forall i, j :: 0 <= i < j < |out| ==> out[i] < out[j]
      invariant forall i :: 0 <= i < |out| ==> out[i] < bit
      invariant forall b :: 0 <= b < bit ==> bpw > 0 && b / bpw < |values| && (b in out <==> BitOf(values, bpw, b))
    {
      if bpw == 0 {
        return None;
      }
      var word := bit / bpw;
      var wordBit := bit % bpw;
      DivBound(bit, bpw, |values|);
      if word >= |values| {
        return None;
      }
      AndPow2(values[word], wordBit);
      if And(values[word], Pow2(wordBit)) != 0 {
        out := out + [bit];
      }
    }
    if bitCount > 0 {
      DivBound(bitCount - 1, bpw, |values|);
    }
    return Some(out);
  }
}

=== FILE: printer_walks.dfy ===
/** util/gdb-pretty-printers.py, the printers that follow pointers: the
    list walk, the red-black tree traversal, the hash-chain walk, and the
    iterator printers. Memory maps an address to the node record stored
    there; address 0 is the null pointer, and reading an address the map
    lacks (null included) is the host's memory error. */
module PrinterWalks {
  import opened Wrappers

  /** How a walk ends: its items, a failed read, Python's recursion limit,
      or a chain that never reaches null. */
  datatype Walked = Done(items: seq<int>) | MemoryError | RecursionError | Endless

  function Prepend(p: seq<int>, w: Walked): Walked {
    if w.Done? then Done(p + w.items) else w
  }

  // --------------------------------------------------------------- lists

  /** An `l_vnode` of ala::list or ala::forward_list. */
  datatype ListNode = ListNode(suc: nat, data: int)

  /** The data of the n nodes reached along `_suc` from address a. */
  function ListWalk(mem: map<nat, ListNode>, a: nat, n: nat): (r: Walked)
    ensures r.Done? || r.MemoryError?
    ensures r.Done? ==> |r.items| == n
    decreases n
  {
    if n == 0 then Done([])
    else if a == 0 || a !in mem then MemoryError
    else Prepend([mem[a].data], ListWalk(mem, mem[a].suc, n - 1))
  }

  /** StdListPrinter._list_iter: from the guard's successor, `_size` steps
      along `_suc`, whatever lies beyond. */
  method ListChildren(mem: map<nat, ListNode>, first: nat, size: nat) returns (r: Walked)
    ensures r == ListWalk(mem, first, size)
  {
    var node := first;
    var out := [];
    for i := 0 to size
      invariant Prepend(out, ListWalk(mem, node, size - i)) == ListWalk(mem, first, size)
    {
      if node == 0 || node !in mem {
        return MemoryError;
      }
      var w := ListWalk(mem, mem[node].suc, size - i - 1);
      assert w.Done? ==> out + ([mem[node].data] + w.items) == (out + [mem[node].data]) + w.items;
      out := out + [mem[node].data];
      node := mem[node].suc;
    }
    return Done(out);
  }

  /** A chain of readable nodes, each `_suc` naming the next. */
  ghost predicate ListChain(mem: map<nat, ListNode>, ns: seq<nat>) {
    (forall i :: 0 <= i < |ns| ==> ns[i] != 0 && ns[i] in mem) &&
    (forall i :: 0 <= i < |ns| - 1 ==> mem[ns[i]].suc == ns[i + 1])
  }

  /** Along a chain of `size` readable nodes the list printer shows their
      data in order, and nothing of what follows the last one. */
  lemma {:induction false} ListWalkChain(mem: map<nat, ListNode>, ns: seq<nat>)
    requires ListChain(mem, ns) && ns != []
    ensures ListWalk(mem, ns[0], |ns|) == Done(seq(|ns|, i requires 0 <= i < |ns| => mem[ns[i]].data))
  {
    if |ns| > 1 {
      assert ListChain(mem, ns[1..]);
      ListWalkChain(mem, ns[1..]);
    }
  }

  // ----------------------------------------------------- red-black trees

  /** An `rb_vnode`: children, the nil flag, and the key (and mapped value
      of a map). */
  datatype TreeNode = TreeNode(left: nat, right: nat, isNil: bool, key: int, mapped: int)

  /** AbstractRBTreePrinter.is_nil: null, or a node flagged `_is_nil`. */
  function IsNilAt(mem: map<nat, TreeNode>, a: nat): (r: Option<bool>)
    ensures r.None? <==> a != 0 && a !in mem
  {
    if a == 0 then Some(true) else if a in mem then Some(mem[a].isNil) else None
  }

  /** _get_key_value: `first` and `second` of a map's pair, the value of a
      set. */
  function KeyValue(n: TreeNode, isMap: bool): (r: seq<int>)
    ensures |r| == if isMap then 2 else 1
  {
    if isMap then [n.key, n.mapped] else [n.key]
  }

  /** AbstractRBTreePrinter._traverse, in order: the left subtree, the
      node, then the right subtree. `testsLeft` says whether the guard in
      front of the right subtree tests `_left`, as the script does, or
      `_rght`. `depth` is the number of nested calls the interpreter still
      allows. */
  function TraverseWith(mem: map<nat, TreeNode>, node: nat, isMap: bool, depth: nat, testsLeft: bool): Walked
    decreases depth
  {
    if depth == 0 then RecursionError
    else if node == 0 || node !in mem then MemoryError
    else
      var n := mem[node];
      match IsNilAt(mem, n.left)
      case None => MemoryError
      case Some(leftNil) =>
        var l := if leftNil then Done([]) else TraverseWith(mem, n.left, isMap, depth - 1, testsLeft);
        if !l.Done? then l
        else
          var guard := if testsLeft then Some(leftNil) else IsNilAt(mem, n.right);
          match guard
          case None => MemoryError
          case Some(skipRight) =>
            var r := if skipRight then Done([]) else TraverseWith(mem, n.right, isMap, depth - 1, testsLeft);
            if !r.Done? then r else Done(l.items + KeyValue(n, isMap) + r.items)
  }

  /** The traversal as the script writes it: below a node whose left child
      is nil, nothing to its right is shown. */
  function TraverseAsWritten(mem: map<nat, TreeNode>, node: nat, isMap: bool, depth: nat): (r: Walked)
    ensures depth > 0 && node != 0 && node in mem && IsNilAt(mem, mem[node].left) == Some(true) ==>
              r == Done(KeyValue(mem[node], isMap))
  {
    if depth > 0 && node != 0 && node in mem then
      assert [] + KeyValue(mem[node], isMap) + [] == KeyValue(mem[node], isMap);
      TraverseWith(mem, node, isMap, depth, true)
    else
      TraverseWith(mem, node, isMap, depth, true)
  }

  /** The traversal with the right-subtree guard testing `_rght`. */
  function Traverse(mem: map<nat, TreeNode>, node: nat, isMap: bool, depth: nat): Walked {
    TraverseWith(mem, node, isMap, depth, false)
  }

  /** The tree a node address stands for. */
  datatype Tree = Leaf | Node(l: Tree, key: int, mapped: int, r: Tree)

  /** Address a holds tree t: a leaf is null or a nil node. */
  ghost predicate Encodes(mem: map<nat, TreeNode>, a: nat, t: Tree)
    decreases t
  {
    match t
    case Leaf => a == 0 || (a in mem && mem[a].isNil)
    case Node(l, k, v, r) =>
      a != 0 && a in mem && !mem[a].isNil && mem[a].key == k && mem[a].mapped == v &&
      Encodes(mem, mem[a].left, l) && Encodes(mem, mem[a].right, r)
  }

  function InOrder(t: Tree, isMap: bool): seq<int> {
    match t
    case Leaf => []
    case Node(l, k, v, r) =>
      InOrder(l, isMap) + (if isMap then [k, v] else [k]) + InOrder(r, isMap)
  }

  function Height(t: Tree): nat {
    match t
    case Leaf => 0
    case Node(l, _, _, r) => 1 + (if Height(l) < Height(r) then Height(r) else Height(l))
  }

  /** With the guard testing `_rght`, a tree whose height the recursion
      limit allows is shown in order, every entry once. */
  lemma {:induction false} TraverseInOrder(mem: map<nat, TreeNode>, a: nat, t: Tree, isMap: bool, depth: nat)
    requires Encodes(mem, a, t) && t.Node? && depth >= Height(t)
    ensures Traverse(mem, a, isMap, depth) == Done(InOrder(t, isMap))
    decreases t
  {
    var n := mem[a];
    if t.l.Node? {
      TraverseInOrder(mem, n.left, t.l, isMap, depth - 1);
    }
    if t.r.Node? {
      TraverseInOrder(mem, n.right, t.r, isMap, depth - 1);
    }
  }

  /** A root with a nil left child and one right child: the script shows
      the root only, the intended traversal both keys. */
  lemma AsWrittenDropsRightSubtree()
    ensures var mem := map[1 := TreeNode(0, 2, false, 10, 0), 2 := TreeNode(0, 0, false, 20, 0)];
      Encodes(mem, 1, Node(Leaf, 10, 0, Node(Leaf, 20, 0, Leaf))) &&
      TraverseAsWritten(mem, 1, false, 2) == Done([10]) &&
      Traverse(mem, 1, false, 2) == Done([10, 20])
  {
  }

  /** A root with a left child and the nil sentinel on its right: the
      script descends into the sentinel and shows its default data. */
  lemma AsWrittenShowsNilSentinel()
    ensures var mem := map[1 := TreeNode(2, 3, false, 10, 0), 2 := TreeNode(0, 0, false, 5, 0),
                           3 := TreeNode(0, 0, true, 0, 0)];
      Encodes(mem, 1, Node(Node(Leaf, 5, 0, Leaf), 10, 0, Leaf)) &&
      TraverseAsWritten(mem, 1, false, 2) == Done([5, 10, 0]) &&
      Traverse(mem, 1, false, 2) == Done([5, 10])
  {
  }

  /** AbstractRBTreePrinter.children: an empty tree shows nothing, without
      reading its root; otherwise the children are the script's own
      traversal, with the right-subtree guard testing `_left`. */
  function TreeChildren(mem: map<nat, TreeNode>, root: nat, size: nat, isMap: bool, depth: nat): (r: Walked)
    ensures size == 0 ==> r == Done([])
  {
    if size == 0 then Done([]) else TraverseAsWritten(mem, root, isMap, depth)
  }

  /** Every node has two leaves or two inner nodes as children. */
  ghost predicate Full(t: Tree) {
    match t
    case Leaf => true
    case Node(l, _, _, r) => (l.Leaf? <==> r.Leaf?) && Full(l) && Full(r)
  }

  /** Where no node has exactly one leaf child, testing `_left` in front of
      the right subtree decides as testing `_rght` would, so the script's
      traversal shows the tree in order, every entry once. */
  lemma {:induction false} TraverseAsWrittenFull(mem: map<nat, TreeNode>, a: nat, t: Tree, isMap: bool, depth: nat)
    requires Encodes(mem, a, t) && t.Node? && Full(t) && depth >= Height(t)
    ensures TraverseAsWritten(mem, a, isMap, depth) == Done(InOrder(t, isMap))
    decreases t
  {
    var n := mem[a];
    if t.l.Node? {
      TraverseAsWrittenFull(mem, n.left, t.l, isMap, depth - 1);
      TraverseAsWrittenFull(mem, n.right, t.r, isMap, depth - 1);
    }
  }

  /** The tree printer's children of a non-empty full tree are its entries
      in order. */
  lemma TreeChildrenFull(mem: map<nat, TreeNode>, root: nat, t: Tree, size: nat, isMap: bool, depth: nat)
    requires size > 0 && Encodes(mem, root, t) && t.Node? && Full(t) && depth >= Height(t)
    ensures TreeChildren(mem, root, size, isMap, depth) == Done(InOrder(t, isMap))
  {
    TraverseAsWrittenFull(mem, root, t, isMap, depth);
  }

  /** display_hint: "map" exactly when the fourth template argument is true. */
  datatype Hint = MapHint | ArrayHint

  function TreeHint(isMap: bool): Hint {
    if isMap then MapHint else ArrayHint
  }

  // -------------------------------------------------------- hash chains

  /** A node of the unordered containers' singly linked chain. */
  datatype HashNode = HashNode(next: nat, key: int, mapped: int)

  function HashKeyValue(n: HashNode, isMap: bool): seq<int> {
    if isMap then [n.key, n.mapped] else [n.key]
  }

  /** Following `__next_` from a until null; a chain longer than `fuel`
      nodes counts as endless. */
  function HashWalk(mem: map<nat, HashNode>, a: nat, isMap: bool, fuel: nat): (r: Walked)
    ensures !r.RecursionError?
    decreases fuel
  {
    if a == 0 then Done([])
    else if a !in mem then MemoryError
    else if fuel == 0 then Endless
    else Prepend(HashKeyValue(mem[a], isMap), HashWalk(mem, mem[a].next, isMap, fuel - 1))
  }

  /** AbstractUnorderedCollectionPrinter._list_it: the loop stops at null,
      not after `size` nodes. */
  method HashChildren(mem: map<nat, HashNode>, first: nat, isMap: bool, fuel: nat) returns (r: Walked)
    ensures r == HashWalk(mem, first, isMap, fuel)
  {
    var next := first;
    var out := [];
    var left := fuel;
    while next != 0
      invariant Prepend(out, HashWalk(mem, next, isMap, left)) == HashWalk(mem, first, isMap, fuel)
      decreases left
    {
      if next !in mem {
        return MemoryError;
      }
      if left == 0 {
        return Endless;
      }
      var node := mem[next];
      var w := HashWalk(mem, node.next, isMap, left - 1);
      assert w.Done? ==> out + (HashKeyValue(node, isMap) + w.items) == (out + HashKeyValue(node, isMap)) + w.items;
      out := out + HashKeyValue(node, isMap);
      next := node.next;
      left := left - 1;
    }
    return Done(out);
  }

  /** The key/value lists of the nodes of ns, in chain order. */
  function Flatten(mem: map<nat, HashNode>, ns: seq<nat>, isMap: bool): seq<int>
    requires forall i :: 0 <= i < |ns| ==> ns[i] in mem
  {
    if ns == [] then [] else HashKeyValue(mem[ns[0]], isMap) + Flatten(mem, ns[1..], isMap)
  }

  /** A null-terminated chain is shown whole, whatever the container's
      size field says. */
  lemma {:induction false} HashWalkChain(mem: map<nat, HashNode>, ns: seq<nat>, isMap: bool, fuel: nat)
    requires ns != [] && fuel >= |ns|
    requires forall i :: 0 <= i < |ns| ==> ns[i] != 0 && ns[i] in mem
    requires forall i :: 0 <= i < |ns| - 1 ==> mem[ns[i]].next == ns[i + 1]
    requires mem[ns[|ns| - 1]].next == 0
    ensures HashWalk(mem, ns[0], isMap, fuel) == Done(Flatten(mem, ns, isMap))
  {
    if |ns| > 1 {
      HashWalkChain(mem, ns[1..], isMap, fuel - 1);
    }
  }

  /** AbstractUnorderedCollectionPrinter.children: nothing for a size of 0. */
  function UnorderedChildren(mem: map<nat, HashNode>, first: nat, size: nat, isMap: bool, fuel: nat): (r: Walked)
    ensures size == 0 ==> r == Done([])
    ensures size > 0 ==> !r.RecursionError?
  {
    if size == 0 then Done([]) else HashWalk(mem, first, isMap, fuel)
  }

  // ---------------------------------------------------------- iterators

  /** What an iterator printer's to_string says about the iterator. */
  datatype IterState = Null | End | Element

  function IterText(typename: string, s: IterState): string {
    match s
    case Null => typename + " is nullptr"
    case End => typename + " = end()"
    case Element => typename + " "
  }

  /** RingIteratorPrinter: end() is the slot `_data + _tail` of the ring. */
  function RingIteratorState(addr: nat, data: nat, tail: nat): (r: IterState)
    ensures r == Null <==> addr == 0
    ensures r == End <==> addr != 0 && addr == data + tail
  {
    if addr == 0 then Null else if data + tail == addr then End else Element
  }

  /** ListIteratorPrinter: end() is a node without successor; to_string
      reads the node's `_suc`, so an unreadable node fails. */
  function ListIteratorState(mem: map<nat, ListNode>, addr: nat): (r: Option<IterState>)
    ensures r.None? <==> addr != 0 && addr !in mem
    ensures r == Some(Null) <==> addr == 0
    ensures r == Some(End) <==> addr != 0 && addr in mem && mem[addr].suc == 0
  {
    if addr == 0 then Some(Null)
    else if addr !in mem then None
    else if mem[addr].suc == 0 then Some(End)
    else Some(Element)
  }

  /** AbstractRBTreeIteratorPrinter: end() is a nil node; to_string reads
      the node's `_is_nil`, so an unreadable node fails. */
  function TreeIteratorState(mem: map<nat, TreeNode>, addr: nat): (r: Option<IterState>)
    ensures r.None? <==> addr != 0 && addr !in mem
    ensures r == Some(Null) <==> addr == 0
    ensures r == Some(End) <==> addr != 0 && addr in mem && mem[addr].isNil
  {
    if addr == 0 then Some(Null)
    else if addr !in mem then None
    else if mem[addr].isNil then Some(End)
    else Some(Element)
  }

  /** AbstractHashMapIteratorPrinter: a null node is end(); this printer
      never says "nullptr". Its to_string tests only the address, and the
      node it dereferences is not read until the children are shown, so
      the state depends on the address alone and never fails. */
  function HashIteratorState(addr: nat): (r: IterState)
    ensures r != Null
    ensures r == End <==> addr == 0
  {
    if addr == 0 then End else Element
  }
}

=== FILE: queue.dfy ===
/** queue.h: the FIFO adaptor over a ring, `c`. Every operation forwards to
    the ring: push to push_back, pop to pop_front, front and back to the
    ring's, and the comparisons to the ring's comparisons. */
module Queue {
  import Ring
  import opened AlgorithmBase

  class Queue {
    const c: Ring.Ring

    ghost predicate Valid()
      reads this, c
    {
      c.Valid()
    }

    /** The elements, oldest first. */
    function Contents(): seq<int>
      reads this, c, c.data
      requires Valid()
    {
      c.View()
    }

    /** queue(): over a default-constructed ring. */
    constructor ()
      ensures Valid() && fresh(c) && fresh(c.data) && Contents() == []
    {
      c := new Ring.Ring();
    }

    predicate Empty()
      reads this, c
      requires Valid()
      ensures Empty() <==> |Contents()| == 0
    {
      c.Empty()
    }

    function Size(): (n: nat)
      reads this, c
      requires Valid()
      ensures n == |Contents()|
    {
      c.Size()
    }

    /** front(): the oldest element, the next one pop removes. */
    function Front(): (r: int)
      reads this, c, c.data
      requires Valid() && !Empty()
      ensures r == Contents()[0]
    {
      c.Front()
    }

    /** back(): the newest element, the last one pushed. */
    function Back(): (r: int)
      reads this, c, c.data
      requires Valid() && !Empty()
      ensures r == Contents()[|Contents()| - 1]
    {
      c.Back()
    }

    /** push(x) / emplace(x): push_back on the ring; returns back(). */
    method Push(x: int) returns (r: int)
      requires Valid()
      modifies c, c.data
      ensures Valid() && r == x
      ensures Contents() == old(Contents()) + [x] && Back() == x
    {
      r := c.EmplaceBack(x);
    }

    /** pop(): pop_front on the ring. */
    method Pop()
      requires Valid() && !Empty()
      modifies c
      ensures Valid() && Contents() == old(Contents()[1..])
    {
      c.PopFront();
    }

    /** swap(s): swaps the two rings. */
    method Swap(s: Queue)
      requires Valid() && s.Valid() && s.c != c
      modifies c, s.c
      ensures Valid() && s.Valid()
      ensures Contents() == old(s.Contents()) && s.Contents() == old(Contents())
    {
      c.Swap(s.c);
    }
  }

  /** The oldest element leaves first: pushing x onto a non-empty queue
      and popping removes the element that was at the front, not x. */
  method PushThenPop(q: Queue, x: int) returns (gone: int)
    requires q.Valid() && !q.Empty()
    modifies q.c, q.c.data
    ensures q.Valid() && gone == old(q.Front())
    ensures q.Contents() == old(q.Contents()[1..]) + [x]
  {
    gone := q.Front();
    var _ := q.Push(x);
    q.Pop();
  }

  /** operator== and operator<: the ring's, on the two containers. */
  function Eq(x: Queue, y: Queue): (r: bool)
    reads x, x.c, x.c.data, y, y.c, y.c.data
    requires x.Valid() && y.Valid()
    ensures r <==> x.Contents() == y.Contents()
  {
    Ring.Eq(x.c.View(), y.c.View())
  }

  function Lt(x: Queue, y: Queue): (r: bool)
    reads x, x.c, x.c.data, y, y.c, y.c.data
    requires x.Valid() && y.Valid()
    ensures r <==> LexLessSpec(x.Contents(), y.Contents())
  {
    Ring.Lt(x.c.View(), y.c.View())
  }
}

=== FILE: random.dfy ===
/** random.h: the pseudo-random engines xoshiro256 and xorshift64 on 64-bit
    words and the linear congruential engine, whose states are updated in
    place by `next`, and the rejection sampler of `uniform_int_distribution`.
    A 64-bit word is a `nat` below 2^64; `<<` drops the bits shifted past
    the top (`Shl` of bit.h), `+` and `*` are taken modulo 2^64, and `^` is
    `Xor` below. The generator that `uniform_int_distribution` calls is
    replaced by the sequence of values it would return. */
module Random {
  import opened Bit
  import opened Wrappers

  // ------------------------------------------------------------ 64-bit words

  type Word = x: nat | x < Pow2(64)

  /** x ^ y, bit by bit from the least significant end. */
  function Xor(x: nat, y: nat): nat
    decreases x + y
  {
    if x == 0 && y == 0 then 0
    else 2 * Xor(x / 2, y / 2) + (if x % 2 != y % 2 then 1 else 0)
  }

  /** The lowest bit of x ^ y and the rest. */
  lemma XorHalves(x: nat, y: nat)
    ensures Xor(x, y) % 2 == (if x % 2 != y % 2 then 1 else 0)
    ensures Xor(x, y) / 2 == Xor(x / 2, y / 2)
  {
    if x == 0 && y == 0 {
      assert Xor(x / 2, y / 2) == 0;
    } else {
      DivModUnique(Xor(x / 2, y / 2), if x % 2 != y % 2 then 1 else 0, 2);
    }
  }

  lemma {:induction false} XorCommutes(x: nat, y: nat)
    ensures Xor(x, y) == Xor(y, x)
    decreases x + y
  {
    if x != 0 || y != 0 {
      XorCommutes(x / 2, y / 2);
    }
  }

  lemma {:induction false} XorAssociates(x: nat, y: nat, z: nat)
    ensures Xor(Xor(x, y), z) == Xor(x, Xor(y, z))
    decreases x + y + z
  {
    if x != 0 || y != 0 || z != 0 {
      var l, r := Xor(Xor(x, y), z), Xor(x, Xor(y, z));
      XorHalves(Xor(x, y), z);
      XorHalves(x, y);
      XorHalves(x, Xor(y, z));
      XorHalves(y, z);
      XorAssociates(x / 2, y / 2, z / 2);
      assert l / 2 == r / 2 && l % 2 == r % 2;
    }
  }

  /** x ^ y of two values below 2^k is below 2^k. */
  lemma {:induction false} XorBelow(x: nat, y: nat, k: nat)
    requires x < Pow2(k) && y < Pow2(k)
    ensures Xor(x, y) < Pow2(k)
  {
    if k > 0 && (x != 0 || y != 0) {
      XorBelow(x / 2, y / 2, k - 1);
    } else if k == 0 {
      assert x == 0 && y == 0;
    }
  }

  /** ^ on two words. */
  function Xor64(x: Word, y: Word): Word
  {
    XorBelow(x, y, 64);
    Xor(x, y)
  }

  /** x >> k of a word is a word. */
  function Shr64(x: Word, k: nat): Word
  {
    DivNonNegative(x, Pow2(k));
    assert x / Pow2(k) <= x;
    Shr(x, k)
  }

  // ------------------------------------------------------------ xoshiro256

  /** xoshiro's rotl(x, k) = (x << k) | (x >> (64 - k)). */
  function XoRotl(x: Word, k: nat): Word
    requires 0 < k < 64
  {
    SwapHalves(x, k, 64);
    Or(Shl(x, k, 64), Shr(x, 64 - k))
  }

  /** It is bit.h's rotl, so rotr undoes it and no bit is lost. */
  lemma XoRotlIsRotl(x: Word, k: nat)
    requires 0 < k < 64
    ensures XoRotl(x, k) == Rotl(x, k, 64)
    ensures Rotr(XoRotl(x, k), k, 64) == x
  {
    assert RotCount(k, 64) == k;
    RotrUndoesRotl(x, k, 64);
  }

  /** The four words s[0..3]. */
  datatype XoState = XoState(s0: Word, s1: Word, s2: Word, s3: Word)

  /** next(): the fixed xor/shift/rotate sequence, one assignment after the
      other (A = 17, B = 45 for 64-bit words). */
  function NextState(st: XoState): XoState
  {
    var t := Shl(st.s1, 17, 64);
    var s2 := Xor64(st.s2, st.s0);
    var s3 := Xor64(st.s3, st.s1);
    var s1 := Xor64(st.s1, s2);
    var s0 := Xor64(st.s0, s3);
    XoState(s0, s1, Xor64(s2, t), XoRotl(s3, 45))
  }

  /** The same step word by word, as the xoshiro reference formulas give it:
      each new word from the old ones. */
  lemma NextStateWords(st: XoState)
    ensures NextState(st).s0 == Xor(Xor(st.s0, st.s1), st.s3)
    ensures NextState(st).s1 == Xor(Xor(st.s0, st.s1), st.s2)
    ensures NextState(st).s2 == Xor(Xor(st.s0, st.s2), Shl(st.s1, 17, 64))
    ensures NextState(st).s3 == XoRotl(Xor64(st.s1, st.s3), 45)
  {
    XorCommutes(st.s3, st.s1);
    XorCommutes(st.s0, Xor(st.s1, st.s3));
    XorAssociates(st.s1, st.s3, st.s0);
    XorCommutes(st.s3, st.s0);
    XorAssociates(st.s1, st.s0, st.s3);
    XorCommutes(st.s1, st.s0);
    XorCommutes(st.s2, st.s0);
    XorAssociates(st.s1, st.s0, st.s2);
  }

  /** `k` calls of next() (what discard(k) promises). */
  function Advance(st: XoState, k: nat): XoState
  {
    if k == 0 then st else NextState(Advance(st, k - 1))
  }

  /** Discarding `m` and then `n` values is discarding `m + n`. */
  lemma {:induction false} AdvanceAdd(st: XoState, m: nat, n: nat)
    ensures Advance(Advance(st, m), n) == Advance(st, m + n)
  {
    hide NextState;
    if n > 0 {
      AdvanceAdd(st, m, n - 1);
    }
  }

  const ZeroState := XoState(0, 0, 0, 0)

  /** The all-zero state is a fixed point: seeding with zeros is useless. */
  lemma ZeroStateIsFixed(k: nat)
    ensures NextState(ZeroState) == ZeroState
    ensures Advance(ZeroState, k) == ZeroState
  {
    assert Shr(0, 19) == 0 && Or(0, 0) == 0;
    if k > 0 {
      ZeroStateIsFixed(k - 1);
    }
  }

  /** The three output scramblers. */
  datatype Scrambler = Plus | StarStar | PlusPlus

  /** scramber() on the 64-bit words: s[0] + s[3]; rotl(s[1] * 5, 7) * 9;
      rotl(s[0] + s[3], 23) + s[0]. */
  function Scramble(kind: Scrambler, st: XoState): Word
  {
    match kind
    case Plus => (st.s0 + st.s3) % Pow2(64)
    case StarStar => (XoRotl((st.s1 * 5) % Pow2(64), 7) * 9) % Pow2(64)
    case PlusPlus => (XoRotl((st.s0 + st.s3) % Pow2(64), 23) + st.s0) % Pow2(64)
  }

  /** xoshiro256 (xoshiro<uint_fast64_t, Scramber>): four words updated in place. */
  class Xoshiro256 {
    const scrambler: Scrambler
    const s: array<Word>

    predicate Valid()
      reads this
    {
      s.Length == 4
    }

    function State(): XoState
      reads this, s
      requires Valid()
    {
      XoState(s[0], s[1], s[2], s[3])
    }

    constructor (scrambler: Scrambler, seed: XoState)
      ensures Valid() && fresh(s)
      ensures this.scrambler == scrambler && State() == seed
    {
      this.scrambler := scrambler;
      s := new Word[4] [seed.s0, seed.s1, seed.s2, seed.s3];
    }

    /** next(): the in-place xor/shift/rotate sequence. */
    method Next()
      requires Valid()
      modifies s
      ensures State() == NextState(old(State()))
    {
      var t := Shl(s[1], 17, 64);
      s[2] := Xor64(s[2], s[0]);
      s[3] := Xor64(s[3], s[1]);
      s[1] := Xor64(s[1], s[2]);
      s[0] := Xor64(s[0], s[3]);
      s[2] := Xor64(s[2], t);
      s[3] := XoRotl(s[3], 45);
    }

    /** operator(): step, then scramble the new state. */
    method Call() returns (r: Word)
      requires Valid()
      modifies s
      ensures State() == NextState(old(State()))
      ensures r == Scramble(scrambler, State())
    {
      Next();
      r := Scramble(scrambler, State());
    }

    /** discard(k): `k` calls of next(). */
    method Discard(k: nat)
      requires Valid()
      modifies s
      ensures State() == Advance(old(State()), k)
    {
      hide NextState;
      ghost var s0 := State();
      var left: nat := k;
      while left > 0
        invariant left <= k
        invariant State() == Advance(s0, k - left)
      {
        Next();
        left := left - 1;
      }
    }
  }

  // ------------------------------------------------------------ xorshift

  /** One xorshift update: x ^= x << k, or x ^= x >> k. */
  function XorShl(x: Word, k: nat): Word
  {
    Xor64(x, Shl(x, k, 64))
  }

  function XorShr(x: Word, k: nat): Word
  {
    Xor64(x, Shr64(x, k))
  }

  /** next(): the three updates s ^= s << A, s ^= s >> B, s ^= s << C, in
      that order. */
  function XorshiftStep(s: Word, a: nat, b: nat, c: nat): Word
  {
    XorShl(XorShr(XorShl(s, a), b), c)
  }

  /** `k` calls of next(). */
  function XorshiftAdvance(s: Word, a: nat, b: nat, c: nat, k: nat): Word
  {
    if k == 0 then s else XorshiftStep(XorshiftAdvance(s, a, b, c, k - 1), a, b, c)
  }

  /** Zero is a fixed point of every xorshift: a zero seed stays zero. */
  lemma XorshiftStepZero(a: nat, b: nat, c: nat)
    ensures XorshiftStep(0, a, b, c) == 0
  {
    assert Shl(0, a, 64) == 0 && Shl(0, c, 64) == 0 by {
      DivModUnique(0, 0, Pow2(64));
    }
    assert Shr(0, b) == 0 by {
      DivModUnique(0, 0, Pow2(b));
    }
    assert Xor(0, 0) == 0;
  }

  lemma {:induction false} XorshiftZero(a: nat, b: nat, c: nat, k: nat)
    ensures XorshiftAdvance(0, a, b, c, k) == 0
  {
    hide XorshiftStep;
    if k > 0 {
      XorshiftZero(a, b, c, k - 1);
      XorshiftStepZero(a, b, c);
    }
  }

  /** xorshift<UInt, A, B, C> on 64-bit words (xorshift64 = <13, 7, 17>). */
  class Xorshift {
    const a: nat
    const b: nat
    const c: nat
    var s: Word

    constructor (a: nat, b: nat, c: nat, seed: Word)
      ensures this.a == a && this.b == b && this.c == c && s == seed
    {
      this.a, this.b, this.c := a, b, c;
      s := seed;
    }

    method Next()
      modifies this
      ensures s == XorshiftStep(old(s), a, b, c)
    {
      s := Xor64(s, Shl(s, a, 64));
      s := Xor64(s, Shr64(s, b));
      s := Xor64(s, Shl(s, c, 64));
    }

    /** operator(): step, then return the new state. */
    method Call() returns (r: Word)
      modifies this
      ensures s == XorshiftStep(old(s), a, b, c) && r == s
    {
      Next();
      r := s;
    }

    /** discard(k): `k` calls of next(). */
    method Discard(k: nat)
      modifies this
      ensures s == XorshiftAdvance(old(s), a, b, c, k)
    {
      hide XorshiftStep;
      ghost var s0 := s;
      var left: nat := k;
      while left > 0
        invariant left <= k
        invariant s == XorshiftAdvance(s0, a, b, c, k - left)
      {
        Next();
        left := left - 1;
      }
    }
  }

  // ------------------------------------------------------------ linear congruential

  /** next(): s = (s * A + C) % M, with the product and the sum wrapping at
      the width `w` of UInt before the remainder is taken. */
  function LcgStep(s: nat, a: nat, c: nat, m: nat, w: nat): (r: nat)
    requires m > 0
    ensures r < m
  {
    (((s * a) % Pow2(w) + c) % Pow2(w)) % m
  }

  /** minstd_rand = linear_congruential_engine<uint_fast32_t, 48271, 0, 2147483647>. */
  const MinstdA: nat := 48271
  const MinstdM: nat := 2147483647

  /** With a 64-bit uint_fast32_t (as on LP64 targets) nothing wraps: from
      any state below M the step is the textbook Lehmer step s * A mod M. */
  lemma MinstdNoWrap(s: nat)
    requires s < MinstdM
    ensures LcgStep(s, MinstdA, 0, MinstdM, 64) == (s * MinstdA) % MinstdM
  {
    assert s * MinstdA < MinstdM * MinstdA by { MulLess(s, MinstdM, MinstdA); }
    Pow2Above48();
    DivModUnique(0, s * MinstdA, Pow2(64));
  }

  /** 2^64 exceeds 2^48. */
  lemma Pow2Above48()
    ensures Pow2(64) >= 0x1_0000_0000_0000
  {
    assert Pow2(4) == 16;
    hide *;
    Pow2Add(4, 4);
    Pow2Add(8, 8);
    Pow2Add(16, 16);
    Pow2Add(32, 16);
    Pow2Monotone(48, 64);
  }

  /** `k` calls of next(). */
  function LcgAdvance(s: nat, a: nat, c: nat, m: nat, w: nat, k: nat): nat
    requires m > 0
  {
    if k == 0 then s else LcgStep(LcgAdvance(s, a, c, m, w, k - 1), a, c, m, w)
  }

  /** linear_congruential_engine<UInt, A, C, M> on a `w`-bit UInt. */
  class LinearCongruential {
    const a: nat
    const c: nat
    const m: nat
    const w: nat
    var s: nat

    predicate Valid()
      reads this
    {
      0 < m < Pow2(w) && a < Pow2(w) && c < Pow2(w) && s < Pow2(w)
    }

    constructor (a: nat, c: nat, m: nat, w: nat, seed: nat)
      requires 0 < m < Pow2(w) && a < Pow2(w) && c < Pow2(w) && seed < Pow2(w)
      ensures Valid() && this.a == a && this.c == c && this.m == m && this.w == w && s == seed
    {
      this.a, this.c, this.m, this.w := a, c, m, w;
      s := seed;
    }

    /** next(): the new state is below M (and so still a UInt). */
    method Next()
      requires Valid()
      modifies this
      ensures Valid() && s == LcgStep(old(s), a, c, m, w) && s < m
    {
      s := (((s * a) % Pow2(w) + c) % Pow2(w)) % m;
    }

    /** operator(): step, then return the new state. */
    method Call() returns (r: nat)
      requires Valid()
      modifies this
      ensures Valid() && s == LcgStep(old(s), a, c, m, w) && r == s && r < m
    {
      Next();
      r := s;
    }

    /** discard(k): `k` calls of next(). */
    method Discard(k: nat)
      requires Valid()
      modifies this
      ensures Valid() && s == LcgAdvance(old(s), a, c, m, w, k)
    {
      hide LcgStep;
      ghost var s0 := s;
      var left: nat := k;
      while left > 0
        invariant left <= k && Valid()
        invariant s == LcgAdvance(s0, a, c, m, w, k - left)
      {
        Next();
        left := left - 1;
      }
    }
  }

  // ------------------------------------------------------------ uniform_int_distribution

  /** The integer types the distribution is instantiated with (int, long
      long and their unsigned counterparts). */
  datatype IntType = IntType(signed: bool, width: nat)

  predicate Supported(t: IntType)
  {
    t.width == 32 || t.width == 64
  }

  /** numeric_limits<Int>::max() and min(). */
  function MaxValue(t: IntType): nat
    requires Supported(t)
  {
    if t.signed then Pow2(t.width - 1) - 1 else MaxOf(t.width)
  }

  function MinValue(t: IntType): int
    requires Supported(t)
  {
    if t.signed then -(Pow2(t.width - 1) as int) else 0
  }

  /** The rejection loop `r = g() & mask; while (l < r) r = g() & mask;`
      specified by the first draw whose masked value does not exceed `l`,
      and the number of draws consumed; `None` when the draws run out
      before one is accepted. */
  function FirstAccepted(l: nat, mask: nat, draws: seq<nat>): (res: (Option<nat>, nat))
    ensures res.1 <= |draws|
    ensures res.0.Some? ==> 1 <= res.1 && res.0.value == And(draws[res.1 - 1], mask) <= l
    ensures res.0.Some? ==> forall i :: 0 <= i < res.1 - 1 ==> And(draws[i], mask) > l
    ensures res.0.None? ==> res.1 == |draws| && forall i :: 0 <= i < |draws| ==> And(draws[i], mask) > l
  {
    if draws == [] then (None, 0)
    else if And(draws[0], mask) <= l then (Some(And(draws[0], mask)), 1)
    else
      var rest := FirstAccepted(l, mask, draws[1..]);
      (rest.0, rest.1 + 1)
  }

  /** What the loop knows when it stops: `used` draws were taken, every
      one before the last was rejected, and the last was accepted (`Some`)
      or the draws ran out (`None`). */
  predicate Stopped(l: nat, mask: nat, draws: seq<nat>, r: Option<nat>, used: nat)
  {
    used <= |draws| &&
    (forall i :: 0 <= i < used - 1 ==> And(draws[i], mask) > l) &&
    (r.Some? ==> 1 <= used && r.value == And(draws[used - 1], mask) <= l) &&
    (r.None? ==> used == |draws| && (used > 0 ==> And(draws[used - 1], mask) > l))
  }

  /** Exactly one outcome fits that description: the one FirstAccepted gives. */
  lemma StoppedIsFirstAccepted(l: nat, mask: nat, draws: seq<nat>, r: Option<nat>, used: nat)
    requires Stopped(l, mask, draws, r, used)
    ensures (r, used) == FirstAccepted(l, mask, draws)
  {
  }

  /** The rejection loop over the generator's successive outputs. */
  method Reject(l: nat, mask: nat, draws: seq<nat>) returns (r: Option<nat>, used: nat)
    ensures (r, used) == FirstAccepted(l, mask, draws)
  {
    if |draws| == 0 {
      return None, 0;
    }
    var v := And(draws[0], mask);
    used := 1;
    while l < v
      invariant 1 <= used <= |draws| && v == And(draws[used - 1], mask)
      invariant forall i :: 0 <= i < used - 1 ==> And(draws[i], mask) > l
      decreases |draws| - used
    {
      if used == |draws| {
        StoppedIsFirstAccepted(l, mask, draws, None, used);
        return None, used;
      }
      v := And(draws[used], mask);
      used := used + 1;
    }
    r := Some(v);
    StoppedIsFirstAccepted(l, mask, draws, r, used);
  }

  /** (2^n - 1) >> z == 2^(n - z) - 1: the all-ones value shifted right. */
  lemma ShrOnes(n: nat, z: nat)
    requires z <= n
    ensures Shr(Pow2(n) - 1, z) == Pow2(n - z) - 1
  {
    Pow2Add(n - z, z);
    var q, p := Pow2(n - z) - 1, Pow2(z);
    assert Pow2(n) - 1 == q * p + (p - 1);
    DivModUnique(q, p - 1, p);
  }

  /** The distribution's answer given the generator's outputs `draws`:
      `a` when the range holds one value, otherwise `a` plus the first draw
      whose low bits, as many as `b - a` has, do not exceed `b - a`. */
  function UniformSpec(a: int, b: int, draws: seq<nat>): (Option<int>, nat)
    requires a <= b
  {
    var l := b - a;
    if l == 0 then (Some(a), 0)
    else
      var res := FirstAccepted(l, Pow2(BitLength(l)) - 1, draws);
      (if res.0.Some? then Some(a + res.0.value) else None, res.1)
  }

  /** The result lies in [a, b]; a single-value range draws nothing. */
  lemma UniformInRange(a: int, b: int, draws: seq<nat>)
    requires a <= b
    ensures UniformSpec(a, b, draws).0.Some? ==> a <= UniformSpec(a, b, draws).0.value <= b
    ensures a == b ==> UniformSpec(a, b, draws) == (Some(a), 0)
  {
  }

  /** Only draws whose low bits exceed b - a are rejected: a first draw
      not above the range width is accepted at once. */
  lemma UniformAcceptsSmallDraw(a: int, b: int, d: nat, rest: seq<nat>)
    requires a <= b && d <= b - a
    ensures UniformSpec(a, b, [d] + rest) == (if a == b then (Some(a), 0) else (Some(a + d), 1))
  {
    var l := b - a;
    if l > 0 {
      BitLengthBounds(l);
      LowBitsOfSmall(d, BitLength(l));
      hide *;
      FirstAcceptedHead(l, Pow2(BitLength(l)) - 1, d, rest);
      UniformFromAccepted(a, b, [d] + rest);
    } else {
      UniformInRange(a, b, [d] + rest);
    }
  }

  /** Every value of [a, b] is returned for some generator output (the draw
      v - a), so b is reachable too. */
  lemma UniformReachesEvery(a: int, b: int, v: int)
    requires a <= v <= b
    ensures UniformSpec(a, b, [v - a]).0 == Some(v)
  {
    UniformAcceptsSmallDraw(a, b, v - a, []);
    assert [v - a] + [] == [v - a];
  }

  /** b - a fits the unsigned type clz counts on, and a signed Int's
      maximum has one bit fewer. */
  lemma RangeFits(t: IntType, a: int, b: int)
    requires Supported(t) && MinValue(t) <= a <= b <= MaxValue(t) && b - a <= MaxValue(t)
    ensures t.width > 0 && b - a < Pow2(t.width)
    ensures t.signed ==> b - a < Pow2(t.width - 1) && MaxValue(t) == Pow2(t.width - 1) - 1
    ensures !t.signed ==> MaxValue(t) == MaxOf(t.width)
  {
    Pow2Monotone(t.width - 1, t.width);
  }

  /** The all-ones value of `w` bits shifted right by clz(l) is the mask of
      bit_width(l) low bits. */
  lemma MaskFromClz(l: nat, w: nat)
    requires 0 < l < Pow2(w)
    ensures Shr(MaxOf(w), Clz(l, w)) == Pow2(BitLength(l)) - 1
  {
    var z := Clz(l, w);
    assert z == w - BitLength(l) && BitLength(l) <= w by {
      BitLengthAtMost(l, w);
    }
    assert MaxOf(w) == Pow2(w) - 1;
    hide *;
    ShrOnes(w, z);
  }

  /** The same shift applied to the signed maximum 2^(w-1) - 1 gives one
      bit fewer. */
  lemma SignedMaskFromClz(l: nat, w: nat)
    requires w > 0 && 0 < l < Pow2(w - 1)
    ensures Pow2(w - 1) < Pow2(w) && Shr(Pow2(w - 1) - 1, Clz(l, w)) == Pow2(BitLength(l) - 1) - 1
  {
    Pow2Monotone(w - 1, w);
    var z := Clz(l, w);
    assert z == w - BitLength(l) && 0 < BitLength(l) <= w - 1 by {
      BitLengthAtMost(l, w - 1);
      BitLengthBounds(l);
    }
    hide *;
    ShrOnes(w - 1, z);
  }

  /** operator()(g, p) AS WRITTEN: the mask is numeric_limits<Int>::max() >> z.
      For a signed Int that maximum has one bit fewer than the unsigned
      type that clz counted on, so the mask keeps one bit too few: every
      draw is accepted and b is never returned (uniform(0, 1) always gives 0).
      For an unsigned Int it is the distribution `UniformSpec` describes. */
  method UniformIntAsWritten(t: IntType, a: int, b: int, draws: seq<nat>) returns (r: Option<int>, used: nat)
    requires Supported(t) && MinValue(t) <= a <= b <= MaxValue(t) && b - a <= MaxValue(t)
    ensures !t.signed ==> (r, used) == UniformSpec(a, b, draws)
    ensures t.signed && a < b ==> r != Some(b)
    ensures t.signed && a < b && |draws| > 0 ==> used == 1
  {
    hide *;
    var l: nat := b - a;
    if l == 0 {
      UniformInRange(a, b, draws);
      return Some(a), 0;
    }
    RangeFits(t, a, b);
    var z := Clz(l, t.width);
    var mask := Shr(MaxValue(t), z);
    var v;
    v, used := Reject(l, mask, draws);
    r := if v.Some? then Some(a + v.value) else None;
    if t.signed {
      SignedMaskFromClz(l, t.width);
      SignedMaskTooNarrow(l, draws);
    } else {
      MaskFromClz(l, t.width);
      UniformFromAccepted(a, b, draws);
    }
  }

  /** With the mask 2^(bits(l) - 1) - 1 no draw is ever rejected and the
      accepted value is below l. */
  lemma SignedMaskTooNarrow(l: nat, draws: seq<nat>)
    requires l > 0
    ensures var res := FirstAccepted(l, Pow2(BitLength(l) - 1) - 1, draws);
      (res.0.Some? ==> res.0.value < l) && (|draws| > 0 ==> res.1 == 1)
  {
    BitLengthBounds(l);
    var k := BitLength(l) - 1;
    if |draws| > 0 {
      AndLowBits(draws[0], k);
    }
    var res := FirstAccepted(l, Pow2(k) - 1, draws);
    if res.0.Some? {
      AndLowBits(draws[res.1 - 1], k);
    }
  }

  /** operator()(g, p) with the mask taken from the unsigned type clz
      counted on (numeric_limits<make_unsigned_t<Int>>::max() >> z): the
      distribution `UniformSpec` describes, for signed and unsigned Int. */
  method UniformInt(t: IntType, a: int, b: int, draws: seq<nat>) returns (r: Option<int>, used: nat)
    requires Supported(t) && MinValue(t) <= a <= b <= MaxValue(t) && b - a <= MaxValue(t)
    ensures (r, used) == UniformSpec(a, b, draws)
    ensures r.Some? ==> a <= r.value <= b
  {
    hide *;
    var l: nat := b - a;
    if l == 0 {
      UniformInRange(a, b, draws);
      return Some(a), 0;
    }
    RangeFits(t, a, b);
    var z := Clz(l, t.width);
    var mask := Shr(MaxOf(t.width), z);
    MaskFromClz(l, t.width);
    var v;
    v, used := Reject(l, mask, draws);
    r := if v.Some? then Some(a + v.value) else None;
    UniformFromAccepted(a, b, draws);
    UniformInRange(a, b, draws);
  }

  /** For a < b the distribution adds a to what the rejection loop with the
      mask of bit_width(b - a) low bits accepts. */
  lemma UniformFromAccepted(a: int, b: int, draws: seq<nat>)
    requires a < b
    ensures var res := FirstAccepted(b - a, Pow2(BitLength(b - a)) - 1, draws);
      UniformSpec(a, b, draws) == (if res.0.Some? then Some(a + res.0.value) else None, res.1)
  {
    hide FirstAccepted;
  }

  /** A first draw whose masked value does not exceed `l` is accepted at once. */
  lemma FirstAcceptedHead(l: nat, mask: nat, d: nat, rest: seq<nat>)
    requires And(d, mask) <= l
    ensures FirstAccepted(l, mask, [d] + rest) == (Some(And(d, mask)), 1)
  {
    assert ([d] + rest)[0] == d;
  }
}

=== FILE: ring.dfy ===
/** ring.h: a growable circular buffer over an array of `circ` slots, one of
    which is always left free, so that `head == tail` means empty. The
    logical element i lives in slot `(head + i) % circ`. T is `int`;
    positions of iterators are their logical indices. */
module Ring {
  import opened Wrappers
  import opened AlgorithmBase
  import opened Bit

  // ------------------------------------------------- modular arithmetic

  lemma ModRange(x: int, c: nat, q: int)
    requires c > 0 && q * c <= x < q * c + c
    ensures x % c == x - q * c
  {
    DivModUnique(q, x - q * c, c);
  }

  /** Reducing a value at most one period away from [0, c). */
  lemma Wrap(x: int, c: nat)
    requires c > 0 && 0 <= x + c && x < 2 * c
    ensures x % c == if x < 0 then x + c else if x < c then x else x - c
  {
    if x < 0 {
      ModRange(x, c, -1);
    } else if x < c {
      ModRange(x, c, 0);
    } else {
      ModRange(x, c, 1);
    }
  }

  /** Adding one period does not change the remainder. */
  lemma ModPlusPeriod(x: int, c: nat)
    requires c > 0
    ensures (x + c) % c == x % c
  {
    var q, r := x / c, x % c;
    assert x == q * c + r;
    assert x + c == (q + 1) * c + r;
    DivModUnique(q + 1, r, c);
  }

  lemma StepWithinPeriod(idx: nat, d: int, c: nat)
    requires idx < c
    ensures 0 <= c + d && d <= c ==>
              (idx + d) % c == if idx + d < 0 then idx + d + c else if idx + d < c then idx + d else idx + d - c
  {
    if 0 <= c + d && d <= c {
      Wrap(idx + d, c);
    }
  }

  // ------------------------------------------------------ the slot view

  /** The `size` elements that start at slot `head` of the storage `d`. */
  function ViewOf(d: seq<int>, head: nat, size: nat): (r: seq<int>)
    requires |d| > 0
    ensures |r| == size
  {
    seq(size, i requires 0 <= i < size => d[(head + i) % |d|])
  }

  lemma SlotOf(head: nat, i: nat, c: nat)
    requires head < c && i < c
    ensures (head + i) % c == if head + i < c then head + i else head + i - c
  {
    Wrap(head + i, c);
  }

  lemma ViewAt(d: seq<int>, head: nat, size: nat, i: nat)
    requires 0 < |d| && i < size
    ensures ViewOf(d, head, size)[i] == d[(head + i) % |d|]
  {
  }

  /** Writing one slot changes exactly the one element stored there. */
  lemma ViewWrite(d: seq<int>, head: nat, size: nat, i: nat, v: int)
    requires head < |d| && i < size <= |d|
    ensures ViewOf(d[(head + i) % |d| := v], head, size) == ViewOf(d, head, size)[i := v]
  {
    var c := |d|;
    SlotOf(head, i, c);
    var after, before := ViewOf(d[(head + i) % c := v], head, size), ViewOf(d, head, size)[i := v];
    forall j | 0 <= j < size
      ensures after[j] == before[j]
    {
      SlotOf(head, j, c);
    }
  }

  /** Writing the slot just past the view appends to it. */
  lemma ViewExtend(d: seq<int>, head: nat, size: nat, v: int)
    requires head < |d| && size < |d|
    ensures ViewOf(d[(head + size) % |d| := v], head, size + 1) == ViewOf(d, head, size) + [v]
  {
    ViewWrite(d, head, size + 1, size, v);
    assert ViewOf(d, head, size + 1)[..size] == ViewOf(d, head, size);
  }

  /** Stepping the head back one slot and writing there prepends. */
  lemma ViewPrepend(d: seq<int>, head: nat, size: nat, v: int)
    requires head < |d| && size < |d|
    ensures var h := (head + |d| - 1) % |d|;
            ViewOf(d[h := v], h, size + 1) == [v] + ViewOf(d, head, size)
  {
    var c := |d|;
    var h := (head + c - 1) % c;
    Wrap(head + c - 1, c);
    assert (h + 0) % c == h by { Wrap(h, c); }
    ViewWrite(d, h, size + 1, 0, v);
    forall j | 0 <= j < size
      ensures ViewOf(d, h, size + 1)[j + 1] == ViewOf(d, head, size)[j]
    {
      SlotOf(h, j + 1, c);
      SlotOf(head, j, c);
    }
  }

  /** Moving the head forward `n` slots drops the first `n` elements. */
  lemma ViewDrop(d: seq<int>, head: nat, size: nat, n: nat)
    requires head < |d| && n <= size <= |d|
    ensures ViewOf(d, (head + n) % |d|, size - n) == ViewOf(d, head, size)[n..]
  {
    var c := |d|;
    var h := (head + n) % c;
    Wrap(head + n, c);
    var after, before := ViewOf(d, h, size - n), ViewOf(d, head, size)[n..];
    forall j | 0 <= j < size - n
      ensures after[j] == before[j]
    {
      SlotOf(h, j, c);
      SlotOf(head, n + j, c);
    }
  }

  /** A shorter view from the same head is a prefix. */
  lemma ViewPrefix(d: seq<int>, head: nat, size: nat, n: nat)
    requires 0 < |d| && n <= size
    ensures ViewOf(d, head, n) == ViewOf(d, head, size)[..n]
  {
  }

  /** A view that starts at slot 0 is a prefix of the storage. */
  lemma ViewFromZero(d: seq<int>, size: nat)
    requires 0 < |d| && size <= |d|
    ensures ViewOf(d, 0, size) == d[..size]
  {
    forall j | 0 <= j < size
      ensures ViewOf(d, 0, size)[j] == d[j]
    {
      SlotOf(0, j, |d|);
    }
  }

  // ----------------------------------------------- moving inside a view

  /** The view while `move_backward` of [lo, hi) by `dist` is at k: the
      elements at and above k + dist already hold their new values. */
  function MovedBack(s: seq<int>, k: nat, hi: nat, dist: nat): seq<int>
    requires k <= hi && hi + dist <= |s|
  {
    s[..k + dist] + s[k..hi] + s[hi + dist..]
  }

  lemma MovedBackStart(s: seq<int>, hi: nat, dist: nat)
    requires hi + dist <= |s|
    ensures MovedBack(s, hi, hi, dist) == s
  {
    assert s[..hi + dist] + s[hi + dist..] == s;
  }

  /** One step of `move_backward`: element k - 1 is copied `dist` places up. */
  lemma MoveBackwardStep(s: seq<int>, k: nat, hi: nat, dist: nat)
    requires 0 < k <= hi && hi + dist <= |s|
    ensures |MovedBack(s, k, hi, dist)| == |s|
    ensures MovedBack(s, k, hi, dist)[k - 1] == s[k - 1]
    ensures MovedBack(s, k, hi, dist)[k - 1 + dist := s[k - 1]] == MovedBack(s, k - 1, hi, dist)
  {
  }

  /** The view while `move` of [lo, hi) by `dist` is at k: the elements
      below k - dist already hold their new values. */
  function MovedForward(s: seq<int>, lo: nat, k: nat, dist: nat): seq<int>
    requires dist <= lo <= k <= |s|
  {
    s[..lo - dist] + s[lo..k] + s[k - dist..]
  }

  lemma MovedForwardStart(s: seq<int>, lo: nat, dist: nat)
    requires dist <= lo <= |s|
    ensures MovedForward(s, lo, lo, dist) == s
  {
    assert s[..lo - dist] + s[lo - dist..] == s;
  }

  /** One step of `move`: element k is copied `dist` places down. */
  lemma MoveForwardStep(s: seq<int>, lo: nat, k: nat, dist: nat)
    requires dist <= lo <= k < |s|
    ensures |MovedForward(s, lo, k, dist)| == |s|
    ensures MovedForward(s, lo, k, dist)[k] == s[k]
    ensures MovedForward(s, lo, k, dist)[k - dist := s[k]] == MovedForward(s, lo, k + 1, dist)
  {
  }

  /** Erasing [first, last) by moving the front part up and dropping the
      first `last - first` elements. */
  lemma CloseGapFromFront(s: seq<int>, first: nat, last: nat)
    requires first <= last <= |s|
    ensures MovedBack(s, 0, first, last - first)[last - first..] == s[..first] + s[last..]
  {
  }

  /** Erasing [first, last) by moving the back part down and dropping the
      last `last - first` elements. */
  lemma CloseGapFromBack(s: seq<int>, first: nat, last: nat)
    requires first <= last <= |s|
    ensures MovedForward(s, last, |s|, last - first)[..|s| - (last - first)] == s[..first] + s[last..]
  {
  }

  // ------------------------------------------------------------- ring

  class Ring {
    /** `_data`: the slots; a default ring has no allocation (nullptr),
        modelled as one slot that is never read. */
    var data: array<int>
    var circ: nat
    var head: nat
    var tail: nat

    ghost predicate Valid()
      reads this
    {
      circ > 0 && data.Length == circ && head < circ && tail < circ
    }

    /** ring(): `_circ = 1`, `_head = _tail = 0`. */
    constructor ()
      ensures Valid() && fresh(data)
      ensures circ == 1 && head == 0 && tail == 0
      ensures Size() == 0 && Capacity() == 0 && View() == []
    {
      data := new int[1];
      circ, head, tail := 1, 0, 0;
    }

    /** _idx2ptr(idx): the slot of logical index idx. */
    function Idx2Ptr(idx: nat): (p: nat)
      reads this
      requires Valid()
      ensures p < circ
      ensures idx < circ ==> p == if head + idx < circ then head + idx else head + idx - circ
    {
      StepWithinPeriod(head, idx, circ);
      (head + idx) % circ
    }

    /** _ptr2idx(p): the logical index of slot p, the inverse of _idx2ptr. */
    function Ptr2Idx(p: nat): (idx: nat)
      reads this
      requires Valid() && p < circ
      ensures idx < circ && Idx2Ptr(idx) == p
    {
      Wrap(p + circ - head, circ);
      (p + circ - head) % circ
    }

    lemma Idx2PtrInverse(idx: nat)
      requires Valid() && idx < circ
      ensures Ptr2Idx(Idx2Ptr(idx)) == idx
    {
      Wrap(head + idx, circ);
    }

    /** _diff(idx, d): the index `d` steps from idx, wrapping around.
        The unsigned sum `idx + circ + d` never goes below zero for the
        distances the ring uses (at most one period back). */
    function Diff(idx: nat, d: int): (r: nat)
      reads this
      requires Valid() && idx < circ && 0 <= idx + circ + d
      ensures r < circ && r == (idx + d) % circ
      ensures 0 <= circ + d && d <= circ ==>
                r == if idx + d < 0 then idx + d + circ else if idx + d < circ then idx + d else idx + d - circ
    {
      ModPlusPeriod(idx + d, circ);
      StepWithinPeriod(idx, d, circ);
      (idx + circ + d) % circ
    }

    /** Stepping `d` forward and then `d` back returns to the start. */
    lemma DiffUndo(idx: nat, d: int)
      requires Valid() && idx < circ && 0 <= circ + d && d <= circ
      ensures Diff(Diff(idx, d), -d) == idx
    {
      Wrap(idx + d, circ);
      Wrap(Diff(idx, d) - d, circ);
    }

    /** size(): `(tail + circ - head) % circ`, the number of slots from
        head to tail; it is always below circ. */
    function Size(): (s: nat)
      reads this
      requires Valid()
      ensures s < circ && s == if head <= tail then tail - head else tail + circ - head
    {
      Wrap(tail + circ - head, circ);
      (tail + circ - head) % circ
    }

    /** capacity(): one slot is reserved. */
    function Capacity(): (c: nat)
      reads this
      requires Valid()
      ensures Size() <= c && c + 1 == circ
    {
      circ - 1
    }

    /** empty(): `head == tail`. */
    predicate Empty()
      reads this
      requires Valid()
      ensures Empty() <==> Size() == 0
    {
      head == tail
    }

    /** The elements, front to back. */
    function View(): (r: seq<int>)
      reads this, data
      requires Valid()
      ensures |r| == Size()
    {
      ViewOf(data[..], head, Size())
    }

    /** operator[](n): unchecked, head-relative. */
    function Get(n: nat): (r: int)
      reads this, data
      requires Valid() && n < Size()
      ensures r == View()[n]
    {
      data[Idx2Ptr(n)]
    }

    /** front(): `_data[_head]`. */
    function Front(): (r: int)
      reads this, data
      requires Valid() && !Empty()
      ensures r == View()[0]
    {
      SlotOf(head, 0, circ);
      data[head]
    }

    /** back(): `_data[_diff(_tail, -1)]`. */
    function Back(): (r: int)
      reads this, data
      requires Valid() && !Empty()
      ensures r == View()[Size() - 1]
    {
      SlotOf(head, Size() - 1, circ);
      data[Diff(tail, -1)]
    }

    /** at(n) AS WRITTEN: the bound check is against size(), but the read
        is `_data[n]`, not head-relative. */
    function AtAsWritten(n: nat): (r: Result<int>)
      reads this, data
      requires Valid()
      ensures r.Err? <==> n >= Size()
      ensures r.Ok? ==> r.value == data[n]
    {
      if !(n < Size()) then Err(OutOfRange) else Ok(data[n])
    }

    /** at(n) reading slot `(head + n) % circ`, as operator[] does. */
    function At(n: nat): (r: Result<int>)
      reads this, data
      requires Valid()
      ensures r.Err? <==> n >= |View()|
      ensures r.Err? ==> r.error == OutOfRange
      ensures r.Ok? ==> r.value == View()[n]
    {
      if !(n < Size()) then Err(OutOfRange) else Ok(data[Idx2Ptr(n)])
    }

    /** rbegin() is `reverse_iterator(end())`; a reverse iterator over base
        position b visits the elements below b, last first. */
    function Rbegin(): (b: nat)
      reads this
      requires Valid()
      ensures b == |View()| && ReverseTraversal(b, 0) == Reverse(View())
    {
      Size()
    }

    /** The elements a reverse traversal from base `from` to base `to` visits. */
    function ReverseTraversal(from: nat, to: nat): seq<int>
      reads this, data
      requires Valid() && to <= from <= Size()
    {
      Reverse(View()[to..from])
    }

    /** rend() AS WRITTEN: `reverse_iterator(end())`, equal to rbegin(), so
        [rbegin(), rend()) is empty. */
    function RendAsWritten(): (b: nat)
      reads this
      requires Valid()
      ensures b == Rbegin() && ReverseTraversal(Rbegin(), b) == []
    {
      Size()
    }

    /** rend() as `reverse_iterator(begin())`: [rbegin(), rend()) visits
        every element in reverse. */
    function Rend(): (b: nat)
      reads this
      requires Valid()
      ensures b <= Rbegin() && ReverseTraversal(Rbegin(), b) == Reverse(View())
    {
      0
    }

    /** expand(): the capacity after growing, c + c / 2 + 1. */
    function Expand(): (n: nat)
      reads this
      requires Valid()
      ensures Capacity() < n && 3 * Capacity() < 2 * n
    {
      var c := Capacity();
      c + c / 2 + 1
    }

    /** migrate(dst): the elements, in order, to dst[at..]. */
    method Migrate(dst: array<int>, at: nat)
      requires Valid() && dst != data && at + Size() <= dst.Length
      modifies dst
      ensures dst[at..at + Size()] == View()
      ensures forall k :: 0 <= k < dst.Length && !(at <= k < at + Size()) ==> dst[k] == old(dst[k])
    {
      var i: nat := 0;
      while i < Size()
        invariant i <= Size()
        invariant forall k :: 0 <= k < i ==> dst[at + k] == View()[k]
        invariant forall k :: 0 <= k < dst.Length && !(at <= k < at + i) ==> dst[k] == old(dst[k])
      {
        dst[at + i] := data[Idx2Ptr(i)];
        i := i + 1;
      }
    }

    /** The reallocating branch shared by emplace_back and emplace_front:
        a new allocation of `newCapa + 1` slots receives `v` (at index
        size() for the back, at 0 for the front) and the old elements
        around it, and becomes the storage with head 0. */
    method GrowWith(newCapa: nat, v: int, front: bool)
      requires Valid() && Size() < newCapa
      modifies this
      ensures Valid() && fresh(data) && circ == newCapa + 1 && head == 0
      ensures View() == if front then [v] + old(View()) else old(View()) + [v]
    {
      hide ViewOf;
      ghost var v0 := View();
      var size := Size();
      var holder := new int[newCapa + 1];
      if front {
        holder[0] := v;
        Migrate(holder, 1);
        assert holder[..size + 1] == [v] + v0 by {
          assert holder[..size + 1] == [v] + holder[1..size + 1];
        }
      } else {
        holder[size] := v;
        Migrate(holder, 0);
        assert holder[..size + 1] == v0 + [v] by {
          assert holder[..size + 1] == holder[..size] + [v];
        }
      }
      ViewFromZero(holder[..], size + 1);
      data, circ, head, tail := holder, newCapa + 1, 0, size + 1;
    }

    /** emplace_back(v): when full, a new allocation of expand() + 1 slots
        receives v at index size() and the old elements before it, and the
        head goes back to 0; otherwise v goes to the slot after the last one
        and the tail advances. Returns back(). */
    method EmplaceBack(v: int) returns (r: int)
      requires Valid()
      modifies this, data
      ensures Valid() && r == v
      ensures View() == old(View()) + [v] && Back() == v
      ensures old(Size()) < old(Capacity()) ==>
                data == old(data) && circ == old(circ) && head == old(head)
      ensures old(Size()) >= old(Capacity()) ==>
                fresh(data) && circ == old(Expand()) + 1 && head == 0
    {
      hide ViewOf;
      ghost var v0 := View();
      var size := Size();
      if size + 1 > Capacity() {
        var newCapa := Expand();
        GrowWith(newCapa, v, false);
      } else {
        ghost var d := data[..];
        var p := Idx2Ptr(size);
        data[p] := v;
        ViewExtend(d, head, size, v);
        tail := Diff(tail, 1);
        assert View() == v0 + [v];
      }
      r := Back();
    }

    /** pop_back(): the tail steps back one slot; no slot changes. */
    method PopBack()
      requires Valid() && !Empty()
      modifies this
      ensures Valid() && View() == old(View()[..Size() - 1])
      ensures data == old(data) && circ == old(circ) && head == old(head)
    {
      hide ViewOf;
      ghost var size := Size();
      ViewPrefix(data[..], head, size, size - 1);
      tail := Diff(tail, -1);
    }

    /** emplace_front(v): when full, v goes to slot 0 of the new allocation
        and the old elements after it; otherwise the head steps back one slot
        and v is written there. Returns front(). */
    method EmplaceFront(v: int) returns (r: int)
      requires Valid()
      modifies this, data
      ensures Valid() && r == v
      ensures View() == [v] + old(View()) && Front() == v
      ensures old(Size()) < old(Capacity()) ==>
                data == old(data) && circ == old(circ) && tail == old(tail)
      ensures old(Size()) >= old(Capacity()) ==>
                fresh(data) && circ == old(Expand()) + 1 && head == 0
    {
      hide ViewOf;
      ghost var v0 := View();
      var size := Size();
      if size + 1 > Capacity() {
        var newCapa := Expand();
        GrowWith(newCapa, v, true);
      } else {
        ghost var d := data[..];
        ghost var h0 := head;
        head := Diff(head, -1);
        data[Idx2Ptr(0)] := v;
        SlotOf(head, 0, circ);
        ViewPrepend(d, h0, size, v);
        assert View() == [v] + v0;
      }
      r := Front();
    }

    /** pop_front(): the head steps forward one slot; no slot changes. */
    method PopFront()
      requires Valid() && !Empty()
      modifies this
      ensures Valid() && View() == old(View()[1..])
      ensures data == old(data) && circ == old(circ) && tail == old(tail)
    {
      hide ViewOf;
      ghost var size := Size();
      ViewDrop(data[..], head, size, 1);
      head := Diff(head, 1);
    }
 
    /** `*out = move(*in)` through two ring iterators at logical indices
        `from` and `to`. */
    method MoveElement(from: nat, to: nat)
      requires Valid() && from < Size() && to < Size()
      modifies data
      ensures View() == old(View()[to := View()[from]])
    {
      hide ViewOf;
      ghost var d := data[..];
      var x := data[Idx2Ptr(from)];
      ViewAt(d, head, Size(), from);
      data[Idx2Ptr(to)] := x;
      ViewWrite(d, head, Size(), to, x);
    }

    /** move_backward over ring iterators: the elements at [lo, hi) are
        copied to [lo + dist, hi + dist), last first. */
    method MoveBackward(lo: nat, hi: nat, dist: nat)
      requires Valid() && lo <= hi && hi + dist <= Size()
      modifies data
      ensures View() == old(MovedBack(View(), lo, hi, dist))
    {
      hide *;
      ghost var s := View();
      MovedBackStart(s, hi, dist);
      var k: nat := hi;
      while k > lo
        invariant lo <= k <= hi && |s| == Size()
        invariant View() == MovedBack(s, k, hi, dist)
      {
        MoveBackwardStep(s, k, hi, dist);
        MoveElement(k - 1, k - 1 + dist);
        k := k - 1;
      }
    }

    /** move over ring iterators: the elements at [lo, hi) are copied to
        [lo - dist, hi - dist), first first. */
    method MoveForward(lo: nat, hi: nat, dist: nat)
      requires Valid() && dist <= lo <= hi <= Size()
      modifies data
      ensures View() == old(MovedForward(View(), lo, hi, dist))
    {
      hide *;
      ghost var s := View();
      MovedForwardStart(s, lo, dist);
      var k: nat := lo;
      while k < hi
        invariant lo <= k <= hi && |s| == Size()
        invariant View() == MovedForward(s, lo, k, dist)
      {
        MoveForwardStep(s, lo, k, dist);
        MoveElement(k, k - dist);
        k := k + 1;
      }
    }

    /** cut(position): destroys the elements from `p` to the end, counting
        them, and moves the tail back by that count. */
    method Cut(p: nat)
      requires Valid() && p <= Size()
      modifies this
      ensures Valid() && View() == old(View()[..p])
      ensures data == old(data) && circ == old(circ) && head == old(head)
    {
      hide ViewOf;
      ghost var size := Size();
      var n: nat := 0;
      var pos: nat := p;
      while pos != Size()
        invariant p <= pos <= Size() && n == pos - p
      {
        pos := pos + 1;
        n := n + 1;
      }
      ViewPrefix(data[..], head, size, p);
      if n != 0 {
        tail := Diff(tail, -(n as int));
      }
    }

    /** cut_head(position): destroys the elements before `p`, counting
        them, and moves the head forward by that count. */
    method CutHead(p: nat)
      requires Valid() && p <= Size()
      modifies this
      ensures Valid() && View() == old(View()[p..])
      ensures data == old(data) && circ == old(circ) && tail == old(tail)
    {
      hide ViewOf;
      ghost var size := Size();
      var n: nat := 0;
      var pos: nat := p;
      while pos != 0
        invariant pos <= p && n == p - pos
      {
        pos := pos - 1;
        n := n + 1;
      }
      ViewDrop(data[..], head, size, n);
      if n != 0 {
        head := Diff(head, n);
      }
    }

    /** erase(position): shifts the shorter side over the erased element
        (the front part one place up and pop_front, or the back part one
        place down and pop_back) and returns the position after it, which
        is the same index. Erasing end() changes nothing. */
    method Erase(offset: nat) returns (r: nat)
      requires Valid() && offset <= Size()
      modifies this, data
      ensures Valid() && r == offset && data == old(data) && circ == old(circ)
      ensures offset < old(Size()) ==> View() == old(View()[..offset] + View()[offset + 1..])
      ensures offset == old(Size()) ==> View() == old(View())
    {
      hide *;
      ghost var s := View();
      var size := Size();
      if offset == size {
        return offset;
      }
      if offset < size - (offset + 1) {
        MoveBackward(0, offset, 1);
        PopFront();
        CloseGapFromFront(s, offset, offset + 1);
      } else {
        MoveForward(offset + 1, size, 1);
        PopBack();
        CloseGapFromBack(s, offset, offset + 1);
      }
      r := offset;
    }

    /** erase(first, last): shifts the shorter side over the gap (the front
        part up and cut_head, or the back part down and cut) and returns the
        position after the erased range, which is index `first`. */
    method EraseRange(first: nat, last: nat) returns (r: nat)
      requires Valid() && first <= last <= Size()
      modifies this, data
      ensures Valid() && r == first && data == old(data) && circ == old(circ)
      ensures View() == old(View()[..first] + View()[last..])
    {
      hide *;
      ghost var s := View();
      if first == last {
        assert s[..first] + s[last..] == s;
        return first;
      }
      var n := last - first;
      var size := Size();
      if first < size - last {
        MoveBackward(0, first, n);
        CutHead(n);
        CloseGapFromFront(s, first, last);
      } else {
        MoveForward(last, size, n);
        Cut(size - n);
        CloseGapFromBack(s, first, last);
      }
      r := first;
    }

    /** swap(other): exchanges the four fields. */
    method Swap(other: Ring)
      requires Valid() && other.Valid() && other != this
      modifies this, other
      ensures Valid() && other.Valid()
      ensures View() == old(other.View()) && other.View() == old(View())
      ensures data == old(other.data) && other.data == old(data)
    {
      data, other.data := other.data, data;
      circ, other.circ := other.circ, circ;
      head, other.head := other.head, head;
      tail, other.tail := other.tail, tail;
    }

    /** clear(): cut(begin()), then head = tail = 0. */
    method Clear()
      requires Valid()
      modifies this
      ensures Valid() && View() == [] && head == 0 && tail == 0
      ensures data == old(data) && circ == old(circ)
    {
      Cut(0);
      head, tail := 0, 0;
    }
  }

  /** After push_back(1), push_back(2), pop_front() the ring holds [2] with
      its head at slot 1, but at(0) as written reads slot 0, which still
      holds the popped 1. */
  method AtAsWrittenIgnoresHead() returns (r: Ring)
    ensures r.Valid() && r.View() == [2]
    ensures r.AtAsWritten(0) == Ok(1) && r.At(0) == Ok(2)
  {
    r := new Ring();
    var _ := r.EmplaceBack(1);
    var _ := r.EmplaceBack(2);
    r.PopFront();
  }

  // --------------------------------------------------------- comparisons

  /** operator==: equal sizes and `equal` over the elements. */
  function Eq(a: seq<int>, b: seq<int>): (r: bool)
    ensures r <==> a == b
  {
    if |a| == |b| then Equal(a, b) else false
  }

  /** operator<: `lexicographical_compare` over the elements. */
  function Lt(a: seq<int>, b: seq<int>): (r: bool)
    ensures r <==> LexLessSpec(a, b)
  {
    LexLessIsLexicographic(a, b);
    LexLess(a, b)
  }
}

=== FILE: sort.dfy ===
/** detail/sort.h: the in-place sorting algorithms on a random-access range
    of integers, here `a[lo..hi]` of an array. Each method is proved to leave
    its range sorted and a permutation of what it held, and to leave every
    element outside the range alone. */
module Sort {
  import opened AlgorithmBase
  import Bit
  import Algorithm

  // --------------------------------------------------------------- vocabulary

  /** a[lo..hi] is in ascending order (indices, not a slice). */
  predicate SortedRange(s: seq<int>, lo: int, hi: int)
    requires 0 <= lo && hi <= |s|
  {
    forall p, q :: lo <= p < q < hi ==> s[p] <= s[q]
  }

  /** Every element of s[lo..hi] is strictly greater than v. */
  predicate Above(s: seq<int>, lo: int, hi: int, v: int)
    requires 0 <= lo && hi <= |s|
  {
    forall m :: lo <= m < hi ==> v < s[m]
  }

  /** Every element of s[lo..hi] is strictly below v. */
  predicate Below(s: seq<int>, lo: int, hi: int, v: int)
    requires 0 <= lo && hi <= |s|
  {
    forall m :: lo <= m < hi ==> s[m] < v
  }

  /** s is a permutation of s0 that differs from it only inside [lo, hi). */
  predicate Permuted(s: seq<int>, s0: seq<int>, lo: int, hi: int)
  {
    multiset(s) == multiset(s0) && SameOutside(s, s0, lo, hi)
  }

  /** Exchanging two positions inside [lo, hi) keeps a permutation of s0
      confined to [lo, hi). */
  lemma SwapPermuted(s0: seq<int>, s: seq<int>, i: nat, j: nat, lo: int, hi: int)
    requires Permuted(s, s0, lo, hi) && lo <= i < hi && lo <= j < hi && hi <= |s|
    ensures Permuted(s[i := s[j]][j := s[i]], s0, lo, hi)
  {
    SwapPermutes(s, i, j);
  }

  /** iter_swap on two positions of the array. */
  method Swap(a: array<int>, i: nat, j: nat)
    requires i < a.Length && j < a.Length
    modifies a
    ensures a[..] == old(a[..])[i := old(a[j])][j := old(a[i])]
  {
    a[i], a[j] := a[j], a[i];
  }

  /** Nothing outside [lo, hi) differs between s and t. */
  predicate SameOutside(s: seq<int>, t: seq<int>, lo: int, hi: int)
  {
    |s| == |t| && forall p :: 0 <= p < |s| && (p < lo || hi <= p) ==> s[p] == t[p]
  }

  /** Moving the hole of an insertion one gap down: the value g below the
      hole fills it and tmp waits one gap lower. */
  lemma HoleMoves(s: seq<int>, h: nat, g: nat, tmp: int)
    requires 0 < g <= h < |s|
    ensures multiset(s[h := s[h - g]][h - g := tmp]) == multiset(s[h := tmp])
  {
    var u := s[h := tmp];
    assert s[h := s[h - g]][h - g := tmp] == u[h - g := u[h]][h := u[h - g]];
    SwapPermutes(u, h - g, h);
  }

  lemma MultisetSplit(s: seq<int>, lo: nat, hi: nat)
    requires lo <= hi <= |s|
    ensures multiset(s) == multiset(s[..lo]) + multiset(s[lo..hi]) + multiset(s[hi..])
  {
    assert s == s[..lo] + s[lo..hi] + s[hi..];
  }

  /** Permuting a range while leaving the rest alone permutes the range. */
  lemma RangeMultiset(s: seq<int>, t: seq<int>, lo: nat, hi: nat)
    requires lo <= hi <= |s| && multiset(s) == multiset(t) && SameOutside(s, t, lo, hi)
    ensures multiset(s[lo..hi]) == multiset(t[lo..hi])
  {
    MultisetSplit(s, lo, hi);
    MultisetSplit(t, lo, hi);
    assert s[..lo] == t[..lo] && s[hi..] == t[hi..];
    forall x ensures multiset(s[lo..hi])[x] == multiset(t[lo..hi])[x] {
      assert multiset(s)[x] == multiset(s[..lo])[x] + multiset(s[lo..hi])[x] + multiset(s[hi..])[x];
      assert multiset(t)[x] == multiset(t[..lo])[x] + multiset(t[lo..hi])[x] + multiset(t[hi..])[x];
    }
  }

  /** Being above v is a property of the multiset of the range. */
  lemma AboveByMultiset(s: seq<int>, t: seq<int>, lo: nat, hi: nat, v: int)
    requires lo <= hi <= |s| && hi <= |t| && multiset(s[lo..hi]) == multiset(t[lo..hi])
    ensures Above(s, lo, hi, v) <==> Above(t, lo, hi, v)
  {
    if Above(s, lo, hi, v) {
      forall m | lo <= m < hi ensures v < t[m] {
        assert t[lo..hi][m - lo] == t[m];
        assert t[m] in multiset(s[lo..hi]);
      }
    }
    if Above(t, lo, hi, v) {
      forall m | lo <= m < hi ensures v < s[m] {
        assert s[lo..hi][m - lo] == s[m];
        assert s[m] in multiset(t[lo..hi]);
      }
    }
  }

  // ------------------------------------------------------------ select_sort

  /** The first i positions hold the i smallest elements, in order. */
  predicate Selected(s: seq<int>, i: nat)
    requires i <= |s|
  {
    SortedRange(s, 0, i) && forall p, q :: 0 <= p < i <= q < |s| ==> s[p] <= s[q]
  }

  /** select_sort(first, last): for each position i but the last, find the
      first minimum of a[i..] and swap it into place. */
  method SelectSort(a: array<int>)
    modifies a
    ensures Sorted(a[..])
    ensures multiset(a[..]) == multiset(old(a[..]))
  {
    if a.Length == 0 {
      return;
    }
    var i := 0;
    while i + 1 != a.Length
      invariant 0 <= i < a.Length
      invariant multiset(a[..]) == multiset(old(a[..]))
      invariant Selected(a[..], i)
    {
      var m := MinFrom(a, i);
      ghost var before := a[..];
      Swap(a, i, m);
      SelectStep(before, a[..], i, m);
      i := i + 1;
    }
    SelectedAll(a[..]);
  }

  /** Swapping the minimum of s[i..] into position i extends the sorted,
      all-smaller prefix by one. */
  lemma SelectStep(s: seq<int>, t: seq<int>, i: nat, m: nat)
    requires i <= m < |s| && t == s[i := s[m]][m := s[i]]
    requires Selected(s, i) && forall k :: i <= k < |s| ==> s[m] <= s[k]
    ensures multiset(t) == multiset(s) && Selected(t, i + 1)
  {
    SwapPermutes(s, i, m);
  }

  /** With all but the last position selected, the sequence is sorted. */
  lemma SelectedAll(s: seq<int>)
    requires |s| > 0 && Selected(s, |s| - 1)
    ensures Sorted(s)
  {
  }

  /** The inner loop of select_sort: the first position of a minimum of
      a[i..]. */
  method MinFrom(a: array<int>, i: nat) returns (m: nat)
    requires i < a.Length
    ensures i <= m < a.Length
    ensures forall k :: i <= k < a.Length ==> a[m] <= a[k]
    ensures forall k :: i <= k < m ==> a[m] < a[k]
  {
    m := i;
    var j := i;
    while j != a.Length
      invariant i <= j <= a.Length && i <= m < a.Length && m <= j
      invariant forall k :: i <= k < j ==> a[m] <= a[k]
      invariant forall k :: i <= k < m ==> a[m] < a[k]
    {
      if a[j] < a[m] {
        m := j;
      }
      j := j + 1;
    }
  }

  // --------------------------------------------------------- insertion_sort

  /** s with s[k] taken out and put back in at position j <= k: what one pass
      of insertion_sort's inner loop leaves. */
  function InsertedAt(s: seq<int>, j: nat, k: nat): (r: seq<int>)
    requires j <= k < |s|
    ensures |r| == |s|
    ensures forall p :: 0 <= p < |s| ==>
      r[p] == (if p < j || k < p then s[p] else if p == j then s[k] else s[p - 1])
  {
    s[..j] + [s[k]] + s[j..k] + s[k + 1..]
  }

  lemma InsertedAtPermutes(s: seq<int>, j: nat, k: nat)
    requires j <= k < |s|
    ensures multiset(InsertedAt(s, j, k)) == multiset(s)
  {
    assert s == s[..j] + s[j..k] + [s[k]] + s[k + 1..];
  }

  /** What the shifting loop leaves, position by position: s[k] inserted at
      j, just above the last element of the sorted s[lo..k] that is not
      greater than it. That extends the sorted range by one, keeps the
      multiset, and j reaches lo exactly when s[k] is below all of s[lo..k]. */
  lemma Inserted(s: seq<int>, t: seq<int>, lo: nat, j: nat, k: nat)
    requires lo <= j <= k < |s| == |t| && SortedRange(s, lo, k)
    requires forall p :: 0 <= p < |s| && (p < j || k < p) ==> t[p] == s[p]
    requires forall q :: j < q <= k ==> t[q] == s[q - 1]
    requires t[j] == s[k]
    requires j == lo || s[j - 1] <= s[k]
    requires forall q :: j <= q < k ==> s[k] < s[q]
    ensures SortedRange(t, lo, k + 1)
    ensures multiset(t) == multiset(s)
    ensures SameOutside(t, s, lo, k + 1)
    ensures j == lo <==> Above(s, lo, k, s[k])
  {
    assert t == InsertedAt(s, j, k);
    InsertedAtPermutes(s, j, k);
  }

  /** One pass of insertion_sort's inner loop: a[k] is moved down past every
      larger element of the sorted a[lo..k]. `exhausted` tells whether the
      scan ran all the way down to lo, which happens exactly when a[k] is
      smaller than everything before it. */
  method Insert(a: array<int>, lo: nat, k: nat) returns (exhausted: bool)
    requires lo <= k < a.Length && SortedRange(a[..], lo, k)
    modifies a
    ensures SortedRange(a[..], lo, k + 1)
    ensures multiset(a[..]) == multiset(old(a[..]))
    ensures SameOutside(a[..], old(a[..]), lo, k + 1)
    ensures exhausted <==> Above(old(a[..]), lo, k, old(a[k]))
  {
    ghost var s := a[..];
    var tmp := a[k];
    var next := k;
    while next != lo && tmp < a[next - 1]
      invariant lo <= next <= k
      invariant forall p :: 0 <= p < a.Length && (p < next || k < p) ==> a[p] == s[p]
      invariant forall q :: next < q <= k ==> a[q] == s[q - 1]
      invariant forall q :: next <= q < k ==> tmp < s[q]
    {
      a[next] := a[next - 1];
      next := next - 1;
    }
    a[next] := tmp;
    Inserted(s, a[..], lo, next, k);
    exhausted := next == lo;
  }

  /** insertion_sort(first, last) with the two tests of the inner loop in
      the safe order: `next != first` before `*cur`. */
  method InsertionSort(a: array<int>, lo: nat, hi: nat)
    requires lo <= hi <= a.Length
    modifies a
    ensures SortedRange(a[..], lo, hi)
    ensures multiset(a[..]) == multiset(old(a[..]))
    ensures SameOutside(a[..], old(a[..]), lo, hi)
  {
    if lo == hi {
      return;
    }
    var sorted := lo + 1;
    while sorted != hi
      invariant lo < sorted <= hi
      invariant SortedRange(a[..], lo, sorted)
      invariant multiset(a[..]) == multiset(old(a[..]))
      invariant SameOutside(a[..], old(a[..]), lo, hi)
    {
      var _ := Insert(a, lo, sorted);
      sorted := sorted + 1;
    }
  }

  /** The condition under which insertion_sort as written reads *(first - 1):
      some element after the first is smaller than every element before it. */
  ghost predicate ReadsBeforeFirst(s: seq<int>, lo: nat, hi: nat)
    requires lo <= hi <= |s|
  {
    exists k :: lo < k < hi && Above(s, lo, k, s[k])
  }

  /** insertion_sort(first, last) as written. Its inner loop tests
      `tmp < *cur && next != first`, so when the scan reaches `next == first`
      it first reads `*cur`, one element before the range. The array is left
      as by InsertionSort; `readsBeforeFirst` records whether that read
      happened. */
  method InsertionSortAsWritten(a: array<int>, lo: nat, hi: nat) returns (readsBeforeFirst: bool)
    requires lo <= hi <= a.Length
    modifies a
    ensures SortedRange(a[..], lo, hi)
    ensures multiset(a[..]) == multiset(old(a[..]))
    ensures SameOutside(a[..], old(a[..]), lo, hi)
    ensures readsBeforeFirst <==> ReadsBeforeFirst(old(a[..]), lo, hi)
  {
    readsBeforeFirst := false;
    if lo == hi {
      return;
    }
    ghost var s := a[..];
    var sorted := lo + 1;
    while sorted != hi
      invariant lo < sorted <= hi
      invariant SortedRange(a[..], lo, sorted)
      invariant multiset(a[..]) == multiset(s)
      invariant SameOutside(a[..], s, lo, sorted)
      invariant readsBeforeFirst <==> ReadsBeforeFirst(s, lo, sorted)
    {
      ghost var before := a[..];
      var exhausted := Insert(a, lo, sorted);
      AsWrittenStep(s, before, a[..], lo, sorted, readsBeforeFirst, exhausted);
      readsBeforeFirst := readsBeforeFirst || exhausted;
      sorted := sorted + 1;
    }
  }

  /** One outer step of InsertionSortAsWritten: the range a[lo..k] held a
      permutation of s[lo..k], so a[k] is below all of it exactly when s[k]
      is below all of s[lo..k]. */
  lemma AsWrittenStep(s: seq<int>, before: seq<int>, after: seq<int>, lo: nat, k: nat, flag: bool, exhausted: bool)
    requires lo < k < |s| == |before|
    requires multiset(before) == multiset(s) && SameOutside(before, s, lo, k)
    requires flag <==> ReadsBeforeFirst(s, lo, k)
    requires exhausted <==> Above(before, lo, k, before[k])
    requires multiset(after) == multiset(before) && SameOutside(after, before, lo, k + 1)
    ensures multiset(after) == multiset(s) && SameOutside(after, s, lo, k + 1)
    ensures flag || exhausted <==> ReadsBeforeFirst(s, lo, k + 1)
  {
    RangeMultiset(before, s, lo, k);
    AboveByMultiset(before, s, lo, k, s[k]);
    ReadsBeforeFirstStep(s, lo, k);
  }

  lemma ReadsBeforeFirstStep(s: seq<int>, lo: nat, k: nat)
    requires lo < k < |s|
    ensures ReadsBeforeFirst(s, lo, k + 1) <==> ReadsBeforeFirst(s, lo, k) || Above(s, lo, k, s[k])
  {
    if ReadsBeforeFirst(s, lo, k + 1) {
      var j :| lo < j < k + 1 && Above(s, lo, j, s[j]);
      if j < k { assert ReadsBeforeFirst(s, lo, k); }
    }
  }

  /** The read happens exactly when the first element of the range is not
      its smallest. */
  lemma ReadsBeforeFirstIffFirstNotLeast(s: seq<int>, lo: nat, hi: nat)
    requires lo < hi <= |s|
    ensures ReadsBeforeFirst(s, lo, hi) <==> exists k :: lo < k < hi && s[k] < s[lo]
  {
    if exists k :: lo < k < hi && s[k] < s[lo] {
      var k :| lo < k < hi && s[k] < s[lo];
      var m := FirstLeast(s, lo, k);
      assert Above(s, lo, m, s[m]);
    }
  }

  /** The first position of the smallest element of s[lo..k+1]. */
  lemma FirstLeast(s: seq<int>, lo: nat, k: nat) returns (m: nat)
    requires lo < k < |s| && s[k] < s[lo]
    ensures lo < m <= k && Above(s, lo, m, s[m])
  {
    m := k;
    var j := k;
    while j > lo
      invariant lo <= j <= m <= k && lo < m
      invariant forall p :: j <= p < m ==> s[m] < s[p]
      invariant s[m] < s[lo]
    {
      j := j - 1;
      if s[j] <= s[m] && j > lo {
        m := j;
      }
    }
  }

  /** [2, 1]: the second element is a new minimum, so the read happens. */
  lemma InsertionSortReadsBeforeFirstOn21()
    ensures ReadsBeforeFirst([2, 1], 0, 2)
  {
    assert Above([2, 1], 0, 1, [2, 1][1]);
  }

  /** Ascending ranges of distinct elements never trigger the read. */
  lemma AscendingNeverReadsBeforeFirst(s: seq<int>, lo: nat, hi: nat)
    requires lo <= hi <= |s|
    requires forall p, q :: lo <= p < q < hi ==> s[p] < s[q]
    ensures !ReadsBeforeFirst(s, lo, hi)
  {
    forall k | lo < k < hi ensures !Above(s, lo, k, s[k]) {
      assert !(s[k] < s[lo]);
    }
  }

  // ------------------------------------------------------------- shell_sort

  type Gap = g: nat | g > 0 witness 1

  /** shell_sort's gap table: the two interleaved Sedgewick sequences
      9*4^i - 9*2^i + 1 and 4^(i+2) - 3*2^(i+2) + 1, as the source lists
      them, smallest first. The first entry is written apart so that the
      verifier sees the final gap of 1 directly. */
  const Gaps: seq<Gap> := [0x1] + [
    0x5, 0x13, 0x29, 0x6d, 0xd1, 0x1f9, 0x3a1, 0x871, 0xf41, 0x22e1,
    0x3e81, 0x8dc1, 0xfd01, 0x23b81, 0x3fa01, 0x8f701, 0xff401, 0x23ee01,
    0x3fe801, 0x8fdc01, 0xffd001, 0x23fb801, 0x3ffa001, 0x8ff7001, 0xfff4001,
    0x23fee001, 0x3ffe8001, 0x8ffdc001, 0xfffd0001, 0x23ffb8001, 0x3fffa0001,
    0x8fff70001, 0xffff40001, 0x23ffee0001, 0x3fffe80001, 0x8fffdc0001,
    0xffffd00001, 0x23fffb80001, 0x3ffffa00001, 0x8ffff700001, 0xfffff400001,
    0x23fffee00001, 0x3ffffe800001, 0x8ffffdc00001, 0xfffffd000001,
    0x23ffffb800001, 0x3fffffa000001, 0x8fffff7000001, 0xffffff4000001,
    0x23ffffee000000, 0x3fffffe8000000, 0x8fffffdc000000, 0xffffffd0000000,
    0x23fffffb8000000, 0x3ffffffa0000000, 0x8ffffff70000000, 0xfffffff40000000,
    0x23fffffee0000000, 0x3ffffffe80000000, 0x8ffffffdc0000000,
    0xfffffffd00000000]

  /** Pairs g apart are ordered, among positions below i. */
  predicate GapSortedBelow(s: seq<int>, g: nat, i: int)
  {
    forall p :: 0 <= p && p + g < i && p + g < |s| ==> s[p] <= s[p + g]
  }

  /** Sorting with gap 1 is sorting. */
  lemma {:induction false} GapOneSorted(s: seq<int>)
    requires GapSortedBelow(s, 1, |s|)
    ensures Sorted(s)
  {
    if |s| > 1 {
      var init := s[..|s| - 1];
      assert GapSortedBelow(init, 1, |init|);
      GapOneSorted(init);
      forall p, q | 0 <= p < q < |s| ensures s[p] <= s[q] {
        if q < |s| - 1 {
          assert init[p] <= init[q];
        } else if p < q - 1 {
          assert init[p] <= init[q - 1];
        }
      }
    }
  }

  /** p lies on the chain of positions i, i - g, i - 2g, ... */
  predicate OnChain(p: int, i: int, g: nat)
    requires g > 0
  {
    (i - p) % g == 0
  }

  lemma ChainShift(p: int, i: int, g: nat)
    requires g > 0
    ensures OnChain(p + g, i, g) <==> OnChain(p, i, g)
  {
    Bit.ModAddMultiple(-1, i - p, g);
  }

  /** Two different positions of a chain are at least g apart. */
  lemma ChainSpacing(p: int, q: int, i: int, g: nat)
    requires g > 0 && OnChain(p, i, g) && OnChain(q, i, g) && p < q
    ensures p + g <= q
  {
    var x, y := (i - p) / g, (i - q) / g;
    assert i - p == g * x && i - q == g * y;
    assert q - p == g * (x - y);
    Bit.MulSign(g, x - y);
  }

  /** The state of shell_sort's inner loop while it inserts s[i] = tmp into
      its chain: the hole is at h, the chain positions above it up to i hold
      the elements that were one gap lower, everything else is as it was,
      and tmp is smaller than every chain element it has been moved past. */
  ghost predicate GapHole(u: seq<int>, s: seq<int>, i: nat, h: nat, g: nat, tmp: int)
  {
    |u| == |s| && 0 < g && h <= i < |s| && OnChain(h, i, g) && tmp == s[i] &&
    multiset(u[h := tmp]) == multiset(s) && Shifted(u, s, i, h, g) && MovedPast(s, i, h, g, tmp)
  }

  /** Chain positions above the hole hold the element one gap below; all
      other positions are as they were. */
  predicate Shifted(u: seq<int>, s: seq<int>, i: nat, h: nat, g: nat)
    requires 0 < g && |u| == |s|
  {
    (forall p {:trigger u[p]} :: 0 <= p < |s| && !(h < p <= i && OnChain(p, i, g)) ==> u[p] == s[p]) &&
    (forall q {:trigger u[q]} :: g <= q && h < q <= i && q < |s| && OnChain(q, i, g) ==> u[q] == s[q - g])
  }

  /** tmp is smaller than the chain elements it has been moved past. */
  predicate MovedPast(s: seq<int>, i: nat, h: nat, g: nat, tmp: int)
    requires 0 < g && i <= |s|
  {
    forall p :: h <= p < i && OnChain(p, i, g) ==> tmp < s[p]
  }

  lemma GapHoleStart(s: seq<int>, i: nat, g: nat)
    requires 0 < g && i < |s|
    ensures GapHole(s, s, i, i, g, s[i])
  {
    assert s[i := s[i]] == s;
  }

  /** One shift of the inner loop: the element one gap below the hole moves
      up into it. */
  lemma GapHoleStep(u: seq<int>, s: seq<int>, i: nat, h: nat, g: nat, tmp: int)
    requires GapHole(u, s, i, h, g, tmp) && g <= h && tmp < u[h - g]
    ensures GapHole(u[h := u[h - g]], s, i, h - g, g, tmp)
  {
    var v := u[h := u[h - g]];
    ChainShift(h - g, i, g);
    HoleMoves(u, h, g, tmp);
    assert u[h - g] == s[h - g];
    forall p | 0 <= p < |s| && !(h - g < p <= i && OnChain(p, i, g))
      ensures v[p] == s[p]
    {
      assert p != h && u[p] == s[p];
    }
    forall q | g <= q && h - g < q <= i && OnChain(q, i, g)
      ensures v[q] == s[q - g]
    {
      if q != h {
        ChainSpacing(h - g, q, i, g);
        assert u[q] == s[q - g];
      }
    }
    forall p | h - g <= p < i && OnChain(p, i, g)
      ensures tmp < s[p]
    {
      if p != h - g {
        ChainSpacing(h - g, p, i, g);
      }
    }
  }

  /** The loop ends with tmp dropped into the hole: the chain is sorted up
      to i and so the pairs g apart below i + 1 are ordered. */
  lemma GapHoleExit(u: seq<int>, s: seq<int>, i: nat, h: nat, g: nat, tmp: int)
    requires GapHole(u, s, i, h, g, tmp) && GapSortedBelow(s, g, i)
    requires h < g || !(tmp < u[h - g])
    ensures GapSortedBelow(u[h := tmp], g, i + 1)
    ensures multiset(u[h := tmp]) == multiset(s)
    ensures SameOutside(u[h := tmp], s, 0, i + 1)
  {
    var t := u[h := tmp];
    forall p | 0 <= p && p + g < i + 1 && p + g < |t|
      ensures t[p] <= t[p + g]
    {
      GapPair(u, s, i, h, g, tmp, p);
    }
  }

  lemma GapPair(u: seq<int>, s: seq<int>, i: nat, h: nat, g: nat, tmp: int, p: nat)
    requires 0 < g && h <= i < |s| == |u| && OnChain(h, i, g) && GapSortedBelow(s, g, i)
    requires Shifted(u, s, i, h, g) && MovedPast(s, i, h, g, tmp)
    requires h < g || !(tmp < u[h - g])
    requires p + g <= i
    ensures u[h := tmp][p] <= u[h := tmp][p + g]
  {
    ChainShift(p, i, g);
    if p + g <= h {
      GapPairBelow(u, s, i, h, g, tmp, p);
    } else if p == h {
      assert u[p + g] == s[p];
    } else if p < h {
      if OnChain(p + g, i, g) {
        ChainSpacing(p, h, i, g);
      }
      assert u[p] == s[p] && u[p + g] == s[p + g];
    } else {
      GapPairAbove(u, s, i, h, g, p);
    }
  }

  lemma GapPairBelow(u: seq<int>, s: seq<int>, i: nat, h: nat, g: nat, tmp: int, p: nat)
    requires 0 < g && h <= i < |s| == |u| && GapSortedBelow(s, g, i)
    requires Shifted(u, s, i, h, g)
    requires h < g || !(tmp < u[h - g])
    requires p + g <= h
    ensures u[h := tmp][p] <= u[h := tmp][p + g]
  {
    assert u[p] == s[p];
    if p + g < h {
      assert u[p + g] == s[p + g];
    }
  }

  lemma GapPairAbove(u: seq<int>, s: seq<int>, i: nat, h: nat, g: nat, p: nat)
    requires 0 < g && h < p && p + g <= i < |s| == |u| && GapSortedBelow(s, g, i)
    requires Shifted(u, s, i, h, g) && OnChain(h, i, g)
    requires OnChain(p + g, i, g) <==> OnChain(p, i, g)
    ensures u[p] <= u[p + g]
  {
    if OnChain(p, i, g) {
      ChainSpacing(h, p, i, g);
      assert u[p + g] == s[p];
      assert u[p] == s[p - g];
    } else {
      assert u[p] == s[p] && u[p + g] == s[p + g];
    }
  }

  /** The inner loop of shell_sort for one i: a[i] is inserted into the
      g-sorted chain i - g, i - 2g, ... below it. */
  method GapInsert(a: array<int>, g: nat, i: nat)
    requires 0 < g <= i < a.Length && GapSortedBelow(a[..], g, i)
    modifies a
    ensures GapSortedBelow(a[..], g, i + 1)
    ensures multiset(a[..]) == multiset(old(a[..]))
  {
    ghost var s := a[..];
    var tmp := a[i];
    var h: nat := i;
    GapHoleStart(s, i, g);
    while h >= g && tmp < a[h - g]
      invariant GapHole(a[..], s, i, h, g, tmp)
      decreases h
    {
      GapHoleStep(a[..], s, i, h, g, tmp);
      a[h] := a[h - g];
      h := h - g;
    }
    GapHoleExit(a[..], s, i, h, g, tmp);
    a[h] := tmp;
  }

  /** One pass of shell_sort with gap g: afterwards every pair of elements g
      apart is in order. */
  method GapPass(a: array<int>, g: nat)
    requires 0 < g
    modifies a
    ensures GapSortedBelow(a[..], g, a.Length)
    ensures multiset(a[..]) == multiset(old(a[..]))
  {
    var i := g;
    while i < a.Length
      invariant g <= i
      invariant GapSortedBelow(a[..], g, i)
      invariant multiset(a[..]) == multiset(old(a[..]))
    {
      GapInsert(a, g, i);
      i := i + 1;
    }
  }

  /** shell_sort(first, last): find the first gap of the table that is not
      below the length, then run the passes with every smaller gap, the last
      one with gap 1. The table ends at 0xfffffffd00000000, and the search
      runs past its end for longer ranges. */
  method ShellSort(a: array<int>)
    requires a.Length <= Gaps[|Gaps| - 1]
    modifies a
    ensures Sorted(a[..])
    ensures multiset(a[..]) == multiset(old(a[..]))
  {
    assert Gaps[0] == 1;
    var index := 0;
    while a.Length > Gaps[index]
      invariant 0 <= index < |Gaps|
      invariant index > 0 ==> Gaps[index - 1] < a.Length
      decreases |Gaps| - index
    {
      index := index + 1;
    }
    ghost var top := index;
    index := index - 1;
    while index >= 0
      invariant -1 <= index < top
      invariant multiset(a[..]) == multiset(old(a[..]))
      invariant index < top - 1 ==> GapSortedBelow(a[..], Gaps[index + 1], a.Length)
    {
      GapPass(a, Gaps[index]);
      index := index - 1;
    }
    if top > 0 {
      GapOneSorted(a[..]);
    }
  }

  // ------------------------------------------------- median and partitioning

  /** The median of three values, defined independently of the comparison
      tree below: the larger of min(x, y) and min(max(x, y), z). */
  function Median3(x: int, y: int, z: int): int
  {
    var lo := if x < y then x else y;
    var hi := if x < y then y else x;
    var m := if hi < z then hi else z;
    if lo < m then m else lo
  }

  /** Median3 is one of its arguments, with at least two of the three at or
      below it and at least two at or above it. */
  lemma Median3IsMedian(x: int, y: int, z: int)
    ensures var m := Median3(x, y, z);
      (m == x || m == y || m == z) &&
      (if x <= m then 1 else 0) + (if y <= m then 1 else 0) + (if z <= m then 1 else 0) >= 2 &&
      (if m <= x then 1 else 0) + (if m <= y then 1 else 0) + (if m <= z then 1 else 0) >= 2
  {
  }

  /** median(a, b, c): the value in the middle. */
  function Median(x: int, y: int, z: int): (r: int)
    ensures r == Median3(x, y, z)
  {
    if x < y then
      if y < z then y else if x < z then z else x
    else if x < z then x
    else if y < z then z
    else y
  }

  /** iter_median(a, b, c): which of the three positions holds the median. */
  function IterMedian(s: seq<int>, i: nat, j: nat, k: nat): (r: nat)
    requires i < |s| && j < |s| && k < |s|
    ensures r == i || r == j || r == k
    ensures s[r] == Median3(s[i], s[j], s[k])
  {
    if s[i] < s[j] then
      if s[j] < s[k] then j else if s[i] < s[k] then k else i
    else if s[i] < s[k] then i
    else if s[j] < s[k] then k
    else j
  }

  /** Every element of s[lo..hi] is at most v. */
  predicate AtMost(s: seq<int>, lo: int, hi: int, v: int)
    requires 0 <= lo && hi <= |s|
  {
    forall k :: lo <= k < hi ==> s[k] <= v
  }

  /** Every element of s[lo..hi] is at least v. */
  predicate AtLeast(s: seq<int>, lo: int, hi: int, v: int)
    requires 0 <= lo && hi <= |s|
  {
    forall k :: lo <= k < hi ==> v <= s[k]
  }

  /** The state of the partition loop of quick_sort_impl and sort_impl at
      the top of each round: the pivot value pv sits at pivot; everything
      left of `left` is at most pv and everything from `right` on is at
      least pv; stopL and stopR are the elements that stop the two scans,
      so neither runs off the range; in the first round, `second` is a
      position right of lo holding at most pv, which stops the right scan
      before it reaches lo. */
  ghost predicate Partitioning(s: seq<int>, lo: nat, hi: nat, left: nat, right: nat,
                               pivot: nat, pv: int, stopL: nat, stopR: nat, second: nat)
  {
    lo <= left <= right <= hi <= |s| && lo <= pivot < hi && s[pivot] == pv &&
    AtMost(s, lo, left, pv) && AtLeast(s, right, hi, pv) &&
    left <= stopL < hi && pv <= s[stopL] &&
    lo <= stopR < right && s[stopR] <= pv &&
    (left == lo ==> right == hi && lo < second < hi && s[second] <= pv)
  }

  /** The first round starts with the median of the first, middle and last
      elements as pivot: the scans stop at the pivot, and the right scan
      also at `second`, the last element when it is at most the pivot value
      and the middle one otherwise. */
  lemma PartitionStart(s: seq<int>, lo: nat, hi: nat, pivot: nat, second: nat)
    requires lo + 3 <= hi <= |s|
    requires pivot == IterMedian(s, lo, lo + (hi - lo) / 2, hi - 1)
    requires second == if s[hi - 1] <= s[pivot] then hi - 1 else lo + (hi - lo) / 2
    ensures Partitioning(s, lo, hi, lo, hi, pivot, s[pivot], pivot, pivot, second)
  {
    Median3IsMedian(s[lo], s[lo + (hi - lo) / 2], s[hi - 1]);
  }

  /** After the two scans and the exchange, the round's invariant holds for
      the next round. */
  lemma PartitionRound(s0: seq<int>, s: seq<int>, t: seq<int>, lo: nat, hi: nat, left0: nat, right0: nat,
                       l: nat, r: nat, pivot: nat, newPivot: nat, pv: int, stopL: nat, stopR: nat, second: nat)
    requires Partitioning(s, lo, hi, left0, right0, pivot, pv, stopL, stopR, second)
    requires Permuted(s, s0, lo, hi)
    requires left0 <= l < r < right0
    requires pv <= s[l] && Below(s, left0, l, pv)
    requires s[r] <= pv && Above(s, r + 1, right0, pv)
    requires t == s[l := s[r]][r := s[l]]
    requires newPivot == (if l == pivot then r else if r == pivot then l else pivot)
    ensures Permuted(t, s0, lo, hi)
    ensures Partitioning(t, lo, hi, l + 1, r, newPivot, pv, r, l, 0)
  {
    SwapPermuted(s0, s, l, r, lo, hi);
  }

  /** The upward scan `while (*left < *pivot) ++left`: it stops at the
      first element not below the pivot, at the latest at stop. */
  method ScanUp(a: array<int>, from: nat, pivot: nat, ghost stop: nat) returns (i: nat)
    requires from <= stop < a.Length && pivot < a.Length && a[pivot] <= a[stop]
    ensures from <= i <= stop && a[pivot] <= a[i]
    ensures Below(a[..], from, i, a[pivot])
  {
    i := from;
    while a[i] < a[pivot]
      invariant from <= i <= stop
      invariant Below(a[..], from, i, a[pivot])
      decreases stop - i
    {
      i := i + 1;
    }
  }

  /** The downward scan `while (*pivot < *right) --right`: it stops at the
      first element not above the pivot, at the latest at stop. */
  method ScanDown(a: array<int>, from: nat, pivot: nat, ghost stop: nat) returns (j: nat)
    requires stop <= from < a.Length && pivot < a.Length && a[stop] <= a[pivot]
    ensures stop <= j <= from && a[j] <= a[pivot]
    ensures Above(a[..], j + 1, from + 1, a[pivot])
  {
    j := from;
    while a[pivot] < a[j]
      invariant stop <= j <= from
      invariant Above(a[..], j + 1, from + 1, a[pivot])
      decreases j
    {
      j := j - 1;
    }
  }

  /** When the scans cross, `left` splits the range. */
  lemma PartitionDone(s: seq<int>, lo: nat, hi: nat, left0: nat, right0: nat, l: nat, r: nat,
                      pivot: nat, pv: int, stopL: nat, stopR: nat, second: nat)
    requires Partitioning(s, lo, hi, left0, right0, pivot, pv, stopL, stopR, second)
    requires left0 <= l <= stopL && pv <= s[l] && Below(s, left0, l, pv)
    requires (if left0 == lo then second else stopR) <= r < right0
    requires Above(s, r + 1, right0, pv)
    requires r <= l
    ensures lo < l < hi
    ensures AtMost(s, lo, l, pv) && AtLeast(s, l, hi, pv)
  {
  }

  /** The loop of quick_sort_impl and sort_impl that splits a[lo..hi]
      around the median of its first, middle and last elements: it returns
      the split point `left`, strictly inside the range, with every element
      before it at most the pivot value and every element from it on at
      least the pivot value. */
  method Partition(a: array<int>, lo: nat, hi: nat) returns (left: nat, ghost pv: int)
    requires lo + 3 <= hi <= a.Length
    modifies a
    ensures lo < left < hi
    ensures AtMost(a[..], lo, left, pv) && AtLeast(a[..], left, hi, pv)
    ensures multiset(a[..]) == multiset(old(a[..]))
    ensures SameOutside(a[..], old(a[..]), lo, hi)
  {
    var mid := lo + (hi - lo) / 2;
    var pivot: nat := IterMedian(a[..], lo, mid, hi - 1);
    pv := a[pivot];
    ghost var second: nat := if a[hi - 1] <= pv then hi - 1 else mid;
    PartitionStart(a[..], lo, hi, pivot, second);
    ghost var stopL: nat, stopR: nat := pivot, pivot;
    left := lo;
    var right: nat := hi;
    while true
      invariant Partitioning(a[..], lo, hi, left, right, pivot, pv, stopL, stopR, second)
      invariant Permuted(a[..], old(a[..]), lo, hi)
      decreases right - left
    {
      ghost var left0, right0 := left, right;
      left := ScanUp(a, left, pivot, stopL);
      right := ScanDown(a, right - 1, pivot, if left0 == lo then second else stopR);
      if left >= right {
        PartitionDone(a[..], lo, hi, left0, right0, left, right, pivot, pv, stopL, stopR, second);
        break;
      }
      ghost var before := a[..];
      Swap(a, left, right);
      var newPivot: nat := if left == pivot then right else if right == pivot then left else pivot;
      PartitionRound(old(a[..]), before, a[..], lo, hi, left0, right0, left, right, pivot, newPivot, pv, stopL, stopR, second);
      pivot := newPivot;
      stopL, stopR := right, left;
      left := left + 1;
    }
  }

  /** quick_sort_impl(first, last): ranges of fewer than 28 elements are
      left alone; longer ones are partitioned and both sides sorted the
      same way. */
  method QuickSortImpl(a: array<int>, lo: nat, hi: nat)
    requires lo <= hi <= a.Length
    modifies a
    ensures multiset(a[..]) == multiset(old(a[..]))
    ensures SameOutside(a[..], old(a[..]), lo, hi)
    decreases hi - lo
  {
    if hi - lo < 28 {
      return;
    }
    var left, _ := Partition(a, lo, hi);
    QuickSortImpl(a, lo, left);
    QuickSortImpl(a, left, hi);
  }

  /** quick_sort(first, last): quick_sort_impl, then insertion_sort (as
      written) over the whole range. `mid` is the range between the two
      passes; `readsBeforeFirst` tells whether the insertion sort read the
      element before the range, which happens exactly when quick_sort_impl
      left something smaller than the first element behind it. */
  method QuickSort(a: array<int>) returns (readsBeforeFirst: bool, ghost mid: seq<int>)
    modifies a
    ensures Sorted(a[..])
    ensures multiset(a[..]) == multiset(old(a[..])) == multiset(mid)
    ensures readsBeforeFirst <==> exists k :: 0 < k < |mid| && mid[k] < mid[0]
  {
    readsBeforeFirst, mid := false, a[..];
    if 0 < a.Length {
      QuickSortImpl(a, 0, a.Length);
      mid := a[..];
      readsBeforeFirst := InsertionSortAsWritten(a, 0, a.Length);
      ReadsBeforeFirstIffFirstNotLeast(mid, 0, a.Length);
    }
  }

  /** sort_impl(first, last): while more than 32 elements remain, partition,
      sort the right side recursively and continue with the left side. */
  method SortImpl(a: array<int>, lo: nat, hi: nat)
    requires lo <= hi <= a.Length
    modifies a
    ensures multiset(a[..]) == multiset(old(a[..]))
    ensures SameOutside(a[..], old(a[..]), lo, hi)
    decreases hi - lo
  {
    var last := hi;
    while last - lo > 32
      invariant lo <= last <= hi
      invariant multiset(a[..]) == multiset(old(a[..]))
      invariant SameOutside(a[..], old(a[..]), lo, hi)
      decreases last - lo
    {
      var left, _ := Partition(a, lo, last);
      SortImpl(a, left, last);
      last := left;
    }
  }

  /** sort(first, last): sort_impl, then insertion_sort (as written) over
      the whole range, which leaves it sorted. `mid` and `readsBeforeFirst`
      are as for QuickSort. */
  method Sort(a: array<int>) returns (readsBeforeFirst: bool, ghost mid: seq<int>)
    modifies a
    ensures Sorted(a[..])
    ensures multiset(a[..]) == multiset(old(a[..])) == multiset(mid)
    ensures readsBeforeFirst <==> exists k :: 0 < k < |mid| && mid[k] < mid[0]
  {
    readsBeforeFirst, mid := false, a[..];
    if 0 < a.Length {
      SortImpl(a, 0, a.Length);
      mid := a[..];
      readsBeforeFirst := InsertionSortAsWritten(a, 0, a.Length);
      ReadsBeforeFirstIffFirstNotLeast(mid, 0, a.Length);
    }
  }

  // -------------------------------------------------------------- merge_sort

  /** Integers as their own sort key, to reuse Algorithm.MergeSpec. */
  function Self(v: int): int { v }

  /** What merge_sort_impl(first, last, tmp) leaves in [first, last): the
      elements of its leaves. A range shorter than 28 is a leaf sorted in
      place; a longer one is sorted from the two halves of the OTHER array,
      each sorted in turn with the roles of the arrays exchanged. */
  ghost function Leaves(x: seq<int>, t: seq<int>): multiset<int>
    requires |x| == |t|
    decreases |x|
  {
    if |x| < 28 then multiset(x)
    else
      var h := |x| / 2;
      Leaves(t[..h], x[..h]) + Leaves(t[h..], x[h..])
  }

  /** When both arrays hold the same elements the leaves are the input. */
  lemma {:induction false} LeavesOfCopy(s: seq<int>)
    ensures Leaves(s, s) == multiset(s)
    decreases |s|
  {
    if |s| >= 28 {
      var h := |s| / 2;
      LeavesOfCopy(s[..h]);
      LeavesOfCopy(s[h..]);
      assert s == s[..h] + s[h..];
    }
  }

  /** When the scratch array does not hold a copy, a range of 28 to 54
      elements is sorted from the scratch array alone: the input is lost. */
  lemma LeavesOfShortRange(x: seq<int>, t: seq<int>)
    requires |x| == |t| && 28 <= |x| <= 54
    ensures Leaves(x, t) == multiset(t)
  {
    var h := |x| / 2;
    assert |t[..h]| < 28 && |t[h..]| < 28;
    assert Leaves(t[..h], x[..h]) == multiset(t[..h]);
    assert Leaves(t[h..], x[h..]) == multiset(t[h..]);
    assert t == t[..h] + t[h..];
  }

  /** Twenty-eight ones with a scratch array of zeros: merge_sort as written
      returns twenty-eight zeros. */
  lemma MergeSortAsWrittenLosesInput()
    ensures Leaves(seq(28, _ => 1), seq(28, _ => 0)) != multiset(seq(28, _ => 1))
  {
    var ones, zeros := seq(28, _ => 1), seq(28, _ => 0);
    LeavesOfShortRange(ones, zeros);
    assert ones[0] == 1;
    assert 1 in multiset(ones);
    assert forall k :: 0 <= k < 28 ==> zeros[k] != 1;
    assert 1 !in multiset(zeros);
  }

  /** The three merge loops of merge_sort_impl: the two sorted halves l
      and r of the other array are merged into x[lo..lo + |l| + |r|], the
      left element being taken on ties (`*i < *j || *i == *j`). The three
      loops are one loop here whose branch takes from the half that is left
      once the other runs out; i and j count the elements taken from each
      half. The array read from is never written during the merge, so its
      halves are passed as their contents. */
  method MergeHalves(l: seq<int>, r: seq<int>, lo: nat, x: array<int>)
    requires lo + |l| + |r| <= x.Length
    modifies x
    ensures x[lo..lo + |l| + |r|] == Algorithm.MergeSpec(l, r, Self)
    ensures forall p :: 0 <= p < lo || lo + |l| + |r| <= p < x.Length ==> x[p] == old(x[p])
  {
    ghost var whole := Algorithm.MergeSpec(l, r, Self);
    ghost var written: seq<int> := [];
    var i, j := 0, 0;
    var out := lo;
    while i != |l| || j != |r|
      invariant 0 <= i <= |l| && 0 <= j <= |r| && out == lo + i + j
      invariant |written| == i + j
      invariant forall p :: lo <= p < out ==> x[p] == written[p - lo]
      invariant written + Algorithm.MergeSpec(l[i..], r[j..], Self) == whole
      invariant forall p :: 0 <= p < lo || lo + |l| + |r| <= p < x.Length ==> x[p] == old(x[p])
      decreases |l| + |r| - i - j
    {
      ghost var v, i', j' := Algorithm.MergeAdvance(l, r, Self, i, j, written, whole);
      if j == |r| || (i != |l| && (l[i] < r[j] || l[i] == r[j])) {
        x[out] := l[i];
        i := i + 1;
      } else {
        x[out] := r[j];
        j := j + 1;
      }
      written := written + [v];
      out := out + 1;
    }
    assert Algorithm.MergeSpec(l[i..], r[j..], Self) == [];
    assert x[lo..out] == written;
  }

  /** The slices a caller reads after a call that changed only [lo, hi). */
  lemma SliceOutside(s: seq<int>, t: seq<int>, lo: nat, hi: nat, from: nat, to: nat)
    requires SameOutside(s, t, lo, hi) && from <= to <= |s| && (to <= lo || hi <= from)
    ensures s[from..to] == t[from..to]
  {
  }

  /** One level of Leaves over the range [lo, hi) of two arrays. */
  lemma LeavesOfRange(x: seq<int>, t: seq<int>, lo: nat, mid: nat, hi: nat)
    requires lo + 28 <= hi <= |x| && hi <= |t| && mid == lo + (hi - lo) / 2
    ensures Leaves(x[lo..hi], t[lo..hi]) == Leaves(t[lo..mid], x[lo..mid]) + Leaves(t[mid..hi], x[mid..hi])
  {
    var h := mid - lo;
    assert x[lo..hi][..h] == x[lo..mid] && x[lo..hi][h..] == x[mid..hi];
    assert t[lo..hi][..h] == t[lo..mid] && t[lo..hi][h..] == t[mid..hi];
  }

  /** Merging the sorted halves of s[lo..hi] gives a sorted sequence of
      their elements. */
  lemma MergedHalves(s: seq<int>, lo: nat, mid: nat, hi: nat, merged: seq<int>)
    requires lo <= mid <= hi <= |s| && SortedRange(s, lo, mid) && SortedRange(s, mid, hi)
    requires merged == Algorithm.MergeSpec(s[lo..mid], s[mid..hi], Self)
    ensures SortedRange(merged, 0, |merged|)
    ensures multiset(merged) == multiset(s[lo..mid]) + multiset(s[mid..hi])
  {
    Algorithm.MergeSorted(s[lo..mid], s[mid..hi], Self);
    Algorithm.MergePermutes(s[lo..mid], s[mid..hi], Self);
  }

  /** The bookkeeping of one split of merge_sort_impl: x0, t0 on entry;
      t1, x1 after sorting the left half into t; t2, x2 after sorting the
      right half into t; x3 after merging both halves of t into x. */
  lemma MergeSortSplit(x0: seq<int>, t0: seq<int>, x1: seq<int>, t1: seq<int>,
                       x2: seq<int>, t2: seq<int>, x3: seq<int>, lo: nat, mid: nat, hi: nat)
    requires |x0| == |x1| == |x2| == |x3| && |t0| == |t1| == |t2|
    requires lo + 28 <= hi <= |x0| && hi <= |t0| && mid == lo + (hi - lo) / 2
    requires SortedRange(t1, lo, mid) && multiset(t1[lo..mid]) == Leaves(t0[lo..mid], x0[lo..mid])
    requires SameOutside(t1, t0, lo, mid) && SameOutside(x1, x0, lo, mid)
    requires SortedRange(t2, mid, hi) && multiset(t2[mid..hi]) == Leaves(t1[mid..hi], x1[mid..hi])
    requires SameOutside(t2, t1, mid, hi) && SameOutside(x2, x1, mid, hi)
    requires x3[lo..hi] == Algorithm.MergeSpec(t2[lo..mid], t2[mid..hi], Self)
    requires SameOutside(x3, x2, lo, hi)
    ensures SortedRange(x3, lo, hi) && multiset(x3[lo..hi]) == Leaves(x0[lo..hi], t0[lo..hi])
    ensures SameOutside(x3, x0, lo, hi) && SameOutside(t2, t0, lo, hi)
  {
    SliceOutside(x1, x0, lo, mid, mid, hi);
    SliceOutside(t1, t0, lo, mid, mid, hi);
    SliceOutside(t2, t1, mid, hi, lo, mid);
    LeavesOfRange(x0, t0, lo, mid, hi);
    forall p, q | lo <= p < q < mid ensures t2[p] <= t2[q] {
      assert t2[p] == t1[p] && t2[q] == t1[q];
    }
    MergedHalves(t2, lo, mid, hi, x3[lo..hi]);
    forall p, q | lo <= p < q < hi ensures x3[p] <= x3[q] {
      assert x3[lo..hi][p - lo] <= x3[lo..hi][q - lo];
    }
  }

  /** merge_sort_impl(first, last, tmp_first) on the ranges [lo, hi) of x
      and t: x[lo..hi] ends sorted and holds the elements of the leaves;
      only [lo, hi) of either array changes. */
  method MergeSortImpl(x: array<int>, t: array<int>, lo: nat, hi: nat) returns (readsBeforeFirst: bool)
    requires x != t && lo <= hi <= x.Length && hi <= t.Length
    modifies x, t
    ensures SortedRange(x[..], lo, hi)
    ensures multiset(x[lo..hi]) == Leaves(old(x[..])[lo..hi], old(t[..])[lo..hi])
    ensures SameOutside(x[..], old(x[..]), lo, hi) && SameOutside(t[..], old(t[..]), lo, hi)
    ensures hi - lo < 28 ==> (readsBeforeFirst <==> ReadsBeforeFirst(old(x[..]), lo, hi))
    decreases hi - lo
  {
    if hi - lo < 28 {
      readsBeforeFirst := InsertionSortAsWritten(x, lo, hi);
      RangeMultiset(x[..], old(x[..]), lo, hi);
      return;
    }
    ghost var x0, t0 := x[..], t[..];
    var mid := lo + (hi - lo) / 2;
    var left := MergeSortImpl(t, x, lo, mid);
    ghost var x1, t1 := x[..], t[..];
    var right := MergeSortImpl(t, x, mid, hi);
    readsBeforeFirst := left || right;
    ghost var x2, t2 := x[..], t[..];
    MergeHalves(t[lo..mid], t[mid..hi], lo, x);
    assert SameOutside(x[..], x2, lo, hi);
    MergeSortSplit(x0, t0, x1, t1, x2, t2, x[..], lo, mid, hi);
  }

  /** merge_sort(first, last) as written: merge_sort_impl runs with a fresh
      scratch array that nothing fills, so for ranges of 28 elements or more
      what ends in [first, last) is the scratch array's leftover content,
      sorted. `scratch` stands for that content. */
  method MergeSortAsWritten(a: array<int>, scratch: array<int>)
    requires a != scratch && scratch.Length == a.Length
    modifies a, scratch
    ensures Sorted(a[..])
    ensures multiset(a[..]) == Leaves(old(a[..]), old(scratch[..]))
  {
    var _ := MergeSortImpl(a, scratch, 0, a.Length);
    assert a[..] == a[0..a.Length];
    assert old(a[..])[0..a.Length] == old(a[..]) && old(scratch[..])[0..a.Length] == old(scratch[..]);
  }

  /** merge_sort(first, last) with the scratch array filled with a copy of
      the range first: the range ends sorted and a permutation of its input. */
  method MergeSort(a: array<int>)
    modifies a
    ensures Sorted(a[..])
    ensures multiset(a[..]) == multiset(old(a[..]))
  {
    var tmp := new int[a.Length];
    forall k | 0 <= k < a.Length {
      tmp[k] := a[k];
    }
    assert tmp[..] == a[..];
    ghost var s := a[..];
    LeavesOfCopy(s);
    assert s[0..a.Length] == s;
    assert tmp[..] == s;
    var _ := MergeSortImpl(a, tmp, 0, a.Length);
    assert a[..] == a[0..a.Length];
    assert multiset(a[..]) == Leaves(s, s);
    assert SortedRange(a[..], 0, a.Length);
    assert s == old(a[..]);
  }

  // --------------------------------------------------------------- heap_sort

  /** The max-heap condition at position p of the heap s[0..end]: p is at
      least each of its children 2p + 1 and 2p + 2 that lie in the heap. */
  predicate HeapAt(s: seq<int>, p: nat, end: int)
    requires end < |s|
  {
    (2 * p + 1 <= end ==> s[2 * p + 1] <= s[p]) && (2 * p + 2 <= end ==> s[2 * p + 2] <= s[p])
  }

  /** The max-heap condition at every position of [begin, end]. */
  predicate HeapFrom(s: seq<int>, begin: int, end: int)
    requires end < |s|
  {
    forall p: nat :: begin <= p <= end ==> HeapAt(s, p, end)
  }

  /** The state of heap_sink's loop: the heap condition holds everywhere in
      [begin, end] but at `parent`, and the element gp above parent is at
      least parent's children. */
  ghost predicate Sinking(s: seq<int>, begin: nat, end: nat, parent: nat, gp: nat)
    requires end < |s|
  {
    (forall p: nat :: begin <= p <= end && p != parent ==> HeapAt(s, p, end)) &&
    (parent > begin ==>
      begin <= gp < parent && (parent == 2 * gp + 1 || parent == 2 * gp + 2) &&
      (2 * parent + 1 <= end ==> s[2 * parent + 1] <= s[gp]) &&
      (2 * parent + 2 <= end ==> s[2 * parent + 2] <= s[gp]))
  }

  /** One exchange of heap_sink: parent takes its larger child's value and
      the defect moves down to the child. */
  lemma SinkStep(s0: seq<int>, s: seq<int>, t: seq<int>, begin: nat, end: nat, parent: nat, gp: nat, child: nat)
    requires end < |s| && begin <= parent <= end && Sinking(s, begin, end, parent, gp)
    requires Permuted(s, s0, begin, end + 1)
    requires (child == 2 * parent + 1 || child == 2 * parent + 2) && child <= end
    requires child == 2 * parent + 1 && child < end ==> s[child + 1] <= s[child]
    requires child == 2 * parent + 2 ==> s[child - 1] <= s[child]
    requires s[parent] < s[child]
    requires t == s[parent := s[child]][child := s[parent]]
    ensures Permuted(t, s0, begin, end + 1)
    ensures Sinking(t, begin, end, child, parent)
  {
    SwapPermuted(s0, s, parent, child, begin, end + 1);
    forall p: nat | begin <= p <= end && p != child
      ensures HeapAt(t, p, end)
    {
      if p != parent && p != gp {
        assert HeapAt(s, p, end);
      } else if p == gp && p != parent {
        assert HeapAt(s, p, end);
      }
    }
    assert HeapAt(s, child, end);
  }

  /** heap_sink(first, begin, end): the value at begin sinks until the
      heap condition holds on all of [begin, end]. */
  method HeapSink(a: array<int>, begin: nat, end: nat)
    requires begin <= end < a.Length && HeapFrom(a[..], begin + 1, end)
    modifies a
    ensures HeapFrom(a[..], begin, end)
    ensures Permuted(a[..], old(a[..]), begin, end + 1)
  {
    var parent: nat := begin;
    var child: nat := 2 * parent + 1;
    ghost var gp: nat := begin;
    while child <= end
      invariant begin <= parent <= end && child == 2 * parent + 1
      invariant Sinking(a[..], begin, end, parent, gp)
      invariant Permuted(a[..], old(a[..]), begin, end + 1)
      decreases end - parent
    {
      if child < end && a[child] < a[child + 1] {
        child := child + 1;
      }
      if !(a[parent] < a[child]) {
        SinkDone(a[..], begin, end, parent, gp);
        return;
      }
      ghost var before := a[..];
      Swap(a, parent, child);
      SinkStep(old(a[..]), before, a[..], begin, end, parent, gp, child);
      gp := parent;
      parent := child;
      child := 2 * parent + 1;
    }
    SinkDone(a[..], begin, end, parent, gp);
  }

  /** heap_sink stops when parent is at least its larger child, or has no
      child left in the heap: the defect is gone. */
  lemma SinkDone(s: seq<int>, begin: nat, end: nat, parent: nat, gp: nat)
    requires end < |s| && begin <= parent <= end && Sinking(s, begin, end, parent, gp)
    requires 2 * parent + 1 <= end ==> s[2 * parent + 1] <= s[parent]
    requires 2 * parent + 2 <= end ==> s[2 * parent + 2] <= s[parent]
    ensures HeapFrom(s, begin, end)
  {
    assert HeapAt(s, parent, end);
  }

  /** The root of a heap is its largest element. */
  lemma {:induction false} HeapRootMax(s: seq<int>, end: nat, k: nat)
    requires end < |s| && HeapFrom(s, 0, end) && k <= end
    ensures s[k] <= s[0]
    decreases k
  {
    if k > 0 {
      var p := (k - 1) / 2;
      assert HeapAt(s, p, end);
      HeapRootMax(s, end, p);
    }
  }

  /** Positions p and q of s hold elements in ascending order. */
  predicate InOrder(s: seq<int>, p: nat, q: nat)
    requires p < |s| && q < |s|
  {
    s[p] <= s[q]
  }

  /** The state of heap_sort's second loop: every element after position i
      is at least every element before it, so s[i+1..] is sorted and holds
      the largest elements. (Stated over InOrder so that the pairs it
      relates are only those a proof names.) */
  predicate SortedTail(s: seq<int>, i: nat)
    requires i < |s|
  {
    forall p: nat, q: nat :: p < q < |s| && i < q ==> InOrder(s, p, q)
  }

  /** Moving the root of the heap s[0..i] to position i extends the sorted
      tail by one. */
  lemma PopRoot(s: seq<int>, t: seq<int>, i: nat)
    requires 0 < i < |s| && HeapFrom(s, 0, i) && SortedTail(s, i)
    requires t == s[0 := s[i]][i := s[0]]
    ensures multiset(t) == multiset(s)
    ensures SortedRange(t, i, |t|) && AtMost(t, 0, i, t[i])
  {
    SwapPermutes(s, 0, i);
    forall k | 0 <= k <= i { HeapRootMax(s, i, k); }
    forall p, q | i <= p < q < |t| ensures t[p] <= t[q] {
      assert InOrder(s, if p == i then 0 else p, q);
    }
  }

  /** Below the new root, the heap condition of s[0..i] survives on the
      shorter heap t[0..i-1]. */
  lemma PopRootHeap(s: seq<int>, t: seq<int>, i: nat)
    requires 0 < i < |s| && HeapFrom(s, 0, i)
    requires t == s[0 := s[i]][i := s[0]]
    ensures HeapFrom(t, 1, i - 1)
  {
    var e := i - 1;
    forall p: nat | 1 <= p <= e ensures HeapAt(t, p, e) {
      assert HeapAt(s, p, i);
    }
  }

  /** The state of heap_sort's second loop: s[0..i] is a max-heap, the
      tail after it is sorted and holds the largest elements, and s is a
      permutation of s0. */
  ghost predicate HeapSorting(s: seq<int>, s0: seq<int>, i: nat)
  {
    i < |s| && HeapFrom(s, 0, i) && SortedTail(s, i) && multiset(s) == multiset(s0)
  }

  /** One round of heap_sort's second loop: the root was moved to position i
      (`popped`) and the new root sank through s[0..i-1] (`after`). */
  lemma HeapSortStep(s0: seq<int>, before: seq<int>, popped: seq<int>, after: seq<int>, i: nat)
    requires 0 < i && HeapSorting(before, s0, i)
    requires popped == before[0 := before[i]][i := before[0]]
    requires |after| == |popped| && HeapFrom(after, 0, i - 1) && Permuted(after, popped, 0, i)
    ensures HeapSorting(after, s0, i - 1)
  {
    PopRoot(before, popped, i);
    RangeMultiset(after, popped, 0, i);
    forall k | 0 <= k < i ensures after[k] <= after[i] {
      assert after[0..i][k] == after[k];
      assert after[k] in multiset(popped[0..i]);
    }
    forall p: nat, q: nat | p < q < |after| && i - 1 < q ensures InOrder(after, p, q) {
      if p < i {
        assert after[p] <= after[i];
      }
    }
  }

  /** With the heap shrunk to its root, the whole sequence is sorted. */
  lemma HeapSortingDone(s: seq<int>, s0: seq<int>)
    requires HeapSorting(s, s0, 0)
    ensures Sorted(s)
  {
    forall p, q | 0 <= p < q < |s| ensures s[p] <= s[q] {
      assert InOrder(s, p, q);
    }
  }

  /** heap_sort(first, last): build a max-heap by sinking every inner
      position from the last one up, then repeatedly move the root behind
      the heap and sink the new root. */
  method HeapSort(a: array<int>)
    modifies a
    ensures Sorted(a[..])
    ensures multiset(a[..]) == multiset(old(a[..]))
  {
    var n := a.Length;
    var i := n / 2 - 1;
    while i >= 0
      invariant -1 <= i <= n / 2 - 1
      invariant HeapFrom(a[..], i + 1, n - 1)
      invariant multiset(a[..]) == multiset(old(a[..]))
    {
      HeapSink(a, i, n - 1);
      i := i - 1;
    }
    if n == 0 {
      return;
    }
    i := n - 1;
    while i > 0
      invariant 0 <= i < n && HeapSorting(a[..], old(a[..]), i)
    {
      ghost var before := a[..];
      Swap(a, 0, i);
      ghost var popped := a[..];
      PopRootHeap(before, popped, i);
      HeapSink(a, 0, i - 1);
      HeapSortStep(old(a[..]), before, popped, a[..], i);
      i := i - 1;
    }
    HeapSortingDone(a[..], old(a[..]));
  }
}

=== FILE: stack.dfy ===
/** stack.h: the LIFO adaptor over a ring, `c`. push forwards to push_back,
    top to back and pop to pop_back, so the last element pushed is the first
    one popped; the comparisons are the ring's. */
module Stack {
  import Ring
  import opened AlgorithmBase

  class Stack {
    const c: Ring.Ring

    ghost predicate Valid()
      reads this, c
    {
      c.Valid()
    }

    /** The elements, bottom first. */
    function Contents(): seq<int>
      reads this, c, c.data
      requires Valid()
    {
      c.View()
    }

    /** stack(): over a default-constructed ring. */
    constructor ()
      ensures Valid() && fresh(c) && fresh(c.data) && Contents() == []
    {
      c := new Ring.Ring();
    }

    predicate Empty()
      reads this, c
      requires Valid()
      ensures Empty() <==> |Contents()| == 0
    {
      c.Empty()
    }

    function Size(): (n: nat)
      reads this, c
      requires Valid()
      ensures n == |Contents()|
    {
      c.Size()
    }

    /** top(): the ring's back, the most recently pushed element. */
    function Top(): (r: int)
      reads this, c, c.data
      requires Valid() && !Empty()
      ensures r == Contents()[|Contents()| - 1]
    {
      c.Back()
    }

    /** push(x) / emplace(x): push_back on the ring; x becomes top(). */
    method Push(x: int) returns (r: int)
      requires Valid()
      modifies c, c.data
      ensures Valid() && r == x
      ensures Contents() == old(Contents()) + [x] && Top() == x
    {
      r := c.EmplaceBack(x);
    }

    /** pop(): pop_back on the ring, removing top(). */
    method Pop()
      requires Valid() && !Empty()
      modifies c
      ensures Valid() && Contents() == old(Contents()[..|Contents()| - 1])
    {
      c.PopBack();
    }

    /** swap(s): swaps the two rings. */
    method Swap(s: Stack)
      requires Valid() && s.Valid() && s.c != c
      modifies c, s.c
      ensures Valid() && s.Valid()
      ensures Contents() == old(s.Contents()) && s.Contents() == old(Contents())
    {
      c.Swap(s.c);
    }
  }

  /** Pushing x and popping gives back the stack as it was. */
  method PushThenPop(s: Stack, x: int)
    requires s.Valid()
    modifies s.c, s.c.data
    ensures s.Valid() && s.Contents() == old(s.Contents())
  {
    var _ := s.Push(x);
    s.Pop();
  }

  /** operator== and operator<: the ring's, on the two containers. */
  function Eq(x: Stack, y: Stack): (r: bool)
    reads x, x.c, x.c.data, y, y.c, y.c.data
    requires x.Valid() && y.Valid()
    ensures r <==> x.Contents() == y.Contents()
  {
    Ring.Eq(x.c.View(), y.c.View())
  }

  function Lt(x: Stack, y: Stack): (r: bool)
    reads x, x.c, x.c.data, y, y.c, y.c.data
    requires x.Valid() && y.Valid()
    ensures r <==> LexLessSpec(x.Contents(), y.Contents())
  {
    Ring.Lt(x.c.View(), y.c.View())
  }
}

=== FILE: std_array.dfy ===
/** array.h: the fixed-size `array<T, N>` over an `array<int>` of length N,
    covering both the general template and the `array<T, 0>`
    specialisation (which has no storage and throws from every `at`). */
module StdArray {
  import opened Wrappers
  import opened AlgorithmBase

  class FixedArray {
    /** The template argument N. */
    const n: nat
    /** `_data`; for N == 0 the placeholder, never read. */
    const data: array<int>

    ghost predicate Valid()
      reads this
    {
      data.Length == n
    }

    function Elements(): seq<int>
      reads this, data
    {
      data[..]
    }

    /** array<int, N>{} with every element value-initialised. */
    constructor (N: nat)
      ensures Valid() && n == N && fresh(data)
      ensures Elements() == seq(N, _ => 0)
    {
      n := N;
      data := new int[N](_ => 0);
    }

    /** size() and max_size(): N (0 for the specialisation). */
    function Size(): (r: nat)
      reads this
      requires Valid()
      ensures r == data.Length
    {
      n
    }

    /** empty(): false in the general template, true in the specialisation. */
    predicate Empty()
      reads this
      requires Valid()
      ensures Empty() <==> Elements() == []
    {
      if n == 0 then true else false
    }

    /** at(i): out_of_range unless i < N; the specialisation always throws. */
    function At(i: nat): (r: Result<int>)
      reads this, data
      requires Valid()
      ensures r.Err? <==> i >= |Elements()|
      ensures r.Err? ==> r.error == OutOfRange
      ensures r.Ok? ==> r.value == Elements()[i]
    {
      if n == 0 then Err(OutOfRange)
      else if !(i < n) then Err(OutOfRange)
      else Ok(data[i])
    }

    /** operator[](i): unchecked; only in range is it defined. */
    function Get(i: nat): (r: int)
      reads this, data
      requires Valid() && i < n
      ensures At(i) == Ok(r)
    {
      data[i]
    }

    /** front(): `_data[0]`, for a non-empty array (on the zero-size
        specialisation front() is undefined and is not modelled). */
    function Front(): (r: int)
      reads this, data
      requires Valid() && n > 0
      ensures r == Elements()[0] && At(0) == Ok(r)
    {
      data[0]
    }

    /** back(): `_data[N - 1]`. */
    function Back(): (r: int)
      reads this, data
      requires Valid() && n > 0
      ensures r == Elements()[|Elements()| - 1] && At(n - 1) == Ok(r)
    {
      data[n - 1]
    }

    /** fill(u): the `fill` loop writes `u` to every slot (a no-op on the
        specialisation, whose range is empty). */
    method Fill(u: int)
      requires Valid()
      modifies data
      ensures Valid() && Elements() == seq(n, _ => u)
    {
      var i: nat := 0;
      while i < n
        invariant i <= n
        invariant forall k :: 0 <= k < i ==> data[k] == u
      {
        data[i] := u;
        i := i + 1;
      }
    }

    /** swap(other): `swap_ranges` exchanges the elements pairwise. */
    method Swap(other: FixedArray)
      requires Valid() && other.Valid() && other.n == n && other.data != data
      modifies data, other.data
      ensures Valid() && other.Valid()
      ensures Elements() == old(other.Elements())
      ensures other.Elements() == old(Elements())
    {
      var i: nat := 0;
      while i < n
        invariant i <= n
        invariant forall k :: 0 <= k < i ==> data[k] == old(other.data[k]) && other.data[k] == old(data[k])
        invariant forall k :: i <= k < n ==> data[k] == old(data[k]) && other.data[k] == old(other.data[k])
      {
        data[i], other.data[i] := other.data[i], data[i];
        i := i + 1;
      }
    }
  }

  // --------------------------------------------------------- comparisons
  // Both operands are arrays of the same N, given as their element sequences.

  /** operator==: `equal` over the two ranges. */
  function Eq(a: seq<int>, b: seq<int>): (r: bool)
    requires |a| == |b|
    ensures r <==> a == b
  {
    Equal(a, b)
  }

  /** operator!=: `!(lhs == rhs)`. */
  function Ne(a: seq<int>, b: seq<int>): (r: bool)
    requires |a| == |b|
    ensures r <==> a != b
  {
    !Eq(a, b)
  }

  /** operator<: `lexicographical_compare`. */
  function Lt(a: seq<int>, b: seq<int>): bool
    requires |a| == |b|
  {
    LexLess(a, b)
  }

  /** operator>, <=, >=: by swapping and negating `<`. */
  function Gt(a: seq<int>, b: seq<int>): bool
    requires |a| == |b|
  {
    Lt(b, a)
  }

  function Le(a: seq<int>, b: seq<int>): bool
    requires |a| == |b|
  {
    !Lt(b, a)
  }

  function Ge(a: seq<int>, b: seq<int>): bool
    requires |a| == |b|
  {
    !Lt(a, b)
  }

  /** For two arrays of one size, `<` holds exactly when the first position
      where they differ holds a smaller element on the left. */
  lemma LtIsFirstDifference(a: seq<int>, b: seq<int>)
    requires |a| == |b|
    ensures Lt(a, b) <==>
            exists k :: 0 <= k < |a| && a[..k] == b[..k] && a[k] < b[k]
  {
    LexLessIsLexicographic(a, b);
  }

  /** The first position where two unequal sequences of one length differ. */
  lemma {:induction false} FirstDifferingIndex(a: seq<int>, b: seq<int>) returns (k: nat)
    requires |a| == |b| && a != b
    ensures k < |a| && a[..k] == b[..k] && a[k] != b[k]
  {
    if a[0] != b[0] {
      k := 0;
    } else {
      var k' := FirstDifferingIndex(a[1..], b[1..]);
      k := k' + 1;
      assert a[..k] == [a[0]] + a[1..][..k'];
      assert b[..k] == [b[0]] + b[1..][..k'];
    }
  }

  /** Exactly one of `<`, `==`, `>` holds: the relational operators form a
      total order on arrays of one size. */
  lemma Trichotomy(a: seq<int>, b: seq<int>)
    requires |a| == |b|
    ensures (Lt(a, b) && !Eq(a, b) && !Gt(a, b)) ||
            (!Lt(a, b) && Eq(a, b) && !Gt(a, b)) ||
            (!Lt(a, b) && !Eq(a, b) && Gt(a, b))
    ensures Le(a, b) <==> Lt(a, b) || Eq(a, b)
  {
    if a == b {
      LexCompareIrreflexive(a, (x: int, y: int) => x < y);
    } else {
      var k := FirstDifferingIndex(a, b);
      FirstDifferenceDecides(a, b, k);
      FirstDifferenceDecides(b, a, k);
    }
  }
}

=== FILE: variant.dfy ===
/** variant.h: a `variant` whose alternatives all hold an `int`, as the
    active index `_index` and the stored value. `_reset`, `_ctor_v`, `_asgn`
    and `_swap` change the index in place; `get`, `get_if`,
    `holds_alternative` and the relational operators read it. */
module VariantModel {
  import opened Wrappers

  /** variant_npos: size_t(-1). */
  const Npos: nat := 0xFFFF_FFFF_FFFF_FFFF

  /** What the accessors and comparisons read: the index and the value. */
  datatype VarState = VarState(index: nat, data: int)

  /** The value a variant stands for. */
  datatype Alt = Valueless | Holds(i: nat, v: int)

  function Contents(s: VarState): Alt
  {
    if s.index == Npos then Valueless else Holds(s.index, s.data)
  }

  /** valueless_by_exception(): the index is variant_npos. */
  predicate ValuelessByException(s: VarState)
  {
    s.index == Npos
  }

  /** holds_alternative<T>: the index of T (`i`) is the active index. */
  predicate HoldsAlternative(i: nat, s: VarState)
  {
    i == s.index
  }

  /** get<I>: throws bad_variant_access unless I is the active index.
      `I` is a template argument below the number of alternatives, so it is
      never variant_npos. */
  function Get(I: nat, s: VarState): (r: Result<int>)
    requires I < Npos
    ensures r.Err? <==> !HoldsAlternative(I, s)
    ensures r.Err? ==> r.error == BadVariantAccess
    ensures r.Ok? ==> Contents(s) == Holds(I, r.value)
  {
    if I != s.index then Err(BadVariantAccess) else Ok(s.data)
  }

  /** get_if<I>(p): null when `p` is null or I is not the active index;
      `None` stands for the null pointer on both sides. */
  function GetIf(I: nat, p: Option<VarState>): (r: Option<int>)
    requires I < Npos
    ensures r.None? <==> p.None? || !HoldsAlternative(I, p.value)
    ensures r.Some? ==> Get(I, p.value) == Ok(r.value)
  {
    if p.None? || I != p.value.index then None else Some(p.value.data)
  }

  /** A variant whose value is lost is not "holding" any alternative. */
  lemma {:induction false} ValuelessHoldsNothing(I: nat, s: VarState)
    requires I < Npos
    ensures ValuelessByException(s) <==> Contents(s) == Valueless
    ensures ValuelessByException(s) ==> Get(I, s).Err? && GetIf(I, Some(s)).None?
  {
    if ValuelessByException(s) {
      assert !HoldsAlternative(I, s);
    }
  }

  class Variant {
    /** sizeof...(Ts), at least one alternative. */
    const n: nat
    var index: nat
    var data: int

    ghost predicate Valid()
      reads this
    {
      0 < n < Npos && (index < n || index == Npos)
    }

    function State(): VarState
      reads this
    {
      VarState(index, data)
    }

    /** variant(): the first alternative, value-initialised. */
    constructor Default(alternatives: nat)
      requires 0 < alternatives < Npos
      ensures Valid() && n == alternatives
      ensures Contents(State()) == Holds(0, 0)
    {
      n := alternatives;
      index := 0;
      data := 0;
    }

    /** variant(in_place_index<I>, v). */
    constructor InPlace(alternatives: nat, I: nat, v: int)
      requires 0 < alternatives < Npos && I < alternatives
      ensures Valid() && n == alternatives
      ensures Contents(State()) == Holds(I, v)
    {
      n := alternatives;
      index := I;
      data := v;
    }

    /** _reset(): destroys the value and sets the index to variant_npos. */
    method Reset()
      requires Valid()
      modifies this
      ensures Valid() && Contents(State()) == Valueless && data == old(data)
    {
      index := Npos;
    }

    /** emplace<I>(v): reset, then _ctor_v. The constructor of the new value
        may throw (`throws`); _ctor_v then puts the index back to
        variant_npos, which is the only way a variant becomes valueless.
        The result is the new value that emplace returns a reference to, or
        `None` when the exception propagates. */
    method Emplace(I: nat, v: int, throws: bool) returns (r: Option<int>)
      requires Valid() && I < n
      modifies this
      ensures Valid()
      ensures !throws ==> r == Some(v) && Contents(State()) == Holds(I, v)
      ensures throws ==> r == None && ValuelessByException(State())
    {
      Reset();
      index := I;
      if throws {
        index := Npos;
        r := None;
      } else {
        data := v;
        r := Some(data);
      }
    }

    /** _asgn(const variant&): both valueless is a no-op; a valueless source
        resets the target; the same index assigns the value; otherwise
        either reset-and-copy (`direct`, when copying cannot throw or moving
        can) or copy into a temporary first and then move it in. A throwing
        copy (`throws`) leaves the target valueless on the direct path and
        untouched on the temporary path. */
    method Assign(other: Variant, direct: bool, throws: bool) returns (ok: bool)
      requires Valid() && other.Valid() && other.n == n && other != this
      modifies this
      ensures Valid()
      ensures ok ==> Contents(State()) == Contents(other.State())
      ensures !ok ==> other.index != old(index) && other.index != Npos
      ensures !ok && direct ==> ValuelessByException(State())
      ensures !ok && !direct ==> Contents(State()) == Contents(old(State()))
    {
      ok := true;
      if index == Npos && other.index == Npos {
        return;
      } else if other.index == Npos {
        Reset();
      } else if index == other.index {
        data := other.data;
      } else if direct {
        Reset();
        index := other.index;
        if throws {
          index := Npos;
          ok := false;
        } else {
          data := other.data;
        }
      } else {
        if throws {
          ok := false;
        } else {
          // the temporary holds the copy; moving it in resets and rebuilds
          var tmpIndex, tmpData := other.index, other.data;
          Reset();
          index, data := tmpIndex, tmpData;
        }
      }
    }

    /** swap(other) when no move throws: the two variants exchange their
        alternatives (same index: the values are swapped; otherwise through
        a temporary and two move assignments). */
    method Swap(other: Variant)
      requires Valid() && other.Valid() && other.n == n && other != this
      modifies this, other
      ensures Valid() && other.Valid()
      ensures Contents(State()) == Contents(old(other.State()))
      ensures Contents(other.State()) == Contents(old(State()))
    {
      if index == Npos && other.index == Npos {
        return;
      } else if index == other.index {
        data, other.data := other.data, data;
      } else {
        var tmpIndex, tmpData := other.index, other.data;
        if index == Npos {
          other.index := Npos;
        } else {
          other.index, other.data := index, data;
        }
        if tmpIndex == Npos {
          index := Npos;
        } else {
          index, data := tmpIndex, tmpData;
        }
      }
    }
  }

  // ------------------------------------------------------------ comparisons

  /** operator==: different indices are unequal, two valueless variants are
      equal, otherwise the values are compared. */
  function Eq(l: VarState, r: VarState): (b: bool)
    ensures b <==> Contents(l) == Contents(r)
  {
    if l.index != r.index then false
    else if ValuelessByException(l) then true
    else l.data == r.data
  }

  function Ne(l: VarState, r: VarState): (b: bool)
    ensures b <==> !Eq(l, r)
  {
    if l.index != r.index then true
    else if ValuelessByException(l) then false
    else l.data != r.data
  }

  /** The order the relational operators implement: valueless first, then
      by index, then by value. */
  predicate AltLess(a: Alt, b: Alt)
  {
    b.Holds? && (a.Valueless? || a.i < b.i || (a.i == b.i && a.v < b.v))
  }

  function Lt(l: VarState, r: VarState): (b: bool)
    ensures b <==> AltLess(Contents(l), Contents(r))
  {
    if ValuelessByException(r) then false
    else if ValuelessByException(l) then true
    else if l.index < r.index then true
    else if r.index < l.index then false
    else l.data < r.data
  }

  function Gt(l: VarState, r: VarState): (b: bool)
    ensures b <==> AltLess(Contents(r), Contents(l))
  {
    if ValuelessByException(l) then false
    else if ValuelessByException(r) then true
    else if l.index > r.index then true
    else if r.index > l.index then false
    else l.data > r.data
  }

  function Le(l: VarState, r: VarState): (b: bool)
    ensures b <==> !AltLess(Contents(r), Contents(l))
  {
    if ValuelessByException(l) then true
    else if ValuelessByException(r) then false
    else if l.index < r.index then true
    else if r.index < l.index then false
    else l.data <= r.data
  }

  function Ge(l: VarState, r: VarState): (b: bool)
    ensures b <==> !AltLess(Contents(l), Contents(r))
  {
    if ValuelessByException(r) then true
    else if ValuelessByException(l) then false
    else if l.index > r.index then true
    else if r.index > l.index then false
    else l.data >= r.data
  }

  /** The six operators agree with one total order on the alternatives. */
  lemma {:induction false} OrderIsTotal(a: VarState, b: VarState, c: VarState)
    ensures !Lt(a, a)
    ensures Lt(a, b) && Lt(b, c) ==> Lt(a, c)
    ensures Lt(a, b) || Eq(a, b) || Gt(a, b)
    ensures Le(a, b) <==> Lt(a, b) || Eq(a, b)
    ensures Ge(a, b) <==> Le(b, a)
  {
  }
}

=== FILE: wrappers.dfy ===
/** Error-carrying results shared by every module of the model.
    A C++ `throw` becomes an `Err`, an absent value a `None`. */
module Wrappers {
  datatype Option<T> = None | Some(value: T)

  /** The exception types the modelled code throws. */
  datatype Exception =
    | OutOfRange          // ala::out_of_range
    | BadOptionalAccess   // ala::bad_optional_access
    | BadVariantAccess    // ala::bad_variant_access
    | Overflow            // ala::overflow_error

  datatype Result<T> = Ok(value: T) | Err(error: Exception)
}
